=== FILE: README.md ===
# Advent of Code 2023, days 1–19, in Dafny

This project models the puzzle solutions of the Rust repository
`aoc-2023`, day by day, as pure Dafny functions and methods, and proves what
the answers mean. Each day's parser fails on the inputs where the Rust code
panics (`unwrap`, `expect`, `assert!`, `unreachable!`, an index out of bounds,
a `usize` underflow); most parser contracts state exactly when that happens
and what the parsed values are, the "## Left out" section names the ones
stated more weakly, and several parsers are proved to invert a printer. Each day's answer is then tied to an independent
definition:

- day 1: the first and last digit of each line;
- day 2: the smallest bag that makes a game possible;
- day 3: the maximal digit runs of the schematic;
- day 4: the copies a card wins;
- day 5: the seed ranges mapped through the almanac;
- day 6: the winning holds of a race;
- day 7: the hand order and a stable sort;
- day 8: the walk through the network;
- day 9: the extrapolated value of a difference table;
- day 10: the loop and the tiles it encloses;
- day 11: the expanded distances;
- day 12: the arrangements of damaged springs;
- day 13: the mirror lines of a pattern;
- day 14: the tilted platform and its spin cycle;
- day 15: the HASH algorithm and the lens boxes;
- day 16: the tiles a beam reaches;
- day 17: the least heat loss over crucible routes;
- day 18: the lagoon area from the shoelace formula and Pick's theorem;
- day 19: the parts and rating combinations the workflows accept.

The top-level `PartOne` / `PartTwo` members compute what the Rust computes,
including where that differs from what the puzzle asks. Those differences
are listed under "## Findings", each with the corrected definition beside
it.

Layout:

- one module per Rust source file;
- a few shared modules:
  - `Wrappers`: `Option` and `Result`;
  - `Text`: the slice of `str` the parsers use;
  - `Seqs`: sums, maxima, a stable insertion sort;
  - `Reachability`: closure under a successor function, used by day 16;
  - `ShortestPath`: Dijkstra's search over a generic graph, used by day 17.

Loops of the Rust code that need not end take a `fuel` bound, and running
out of fuel is an error:

- the day 8 walk;
- the day 10 walks;
- the day 14 cycle search;
- the day 19 workflow chains.

Integers are unbounded; see "## Left out".

## Model

| member | source | states |
|---|---|---|
| Day01.FindDigit | day1/src/main.rs:12-14 | the position of the first ASCII digit of the line, none exactly when the line has no digit, with no digit before it |
| Day01.FindLastDigit | day1/src/main.rs:15 | the position of the last ASCII digit, none exactly when there is no digit, with no digit after it |
| Day01.Calibrate | day1/src/main.rs:10-17 | fails exactly when the line has no digit (the `expect`); otherwise a two-digit value below 100 |
| Day01.CalibrateFirstAndLast | day1/src/main.rs:10-17 | for any line whose first digit is at `i` and last at `j`, the value is `10 * line[i] + line[j]`, although the reverse search only sees the characters after the first digit |
| Day01.CalibrateSingleDigit | day1/src/main.rs:15-16 | a line with a single digit `d` calibrates to `11 * d` (the `unwrap_or(first)` fallback) |
| Day01.SumCalibrations | day1/src/main.rs:6-8 | the fold over the lines succeeds exactly when every line has a digit, adds at most 99 per line, and its total is the sum over the lines of ten times the first digit plus the last digit |
| Day01.CalibrateIsLineValue | day1/src/main.rs:10-17 | a line with a digit calibrates to ten times its first digit plus its last digit |
| Day01.PartOne | day1/src/main.rs:6-8 | `part_one` over `lines()`: succeeds exactly when every line has a digit, at most 99 per line, and the answer is the sum over the lines of ten times the first digit plus the last digit |
| Day01.CalibrateExampleTwoDigits | day1/src/main.rs:10-17 | `pqr3stu8vwx` calibrates to 38 |
| Day01.CalibrateExampleOneDigit | day1/src/main.rs:10-17 | `treb7uchet` calibrates to 77 |
| Day02.ParseColour | day2/src/main.rs:37-43 | exactly `red`, `green` and `blue` are colours, and the parsed colour prints back as the word; any other word is the `unreachable!` |
| Day02.ParseDraw | day2/src/main.rs:33-34 | a parsed item is its trimmed text `<count> <colour>` with the count a decimal number |
| Day02.ParseDrawRoundTrip | day2/src/main.rs:33-34 | printing any draw as `<count> <colour>` and parsing the text gives the draw back |
| Day02.ParseItems | day2/src/main.rs:32-35 | all the comma-separated items of a handful parse, in order, or the parse fails (the `unwrap`s) |
| Day02.ParseHandfuls | day2/src/main.rs:31-36 | succeeds exactly when every `;`-separated handful parses; the draws are the handfuls' draws one after another |
| Day02.Raise | day2/src/main.rs:37-43 | the guarded match arms: only the draw's colour changes, and only when the draw shows more than seen so far |
| Day02.Tally | day2/src/main.rs:29-45 | every draw is at most the maximum of its colour, and each maximum is 0 or the count of some draw |
| Day02.ParseGame | day2/src/main.rs:20-52 | `Game::from_str`: succeeds exactly when the line has a `:`, the text before it is `Game ` and a decimal id, and every `;`-separated handful after it parses; the id is that number and `shown` holds the per-colour maxima of the line's draws |
| Day02.ParseGameShown | day2/src/main.rs:29-51 | a parsed game's `shown` is the smallest bag for the line's draws: a bag allows every draw exactly when it holds at least `shown` |
| Day02.PossibleIffWithin | day2/src/main.rs:59-70 | a bag allows every draw of a game if and only if it holds at least the recorded maxima, so filtering on the maxima is filtering on possible games |
| Day02.TallySmallestBag | day2/src/main.rs:72-80 | the maxima form the smallest bag that makes the game possible, whose power `part_two` sums |
| Day02.SmallestBagUnique | day2/src/main.rs:72-80 | a game has only one smallest bag, so the power `part_two` takes is determined by the draws |
| Day02.SumPossibleIds | day2/src/main.rs:64-69 | the sum is the total, over the games, of the id of each game within 12 red, 13 green and 14 blue (0 for the others), so 0 when no game is within |
| Day02.SumPowers | day2/src/main.rs:75-79 | the sum is the total of the games' powers |
| Day02.ParseGames | day2/src/main.rs:63 | every line parses (`unwrap`), and the games are the lines' games in order |
| Day02.WithinIdsArePossibleIds | day2/src/main.rs:64-68 | filtering the parsed games on their maxima keeps exactly the lines whose every draw fits in the bag |
| Day02.PartOne | day2/src/main.rs:59-70 | fails exactly when some line is not a game; otherwise the sum, over the lines, of the ids of the games whose every draw fits in 12 red, 13 green and 14 blue cubes |
| Day02.PartTwo | day2/src/main.rs:72-80 | fails exactly when some line is not a game; otherwise the sum, over the lines, of the power of each game's recorded maxima |
| Day02.PartTwoSmallestBags | day2/src/main.rs:72-80 | for any choice of the smallest bag of each line's game, `part_two` is the sum of those bags' powers |
| Day03.NewSchematic | day3/src/schematic.rs:8-24 | `Schematic::new`: fails exactly on empty input (`unwrap`) or a line of another length than the first (`assert_eq!`); the width is the first line's length |
| Day03.RowDigits | day3/src/schematic.rs:27-31 | `match_indices(char::is_numeric)` on one row: every entry is a digit of the row at or after column `x`, with its value, in strictly increasing column order |
| Day03.RowDigitsCover | day3/src/schematic.rs:27-31 | every digit of the row from column `x` on is listed |
| Day03.DigitCells | day3/src/schematic.rs:26-32 | the `match_indices` stream over all rows: exactly the digit cells of the schematic, each once, in row-major order |
| Day03.RunLength | day3/src/schematic.rs:92-104 | the `Numbers` iterator's inner loop: the run of adjacent digits from cell `j` is at least one long, and it ends at the end of the stream or at a digit that is not the next cell to the right |
| Day03.Merge | day3/src/schematic.rs:92-113 | the `Numbers` iterator: it yields nothing exactly when the stream is exhausted, and every number spans at least one digit |
| Day03.MergeStep | day3/src/schematic.rs:93-112 | one call of `next`: it yields the run at the current start with the run's value and length, and resumes at a run start |
| Day03.RunValueIsDecimal | day3/src/schematic.rs:96-99 | the value accumulated by `num *= 10; num += d` is the decimal value of the run's text |
| Day03.NumberAtRunStart | day3/src/schematic.rs:92-113 | the number the iterator yields at a run start is a maximal run of digits of the schematic |
| Day03.MergeMaximal | day3/src/schematic.rs:92-113 | every number yielded from a run start on is a maximal run |
| Day03.NumbersAreMaximalRuns | day3/src/schematic.rs:26-32 | every number of `number_ind` is a maximal horizontal run of digits, with the run's decimal value |
| Day03.MaximalRunsAreNumbers | day3/src/schematic.rs:26-32 | every maximal run of digits is one of the numbers of `number_ind` |
| Day03.SameStartSameRun | day3/src/schematic.rs:92-113 | two maximal runs starting at the same cell are the same number |
| Day03.IsPartNum | day3/src/schematic.rs:43-57 | `is_part_num`: true exactly when the rectangle around the number, clipped to the grid, holds a character other than `.` that is ASCII punctuation |
| Day03.PartOne | day3/src/main.rs:10-13 | `part_one`: fails exactly when `Schematic::new` panics, otherwise the sum of the numbers whose rectangle over their printed width `n.to_string().len()` holds a symbol |
| Day03.PartOneIntended | day3/src/main.rs:10-13 | `part_one` with each number's rectangle taken over its whole digit run: fails exactly when `Schematic::new` panics, otherwise the sum of the numbers adjacent to a symbol |
| Day03.PrintedWidthAgrees | day3/src/schematic.rs:43-45 | when no number has leading zeros, the printed-width sum is the sum over whole runs |
| Day03.LeadingZerosAsWritten | day3/src/schematic.rs:44 | in the row `0012*`, 12 is a maximal run that touches the `*` over its four digits but not over its two printed ones |
| Day04.ParseCard | day4/src/card.rs:15-37 | `Card::from_str`: succeeds exactly when the line has a `:`, the trimmed text after it has a `|`, the header's second word is a number and every word on both sides of the `|` is a number; the id is that second word and the two lists are the numbers the words on each side spell, in order |
| Day04.Score | day4/src/card.rs:45-57 | the loop that starts at 0, becomes 1 on the first match and doubles on each further one ends at 2^(m-1) points for `m` matches, or 0 for none |
| Day04.Pow2 | day4/src/card.rs:45-57 | a power of two is at least 1, so a card with a match scores at least one point |
| Day04.CountIn | day4/src/card.rs:59-61 | the number of given numbers found in the winning list is at most the number given |
| Day04.ParseCards | day4/src/main.rs:13-18 | every line must be a card (`unwrap`), and the cards are the lines' cards in order |
| Day04.TotalScore | day4/src/main.rs:13-18 | the scores added up card by card equal the total of 2^(m-1) over the cards' match counts |
| Day04.PartOne | day4/src/main.rs:13-18 | `part_one`: fails exactly when some line is not a card, otherwise the total points of the cards |
| Day04.MatchCounts | day4/src/card.rs:59-61 | `matches` of every card, in order |
| Day04.AddCopies | day4/src/main.rs:30-32 | the inner loop adds the count of card `id` to exactly the `matches` entries after it and leaves every other entry alone |
| Day04.DealtNumbered | day4/src/main.rs:26-33 | for cards numbered 1, 2, 3, … the counts dealt by the id-indexed loop are the cards' numbers of copies under the rules |
| Day04.DealNumbered | day4/src/main.rs:30-32 | one numbered card dealing its count turns the copies won before it into those won up to it |
| Day04.CountsAfter | day4/src/main.rs:26-33 | the count of each card after some cards have added their copies, one per card |
| Day04.Cascade | day4/src/main.rs:26-33 | starting from one of each card, the loop fails exactly when some card's winnings run past the last card or its id is 0; otherwise, whatever the ids, it ends with the counts obtained by letting each card in turn add the count at its own id to the entries after it, and for cards numbered 1, 2, 3, … those are every card's number of copies as defined by the rules (the original plus the copies won from each earlier card, once per copy of that card) |
| Day04.TotalStep | day4/src/main.rs:26-34 | once every card has added its copies, each card's count adds its copies to the total |
| Day04.CountCards | day4/src/main.rs:26-34 | fails exactly when some card overruns; otherwise the sum of the dealt counts for any ids, which for cards numbered 1, 2, 3, … is the total number of cards held in the end |
| Day04.SumIsTotalCopies | day4/src/main.rs:34 | adding up the final counts of the first cards gives their total number of copies |
| Day04.CascadeStep | day4/src/main.rs:27-33 | one card adding its count to the cards it wins turns the copies won before it into the copies won up to it |
| Day04.GainSaturates | day4/src/main.rs:27-33 | cards at or after card `k` never win copies of card `k` |
| Day04.PartTwo | day4/src/main.rs:20-35 | `part_two`: succeeds exactly when every line is a card and no card's winnings overrun; the answer is the sum of the dealt counts of the parsed cards, and for cards numbered 1, 2, 3, … the total number of cards held |
| Day04.CopiesAtLeastOne | day4/src/main.rs:26 | every card keeps its original instance |
| Day04.Example | day4/src/main.rs:41-56 | the test cards' matches 4, 2, 2, 1, 0, 0 give 13 points and 30 cards |
| Day05.FirstRange | day5/src/almanac2.rs:88-92 | the first range of the map whose source interval holds the number, none exactly when no range holds it |
| Day05.FirstRangeFrom | day5/src/almanac2.rs:88-92 | the first range from index `i` on whose source interval holds the number, none exactly when none from `i` on holds it |
| Day05.Get | day5/src/almanac2.rs:87-94 | `Map::get`: a number in no source range maps to itself; otherwise the first range holding it sends it to `dest + (source - src)` |
| Day05.Lookup | day5/src/almanac2.rs:87-94 | a number in no source range maps to itself |
| Day05.LookupTranslates | day5/src/almanac2.rs:88-91 | two numbers first caught by the same range keep their distance: a range is a translation |
| Day05.GetExample | day5/src/almanac2.rs:102-110 | with the single range (50, 98, 2): 97 maps to 97, 98 to 50, 99 to 51, 100 to 100 |
| Day05.ParseRange | day5/src/almanac2.rs:61-74 | a range line parses exactly when its `' '`-separated words are three numbers, read as destination, source and length |
| Day05.ParseMap | day5/src/almanac2.rs:57-78 | `Map::from_str`: fails exactly when the block has no title line or a later line is not a range; the ranges are the parses of the lines after the title, in order |
| Day05.Pairs | day5/src/almanac2.rs:24 | `chunks_exact(2)`: pair `i` is numbers `2i` and `2i + 1`, and an odd last number is dropped |
| Day05.ParseAlmanac | day5/src/almanac2.rs:13-30 | `Almanac2::from_str`: fails exactly when there is no blank line, the text before it has no `:`, a word after the `:` is not a number or a block does not parse as a map; the seeds are those numbers taken in pairs with an odd last one dropped (`chunks_exact(2)`), and each map is the parse of its own blank-line-separated block after the first blank line |
| Day05.LocateConcat | day5/src/almanac2.rs:39-41 | sending a number through maps `a + b` is sending it through `a`, then through `b` |
| Day05.RangeLocations | day5/src/almanac2.rs:37-43 | one location per seed of `[start, start + len)`, in order, each the seed sent through every map |
| Day05.Locations | day5/src/almanac2.rs:35-45 | `locations`: one location per seed over all the seed ranges |
| Day05.IsSeedCons | day5/src/almanac2.rs:35-37 | a seed of a list of ranges lies in its first range or is a seed of the rest |
| Day05.ImageCons | day5/src/almanac2.rs:35-45 | a location of a list of ranges is a location of its first range or of the rest |
| Day05.LocationsOfSeeds | day5/src/almanac2.rs:35-45 | `locations`: a number is a location exactly when some seed of some `(start, length)` range maps to it |
| Day05.RangeImage | day5/src/almanac2.rs:37-43 | the locations of one seed range are exactly the images of its seeds |
| Day05.PartTwo | day5/src/main.rs:19-23 | `part_two`: succeeds exactly when the almanac parses and holds a seed (the `min().unwrap()`); the answer is the location of some seed and no seed has a lower one |
| Day06.CountWins | day6/src/main.rs:68-71 | at most one winning hold per hold tried |
| Day06.CountSplit | day6/src/main.rs:68-71 | the winning holds of two adjacent intervals add up |
| Day06.CountAllWin | day6/src/main.rs:68-71 | an interval of winning holds counts its length |
| Day06.CountNoneWin | day6/src/main.rs:68-71 | an interval without a winning hold counts 0 |
| Day06.TravelSymmetric | day6/src/main.rs:80 | holding `h` and holding `t - h` travel the same distance, the symmetry `winning_races_two` relies on |
| Day06.TravelRises | day6/src/main.rs:77 | the distance rises towards the middle of the race |
| Day06.WinnersAroundMiddle | day6/src/main.rs:65-81 | if `m` is the first winning hold, the winning holds are exactly `m, ..., t - m`, so `winning_races` counts `t - 2m + 1` |
| Day06.FirstMargin | day6/src/main.rs:76-79 | the loop `while margin * (time - margin) < distance`: the first hold from `m` on whose distance reaches the record (or beats it, for the intended search), none when no hold up to `t` does, where `time - margin` would underflow |
| Day06.FromMargin | day6/src/main.rs:80 | `time - 2 * margin + 1` is defined exactly when `2 * margin <= time` (otherwise the `u64` subtraction underflows), and then it adds `2 * margin` up to `time + 1` |
| Day06.WinningRacesTwoAsWritten | day6/src/main.rs:74-81 | `winning_races_two` as written: the first hold whose distance reaches the record, `m`, gives `t - 2m + 1` |
| Day06.WinningRacesTwoCounts | day6/src/main.rs:74-81 | the search that stops at the first hold beating the record counts exactly `winning_races`, and fails exactly when no hold wins |
| Day06.MarginsAgree | day6/src/main.rs:77 | when no hold ties the record, stopping at a tie and stopping at a win find the same hold |
| Day06.AsWrittenCountsWithoutTie | day6/src/main.rs:74-81 | when no hold ties the record, `winning_races_two` as written agrees with `winning_races` |
| Day06.TieCountsTwoTooMany | day6/src/main.rs:77 | for time 7 and record 10, holds 2 and 5 tie: there are 2 winning holds but `winning_races_two` returns 4 |
| Day06.Examples | day6/src/main.rs:97-105 | `winning_races(7, 9)` is 4, and the joined race (71530, 940200) has 71503 winning holds |
| Day06.ParseNumbers | day6/src/main.rs:11-20 | a line parses exactly when it has a `:` and every whitespace-separated word after it is a number |
| Day06.ParseJoined | day6/src/main.rs:42-51 | a line parses exactly when it has a `:` and the words after it, joined, form one number |
| Day06.PartOne | day6/src/main.rs:9-38 | `part_one`: succeeds exactly when the first two lines parse to equally many numbers (the `expect`s and the `assert!`); the answer is the product of the races' winning counts |
| Day06.PartOneExample | day6/src/main.rs:87-95 | the races (7, 9), (15, 40), (30, 200) give 4 · 8 · 9 = 288 |
| Day06.JoinedRace | day6/src/main.rs:40-61 | succeeds exactly when both of the first two lines join to a number |
| Day06.PartTwo | day6/src/main.rs:40-63 | `part_two` as written: it fails unless the race is read; when no hold ties the record it succeeds whenever some hold wins, with `winning_races`' count |
| Day07Cards.AllCardsOnce | day7/src/card.rs:120-139 | `all_cards` lists every card exactly once, at the position of its enum order, strongest first |
| Day07Cards.ParseCard | day7/src/card.rs:97-118 | `Card::from_str`: a parsed card prints back as its letter |
| Day07Cards.ParseCardChar | day7/src/card.rs:101-116 | every card's letter parses to that card |
| Day07Cards.CardCharInjective | day7/src/card.rs:101-116 | no two cards share a letter |
| Day07Cards.ParseHand | day7/src/card.rs:10-25 | `Hand::from_str`: succeeds exactly on five known card letters, and the hand prints back as the text |
| Day07Cards.ParseFormatHand | day7/src/card.rs:10-25 | printing a hand and parsing it gives the hand back |
| Day07Cards.Counts | day7/src/card.rs:54-55 | the `filter(...).count()` of each deck card, in deck order |
| Day07Cards.CountsCoverHand | day7/src/card.rs:54-55 | when every card of the hand is in the deck once, the counts add up to the hand's size |
| Day07Cards.TopFromIsTopTwo | day7/src/card.rs:54-75 | the scan keeps the largest and the second largest count seen so far |
| Day07Cards.KindOfCounts | day7/src/card.rs:52-77 | the kind read off the two largest counts is five, four, full house, three, two pair, one pair or high card exactly when the counts have that shape |
| Day07Cards.ScanTracks | day7/src/card.rs:54-75 | the `from_hand` loop over the deck (its early returns, the `unreachable!` arms and the check after each card) stays in step with the two largest counts |
| Day07Cards.FromHandClassifies | day7/src/card.rs:52-77 | `from_hand` never reaches `unreachable!` on a five-card hand, and returns the kind of its two largest groups of equal cards |
| Day07Cards.Kind | day7/src/card.rs:52-77 | the kind of a hand is determined by its two largest groups of equal cards |
| Day07Cards.KindFromCounts | day7/src/card.rs:52-77 | the kind of a hand is read off the two largest of its card counts |
| Day07Cards.KindSemantics | day7/src/card.rs:52-77 | five of a kind exactly when some card occurs 5 times, four with 4, full house with a 3 and a 2, three with a 3 and no 2, two pair with two pairs, one pair with one pair and nothing larger, high card when all cards differ |
| Day07Cards.CountsByChar | day7/src/card.rs:54-55 | counting cards of the hand is counting letters of its text |
| Day07Cards.OrderDigits | day7/src/card.rs:28-31 | the tuple `(kind, cards)` as six digits below 13 |
| Day07Cards.OrderKeyOrders | day7/src/card.rs:28-38 | `cmp` on `(kind, cards)`: the numeric key is smaller exactly when the hand is lexicographically stronger, and equal exactly for equal hands |
| Day07Cards.OrderDigitsInjective | day7/src/card.rs:28-31 | hands with the same `(kind, cards)` tuple are equal |
| Day07Cards.LessTotal | day7/src/card.rs:34-37 | the order is total and asymmetric, so `partial_cmp` always has an answer |
| Day07Jokers.DeckOnce | day7/src/card2.rs:97-112 | every joker-variant card is in the deck exactly once, the joker last (weakest) |
| Day07Jokers.ParseCard | day7/src/card2.rs:114-135 | a parsed card prints back as its letter, with `J` the joker |
| Day07Jokers.ParseCardChar | day7/src/card2.rs:118-132 | every card's letter parses to that card |
| Day07Jokers.SameLetters | day7/src/card2.rs:118-132 | both variants accept the same letters |
| Day07Jokers.ParseHand | day7/src/card2.rs:10-25 | succeeds exactly on five known letters, and the hand prints back as the text |
| Day07Jokers.ParseFormatHand | day7/src/card2.rs:10-25 | printing a hand and parsing it gives the hand back |
| Day07Jokers.SameHandsParse | day7/src/card2.rs:10-25 | both variants accept the same hands |
| Day07Jokers.ScanTracks | day7/src/card2.rs:67-92 | the joker loop over the other cards (each match arm with its joker guard) stays in step with the two largest groups, the jokers joined to the largest |
| Day07Jokers.FromHandClassifies | day7/src/card2.rs:61-94 | the joker `from_hand` returns the kind of the hand whose largest group of other cards absorbs all the jokers |
| Day07Jokers.Kind | day7/src/card2.rs:61-94 | the joker kind is the kind of the two largest groups of other cards, the jokers added to the first |
| Day07Jokers.KindFromCounts | day7/src/card2.rs:61-94 | without jokers the joker kind is read off the two largest card counts, as in part one |
| Day07Jokers.ManyJokers | day7/src/card2.rs:63-66 | four or five jokers make five of a kind |
| Day07Jokers.JokerFreeSameKind | day7/src/card2.rs:61-94 | a hand without `J` parses in both variants and gets the same kind in both |
| Day07Jokers.OrderDigits | day7/src/card2.rs:34-41 | the joker tuple `(kind, cards)` as six digits below 13 |
| Day07Jokers.OrderKeyOrders | day7/src/card2.rs:34-41 | `cmp` on `(kind, cards)` with the joker weakest: the key is smaller exactly when the hand is stronger, equal exactly for equal hands |
| Day07Jokers.LessTotal | day7/src/card2.rs:28-41 | the joker order is total and asymmetric |
| Day07.ParseEntry | day7/src/main.rs:17-23 | a line is exactly two whitespace-separated fields, a hand and a bid (the `unwrap`s, `expect`s and `assert!`) |
| Day07.RankedWeakestFirst | day7/src/main.rs:25 | after `sort_by` with `Reverse`, no hand is stronger than one ranked after it |
| Day07.RankedWeakestFirstWithJokers | day7/src/main.rs:44 | the same for the joker order |
| Day07.PartOne | day7/src/main.rs:14-30 | `part_one`: fails exactly when some line is not a hand and a bid; the answer is `bid * rank` summed over a permutation of the lines that is sorted weakest first and keeps equal hands in input order |
| Day07.PartTwo | day7/src/main.rs:32-49 | `part_two`: the same with the joker hands |
| Seqs.SortBy | day7/src/main.rs:25 | `sort_by`: the result is sorted by the key and is a permutation of the input |
| Seqs.SortByStable | day7/src/main.rs:25 | `sort_by` is stable: for every key, the elements carrying it keep their input order |
| Day08.ParseDir | day8/src/main.rs:32-36 | exactly `L` and `R` are directions, and a parsed direction prints back as its letter; anything else is the `panic!` |
| Day08.ParseDirections | day8/src/main.rs:32-36 | the first line parses exactly when every character is `L` or `R`, one direction per character |
| Day08.ParseNode | day8/src/main.rs:40-47 | a node line must contain `=` (the first `unwrap`) |
| Day08.ParseSuccessors | day8/src/main.rs:41-47 | the part after `=`, trimmed and stripped of parentheses, must contain `,` (the second `unwrap`) |
| Day08.ParseFormatNode | day8/src/main.rs:40-47 | a node line `KEY = (LEFT, RIGHT)` written out for any labels parses back to the key and its two successors |
| Day08.BuildNetwork | day8/src/main.rs:38-49 | `assert!(map.insert(..).is_none())`: succeeds exactly when no key repeats; the keys are the entries' keys and each maps to its own entry |
| Day08.EntriesExtend | day8/src/main.rs:39-49 | one more entry adds its key, and keeps the keys distinct exactly when its key is new |
| Day08.ParseMap | day8/src/main.rs:30-51 | `parse_map`: the first line gives the directions, the second is skipped, every later line is in the network, and every key of the network comes from one of them |
| Day08.NodeLinesInNetwork | day8/src/main.rs:39-49 | every node line's entry is in the network built from them |
| Day08.NetworkKeysFromLines | day8/src/main.rs:39-49 | every key of the network is the key of some node line |
| Day08.Next | day8/src/main.rs:19-23 | step `k` follows the left or right successor of the current node, as direction `k % len` says, and fails exactly on a node the network lacks (the `unwrap`) |
| Day08.WalkFrom | day8/src/main.rs:18-25 | the `while cur != dest` loop: it never takes more steps than the fuel allows, and any step needs a non-empty direction line (`steps % dirs.len()`) |
| Day08.WalkFromArrives | day8/src/main.rs:18-25 | a walk that stops has reached `ZZZ` for the first time |
| Day08.WalkFromComplete | day8/src/main.rs:18-25 | a walk with enough fuel stops at the first arrival at `ZZZ` |
| Day08.WalkIsFirstArrival | day8/src/main.rs:14-27 | the walk from `AAA` returns exactly the number of steps of the first arrival at `ZZZ` of the unstopped walk, whenever the fuel covers it |
| Day08.PartOne | day8/src/main.rs:11-28 | `part_one`: an answer is always the first arrival at `ZZZ`, and with enough fuel that arrival is the answer |
| Day08.ExampleOne | day8/src/main.rs:57-67 | the first test network with directions `RL` takes 2 steps |
| Day08.ExampleTwo | day8/src/main.rs:69-80 | the second test network with directions `LLR` takes 6 steps |
| Day09.Diffs | day9/src/main.rs:41 | `windows(2).map(\|n\| n[1] - n[0])`: one element shorter, element `i` the rise from `i` to `i + 1` |
| Day09.RevDiffs | day9/src/main.rs:53 | `windows(2).map(\|n\| n[0] - n[1])`: one element shorter, element `i` the fall from `i` to `i + 1` |
| Day09.Offsets | day9/src/main.rs:36-46 | `sequence`: the loop ends (each layer is shorter), records nothing exactly for an all-zero layer, and first records the reading's last element |
| Day09.OffsetsRev | day9/src/main.rs:48-58 | `sequence_rev`: records nothing exactly for an all-zero layer, and first records the reading's first element |
| Day09.NextValue | day9/src/main.rs:67-73 | `next`: the bottom-up `offsets[i - 1] += offsets[i]` leaves the sum of all offsets in front, and there is none exactly when there are no offsets |
| Day09.ExtrapolateStep | day9/src/main.rs:36-46 | the predicted value is the layer's last element plus the value predicted for its differences |
| Day09.ExtrapolateBackStep | day9/src/main.rs:48-58 | the value predicted backwards is the layer's first element plus the backwards value of its reversed differences |
| Day09.ExtrapolateContinues | day9/src/main.rs:36-46 | appending the predicted value extends the difference table by one entry in every layer, so it continues the pattern; an all-zero layer predicts 0 |
| Day09.ExtrapolateBackContinues | day9/src/main.rs:48-58 | prepending the backwards value extends the reversed table by one entry in every layer; an all-zero layer predicts 0 |
| Day09.ReverseDiffs | day9/src/main.rs:41-53 | the reversed differences of a reading, reversed, are the differences of the reversed reading |
| Day09.OffsetsRevIsReversed | day9/src/main.rs:36-58 | `sequence_rev` of a reading records what `sequence` records for the reversed reading, so part two extrapolates the reversed reading forwards |
| Day09.ParseReadings | day9/src/main.rs:13-17 | a line parses exactly when every whitespace-separated word is an integer |
| Day09.LineValue | day9/src/main.rs:12-19 | a line's value exists exactly when it parses and is not all zeros (the `unwrap` of `next`), and it is the forward or the backward extrapolation |
| Day09.SumLines | day9/src/main.rs:10-20 | the sum succeeds exactly when every line has a value, and then it is the sum of one value per line |
| Day09.PartOne | day9/src/main.rs:9-21 | `part_one`: fails exactly when some line has no forward value; otherwise the sum of the lines' forward values |
| Day09.PartTwo | day9/src/main.rs:22-34 | `part_two`: the same with the backward values |
| Day10Pipe.Display | day10/src/pipe.rs:54-66 | `Display`: every pipe prints as one character, its symbol |
| Day10Pipe.TryFromChar | day10/src/pipe.rs:33-52 | `TryFrom<char>`: exactly the six symbols `\| - L J 7 F` are pipes, and a parsed pipe has the character as its symbol; any other character is an error |
| Day10Pipe.FromStr | day10/src/pipe.rs:16-31 | `FromStr`: a parsed pipe prints back as the text |
| Day10Pipe.DisplayRoundTrip | day10/src/pipe.rs:16-66 | parsing a pipe's symbol, by character or by string, gives the pipe back |
| Day10Pipe.FromStrAgrees | day10/src/pipe.rs:16-52 | `FromStr` agrees with `TryFrom<char>` on one-character strings and fails on every other string |
| Day10Pipe.OpensMatchesSymbol | day10/src/pipe.rs:69-78 | a pipe opens north exactly for `\|`, `L`, `J`; south for `\|`, `7`, `F`; east for `-`, `L`, `F`; west for `-`, `J`, `7` |
| Day10Pipe.Ends | day10/src/pipe.rs:69-78 | every pipe opens in exactly two different headings |
| Day10Pipe.Step | day10/src/pipe.rs:80-92 | `north` and `west` saturate at 0 instead of underflowing |
| Day10Pipe.StepBack | day10/src/pipe.rs:80-92 | away from the saturating edge, a step moves, and the opposite step undoes it |
| Day10Pipe.Connections | day10/src/pipe.rs:69-78 | `connections`: the two neighbours in the headings the pipe opens to |
| Day10Pipe.ConnectionsCover | day10/src/pipe.rs:69-78 | the pipe opens in a heading exactly when it is one of its two ends, and then the neighbour that way is connected |
| Day10.Tile | day10/src/main.rs:137-144 | `S` and `.` hold no pipe, the six pipe symbols parse to their pipe, and any other character is dropped to no pipe by `.ok()` |
| Day10.ParseGrid | day10/src/main.rs:131-147 | one row per line and one tile per character, each the character's tile |
| Day10.LastIndex | day10/src/main.rs:138-141 | the last position of a character in a line, none exactly when it does not occur |
| Day10.LastStart | day10/src/main.rs:130-141 | the `start` the parser keeps is the last `S` in reading order, none exactly when there is no `S` |
| Day10.Cell | day10/src/main.rs:151-163 | indexing the map succeeds exactly inside its rows and columns |
| Day10.ConnectsBack | day10/src/main.rs:150-163 | `is_some_and(\|p\| p.connections(..).contains(&start))`: the neighbour holds a pipe one of whose connections is the start; indexing outside the map fails |
| Day10.Probe | day10/src/main.rs:150-163 | the north and west probes are false at the top and left edges without indexing, while the south and east probes index unchecked and fail past the last row or column |
| Day10.Choose | day10/src/main.rs:164-172 | the match on `(north, south, east, west)`: the chosen pipe opens only towards flagged neighbours, and some pipe is chosen exactly when two headings are flagged (otherwise `unreachable!`) |
| Day10.InferStart | day10/src/main.rs:149-172 | the inferred start pipe opens only towards neighbours that connect back to the start |
| Day10.InferStartComplete | day10/src/main.rs:149-172 | once the probes succeed, a start pipe is found exactly when two different neighbours connect back |
| Day10.ParseMap | day10/src/main.rs:129-175 | `parse_map`: the start is the last `S` (or `(0, 0)` with none), it holds a pipe whose ends lead to neighbours connecting back, and every other tile is as parsed |
| Day10.StartOf | day10/src/main.rs:129-141 | the start is the last `S` when there is one |
| Day10.WithStart | day10/src/main.rs:165-170 | writing the start tile sets that tile and keeps the grid's height |
| Day10.ReplaceStart | day10/src/main.rs:165-170 | writing the start pipe leaves every other tile as parsed |
| Day10.ParsedStart | day10/src/main.rs:129-175 | once a start pipe is inferred, the start is inside the map, holds that pipe, every end of it leads to a neighbour connecting back, and every other tile is as parsed |
| Day10.Pick | day10/src/main.rs:32-39 | `find` over the two connections: the result is one of them and is unvisited, the target, or anything once the walkers meet |
| Day10.Move | day10/src/main.rs:27-40 | a walker moves from a pipe to a point that pipe connects to |
| Day10.WalkFrom | day10/src/main.rs:24-42 | the `part_one` loop never counts fewer steps than it started with |
| Day10.ParityAlong | day10/src/main.rs:24-42 | tiles along the loop alternate in colour on the chequerboard |
| Day10.LoopIsEven | day10/src/main.rs:24-42 | every closed loop has an even number of tiles, so the two walkers meet on one tile |
| Day10.WalkersMeet | day10/src/main.rs:24-42 | on a loop of `2k` tiles the walkers meet after `k` steps |
| Day10.WalkOnLoop | day10/src/main.rs:24-42 | on a closed loop of `2 * half` tiles, the walkers at distance `k` from the start meet after `half` steps |
| Day10.FarthestOnLoop | day10/src/main.rs:18-43 | from the start of a closed loop the walk returns half the loop's length, the distance of the farthest tile |
| Day10.PartOne | day10/src/main.rs:15-44 | `part_one`: an answer needs a parsed map and is at least 1 |
| Day10.PartOneOnLoop | day10/src/main.rs:15-44 | when the start lies on a closed loop of the parsed map, `part_one` is half the loop's length |
| Day10.TraceFrom | day10/src/main.rs:55-64 | the marking walk only adds tiles to the loop set |
| Day10.TraceStep | day10/src/main.rs:55-64 | one step of the marking walk along a closed loop adds the current tile and moves to the next loop tile |
| Day10.TraceOnLoop | day10/src/main.rs:55-64 | on a closed loop the marking walk marks exactly the loop tiles |
| Day10.LoopTiles | day10/src/main.rs:49-64 | the start is always marked |
| Day10.LoopTilesOnLoop | day10/src/main.rs:49-64 | from the start of a closed loop the marked set is exactly the set of loop tiles |
| Day10.ScanTile | day10/src/main.rs:73-111 | a tile off the loop is counted exactly when the scan is inside, and changes nothing else; loop tiles follow the corner rules, with every `unreachable!` an error |
| Day10.ScanRow | day10/src/main.rs:71-112 | scanning a row never lowers the count |
| Day10.RowCount | day10/src/main.rs:68-124 | a row succeeds only when the scan ends outside with no corner open (the two `assert!`s) |
| Day10.ScanTileTracks | day10/src/main.rs:75-108 | every tile keeps the scan's inside flag equal to the parity of the northern pipe ends crossed so far |
| Day10.ScanRowTracks | day10/src/main.rs:71-112 | the parity holds along a whole row |
| Day10.RowCrossingsEven | day10/src/main.rs:113-123 | a row that ends outside crosses an even number of northern pipe ends |
| Day10.ScanRowEnclosed | day10/src/main.rs:71-112 | along a row whose horizontal runs are closed by the loop, the scan counts exactly the tiles off the loop with an odd number of northern ends to their west |
| Day10.RowCountEnclosed | day10/src/main.rs:68-124 | a row's count is the number of its enclosed tiles |
| Day10.CountRowsEnclosed | day10/src/main.rs:68-126 | the total over all rows is the number of enclosed tiles of the grid |
| Day10.EastNeighbour | day10/src/main.rs:79-107 | on a closed loop, a pipe opening east has a loop pipe opening west right after it, so every run that opens is closed in the same row |
| Day10.LoopJoinsEast | day10/src/main.rs:79-107 | on a closed loop, every row's horizontal runs are joined |
| Day10.PartTwo | day10/src/main.rs:46-127 | `part_two`: an answer needs a parsed map |
| Day10.PartTwoOnLoop | day10/src/main.rs:46-127 | when the start lies on a closed loop, any answer of `part_two` is the number of tiles off the loop with an odd number of loop crossings to their west, that is, the tiles the loop encloses |
| Day11.RowFrom | day11/src/observation.rs:31-35 | a line is accepted exactly when every character is `#` or `.`, and yields exactly its `#` positions on that row |
| Day11.GalaxiesFrom | day11/src/observation.rs:27-37 | the image is accepted exactly when every line is legal; the galaxies are exactly the `#` cells, listed in row order |
| Day11.EmptyBelowAll | day11/src/observation.rs:39-45 | below the first occupied line every line is empty |
| Day11.EmptyBelowSpan | day11/src/observation.rs:42 | between two consecutive occupied lines, the gap adds its empty lines to the count |
| Day11.SkipsCountEmpty | day11/src/observation.rs:39-45 | the running `skips` at each galaxy, plus the empty lines before the first occupied one, is the number of empty lines before that galaxy |
| Day11.SkipsFirst | day11/src/observation.rs:39-45 | at the first galaxy the running `skips` counts the empty lines below it except the leading ones |
| Day11.SkipsNext | day11/src/observation.rs:42-43 | `(g - last).saturating_sub(1)` is the number of empty lines between consecutive galaxies |
| Day11.Shift | day11/src/observation.rs:44-54 | moving a galaxy along one axis leaves the other coordinate alone |
| Day11.Expand | day11/src/observation.rs:39-45 | every galaxy moves along the axis by the empty lines before it, less the leading empty lines |
| Day11.SortedByColumn | day11/src/observation.rs:47 | after `sort_unstable_by_key(\|g\| g.0)` the galaxies are in column order |
| Day11.ExpandImage | day11/src/observation.rs:39-55 | expanding rows then columns keeps one galaxy per galaxy |
| Day11.ParseObservation | day11/src/observation.rs:26-58 | `from_str` fails exactly on an illegal character, and otherwise returns the expanded galaxies |
| Day11.ShortestPaths | day11/src/observation.rs:11-20 | the double loop sums the Manhattan distance over every unordered pair |
| Day11.DistancesToTranslated | day11/src/observation.rs:15-16 | moving every galaxy by the same offset keeps the distances from one galaxy |
| Day11.TranslatedSuffix | day11/src/observation.rs:14 | a translated list stays translated on every suffix |
| Day11.PairsBeforeTranslated | day11/src/observation.rs:13-18 | moving every galaxy by the same offset keeps the partial pair sums |
| Day11.PairDistancesTranslated | day11/src/observation.rs:11-20 | moving every galaxy by the same offset keeps the sum over pairs |
| Day11.PartOne | day11/src/main.rs:9-13 | `part_one` fails exactly when parsing fails and otherwise is the sum of pair distances of the parsed galaxies |
| Day11.ExpandImageExpands | day11/src/observation.rs:39-55 | up to the leading-lines offset, the output is exactly the set of galaxies each moved by the empty rows above and empty columns left of it |
| Day11.RestoredIsExpanded | day11/src/observation.rs:39-55 | each output galaxy, put back by the offset, is some input galaxy expanded |
| Day11.ExpandedIsRestored | day11/src/observation.rs:39-55 | each input galaxy, expanded, appears in the output put back by the offset |
| Day11.ExpandedAt | day11/src/observation.rs:47-55 | the column pass applied after the sort moves each galaxy to its fully expanded position |
| Day11.OccupiedColumnsKept | day11/src/observation.rs:39-47 | the row pass and the sort keep the set of occupied columns |
| Day11.PartOneIsExpandedDistance | day11/src/main.rs:9-13 | `part_one` is the sum of pair distances between the image's galaxies after every empty row and column is doubled |
| Day12.TryFromChar | day12/src/condition.rs:13-24 | exactly `.`, `#` and `?` are conditions, and each prints back as its character |
| Day12.RowStringRoundTrip | day12/src/condition.rs:13-37 | `row_string` and `try_from` are inverse: printing then parsing gives the row back, and parsing then printing gives the text back |
| Day12.ConditionMatch | day12/src/condition.rs:40-48 | a test row matches a base row exactly when it agrees on every cell the base row knows |
| Day12.ParseRow | day12/src/condition.rs:114-131 | `from_str` succeeds exactly when the line has a space, the part before it is all conditions and every comma-separated field after it is a number; the row prints back as the part before the space |
| Day12.LastOffset | day12/src/condition.rs:84-89 | the last offset `space_remaining - space_needed` still leaves room for the first run |
| Day12.RestFeasible | day12/src/condition.rs:89-102 | after placing the first run at any offset of the loop, the recursive call does not underflow either |
| Day12.RunsNeedRoom | day12/src/condition.rs:86 | runs of positive length take at least one cell each |
| Day12.ArrangementsNoRuns | day12/src/condition.rs:71-81 | with no run left, the reference count is 1 exactly when nothing after the position is known damaged |
| Day12.ArrangementsTooShort | day12/src/condition.rs:84-89 | the reference count is 0 when the runs need more room than is left |
| Day12.ArrangementsStep | day12/src/condition.rs:89-109 | the reference count at a cell is the count with that cell operational plus the count with a run starting there |
| Day12.ArrangementsUnfold | day12/src/condition.rs:89-109 | unfolding the reference count over the first `n` cells gives the loop's sum over the first `n` offsets plus the rest |
| Day12.OffsetsSumIsReference | day12/src/condition.rs:89-110 | the loop's partial sum over offsets equals the reference sum over start cells |
| Day12.ComboCountIsArrangements | day12/src/condition.rs:64-111 | for positive runs, the count `combo_rec` returns is the number of ways to place the runs in order, separated by operational cells, agreeing with every known cell |
| Day12.MatchIsPlacement | day12/src/condition.rs:90-96 | `condition_match` on the checked range holds exactly when the cells before the run are not known damaged and the run fits at its offset |
| Day12.ComboRec | day12/src/condition.rs:64-111 | the memoised search returns the unmemoised count, restores the scratch row and leaves every memo entry correct |
| Day12.TryOffset | day12/src/condition.rs:90-108 | one iteration of the loop adds the count of placements with the run at that offset, using or filling the memo, and restores the scratch row |
| Day12.OffsetOutcome | day12/src/condition.rs:90-96 | with the run marked at the offset, a match on the checked range makes the placement count the completions after the run, and a mismatch makes it count nothing |
| Day12.CountAfterRun | day12/src/condition.rs:97-105 | the value taken from the memo or from the recursive call is the number of completions after the run, and the memo stays correct with the new entry |
| Day12.CacheInsert | day12/src/condition.rs:102-103 | recording a correct count under its key keeps every memo entry correct |
| Day12.Fill | day12/src/condition.rs:92-108 | `fill` keeps the row's length |
| Day12.MarkedGoodAfter | day12/src/condition.rs:92-102 | after filling the run, the scratch row is operational from the cell after the run on |
| Day12.FillRestores | day12/src/condition.rs:92-108 | filling a run damaged and then operational gives the scratch row back |
| Day12.PossibleCombinations | day12/src/condition.rs:57-62 | `possible_combinations` fails exactly when the top-level subtraction underflows, and otherwise returns the count of `combo_rec` |
| Day12.CombinationsAreArrangements | day12/src/condition.rs:57-111 | for positive runs and a row with cells, `possible_combinations` counts the arrangements |
| Day12.EmptyRowAsWritten | day12/src/condition.rs:71-77 | a row without cells and with run `1` counts one arrangement, though there is none |
| Day12.Combinations | day12/src/condition.rs:57-111 | the count as intended: the number of arrangements for any row of positive runs, the empty row included |
| Day12.LineCount | day12/src/main.rs:16 | a line fails exactly when it does not parse or the count underflows; it counts the arrangements for positive runs, and a row with no cells counts one |
| Day12.LineCounts | day12/src/main.rs:14-16 | every line's count, failing exactly when some line fails |
| Day12.PartOne | day12/src/main.rs:13-18 | `part_one` fails exactly when some line fails, and is otherwise the sum of the line counts |
| Day13.NewPattern | day13/src/pattern.rs:6-11 | a pattern has no rows exactly when its section is empty, and no row holds a line break |
| Day13.Columns | day13/src/pattern.rs:24-26 | `columns` is the width of the first row, or 0 for an empty pattern |
| Day13.GetRow | day13/src/pattern.rs:13-15 | `get_row` is the row when it exists and `None` past the last row |
| Day13.GetColumn | day13/src/pattern.rs:16-18 | `get_column` is `None` exactly when some row is too short, and otherwise holds character `c` of every row in order |
| Day13.Shortest | day13/src/pattern.rs:16-18 | the shortest row is no longer than the first |
| Day13.ShortestIsMinimum | day13/src/pattern.rs:16-18 | the shortest length is the length of some row and no row is shorter |
| Day13.HasColumnBelowShortest | day13/src/pattern.rs:16-18 | column `c` exists in every row exactly when `c` is below the shortest row's length |
| Day13.MismatchCountZero | day13/src/main.rs:46-58 | no mismatch among the first `n` zipped characters exactly when they are all equal |
| Day13.MismatchCountGrows | day13/src/main.rs:46-58 | comparing more characters never lowers the mismatch count |
| Day13.MismatchesZero | day13/src/main.rs:46-58 | two lines have no mismatch over their zip exactly when they agree up to the shorter length, and for lines of equal length exactly when they are equal |
| Day13.CountPair | day13/src/main.rs:46-58 | the inner loop over one zipped pair stops early exactly when the running count passes the budget, and otherwise adds the pair's mismatches |
| Day13.Reach | day13/src/main.rs:37 | `mirror.min(rows - mirror - 2)` is the last pair index before the nearer edge |
| Day13.RowsTotalGrows | day13/src/main.rs:37-62 | comparing more row pairs never lowers the total |
| Day13.RowsTotalStep | day13/src/main.rs:46-50 | each pair adds the mismatches between rows `m - i` and `m + i + 1` |
| Day13.RowsTotalExceeds | day13/src/main.rs:54-55 | once the total passes the budget it stays past it, so the early `return false` is the final answer |
| Day13.RowsMirror | day13/src/main.rs:35-64 | `rows_mirror` holds exactly when the mirrored row pairs up to the nearer edge differ in exactly `t` characters |
| Day13.RowsTotalZero | day13/src/main.rs:37-62 | the total is zero exactly when every compared pair agrees |
| Day13.ExactReflection | day13/src/main.rs:19 | with budget 0 a line reflects exactly when every mirrored row pair up to the nearer edge agrees |
| Day13.ColumnsFrom | day13/src/pattern.rs:16-18 | the columns of a pattern, from one index up to another |
| Day13.Column | day13/src/pattern.rs:16-18 | an existing column has one character per row |
| Day13.ColumnView | day13/src/pattern.rs:16-18 | the view has one column per index below the shortest row |
| Day13.ColumnsFromAt | day13/src/pattern.rs:16-18 | each element of the view is the `get_column` of its index |
| Day13.ColumnViewAt | day13/src/pattern.rs:16-18 | column `c` of the view is the column `get_column` returns |
| Day13.Available | day13/src/main.rs:76-80 | the column pairs whose columns exist lie inside the view |
| Day13.ColsComplete | day13/src/main.rs:65-95 | with every needed column present, `cols_mirror` holds exactly when the column pairs differ in exactly `t` characters |
| Day13.ColsIncomplete | day13/src/main.rs:76-88 | with a needed column missing, `cols_mirror` panics unless the budget is passed before the missing column is reached |
| Day13.ColsMissing | day13/src/main.rs:76-80 | reaching a missing column within the budget panics |
| Day13.ColsOver | day13/src/main.rs:84-85 | passing the budget before any missing column returns `false` |
| Day13.ColsMirror | day13/src/main.rs:65-95 | `cols_mirror` returns the outcome above, `Err` standing for the `unwrap` panic |
| Day13.ColsPair | day13/src/main.rs:76-87 | one pass of the `cols_mirror` loop: it returns the final outcome when a column is missing or the budget is passed, and otherwise adds the pair's mismatches, still within budget |
| Day13.RectangularShortest | day13/src/pattern.rs:7 | in a pattern whose rows have equal length the shortest row is the first |
| Day13.Transpose | day13/src/pattern.rs:16-18 | the transpose has one row per column, holding that column's characters |
| Day13.TransposeTwice | day13/src/pattern.rs:16-18 | transposing a rectangular pattern twice gives it back |
| Day13.ColumnViewIsTranspose | day13/src/pattern.rs:16-18 | the columns of a rectangular pattern are the rows of its transpose |
| Day13.ColumnsAreTransposedRows | day13/src/main.rs:65-95 | on a rectangular pattern `cols_mirror` never panics and is `rows_mirror` on the transpose |
| Day13.FirstRowLine | day13/src/main.rs:17-22 | the loop over horizontal lines finds the first line that reflects, and none exactly when no line does |
| Day13.FirstColLine | day13/src/main.rs:25-30 | the loop over vertical lines finds the first line that reflects, failing when none does (`unreachable!`) |
| Day13.SectionValue | day13/src/main.rs:14-31 | a section's score is positive; an empty section fails; when a horizontal line reflects the score is `100` times one past a reflecting line |
| Day13.HorizontalFirst | day13/src/main.rs:16-22 | any reflecting horizontal line makes the score `100 * (i + 1)` for a reflecting line `i` no later than it |
| Day13.VerticalOtherwise | day13/src/main.rs:24-30 | without a reflecting horizontal line, the score is one past the first reflecting vertical line |
| Day13.SectionValues | day13/src/main.rs:11-16 | one score per section, each that section's score |
| Day13.Summarize | day13/src/main.rs:11-33 | `part_one` (budget 0) and `part_two` (budget 1, lines 97-119) fail exactly when some section fails, and otherwise are the sum of the section scores, at least one per section |
| Day14.RockFromChar | day14/src/platform.rs:11-21 | exactly `O` and `#` are rocks, and `O` exactly is the round one |
| Day14.Get | day14/src/platform.rs:98-100 | `get` on a cell of the platform is that cell, and past the last row it is empty |
| Day14.Put | day14/src/platform.rs:102-103 | writing a cell keeps the platform's shape |
| Day14.PutAt | day14/src/platform.rs:102-103 | writing a cell changes that cell and no other |
| Day14.Set | day14/src/platform.rs:101-107 | `set` reports whether the flat index `y * width + x` exists, writes the cell at that index when it does and changes nothing otherwise |
| Day14.SetFlat | day14/src/platform.rs:101-107 | a write that succeeds changes the cell at the flat index, `x / width` rows below row `y` and in column `x % width` |
| Day14.Ahead | day14/src/platform.rs:47-54 | `add_offset` with the bounds filter of lines 86-87: the next cell stays on the platform, one step nearer the edge it faces, on the same column (north, south) or row (east, west); none exactly at that edge |
| Day14.Slide | day14/src/platform.rs:85-90 | the `while let` moves a rock along its direction only over empty cells, never away from the edge, to a cell where the edge or a rock blocks it |
| Day14.RoundsInUpdate | day14/src/platform.rs:91-92 | replacing one row changes the round-rock count by that row's difference |
| Day14.PutRounds | day14/src/platform.rs:91-92 | writing one cell changes the round-rock count only by the old and the new content of that cell |
| Day14.Order | day14/src/platform.rs:32-45 | `y_range`/`x_range`: the `k`-th visited index, reversed for South and East |
| Day14.MoveRock | day14/src/platform.rs:84-93 | moving one rock keeps the shape, the number of round rocks and every cube rock |
| Day14.TiltRow | day14/src/platform.rs:83-95 | the inner loop over one line keeps the shape, the round-rock count and the cube rocks |
| Day14.TiltRows | day14/src/platform.rs:82-95 | the outer loop keeps the shape, the round-rock count and the cube rocks |
| Day14.Tilt | day14/src/platform.rs:81-96 | `tilt` keeps the shape, the number of round rocks and every cube rock in place |
| Day14.SlideOverEmpty | day14/src/platform.rs:85-90 | every cell a sliding rock passes over, and the one it stops on, is empty, so it never crosses a cube rock |
| Day14.LinePut | day14/src/platform.rs:101-107 | writing a cell changes only its own column (for North and South) or row (for East and West), at its own position |
| Day14.MovePrefix | day14/src/platform.rs:91-92 | clearing the start and filling the stop of a slide over empty cells keeps the number of round rocks before each cube rock and before the end of the line |
| Day14.MoveProfile | day14/src/platform.rs:91-92 | such a move leaves the cube rocks of the line, and the round rocks of each stretch between them, as they were |
| Day14.MoveKeepsProfiles | day14/src/platform.rs:84-93 | moving one visited rock keeps, along every line of the direction, where the cube rocks are and how many round rocks lie between them |
| Day14.TiltRowKeepsProfiles | day14/src/platform.rs:83-95 | the inner loop keeps the cube rocks and the round rocks of every stretch along every line of the direction |
| Day14.TiltRowsKeepsProfiles | day14/src/platform.rs:82-95 | the outer loop keeps them as well |
| Day14.TiltKeepsProfiles | day14/src/platform.rs:81-96 | `tilt(d)` keeps, per column for North and South and per row for East and West, the cube rocks and the number of round rocks before each of them and before the end |
| Day14.TiltStretchRounds | day14/src/platform.rs:81-96 | after `tilt(d)` each stretch of a column or row between cube rocks, or between a cube rock and the edge, holds as many round rocks as before |
| Day14.ProfileStretch | day14/src/platform.rs:81-96 | lines with equal profiles hold as many round rocks between any two stretch ends |
| Day14.Spin | day14/src/platform.rs:109-114 | `spin` (north, west, south, east) keeps the shape and the number of round rocks |
| Day14.VisitedNext | day14/src/platform.rs:82-83 | each step of the loops visits exactly one new cell, the current one |
| Day14.BehindUnvisited | day14/src/platform.rs:82-83 | the loops visit cells nearest the edge first, so the cell ahead of a visited cell is never the current one |
| Day14.MoveKeepsSettled | day14/src/platform.rs:84-93 | moving the current rock keeps every visited round rock blocked |
| Day14.MovedRockBlocked | day14/src/platform.rs:86-92 | the moved rock ends blocked |
| Day14.OtherRockBlocked | day14/src/platform.rs:91-92 | a rock settled before the move stays blocked after it |
| Day14.RowDone | day14/src/platform.rs:83-95 | finishing a line settles every rock in it |
| Day14.TiltRowSettles | day14/src/platform.rs:83-95 | the inner loop ends with every rock of its line, and of earlier lines, blocked |
| Day14.TiltRowsSettles | day14/src/platform.rs:82-95 | the outer loop ends with every round rock blocked |
| Day14.TiltSettles | day14/src/platform.rs:81-96 | after `tilt(d)` no round rock can roll further in `d` |
| Day14.SettledMoveFixed | day14/src/platform.rs:84-93 | on a settled platform moving any rock leaves the platform unchanged |
| Day14.SettledTiltRowFixed | day14/src/platform.rs:83-95 | on a settled platform the inner loop changes nothing |
| Day14.SettledTiltRowsFixed | day14/src/platform.rs:82-95 | on a settled platform the outer loop changes nothing |
| Day14.TiltIdempotent | day14/src/platform.rs:81-96 | tilting twice in one direction is tilting once |
| Day14.Load | day14/src/platform.rs:70-80 | the double loop of `load` sums, over the rows, the row's weight `height - row` times its rounds |
| Day14.RowLoadIsWeightedCount | day14/src/platform.rs:73-77 | one row's load is its weight times its number of round rocks |
| Day14.RoundsStep | day14/src/platform.rs:74 | each cell adds one round rock exactly when it holds one |
| Day14.WeightStep | day14/src/platform.rs:75 | adding the weight for a round rock keeps the load a weighted count |
| Day14.LoadIsWeightedCount | day14/src/platform.rs:70-80 | each row adds its round rocks times its distance from the south edge, counting itself |
| Day14.RowOf | day14/src/platform.rs:131 | each character becomes its cell, anything but a rock being empty |
| Day14.Parse | day14/src/platform.rs:120-137 | `from_str` fails exactly when some line differs in length from the first; the width is the first line's, 0 with no lines, and every cell is its character's |
| Day14Main.PartOne | day14/src/main.rs:17-22 | `part_one` fails exactly when parsing fails or the platform has width 0, and is the load of the north-tilted platform, which is settled north and keeps its round rocks |
| Day14Main.IterateAdd | day14/src/main.rs:30-43 | spinning `a` times then `b` times is spinning `a + b` times |
| Day14Main.Periodic | day14/src/main.rs:39-43 | after a repeat at `s` and `e`, spinning on by whole periods brings the same platform back |
| Day14Main.SkipAhead | day14/src/main.rs:39-43 | with a repeat at `start` and `end`, spinning the repeated platform `(n - start) % (end - start)` more times gives the platform after `n` spins |
| Day14Main.SpinStep | day14/src/platform.rs:109-114 | a spin of a usable platform is usable and keeps the shape and the round rocks |
| Day14Main.SpinNUsable | day14/src/main.rs:30-43 | any number of spins keeps the platform usable, its height and its round rocks |
| Day14Main.SpinNNext | day14/src/main.rs:32-33 | one more spin is one more application |
| Day14Main.SpinTimes | day14/src/main.rs:41-43 | the `for _ in 0..rem` loop spins exactly `rem` times |
| Day14Main.RecordedDistinct | day14/src/main.rs:27-38 | a map recording every platform so far under its spin count shows that those platforms are all different |
| Day14Main.FirstRepeat | day14/src/main.rs:27-38 | the search finds the first repeat: `start < end` with equal platforms, all platforms before `end` distinct; none within `limit` spins means the first `limit + 1` platforms are all distinct |
| Day14Main.LoadAfter | day14/src/main.rs:24-46 | any answer is the load after exactly `cycles` spins; failure with `limit <= cycles` means no repeat within `limit` spins |
| Day14Main.PartTwo | day14/src/main.rs:24-46 | `part_two` fails on a bad parse or width 0, and otherwise any answer is the load after a billion spins |
| Day15.HashStep | day15/src/main.rs:33 | one step of the HASH keeps the value below 256 |
| Day15.HashFrom | day15/src/main.rs:31-36 | the HASH of a string from any start below 256 stays below 256 |
| Day15.HashFromAppend | day15/src/main.rs:32-34 | hashing `s + t` is hashing `t` from the hash of `s` |
| Day15.AsciiHash | day15/src/main.rs:30-37 | `ascii_hash` is below 256 and agrees with the step-by-step definition |
| Day15.ModMultiple | day15/src/main.rs:33 | adding a multiple of 256 does not change a value modulo 256 |
| Day15.ModStep | day15/src/main.rs:33 | reducing modulo 256 before the next step does not change the result |
| Day15.HashIsPolynomial | day15/src/main.rs:30-37 | reducing once at the end equals reducing after every step: the HASH is the polynomial `sum c_k * 17^(n-k)` modulo 256 |
| Day15.HashOfHash | day15/src/main.rs:55-58 | the HASH of `HASH` is 52 |
| Day15.Steps | day15/src/main.rs:12-13 | `trim().split(',')` gives at least one step, no step holds a comma, and joining them with commas gives the trimmed input back |
| Day15.HashAll | day15/src/main.rs:14 | each step's hash, each below 256 |
| Day15.PartOne | day15/src/main.rs:10-16 | `part_one` is the sum of the step hashes, at most 255 per step |
| Day15.New | day15/src/hashmap.rs:10-14 | a new map has 256 empty boxes and is well formed |
| Day15.FindFrom | day15/src/hashmap.rs:21 | `iter_mut().find` from a position: the first lens with the label, or none exactly when no lens from there has it |
| Day15.Find | day15/src/hashmap.rs:21 | the first lens with the label in the box, or none exactly when no lens has it |
| Day15.AddToBox | day15/src/hashmap.rs:21-25 | a lens already present gets the new focal length in its slot and nothing else moves; otherwise the lens is appended |
| Day15.Add | day15/src/hashmap.rs:15-26 | `add` changes only the box the label hashes to, and keeps every lens in its own box with labels unique |
| Day15.Retain | day15/src/hashmap.rs:33 | `retain` keeps only lenses of the box without the label, none new |
| Day15.RetainAbsent | day15/src/hashmap.rs:33 | retaining without a matching lens leaves the box unchanged |
| Day15.RetainAppend | day15/src/hashmap.rs:33 | retaining distributes over appending a lens |
| Day15.RetainUnique | day15/src/hashmap.rs:33 | with the label held once, retaining cuts out exactly that lens and closes the gap |
| Day15.RetainValid | day15/src/hashmap.rs:33 | retaining keeps the lenses in their own box with labels unique |
| Day15.Remove | day15/src/hashmap.rs:28-34 | `remove` changes only the box the label hashes to and keeps the map well formed |
| Day15.RemoveClosesGap | day15/src/hashmap.rs:28-34 | removing a present label takes its lens out and moves the later ones forward; removing an absent label changes nothing |
| Day15.AddLookup | day15/src/hashmap.rs:15-26 | after `add`, the label maps to the new focal length and every other label keeps its value |
| Day15.RemoveLookup | day15/src/hashmap.rs:28-34 | after `remove`, the label maps to nothing and every other label keeps its value |
| Day15.Power | day15/src/hashmap.rs:36-46 | `power` sums `(box + 1) * (slot + 1) * focal` over every lens |
| Day15.BoxPowerPrefix | day15/src/hashmap.rs:40-44 | a box's power over its first `n` slots depends only on those slots |
| Day15.AppendPower | day15/src/hashmap.rs:24-43 | appending a lens adds its power in the new last slot |
| Day15.ReplacePower | day15/src/hashmap.rs:22-43 | replacing a lens's focal length changes the power only by that slot's difference |
| Day15.ParseStep | day15/src/main.rs:21-26 | a step with `=` is an insertion of the number after it, failing (the `expect` panic) when that is not a number; any other step removes its label without trailing `-` |
| Day15.Apply | day15/src/main.rs:21-26 | one step keeps the map well formed |
| Day15.Run | day15/src/main.rs:20-27 | the steps in order keep the map well formed |
| Day15.RunAppend | day15/src/main.rs:20-27 | running one more step is applying it to the map so far |
| Day15.ApplyLookup | day15/src/main.rs:18-29 | one step of the sequence changes the value of its own label only: an insertion sets it, a removal clears it |
| Day15.RunLookup | day15/src/main.rs:18-29 | after the steps, a label maps to the focal length of its last insertion, or to nothing when it was never inserted or was removed after its last insertion |
| Day15.PartTwo | day15/src/main.rs:18-29 | `part_two` fails exactly when some insertion has no number, and is otherwise the focusing power of the map after all steps |
| Day16.StepBeam | day16/src/heat_splitter.rs:25-33 | `step` keeps the direction and moves one cell in it, failing exactly when moving up from row 0 or left from column 0 |
| Day16.Turn | day16/src/heat_splitter.rs:44-57 | a mirror keeps the beam's cell and swaps horizontal and vertical travel |
| Day16.TurnTwice | day16/src/heat_splitter.rs:44-57 | each mirror undoes itself: turning twice gives the beam back |
| Day16.SplitBeam | day16/src/heat_splitter.rs:67-96 | a splitter lets a beam travelling along it through, and otherwise splits it into left and right (`-`) or up and down (`\|`) on the same cell |
| Day16.Listed | day16/src/heat_splitter.rs:112-114 | `if let Some(b) .. push(b)`: the beam if any, as a list |
| Day16.Activate | day16/src/heat_splitter.rs:107-135 | `activate` gives at most two beams, each one cell away, and an empty cell passes the beam straight on |
| Day16.CellFromChar | day16/src/heat_splitter.rs:138-151 | exactly `.`, `/`, `\`, `\|` and `-` are cells, and `.` exactly is the empty one |
| Day16.Get | day16/src/heat_splitter.rs:194-196 | `get` finds a cell exactly when the flat index `y * width + x` is within the cells |
| Day16.KeepInGrid | day16/src/heat_splitter.rs:190 | the filter keeps exactly the beams on the grid |
| Day16.Successors | day16/src/heat_splitter.rs:185-191 | a beam's successors lie on the grid, one cell away |
| Day16.StepAll | day16/src/heat_splitter.rs:182-192 | `step` replaces the beams by exactly the successors of some beam |
| Day16.RetainNew | day16/src/heat_splitter.rs:173-178 | `retain` against the history adds every beam to it and keeps exactly the beams not seen before, each once |
| Day16.DirIndex | day16/src/heat_splitter.rs:10-15 | the four directions are numbered one to one |
| Day16.Universe | day16/src/heat_splitter.rs:170-179 | a finite set holding the start and every beam on the grid |
| Day16.ReachInUniverse | day16/src/heat_splitter.rs:170-179 | every beam reached in any number of steps is in that finite set |
| Day16.NextGrows | day16/src/heat_splitter.rs:171 | one step from beams reached within `k` steps reaches beams within `k + 1` |
| Day16.ExploreStep | day16/src/heat_splitter.rs:170-179 | one loop iteration keeps the history equal to the beams reached so far with the frontier their unseen successors |
| Day16.ExploredDone | day16/src/heat_splitter.rs:170-180 | when the frontier is empty the history is exactly the set of reachable beams |
| Day16.SeenBound | day16/src/heat_splitter.rs:170-179 | the history never outgrows the finite set |
| Day16.ExploreProgress | day16/src/heat_splitter.rs:170-179 | each iteration with beams left grows the history, so the loop ends |
| Day16.Energize | day16/src/heat_splitter.rs:160-181 | `energize` is the number of tiles some beam reachable from the start passes through |
| Day16.ParseRow | day16/src/heat_splitter.rs:216-218 | a line parses exactly when every character is a cell, giving those cells in order |
| Day16.ParseRows | day16/src/heat_splitter.rs:212-219 | the lines parse exactly when each has the first line's length and only cell characters |
| Day16.Parse | day16/src/heat_splitter.rs:209-224 | `from_str` fails exactly on a line of different length or an unknown character, with width the first line's (0 for no lines) and the cells row by row |
| Day16.ParseGet | day16/src/heat_splitter.rs:194-224 | on a parsed contraption `get(x, y)` is the cell of character `x` of line `y` |
| Reachability.ReachGrows | day16/src/heat_splitter.rs:170-179 | the beams reached within `k` steps are among those reached within `k + 1` |
| Reachability.ReachStep | day16/src/heat_splitter.rs:171 | a successor of a beam reached within `k` steps is reached within `k + 1` |
| Reachability.ClosedHoldsReach | day16/src/heat_splitter.rs:170-179 | a set holding the start and closed under successors holds every reachable beam |
| Reachability.ReachWithin | day16/src/heat_splitter.rs:170-179 | if every successor stays within a set holding the start, so does everything reachable |
| Day16Main.PartOne | day16/src/main.rs:11-18 | `part_one` fails exactly when parsing fails, and is the energy of a beam entering the top-left tile going right |
| Day16Main.RowBeams | day16/src/main.rs:46-67 | one beam per column of a row, all in one direction |
| Day16Main.ColumnBeams | day16/src/main.rs:23-45 | one beam per row of a column, all in one direction |
| Day16Main.CandidatesEnterFromEdge | day16/src/main.rs:23-67 | the four chained ranges hold exactly the beams entering from an edge tile pointing inwards |
| Day16Main.Energies | day16/src/main.rs:23-67 | the energy of every candidate beam, in order |
| Day16Main.ParsedHeight | day16/src/heat_splitter.rs:198-200 | a parsed contraption of positive width has as many rows as the input has lines, at least one |
| Day16Main.PartTwo | day16/src/main.rs:21-71 | `part_two` fails exactly when parsing fails or the width is 0 (the `height()` division), and is the greatest energy over beams entering from an edge, reached by one of them |
| Day17Point.Add | day17/src/point.rs:24-33 | `+` fails exactly when a coordinate overflows `usize`, and is undone by subtracting the offset |
| Day17Point.Sub | day17/src/point.rs:35-44 | `-` fails exactly when the offset exceeds a coordinate, and is undone by adding the offset |
| Day17Point.SubAdd | day17/src/point.rs:24-44 | adding then subtracting an offset gives the point back |
| Day17Point.AddSub | day17/src/point.rs:24-44 | subtracting then adding an offset gives a point within `usize` back |
| Day17Point.Distance | day17/src/point.rs:13-15 | the Manhattan distance is zero exactly between equal points |
| Day17Point.DistanceSymmetric | day17/src/point.rs:13-15 | the distance does not depend on the order of the points |
| Day17Point.DistanceTriangle | day17/src/point.rs:13-15 | the distance obeys the triangle inequality |
| Day17Point.DistanceOfAdd | day17/src/point.rs:13-33 | adding `(dx, dy)` moves a point by distance `dx + dy` |
| Day17Point.At | day17/src/point.rs:46-60 | indexing by a point reads row `y`, column `x` |
| Day17Point.AtFlat | day17/src/point.rs:46-60 | on equal-length rows, indexing by a point agrees with the flat index `y * w + x` |
| Day17Point.AddExample | day17/src/point.rs:66-72 | `(0, 1) + (0, 1)` is `(0, 2)` |
| Day17.ParseDigits | day17/src/dijkstra.rs:22-23 | a line parses exactly when every character is a digit, each giving its value |
| Day17.ParseLines | day17/src/dijkstra.rs:19-25 | the lines parse exactly when every line does |
| Day17.ParseMap | day17/src/dijkstra.rs:16-29 | `parse_map` fails on no lines, a non-digit or a cell count other than width times height (the `assert!`s); otherwise it gives the first line's width, the line count and the digits row by row |
| Day17.RectangleParses | day17/src/dijkstra.rs:16-29 | lines of equal length holding only digits always parse |
| Day17.WeightInRange | day17/src/dijkstra.rs:92 | the flat index of a block on the grid is within the map |
| Day17.Target | day17/src/dijkstra.rs:83-101 | `add_dir(d)` reaches a state of the search heading `d`, with the run one more straight on and zero after a turn |
| Day17.Moves | day17/src/dijkstra.rs:103-123 | at most three moves, each a state of the search |
| Day17.MoveRules | day17/src/dijkstra.rs:83-123 | every move goes one block in its heading and never reverses; straight on adds one to the run and needs a run below `max - 1` or below `min - 1`; a turn needs a run of at least `min - 1` and starts the run at zero |
| Day17.StraightOn | day17/src/dijkstra.rs:104-110 | going straight on is a move whenever the next block is on the grid and the run stays below `max` |
| Day17.TurnTo | day17/src/dijkstra.rs:111-123 | turning to either side is a move once the run has reached `min - 1` |
| Day17.DirIndex | day17/src/dijkstra.rs:45-51 | the four headings are numbered one to one |
| Day17.Space | day17/src/dijkstra.rs:40-56 | `unvis` starts with exactly the states on the grid with a run below `max` |
| Day17.GraphWellFormed | day17/src/dijkstra.rs:40-60 | the start states and every move are states of the search |
| Day17.RouteRules | day17/src/dijkstra.rs:63-123 | each step of a route starts at the top-left block with run 0, follows the transition rules and leaves a block other than the finish |
| Day17.NoMoves | day17/src/dijkstra.rs:43 | with `max` zero a route is a single start state |
| Day17.Lowest | day17/src/dijkstra.rs:38-124 | the search returns exactly when some route reaches an accepted state at the finish, and returns the least heat loss of such a route |
| Day17.Solve | day17/src/dijkstra.rs:31-124 | the search on a parsed map of positive width, with a given least run at the finish |
| Day17.Dijkstra | day17/src/dijkstra.rs:31-124 | `dijkstra(input, min, max)` fails exactly on a bad map or when no route reaches the finish with a run of at least `min`, and otherwise is the least heat loss of such a route |
| Day17.DijkstraIntended | day17/src/dijkstra.rs:75-81 | with the finish accepting a run of `min - 1`, the same count the turn rule uses, the result is the least heat loss of a route ending with at least `min` blocks in one direction |
| Day17.PartOne | day17/src/main.rs:12-14 | `part_one` is the least heat loss with at most three blocks in one direction |
| Day17.PartTwo | day17/src/main.rs:15-17 | `part_two` is `dijkstra(input, 4, 10)` as written: the least heat loss of a route reaching the finish with a run counter of at least 4 |
| Day17.RouteRunBounded | day17/src/dijkstra.rs:57-123 | along any route the run counter heading down is at most the row, and heading right at most the column |
| Day17.FinishRun | day17/src/dijkstra.rs:75-81 | a route reaching the bottom-right block of a grid at least 2 by 2 arrives heading down or right with a run at least two below the height or width |
| Day17.Ones | day17/src/dijkstra.rs:16-29 | a 5 by 5 city of ones |
| Day17.OnesNeverFinishAsWritten | day17/src/dijkstra.rs:75-81 | on a 5 by 5 city with `min` 4 and `max` 10 no route passes the `run >= min` check, so `dijkstra` panics there |
| Day17.OnesFinishIntended | day17/src/dijkstra.rs:75-81 | the route of four blocks right and four down finishes under the intended check at heat loss 8 |
| Day17.OnesPrefix | day17/src/dijkstra.rs:83-123 | every prefix of that route is a route losing one unit per block |
| Day17.OnesStep | day17/src/dijkstra.rs:103-123 | each step of that route is a move from the one before |
| Day17.Extend | day17/src/dijkstra.rs:97 | extending a route by a move adds the weight of the block entered |
| Day17.OnesWeight | day17/src/dijkstra.rs:92-97 | every block of the city of ones weighs 1 |
| ShortestPath.RoutePrefix | day17/src/dijkstra.rs:63-124 | dropping the last state of a route leaves a route whose last state is not stopped and leads to it, costing the weight of that state less |
| ShortestPath.RouteExtend | day17/src/dijkstra.rs:83-101 | a route extends by any move out of a non-stopped last state, adding that move's weight |
| ShortestPath.RouteInSpace | day17/src/dijkstra.rs:40-56 | every route ends in the space of states |
| ShortestPath.FrontierBelow | day17/src/dijkstra.rs:63-124 | any route to an unvisited state passes a frontier state whose known cost is no more than the route's |
| ShortestPath.CheapestExists | day17/src/dijkstra.rs:64-67 | a non-empty frontier has a cheapest entry |
| ShortestPath.CheapestIn | day17/src/dijkstra.rs:64-67 | `min_by_key` over the frontier: an entry no dearer than any other |
| ShortestPath.StartCosts | day17/src/dijkstra.rs:57-60 | the frontier starts with exactly the start states, at cost zero |
| ShortestPath.StartRoutes | day17/src/dijkstra.rs:57-60 | each start state is reached by the route of itself alone |
| ShortestPath.InitialInv | day17/src/dijkstra.rs:38-60 | the search invariant holds before the first iteration |
| ShortestPath.CheapestIsBest | day17/src/dijkstra.rs:64-81 | the cheapest frontier cost is no more than the cost of any route to a goal |
| ShortestPath.EmptyFrontier | day17/src/dijkstra.rs:64-67 | a frontier that runs dry (the `expect` panic) means no route reaches a goal |
| ShortestPath.Take | day17/src/dijkstra.rs:68-81 | settling the cheapest state keeps the invariant except for relaxing its moves, and shrinks the unvisited set |
| ShortestPath.Lower | day17/src/dijkstra.rs:95-98 | lowering a move's known cost to the cost through the settled state keeps the invariant |
| ShortestPath.Relax | day17/src/dijkstra.rs:96-97 | `or_insert(usize::MAX)` then `min`: the entry is at most the new cost and the old one, and no other entry changes |
| ShortestPath.RelaxStep | day17/src/dijkstra.rs:83-101 | one `add_dir` call relaxes one more move |
| ShortestPath.RelaxLower | day17/src/dijkstra.rs:95-98 | an improving relaxation keeps the relaxed prefix relaxed |
| ShortestPath.RelaxedPrefix | day17/src/dijkstra.rs:107-123 | moves relaxed before stay relaxed when costs only fall |
| ShortestPath.AllRelaxed | day17/src/dijkstra.rs:107-123 | once every move of the settled state is relaxed, the full invariant holds again |
| ShortestPath.Expand | day17/src/dijkstra.rs:83-123 | relaxing all moves of the settled state restores the invariant |
| ShortestPath.Search | day17/src/dijkstra.rs:63-124 | the main loop returns the least cost of a route to a goal, and none exactly when no such route exists |
| Day18.Area | day18/src/lagoon.rs:17-36 | the lagoon's size by Pick's theorem, whichever way the edge runs: never negative, and at least 1 from three vertices on |
| Day18.ChainManhattanNonNegative | day18/src/lagoon.rs:29 | trench lengths along the windows never sum below zero |
| Day18.PerimeterNonNegative | day18/src/lagoon.rs:29-34 | the perimeter is never negative |
| Day18.ChainTerm | day18/src/lagoon.rs:24-31 | the summed window terms split into the shoelace part and the perimeter part |
| Day18.AreaAsWritten | day18/src/lagoon.rs:17-36 | `Lagoon::area` as written: fewer than three corners give 0 (the early return); for three or more its value is characterised by `AreaAsWrittenIs` |
| Day18.AreaAsWrittenIs | day18/src/lagoon.rs:24-35 | the as-written area is half of shoelace plus perimeter, plus one: the closing term of lines 32-34 is the edge from the last vertex back to the first |
| Day18.AsWrittenAgrees | day18/src/lagoon.rs:17-36 | when the edge runs clockwise on screen (non-negative shoelace) the as-written area is the true area |
| Day18.ChainAppend | day18/src/lagoon.rs:26 | appending a vertex adds one window |
| Day18.ClosedRotate | day18/src/lagoon.rs:24-34 | a sum over the closed polygon does not depend on which vertex comes first |
| Day18.AreaRotate | day18/src/lagoon.rs:17-36 | both areas are the same from whichever vertex the plan starts |
| Day18.ChainReverse | day18/src/lagoon.rs:26-30 | walking the windows backwards negates an antisymmetric summand and keeps a symmetric one |
| Day18.ClosedReverse | day18/src/lagoon.rs:24-34 | the same over the closed polygon |
| Day18.AreaReverse | day18/src/lagoon.rs:17-36 | walking the plan backwards negates the shoelace sum and keeps the perimeter and the true area |
| Day18.Shift | day18/src/lagoon.rs:41-77 | every vertex moved by the same offset |
| Day18.CrossShift | day18/src/lagoon.rs:28 | how one shoelace term changes when both vertices move by an offset |
| Day18.CrossAdd | day18/src/lagoon.rs:28 | the offset part of consecutive terms telescopes |
| Day18.ChainCrossShift | day18/src/lagoon.rs:24-31 | moving every vertex changes the open shoelace chain only by a term of its ends |
| Day18.ChainManhattanShift | day18/src/lagoon.rs:29 | moving every vertex keeps the trench lengths |
| Day18.ShoelaceShift | day18/src/lagoon.rs:24-34 | moving every vertex keeps the closed shoelace sum |
| Day18.AreaShift | day18/src/lagoon.rs:17-36 | the area does not depend on where the plan starts digging |
| Day18.ChainCons | day18/src/lagoon.rs:26 | putting a vertex in front adds one window |
| Day18.ChainConcat | day18/src/lagoon.rs:26 | the windows of two joined lists are those of each plus the one across the join |
| Day18.Chain4 | day18/src/lagoon.rs:26 | four vertices have three windows |
| Day18.Chain6 | day18/src/lagoon.rs:26 | six vertices have five windows |
| Day18.Chain7 | day18/src/lagoon.rs:26 | seven vertices have six windows |
| Day18.RectangleArea | day18/src/lagoon.rs:124-132 | a `w` by `h` rectangle listed clockwise has area `(w + 1) * (h + 1)` under both definitions, as the first test expects (9 for 2 by 2); listed anticlockwise its true area is the same |
| Day18.TestAreaL | day18/src/lagoon.rs:134-148 | the L-shaped test polygon has area 8 |
| Day18.TestAreaLarge | day18/src/lagoon.rs:150-179 | the fourteen-vertex test polygon has area 62 |
| Day18.Advance | day18/src/lagoon.rs:96-103 | one move digs `|count|` metres along its heading, keeping the other coordinate |
| Day18.Walk | day18/src/lagoon.rs:76-106 | one vertex per move |
| Day18.WalkAt | day18/src/lagoon.rs:96-105 | each vertex is the previous one, or the origin, advanced by its move |
| Day18.ChainWalk | day18/src/lagoon.rs:96-105 | the open trench along the vertices is the dug length less the first move |
| Day18.ClosedPlanPerimeter | day18/src/lagoon.rs:17-36 | for a plan returning to the origin, the perimeter is the total length dug |
| Day18.AnticlockwiseWalk | day18/src/lagoon.rs:96-105 | the plan `D a, R a, U a, L a` visits the square's corners anticlockwise |
| Day18.AnticlockwiseSquare | day18/src/lagoon.rs:17-36 | for that plan `area` as written gives `1 + 2a - a^2` (1 for `a = 2`) while the lagoon holds `(a + 1)^2` blocks (9) |
| Day18.HeadingText | day18/src/lagoon.rs:97-101 | each heading has a one-letter word that reads back as it |
| Day18.ParseMove | day18/src/lagoon.rs:79-103 | a line of `from_str` parses exactly when it has three fields, an integer distance and a heading `U`, `D`, `L` or `R`, and gives that heading and distance |
| Day18.NatWord | day18/src/lagoon.rs:83-87 | a printed natural number is one word and parses back to itself |
| Day18.ParseMoveLine | day18/src/lagoon.rs:79-103 | printing a move with a colour and parsing it gives the move back |
| Day18.CodeOf | day18/src/lagoon.rs:55-61 | each heading has a direction digit that reads back as it |
| Day18.ParseHexDigit | day18/src/lagoon.rs:51 | `u8::from_str_radix` on one character succeeds exactly on a hex digit, with its value |
| Day18.ParseHash | day18/src/lagoon.rs:48-61 | the colour code decodes exactly when it is `#`, five hex digits of distance and a direction digit from 0 to 3 |
| Day18.HashMove | day18/src/lagoon.rs:43-61 | a line of `from_hashes` fails without a third field and otherwise decodes that field with its brackets trimmed |
| Day18.HashCode | day18/src/lagoon.rs:48 | the code of a move has seven characters |
| Day18.ParseHashCode | day18/src/lagoon.rs:48-61 | encoding a move in a colour code and decoding it gives the move back |
| Day18.HashFieldTrim | day18/src/lagoon.rs:47 | trimming the brackets off the colour field gives the code |
| Day18.HashFieldRoundTrip | day18/src/lagoon.rs:38-64 | a line whose third field encodes a move decodes to that move |
| Day18.ParseMoves | day18/src/lagoon.rs:78-106 | all lines parse, in order, or the plan fails |
| Day18.HashMoves | day18/src/lagoon.rs:42-64 | all lines decode, in order, or the plan fails |
| Day18.ParseMovesOf | day18/src/lagoon.rs:78-106 | lines that each parse to the matching move give exactly those moves |
| Day18.HashMovesOf | day18/src/lagoon.rs:42-64 | lines whose colours each decode to the matching move give exactly those moves |
| Day18.FromStr | day18/src/lagoon.rs:74-111 | `from_str` fails exactly when some line fails, with one vertex per line |
| Day18.FromHashes | day18/src/lagoon.rs:38-68 | `from_hashes` fails exactly when some line fails, with one vertex per line |
| Day18.PartOne | day18/src/main.rs:15-18 | `part_one` fails exactly when some line fails; on a clockwise plan it is the lagoon's size |
| Day18.PartTwo | day18/src/main.rs:19-23 | `part_two` fails exactly when some colour code fails; on a clockwise plan it is the lagoon's size |
| Day18.PartOneOf | day18/src/main.rs:15-18 | `part_one` is the as-written area of the walk of the parsed moves, and the true size when that walk runs clockwise |
| Day18.PartTwoOf | day18/src/main.rs:19-23 | `part_two` is the as-written area of the walk of the decoded moves, and the true size when that walk runs clockwise |
| Day19Part.CategoryName | day19/src/part.rs:32-37 | each category's key is one letter |
| Day19Part.CategoryOf | day19/src/part.rs:32-37 | a key names a category exactly when it is that category's letter `x`, `m`, `a` or `s`; any other key is rejected |
| Day19Part.CategoryNameRoundTrip | day19/src/part.rs:32-37 | the key of a category reads back as that category |
| Day19Part.ParseField | day19/src/part.rs:27-38 | one `key=value` pair parses exactly when it has an `=`, its trimmed value is a number and its trimmed key is a category, and gives that category and number |
| Day19Part.Assign | day19/src/part.rs:19-36 | collecting the pairs fails exactly when a category repeats; otherwise every category given holds its value and no other is set |
| Day19Part.FieldsExtend | day19/src/part.rs:27-39 | adding one pair adds its category to the keys, and keeps the list free of repeats exactly when the category is new |
| Day19Part.PartFrom | day19/src/part.rs:41-46 | with all four categories set, the part carries each set value |
| Day19Part.PartOf | day19/src/part.rs:19-46 | the pairs make a part exactly when no category repeats and all four are present, and each rating is the value given for it |
| Day19Part.ParsePart | day19/src/part.rs:16-47 | `Part::from_str` succeeds exactly when every pair parses, no category repeats and none is missing, and the part holds the values given |
| Day19Part.ParseFieldOf | day19/src/part.rs:27-38 | a trimmed pair of a category letter and a trimmed number parses to them |
| Day19Part.ParseFieldText | day19/src/part.rs:27-38 | printing `c=n` and parsing it gives `c` and `n` back |
| Day19Part.FieldTextParts | day19/src/part.rs:27-32 | a printed pair splits at its `=` into the key and the digits, with nothing to trim |
| Day19Part.FieldTextShape | day19/src/part.rs:17-27 | a printed pair holds no comma and neither starts nor ends with a brace |
| Day19Part.TrimPartText | day19/src/part.rs:17 | trimming the braces off a printed part leaves its pairs joined by commas |
| Day19Part.SplitPartText | day19/src/part.rs:17-27 | splitting that at commas gives the printed pairs |
| Day19Part.FieldsOfText | day19/src/part.rs:27-39 | the pairs of a printed part parse to its four categories and ratings, in order |
| Day19Part.PartOfFields | day19/src/part.rs:19-46 | those four pairs make the part back |
| Day19Part.PartTextRoundTrip | day19/src/part.rs:16-47 | printing a part as `{x=..,m=..,a=..,s=..}` and parsing it gives the part back |
| Day19Workflow.ApplyRules | day19/src/workflow.rs:148-155 | `Workflow::apply` gives the action of the first rule that matches the part, and the fallback when none matches |
| Day19Workflow.NoneMatchShift | day19/src/workflow.rs:149-153 | when the first rule does not match, "no rule before `k` matches" means the same for the rules after it |
| Day19Workflow.With | day19/src/workflow.rs:83-90 | replacing one category's range sets that range and keeps the other three |
| Day19Workflow.InBoxGet | day19/src/workflow.rs:157-164 | a part lies in a box of ranges exactly when each rating lies in its category's range |
| Day19Workflow.Rearrange | day19/src/workflow.rs:172-175 | the product of the four range sizes can be regrouped around any one of them |
| Day19Workflow.Distribute | day19/src/workflow.rs:177 | two counts over the same other three ranges add as their sizes do |
| Day19Workflow.VolumeAround | day19/src/workflow.rs:172-175 | a box's count is the size of one category's range times the other three, which replacing that range does not change |
| Day19Workflow.VolumeSplit | day19/src/workflow.rs:168-177 | splitting one range into sizes adding up to it splits the box's count the same way |
| Day19Workflow.SplitHelper | day19/src/workflow.rs:93-106 | `split_helper` fails exactly on `<0`, where `value - 1` underflows |
| Day19Workflow.SplitRanges | day19/src/workflow.rs:76-91 | `split_ranges` fails exactly when `split_helper` does, and leaves the three other categories' ranges alone in both boxes |
| Day19Workflow.SizeAsWritten | day19/src/workflow.rs:172-190 | `hi - lo + 1` fails exactly when the range is written backwards, and otherwise is its size |
| Day19Workflow.VolumeAsWritten | day19/src/workflow.rs:172-190 | the product of the four sizes fails exactly when some range is backwards, and otherwise is the number of combinations in the box |
| Day19Workflow.SplitHelperPartition | day19/src/workflow.rs:93-106 | with the value strictly inside the range, the sent and kept ranges are non-empty, do not overlap, cover the range, and the sent one holds exactly the matching ratings |
| Day19Workflow.Below | day19/src/workflow.rs:97-102 | the part of a range at or below a cut |
| Day19Workflow.Above | day19/src/workflow.rs:97-102 | the part of a range above a cut |
| Day19Workflow.SizeCut | day19/src/workflow.rs:93-106 | the two parts of a cut range add up to its size |
| Day19Workflow.Sent | day19/src/workflow.rs:93-106 | the clipped sent range holds exactly the ratings of the range that match the rule |
| Day19Workflow.Kept | day19/src/workflow.rs:93-106 | the clipped kept range holds exactly the ratings of the range that do not match |
| Day19Workflow.SentKeptSize | day19/src/workflow.rs:93-106 | the sent and kept parts add up to the range's size |
| Day19Workflow.SplitHelperClipped | day19/src/workflow.rs:93-106 | when the cut lies in the range, `split_helper` as written gives the clipped split |
| Day19Workflow.SplitBoxMembers | day19/src/workflow.rs:76-91 | the clipped sent box holds exactly the parts of the box that the rule matches, and the kept box the others |
| Day19Workflow.SplitBoxVolume | day19/src/workflow.rs:76-91 | the two clipped boxes' counts add up to the box's count |
| Day19Workflow.CountWithinVolume | day19/src/workflow.rs:157-202 | the clipped count of accepted combinations in a box is never more than the box holds |
| Day19Workflow.CountRulesWithinVolume | day19/src/workflow.rs:167-201 | the same for a list of rules and its fallback |
| Day19Workflow.MulMono | day19/src/workflow.rs:172-175 | a product does not grow when its factors shrink |
| Day19Workflow.VolumeMono | day19/src/workflow.rs:172-175 | a box inside another holds no more combinations |
| Day19Workflow.SplitCovers | day19/src/workflow.rs:76-106 | the as-written split of a box covers the clipped split of any box inside it |
| Day19Workflow.EvalActionCovers | day19/src/workflow.rs:170-199 | where `eval_range` as written succeeds on a box, the clipped count of any box inside it succeeds and is no larger |
| Day19Workflow.EvalRulesCovers | day19/src/workflow.rs:167-201 | the same for a list of rules and its fallback |
| Day19Workflow.EvalRangeCovers | day19/src/workflow.rs:157-202 | `eval_range` as written never counts fewer combinations than the clipped count |
| Day19Workflow.OverlapCounts | day19/src/workflow.rs:93-106 | for `in{x<20:w,R}` and `w{x>30:R,A}` `eval_range` as written counts `30 * 4000^3` combinations, the clipped count `19 * 4000^3` |
| Day19Workflow.ParseComparison | day19/src/workflow.rs:14-24 | `<` and `>` read as their comparisons and every other text is rejected |
| Day19Workflow.ParseAction | day19/src/workflow.rs:33-43 | every text is an action: `A` and `R` accept and reject, any other is a move to the workflow of that name |
| Day19Workflow.ActionRoundTrip | day19/src/workflow.rs:33-43 | an action that is not a move to `A` or `R` reads back from its text |
| Day19Workflow.ParseRule | day19/src/workflow.rs:109-138 | `Rule::from_str` fails without a `:`, and otherwise succeeds exactly when the condition has three or more characters, a comparison second, a number after it and a category first, and holds those and the action after the `:` |
| Day19Workflow.ParseRuleOf | day19/src/workflow.rs:109-138 | a condition and action of that shape parse to that rule |
| Day19Workflow.RuleRoundTrip | day19/src/workflow.rs:109-138 | printing a rule as `x<1416:A` and parsing it gives the rule back |
| Day19Workflow.LeadingRules | day19/src/workflow.rs:218-220 | `take_while` keeps the longest prefix of items holding a `:` |
| Day19Workflow.LeadingRulesOf | day19/src/workflow.rs:218-220 | rule texts followed by an item without `:` are taken whole |
| Day19Workflow.ParseWorkflow | day19/src/workflow.rs:205-229 | `Workflow::from_str` fails without a `{`, and otherwise succeeds exactly when the leading rule items all parse, giving the name before the `{`, those rules and the last item as the fallback |
| Day19Workflow.RuleTexts | day19/src/workflow.rs:218-222 | the printed rules, one per rule |
| Day19Workflow.RuleTextShape | day19/src/workflow.rs:218-220 | a printed rule holds a `:` and no comma |
| Day19Workflow.SplitWorkflowText | day19/src/workflow.rs:209 | a printed workflow splits at its `{` into its name and its items |
| Day19Workflow.ItemsOf | day19/src/workflow.rs:213-220 | splitting the items at commas gives them back, and the leading rule items are the printed rules |
| Day19Workflow.RulesRoundTrip | day19/src/workflow.rs:218-222 | the printed rules all parse back to the rules |
| Day19Workflow.ParseBody | day19/src/workflow.rs:212-228 | the items after the `{` give a workflow exactly when every leading item holding a `:` parses as a rule; it keeps the name, those rules in order and the action of the last item as its fallback |
| Day19Workflow.ParseWorkflowIs | day19/src/workflow.rs:209-228 | once trimming the `}`s and splitting at the first `{` succeeds, the line parses as its name with the items after the `{` |
| Day19Workflow.ParseBodyOf | day19/src/workflow.rs:212-228 | items whose last one reads as the fallback and whose leading rule items parse to the rules build that workflow |
| Day19Workflow.ParseWorkflowOf | day19/src/workflow.rs:205-229 | a line of that shape parses to that workflow |
| Day19Workflow.WorkflowRoundTrip | day19/src/workflow.rs:205-229 | printing a workflow as `px{a<2006:qkq,m>2090:A,rfg}` and parsing it gives it back |
| Day19Ranges.PointsMember | day19/src/workflow.rs:157-164 | a part is one of a box's points with a property exactly when it lies in the box and has the property |
| Day19Ranges.PointsAgree | day19/src/workflow.rs:157-164 | properties that agree inside a box pick the same points |
| Day19Ranges.PointsNone | day19/src/workflow.rs:179-193 | a property no part of the box has picks no point |
| Day19Ranges.PointsCut | day19/src/workflow.rs:167-187 | cutting one range into two disjoint pieces cuts the points into two disjoint sets |
| Day19Ranges.ExtentAround | day19/src/workflow.rs:172-175 | replacing one range changes the sum of sizes by the change of that range |
| Day19Ranges.PointsEmpty | day19/src/workflow.rs:172-175 | a box with an empty range has no point and counts 0 |
| Day19Ranges.PointsSingle | day19/src/workflow.rs:172-175 | a box of one combination has one point and counts 1 |
| Day19Ranges.Wide | day19/src/workflow.rs:172-175 | a box of more than one combination has a range of two or more |
| Day19Ranges.PointsAll | day19/src/workflow.rs:171-191 | when every part of a box has the property, the box's count is the number of its points |
| Day19Ranges.InBoxCut | day19/src/workflow.rs:168-169 | narrowing one range keeps the box inside the old one |
| Day19Ranges.CountActionAccepted | day19/src/workflow.rs:170-199 | the clipped count from an action is the number of parts of the box that following that action accepts |
| Day19Ranges.CountMoveAccepted | day19/src/workflow.rs:170-199 | the clipped count of a box sent to a workflow is the number of its combinations that workflow goes on to accept |
| Day19Ranges.CountRulesAccepted | day19/src/workflow.rs:167-201 | the clipped count of a list of rules is the number of parts of the box that the rules and fallback accept |
| Day19Ranges.CountAccepted | day19/src/workflow.rs:157-202 | the clipped count of a workflow is the number of parts of the box that running the workflows from it accepts |
| Day19.FindWorkflow | day19/src/main.rs:62-65 | `find` gives the first workflow of the name, and nothing when no workflow has it |
| Day19.FirstByName | day19/src/main.rs:62-65 | the workflows `execute` can reach by name: a name is there exactly when some workflow has it, holding the first such |
| Day19.LastByName | day19/src/main.rs:45-49 | the `HashMap` built by `insert`: every name of the list is there, each holding a workflow of the list with that name, the last one |
| Day19.LastByNameStep | day19/src/main.rs:46-48 | one more `insert` keeps those facts for the longer list |
| Day19.FirstLastName | day19/src/main.rs:45-51 | with distinct names the first and the last workflow of a name are the same |
| Day19.FirstLastAgree | day19/src/main.rs:45-51 | with distinct names `find` and the `HashMap` give the same workflows |
| Day19.Execute | day19/src/main.rs:57-70 | `execute` follows the moves from the starter's action until a part is accepted or rejected, failing on a missing workflow or more than `fuel` moves |
| Day19.FollowMore | day19/src/main.rs:60-67 | more fuel does not change a finished walk |
| Day19.Divide | day19/src/main.rs:20-22 | the input splits at its first blank line, and fails when there is none |
| Day19.ParseWorkflows | day19/src/main.rs:23-26 | the workflow lines parse exactly when each does, to one workflow per line in order |
| Day19.ParseParts | day19/src/main.rs:29-32 | the part lines parse exactly when each does, to one part per line in order |
| Day19.GainsBy | day19/src/main.rs:34-38 | each part adds its four ratings when accepted and nothing otherwise |
| Day19.Gains | day19/src/main.rs:34-38 | the same for following the workflows from the starter |
| Day19.ScoreOk | day19/src/main.rs:34-38 | the sum fails exactly when following the workflows fails for some part |
| Day19.ScoreByOk | day19/src/main.rs:34-38 | the same for any way of deciding parts |
| Day19.GainDefined | day19/src/main.rs:34-38 | one step of the sum fails exactly when the sum so far or the part's outcome does |
| Day19.ScoreValue | day19/src/main.rs:34-38 | the sum is the total of the accepted parts' ratings |
| Day19.ScoreByValue | day19/src/main.rs:34-38 | the same for any way of deciding parts |
| Day19.GainsByFront | day19/src/main.rs:34-38 | one more part adds one more gain at the end |
| Day19.ScoreStep | day19/src/main.rs:34-38 | one more part adds its ratings to the sum exactly when it is accepted |
| Day19.GainOk | day19/src/main.rs:34-38 | an accepted part adds its ratings and a rejected one nothing |
| Day19.SumAccepted | day19/src/main.rs:34-38 | the loop over the parts computes that sum |
| Day19.PartOne | day19/src/main.rs:19-39 | `part_one` fails exactly when the input has no blank line, a workflow or part line fails, there is no `in` workflow or some part's walk fails; otherwise it is the summed ratings of the accepted parts |
| Day19.WorkflowMap | day19/src/main.rs:45-49 | the insertion loop builds the map of last workflows by name |
| Day19.Table | day19/src/main.rs:42-49 | the workflow lines of part two parse exactly when the input has a blank line and each line before it parses |
| Day19.PartTwoClipped | day19/src/main.rs:41-55 | `part_two` with the clipped split: the number of combinations from `1..=4000` that the workflows from `in` accept |
| Day19.PartTwo | day19/src/main.rs:41-55 | `part_two` as written: `eval_range` of `in` on `1..=4000` in every category, never below the number of accepted combinations |
| Day19.PartTwoCountsExecute | day19/src/main.rs:19-70 | with distinct names the clipped part two counts exactly the combinations that `execute` of part one accepts |
| Day19Sample.CountRulesEnd | day19/src/workflow.rs:188-200 | with no rules left the clipped count is the fallback's |
| Day19Sample.CountRulesStep | day19/src/workflow.rs:167-187 | one rule adds what it sends to what the rest counts, clipped |
| Day19Sample.CountMoveStep | day19/src/workflow.rs:180-185 | a move counts what the named workflow counts |
| Day19Sample.EvalRulesEnd | day19/src/workflow.rs:188-200 | with no rules left `eval_range` as written is the fallback's |
| Day19Sample.EvalRulesStep | day19/src/workflow.rs:167-187 | one rule adds what it sends to what the rest counts, as written |
| Day19Sample.EvalMoveStep | day19/src/workflow.rs:180-185 | a move counts what the named workflow counts, as written |
| Day19Sample.SampleCrn | day19/src/main.rs:77-87 | the clipped count through `crn` on its box in the sample |
| Day19Sample.SampleQkq | day19/src/main.rs:77-87 | the clipped count through `qkq` |
| Day19Sample.SampleGd | day19/src/main.rs:77-87 | `gd` accepts nothing |
| Day19Sample.SampleRfgRest | day19/src/main.rs:77-87 | the clipped count of `rfg` after its first rule |
| Day19Sample.SampleRfg | day19/src/main.rs:77-87 | the clipped count through `rfg` |
| Day19Sample.SamplePxRest | day19/src/main.rs:77-87 | the clipped count of `px` after its first rule |
| Day19Sample.SamplePx | day19/src/main.rs:77-87 | the clipped count through `px` |
| Day19Sample.SampleLnx | day19/src/main.rs:77-87 | the clipped count through `lnx` |
| Day19Sample.SampleQs | day19/src/main.rs:77-87 | the clipped count through `qs` |
| Day19Sample.SamplePv | day19/src/main.rs:77-87 | the clipped count through `pv` |
| Day19Sample.SampleHdj | day19/src/main.rs:77-87 | the clipped count through `hdj` |
| Day19Sample.SampleQqzRest | day19/src/main.rs:77-87 | the clipped count of `qqz` after its first rule |
| Day19Sample.SampleQqz | day19/src/main.rs:77-87 | the clipped count through `qqz` |
| Day19Sample.SampleCount | day19/src/main.rs:100-103 | the sample workflows accept 167409079868000 combinations, as `part_two_basic` expects |
| Day19Sample.WrittenCrn | day19/src/main.rs:77-87 | `eval_range` as written through `crn` gives the same as the clipped count |
| Day19Sample.WrittenQkq | day19/src/main.rs:77-87 | the same through `qkq` |
| Day19Sample.WrittenGd | day19/src/main.rs:77-87 | the same through `gd` |
| Day19Sample.WrittenRfgRest | day19/src/main.rs:77-87 | the same for `rfg` after its first rule |
| Day19Sample.WrittenRfg | day19/src/main.rs:77-87 | the same through `rfg` |
| Day19Sample.WrittenPxRest | day19/src/main.rs:77-87 | the same for `px` after its first rule |
| Day19Sample.WrittenPx | day19/src/main.rs:77-87 | the same through `px` |
| Day19Sample.WrittenLnx | day19/src/main.rs:77-87 | the same through `lnx` |
| Day19Sample.WrittenQs | day19/src/main.rs:77-87 | the same through `qs` |
| Day19Sample.WrittenPv | day19/src/main.rs:77-87 | the same through `pv` |
| Day19Sample.WrittenHdj | day19/src/main.rs:77-87 | the same through `hdj` |
| Day19Sample.WrittenQqzRest | day19/src/main.rs:77-87 | the same for `qqz` after its first rule |
| Day19Sample.WrittenQqz | day19/src/main.rs:77-87 | the same through `qqz` |
| Day19Sample.WrittenCount | day19/src/main.rs:100-103 | `part_two` as written also gives 167409079868000 on the sample: its splits never leave a range |
| Day19Sample.SamplePart0 | day19/src/main.rs:89 | the first sample part is accepted |
| Day19Sample.SamplePart1 | day19/src/main.rs:90 | the second is rejected |
| Day19Sample.SamplePart2 | day19/src/main.rs:91 | the third is accepted |
| Day19Sample.SamplePart3 | day19/src/main.rs:92 | the fourth is rejected |
| Day19Sample.SamplePart4 | day19/src/main.rs:93 | the fifth is accepted |
| Day19Sample.SampleRun | day19/src/main.rs:57-70 | the runner of the sample gives each part's walk |
| Day19Sample.SampleScoreBy | day19/src/main.rs:34-38 | accepting the first, third and fifth parts sums to 19114 |
| Day19Sample.SampleScore | day19/src/main.rs:96-99 | the sample parts sum to 19114, as `part_one_basic` expects |
| Day19Sample.SampleAccepted | day19/src/main.rs:100-103 | 167409079868000 sample combinations are accepted by following the workflows part by part |

## Left out

- `main`, `include_str!` and `println!` in every day are input and output; each part is modelled as a function or method of the input text.
- The text of `anyhow` errors, `expect` messages and panics is not modelled; each becomes `Err` or `None`.
- Integers are unbounded. Overflow of `usize`, `u64` or `u32` additions and products is not modelled.
- A subtraction that underflows an unsigned value is modelled as a failure, as in a debug build. Examples: day6 `time - 2 * margin + 1`, day12 `space_remaining - space_needed`, day19 `value - 1` and `hi - lo + 1`. The wrap-around of a release build is not modelled.
- Strings are sequences of characters, and each character stands for one byte. Byte-indexed slicing and byte lengths are modelled on characters, which agrees with the Rust only on ASCII input. This covers day13 line lengths, day15 `as_bytes`, day18 `hash[1..6]` and day19 `cond[1..2]`.
- `HashMap` and `HashSet` are Dafny `map` and `set`; iteration order and hashing cost are not modelled.
- day17 `min_by_key` over the frontier picks any cheapest entry. The result is proved the same whichever entry it picks.
- Day08.PartOne: takes a `fuel` bound on steps. The Rust loops forever on a network that never reaches `ZZZ`; the model fails when the fuel runs out. `Day08.WalkFromComplete` shows that enough fuel reaches the first arrival.
- Day10.PartOne: takes a `fuel` bound on the walk. The value is stated for a start on a closed loop (`Day10.PartOneOnLoop`); otherwise only its lower bound is stated.
- Day10.PartTwo: takes a `fuel` bound on the marking walk. Its count is stated as "any answer is ..." for a start on a closed loop (`Day10.PartTwoOnLoop`), without a statement of how much fuel suffices.
- Day14Main.PartTwo: the search for a repeated platform takes a `limit` on spins, and failing to find a repeat within it is a failure. The Rust searches without a bound. Any answer is proved to be the load after a billion spins.
- Day19.PartOne, Day19.PartTwo, Day19.PartTwoClipped: chains of `Move`s are followed at most as many times as there are workflows. A chain longer than that revisits a workflow and loops forever in the Rust; the model reports it as a failure.
- Day19.PartTwo: its value is stated as `eval_range` as written and bounded below by the clipped count. The as-written count is not given a closed form.
- Day18.AreaAsWritten: its own contract states only the early return for fewer than three corners. Its value for three or more corners is stated by `Day18.AreaAsWrittenIs`, because as a postcondition that equation makes the worked polygon examples too expensive to verify.
- Day12.CombinationsAreArrangements: covers positive runs only. A run of length 0 makes `combo_rec` fill nothing, and the model does not relate that case to arrangements.
- Day13.PartOne and Day13.PartTwo are `Summarize` with budgets 0 and 1; their contracts are those of `Day13.Summarize`.
- day17 counts the start leg's first block as run 1 but every later leg's first block as run 0. The model follows this as written. Only the finish check is listed as a finding.
- day17 `dijkstra.rs:70-73` prints progress, which is output. `Display for Point` (`point.rs:18-22`) is not modelled.
- day11 and day12 `part_two` return 0 and compute nothing; they are not modelled.
- day5 `part_one` is not part of this model, and neither is `almanac.rs`. Only `almanac2.rs` and `part_two` are modelled.
- `default/src/main.rs` is an empty template and is not modelled.
- Most test answers computed from the literal test inputs are not restated as lemmas. Evaluating the parsers over those strings is beyond what the verifier can do at reasonable cost. The omitted answers are:
  - day3: the sample's ten numbers and 4361;
  - day5: 46;
  - day7: the hand-kind and ordering tests, and 6440, 5905 and 6839;
  - day9: 114 and 2;
  - day10: 4, 4 and 8, and 1, 1 and 4;
  - day11: 374;
  - day12: the counts 1, 4, 1, 1, 4, 10 and 19, 4, 2, 4;
  - day13: 405 and 400;
  - day14: 136, the three-spin grid and 64;
  - day15: 1320 and 145;
  - day16: 46 and 51;
  - day17: 102 and 94;
  - day18: 62 and 952408144115 from the puzzle text.
  The lemmas that are kept state answers over already-parsed data: day4 13 and 30, day6 288 and 71503, day8 2 and 6, day15 `HASH` = 52, the three day18 polygons, and day19 19114 and 167409079868000.

## Findings

| source | as written | input that shows it | evidently intended | confidence | as-written member | corrected member |
|---|---|---|---|---|---|---|
| day3/src/schematic.rs:43-57 | the rectangle around a number is `n.to_string().len()` columns wide, which is shorter than its digit run when the run has leading zeros | the row `0012*`: 12 is next to `*` but is not summed | the rectangle spans the number's whole digit run | not executed | Day03.PartOne, Day03.LeadingZerosAsWritten | Day03.PartOneIntended, Day03.PrintedWidthAgrees |
| day6/src/main.rs:74-81 | the search stops at the first hold whose distance reaches the record (`<`), and a hold that only ties the record does not win | time 7, record 10: gives 4, but only holds 3 and 4 beat 10, so 2 | stop at the first hold that beats the record, as `winning_races` counts | not executed | Day06.PartTwo, Day06.WinningRacesTwoAsWritten, Day06.TieCountsTwoTooMany | Day06.WinningRacesTwo, Day06.WinningRacesTwoCounts |
| day12/src/condition.rs:70-79 | with no cells left, the check of the rest returns 1 even when runs are still to place | the line ` 1`, an empty row with one run of 1: counts 1, though no arrangement exists | 0 when runs remain and no cells are left | not executed | Day12.LineCount, Day12.EmptyRowAsWritten | Day12.Combinations, Day12.CombinationsAreArrangements |
| day17/src/dijkstra.rs:75-81 | the finish needs a run counter of at least `min`, but after a turn the counter is one less than the blocks moved, so the last leg needs `min + 1` blocks | a 5 by 5 grid of 1s with `min` 4, `max` 10: no state passes the finish check and the `expect` on the empty frontier panics | the finish needs `min` blocks in one direction, a counter of `min - 1` as in the turn rule; that route costs 8 | not executed | Day17.PartTwo, Day17.OnesNeverFinishAsWritten | Day17.DijkstraIntended, Day17.OnesFinishIntended |
| day18/src/lagoon.rs:17-36 | half the signed shoelace sum plus half the perimeter plus one, which is the lagoon's size only when the trench runs clockwise on screen | the plan `D 2, R 2, U 2, L 2`: gives 1, though the lagoon holds 9 blocks | the absolute value of the shoelace sum, whichever way the trench runs | not executed | Day18.PartOne, Day18.AreaAsWritten, Day18.AnticlockwiseSquare | Day18.Area, Day18.AsWrittenAgrees |
| day19/src/workflow.rs:93-106 | `split_helper` cuts at the rule's value without clipping the sent and kept ranges to the incoming range | `in{x<20:w,R}` and `w{x>30:R,A}`: counts `30 * 4000^3` combinations, though only `x` below 20 is accepted, `19 * 4000^3` | clip both ranges to the incoming range | not executed | Day19.PartTwo, Day19Workflow.OverlapCounts | Day19.PartTwoClipped, Day19Ranges.CountAccepted, Day19Workflow.EvalRangeCovers |

=== FILE: day01_trebuchet.dfy ===
/** Day 1: the calibration value of a line is the two-digit number formed by
    its first and its last ASCII digit (the same digit twice when there is only
    one); the answer is the sum over all lines. */
module Day01 {
  import opened Wrappers
  import opened Text
  import Seqs

  predicate HasDigit(line: string) {
    exists i :: 0 <= i < |line| && IsDigit(line[i])
  }

  /** `Iterator::find(char::is_ascii_digit)` from the front. */
  function FindDigit(s: string): (r: Option<nat>)
    ensures r.None? <==> !HasDigit(s)
    ensures r.Some? ==> r.value < |s| && IsDigit(s[r.value])
                        && forall k :: 0 <= k < r.value ==> !IsDigit(s[k])
  {
    if |s| == 0 then None
    else if IsDigit(s[0]) then Some(0)
    else
      match FindDigit(s[1..])
      case None =>
        assert forall k :: 1 <= k < |s| ==> s[k] == s[1..][k - 1];
        None
      case Some(i) => Some(i + 1)
  }

  /** `rev().find(char::is_ascii_digit)`: the digit closest to the end. */
  function FindLastDigit(s: string): (r: Option<nat>)
    ensures r.None? <==> !HasDigit(s)
    ensures r.Some? ==> r.value < |s| && IsDigit(s[r.value])
                        && forall k :: r.value < k < |s| ==> !IsDigit(s[k])
  {
    if |s| == 0 then None
    else if IsDigit(s[|s| - 1]) then Some(|s| - 1)
    else
      match FindLastDigit(s[..|s| - 1])
      case None =>
        assert forall k :: 0 <= k < |s| - 1 ==> s[k] == s[..|s| - 1][k];
        None
      case Some(i) => Some(i)
  }

  /** `calibrate`: the first digit is taken from the front, then the last
      digit is searched for only among the characters after it, falling back
      to the first digit.  A line without a digit is a panic (`None`). */
  function Calibrate(line: string): (r: Option<nat>)
    ensures r.None? <==> !HasDigit(line)
    ensures r.Some? ==> r.value < 100
  {
    match FindDigit(line)
    case None => None
    case Some(i) =>
      var first := DigitValue(line[i]);
      var rest := line[i + 1..];
      match FindLastDigit(rest)
      case None => Some(10 * first + first)
      case Some(j) => Some(10 * first + DigitValue(rest[j]))
  }

  /** `i` is the position of the first digit and `j` that of the last. */
  predicate FirstAndLast(line: string, i: nat, j: nat) {
    i <= j < |line| && IsDigit(line[i]) && IsDigit(line[j])
    && (forall k :: 0 <= k < i ==> !IsDigit(line[k]))
    && (forall k :: j < k < |line| ==> !IsDigit(line[k]))
  }

  /** Whatever the line, the value is ten times its first digit plus its last
      digit. */
  lemma CalibrateFirstAndLast(line: string, i: nat, j: nat)
    requires FirstAndLast(line, i, j)
    ensures Calibrate(line) == Some(10 * DigitValue(line[i]) + DigitValue(line[j]))
  {
    var first := FindDigit(line);
    assert first == Some(i);
    var rest := line[i + 1..];
    if i < j {
      assert rest[j - i - 1] == line[j];
      var last := FindLastDigit(rest);
      assert last.Some?;
      assert last.value == j - i - 1 by {
        assert forall k :: last.value < k < |rest| ==> rest[k] == line[k + i + 1];
        assert !(last.value < j - i - 1);
        assert rest[last.value] == line[last.value + i + 1];
      }
    } else {
      assert forall k :: 0 <= k < |rest| ==> rest[k] == line[k + i + 1];
      assert !HasDigit(rest);
    }
  }

  /** A line with a single digit `d` calibrates to `11 * d`. */
  lemma CalibrateSingleDigit(line: string, i: nat)
    requires i < |line| && IsDigit(line[i])
    requires forall k :: 0 <= k < |line| && k != i ==> !IsDigit(line[k])
    ensures Calibrate(line) == Some(11 * DigitValue(line[i]))
  {
    CalibrateFirstAndLast(line, i, i);
  }

  predicate EveryLineHasDigit(lines: seq<string>) {
    forall k :: 0 <= k < |lines| ==> HasDigit(lines[k])
  }

  /** The calibration value read off the whole line: ten times its first
      digit plus its last digit, 0 for a line without a digit. */
  function LineValue(line: string): nat {
    if HasDigit(line) then
      10 * DigitValue(line[FindDigit(line).value]) + DigitValue(line[FindLastDigit(line).value])
    else 0
  }

  /** `calibrate`, which looks for the last digit only after the first one,
      gives the value read off the whole line. */
  lemma CalibrateIsLineValue(line: string)
    requires HasDigit(line)
    ensures Calibrate(line) == Some(LineValue(line))
  {
    var i := FindDigit(line).value;
    var j := FindLastDigit(line).value;
    assert i <= j;
    CalibrateFirstAndLast(line, i, j);
  }

  /** The calibration value of every line. */
  function LineValues(lines: seq<string>): seq<int> {
    seq(|lines|, k requires 0 <= k < |lines| => LineValue(lines[k]))
  }

  /** `part_one`'s `fold`: the sum of the calibration values of all lines,
      failing as soon as one line has no digit. */
  function SumCalibrations(lines: seq<string>): (r: Option<nat>)
    ensures r.Some? <==> EveryLineHasDigit(lines)
    ensures r.Some? ==> r.value <= 99 * |lines|
    ensures r.Some? ==> r.value == Seqs.Sum(LineValues(lines))
  {
    if |lines| == 0 then Some(0)
    else
      match Calibrate(lines[0])
      case None => None
      case Some(v) =>
        match SumCalibrations(lines[1..])
        case None => None
        case Some(rest) =>
          CalibrateIsLineValue(lines[0]);
          var vs := LineValues(lines);
          assert LineValues(lines[1..]) == vs[1..];
          Seqs.SumFront(vs, 0);
          assert vs[0..] == vs;
          Some(v + rest)
  }

  /** `part_one`: fails exactly when some line has no digit (the `expect`),
      and is otherwise the sum of the lines' calibration values. */
  function PartOne(input: string): (r: Option<nat>)
    ensures r.Some? <==> EveryLineHasDigit(Lines(input))
    ensures r.Some? ==> r.value <= 99 * |Lines(input)|
    ensures r.Some? ==> r.value == Seqs.Sum(LineValues(Lines(input)))
  {
    SumCalibrations(Lines(input))
  }

  /** Two lines of the worked example: digits at both ends, and one digit. */
  lemma CalibrateExampleTwoDigits()
    ensures Calibrate("pqr3stu8vwx") == Some(38)
  {
    CalibrateFirstAndLast("pqr3stu8vwx", 3, 7);
  }

  lemma CalibrateExampleOneDigit()
    ensures Calibrate("treb7uchet") == Some(77)
  {
    CalibrateSingleDigit("treb7uchet", 4);
  }
}

=== FILE: day02_cube_conundrum.dfy ===
/** Day 2: a game line `Game <id>: <draw>, <draw>; <draw>; ...` lists handfuls
    of coloured cubes.  Parsing keeps the largest count seen for each colour;
    part one sums the ids of the games possible with 12 red, 13 green and 14
    blue cubes, part two sums the products of the three maxima. */
module Day02 {
  import opened Wrappers
  import opened Text
  import Seqs

  datatype Colour = Red | Green | Blue

  /** One `<count> <colour>` item of a handful. */
  datatype Draw = Draw(count: nat, colour: Colour)

  /** A number of cubes per colour. */
  datatype Cubes = Cubes(red: nat, green: nat, blue: nat) {
    function Get(c: Colour): nat {
      match c
      case Red => red
      case Green => green
      case Blue => blue
    }

    predicate Within(bag: Cubes) {
      red <= bag.red && green <= bag.green && blue <= bag.blue
    }
  }

  /** The parsed game: its id and the most cubes of each colour shown at once. */
  datatype Game = Game(id: nat, shown: Cubes)

  function ColourName(c: Colour): string {
    match c
    case Red => "red"
    case Green => "green"
    case Blue => "blue"
  }

  /** Any colour word other than the three names is `unreachable!()`. */
  function ParseColour(s: string): (r: Result<Colour>)
    ensures r.Ok? <==> s in {"red", "green", "blue"}
    ensures r.Ok? ==> ColourName(r.value) == s
  {
    if s == "red" then Ok(Red)
    else if s == "green" then Ok(Green)
    else if s == "blue" then Ok(Blue)
    else Err
  }

  /** `s.trim().split_once(' ')`, then the count as `u32`, then the colour;
      each `unwrap` failure is an error. */
  function ParseDraw(s: string): (r: Result<Draw>)
    ensures r.Ok? ==> (exists count: string :: Trim(s) == count + " " + ColourName(r.value.colour)
                                                && ParseNat(count) == Some(r.value.count))
  {
    var (count, colour) :- OkOr(SplitOnce(Trim(s), ' '));
    var n :- OkOr(ParseNat(count));
    var c :- ParseColour(colour);
    Ok(Draw(n, c))
  }

  /** All the draws of the comma-separated items, in order. */
  function ParseItems(items: seq<string>): (r: Result<seq<Draw>>)
    ensures r.Ok? <==> forall i :: 0 <= i < |items| ==> ParseDraw(items[i]).Ok?
    ensures r.Ok? ==> |r.value| == |items|
                      && forall i :: 0 <= i < |items| ==> ParseDraw(items[i]) == Ok(r.value[i])
  {
    MapAll(items, ParseDraw)
  }

  /** One handful: trimmed, then split on `,`. */
  function ParseHandful(handful: string): Result<seq<Draw>> {
    ParseItems(Split(Trim(handful), ','))
  }

  /** The draws of all the `;`-separated handfuls, one handful after
      another. */
  function ParseHandfuls(handfuls: seq<string>): (r: Result<seq<Draw>>)
    ensures r.Ok? <==> forall i :: 0 <= i < |handfuls| ==> ParseHandful(handfuls[i]).Ok?
    ensures r.Ok? ==> exists groups :: |groups| == |handfuls| && r.value == Seqs.Flatten(groups)
                                       && forall i :: 0 <= i < |handfuls| ==> ParseHandful(handfuls[i]) == Ok(groups[i])
  {
    var groups :- MapAll(handfuls, ParseHandful);
    Ok(Seqs.Flatten(groups))
  }

  /** Raises the count of the draw's colour to the draw's count. */
  function Raise(t: Cubes, d: Draw): (r: Cubes)
    ensures forall c: Colour :: r.Get(c) == if c == d.colour && t.Get(c) < d.count then d.count else t.Get(c)
  {
    if d.count <= t.Get(d.colour) then t
    else
      match d.colour
      case Red => t.(red := d.count)
      case Green => t.(green := d.count)
      case Blue => t.(blue := d.count)
  }

  /** The running maxima, starting from zero. */
  function Tally(draws: seq<Draw>): (r: Cubes)
    ensures forall i :: 0 <= i < |draws| ==> draws[i].count <= r.Get(draws[i].colour)
    ensures forall c: Colour :: r.Get(c) == 0 || Draw(r.Get(c), c) in draws
  {
    if |draws| == 0 then Cubes(0, 0, 0)
    else
      var t := Tally(draws[..|draws| - 1]);
      var d := draws[|draws| - 1];
      assert forall i :: 0 <= i < |draws| - 1 ==> draws[i] == draws[..|draws| - 1][i];
      assert forall e :: e in draws[..|draws| - 1] ==> e in draws;
      Raise(t, d)
  }

  /** The draws a game line records, none when the line is not a game. */
  function GameDraws(s: string): seq<Draw> {
    match SplitOnce(s, ':')
    case None => []
    case Some((_, data)) =>
      match ParseHandfuls(Split(data, ';'))
      case Ok(draws) => draws
      case Err => []
  }

  /** `Game::from_str`: the `?`s on the title and the `unwrap`s on the draws
      are the error cases; `shown` holds the per-colour maxima of the draws. */
  function ParseGame(s: string): (r: Result<Game>)
    ensures r.Ok? <==> match SplitOnce(s, ':')
                       case None => false
                       case Some((title, data)) =>
                         StartsWith(title, "Game ") && ParseNat(title[5..]).Some?
                         && ParseHandfuls(Split(data, ';')).Ok?
    ensures r.Ok? ==> exists title, data :: s == title + ":" + data && StartsWith(title, "Game ")
                                            && ParseNat(title[5..]) == Some(r.value.id)
    ensures r.Ok? ==> r.value.shown == Tally(GameDraws(s))
  {
    var (title, data) :- OkOr(SplitOnce(s, ':'));
    var idText :- OkOr(StripPrefix(title, "Game "));
    var id :- OkOr(ParseNat(idText));
    var draws :- ParseHandfuls(Split(data, ';'));
    Ok(Game(id, Tally(draws)))
  }

  /** Every draw fits in the bag. */
  predicate Possible(draws: seq<Draw>, bag: Cubes) {
    forall i :: 0 <= i < |draws| ==> draws[i].count <= bag.Get(draws[i].colour)
  }

  /** The recorded maxima decide possibility exactly: a bag allows all the
      draws if and only if it holds at least the maxima. */
  lemma PossibleIffWithin(draws: seq<Draw>, bag: Cubes)
    ensures Possible(draws, bag) <==> Tally(draws).Within(bag)
  {
    var t := Tally(draws);
    if Possible(draws, bag) {
      forall c: Colour ensures t.Get(c) <= bag.Get(c) {
        if t.Get(c) != 0 {
          var i :| 0 <= i < |draws| && draws[i] == Draw(t.Get(c), c);
        }
      }
      assert t.Get(Red) <= bag.Get(Red) && t.Get(Green) <= bag.Get(Green) && t.Get(Blue) <= bag.Get(Blue);
    }
  }

  /** The bag with the fewest cubes of every colour that makes the game
      possible. */
  ghost predicate SmallestBag(draws: seq<Draw>, bag: Cubes) {
    Possible(draws, bag) && forall b: Cubes :: Possible(draws, b) ==> bag.Within(b)
  }

  /** The maxima form the smallest bag that makes the game possible. */
  lemma TallySmallestBag(draws: seq<Draw>)
    ensures Possible(draws, Tally(draws))
    ensures forall bag: Cubes :: Possible(draws, bag) ==> Tally(draws).Within(bag)
  {
    forall bag: Cubes | Possible(draws, bag) ensures Tally(draws).Within(bag) {
      PossibleIffWithin(draws, bag);
    }
  }

  /** There is only one smallest bag. */
  lemma SmallestBagUnique(draws: seq<Draw>, a: Cubes, b: Cubes)
    requires SmallestBag(draws, a) && SmallestBag(draws, b)
    ensures a == b
  {
    assert a.Within(b) && b.Within(a);
  }

  /** A parsed game's `shown` is the smallest bag for the line's draws, so a
      bag allows the game exactly when it holds at least `shown`. */
  lemma ParseGameShown(s: string)
    requires ParseGame(s).Ok?
    ensures SmallestBag(GameDraws(s), ParseGame(s).value.shown)
    ensures forall bag: Cubes :: ParseGame(s).value.shown.Within(bag) <==> Possible(GameDraws(s), bag)
  {
    var draws := GameDraws(s);
    assert ParseGame(s).value.shown == Tally(draws);
    TallySmallestBag(draws);
    forall bag: Cubes ensures Tally(draws).Within(bag) <==> Possible(draws, bag) {
      PossibleIffWithin(draws, bag);
    }
  }

  const Limit := Cubes(12, 13, 14)

  function Power(c: Cubes): nat {
    c.red * c.blue * c.green
  }

  /** Each game's id when it is within the bag, 0 otherwise. */
  function WithinIds(games: seq<Game>, bag: Cubes): seq<int> {
    seq(|games|, i requires 0 <= i < |games| => if games[i].shown.Within(bag) then games[i].id else 0)
  }

  /** Each game's power. */
  function Powers(games: seq<Game>): seq<int> {
    seq(|games|, i requires 0 <= i < |games| => Power(games[i].shown))
  }

  /** `part_one`'s `filter` and `sum` over parsed games. */
  function SumPossibleIds(games: seq<Game>): (r: nat)
    ensures (forall i :: 0 <= i < |games| ==> !games[i].shown.Within(Limit)) ==> r == 0
    ensures r == Seqs.Sum(WithinIds(games, Limit))
  {
    if |games| == 0 then 0
    else
      var ids := WithinIds(games, Limit);
      assert WithinIds(games[1..], Limit) == ids[1..];
      Seqs.SumFront(ids, 0);
      assert ids[0..] == ids;
      (if games[0].shown.Within(Limit) then games[0].id else 0) + SumPossibleIds(games[1..])
  }

  /** `part_two`'s `map` and `sum` over parsed games. */
  function SumPowers(games: seq<Game>): (r: nat)
    ensures r == Seqs.Sum(Powers(games))
  {
    if |games| == 0 then 0
    else
      var ps := Powers(games);
      assert Powers(games[1..]) == ps[1..];
      Seqs.SumFront(ps, 0);
      assert ps[0..] == ps;
      Power(games[0].shown) + SumPowers(games[1..])
  }

  predicate AllGames(lines: seq<string>) {
    forall i :: 0 <= i < |lines| ==> ParseGame(lines[i]).Ok?
  }

  /** Every line must parse (`unwrap`). */
  function ParseGames(lines: seq<string>): (r: Result<seq<Game>>)
    ensures r.Ok? <==> AllGames(lines)
    ensures r.Ok? ==> |r.value| == |lines|
                      && forall i :: 0 <= i < |lines| ==> ParseGame(lines[i]) == Ok(r.value[i])
  {
    MapAll(lines, ParseGame)
  }

  /** The id of each game line whose draws all fit in the bag, 0 for the
      other lines. */
  function PossibleIds(lines: seq<string>, bag: Cubes): seq<int> {
    seq(|lines|, i requires 0 <= i < |lines| =>
      match ParseGame(lines[i])
      case Ok(g) => if Possible(GameDraws(lines[i]), bag) then g.id else 0
      case Err => 0)
  }

  /** Filtering on the recorded maxima keeps exactly the possible games. */
  lemma WithinIdsArePossibleIds(lines: seq<string>, games: seq<Game>, bag: Cubes)
    requires |games| == |lines| && forall i :: 0 <= i < |lines| ==> ParseGame(lines[i]) == Ok(games[i])
    ensures WithinIds(games, bag) == PossibleIds(lines, bag)
  {
    forall i | 0 <= i < |lines| ensures WithinIds(games, bag)[i] == PossibleIds(lines, bag)[i] {
      assert games[i].shown == Tally(GameDraws(lines[i]));
      PossibleIffWithin(GameDraws(lines[i]), bag);
    }
  }

  /** `part_one`: fails exactly when some line is not a game; otherwise the
      sum of the ids of the games whose every draw fits in 12 red, 13 green
      and 14 blue cubes. */
  function PartOne(input: string): (r: Result<nat>)
    ensures r.Ok? <==> AllGames(Lines(input))
    ensures r.Ok? ==> r.value == Seqs.Sum(PossibleIds(Lines(input), Limit))
  {
    var games :- ParseGames(Lines(input));
    WithinIdsArePossibleIds(Lines(input), games, Limit);
    Ok(SumPossibleIds(games))
  }

  /** The power of each game line's recorded maxima, 0 for the other lines. */
  function LinePowers(lines: seq<string>): seq<int> {
    seq(|lines|, i requires 0 <= i < |lines| =>
      match ParseGame(lines[i])
      case Ok(g) => Power(g.shown)
      case Err => 0)
  }

  /** Mapping the powers over the games is mapping them over the lines. */
  lemma PowersAreLinePowers(lines: seq<string>, games: seq<Game>)
    requires |games| == |lines| && forall i :: 0 <= i < |lines| ==> ParseGame(lines[i]) == Ok(games[i])
    ensures Powers(games) == LinePowers(lines)
  {
    forall i | 0 <= i < |lines| ensures Powers(games)[i] == LinePowers(lines)[i] {
    }
  }

  /** `part_two`: fails exactly when some line is not a game; otherwise each
      line contributes the power of the game's recorded maxima. */
  function PartTwo(input: string): (r: Result<nat>)
    ensures r.Ok? <==> AllGames(Lines(input))
    ensures r.Ok? ==> r.value == Seqs.Sum(LinePowers(Lines(input)))
  {
    var games :- ParseGames(Lines(input));
    PowersAreLinePowers(Lines(input), games);
    Ok(SumPowers(games))
  }

  /** Each bag's power. */
  function BagPowers(bags: seq<Cubes>): seq<int> {
    seq(|bags|, i requires 0 <= i < |bags| => Power(bags[i]))
  }

  /** `part_two` sums, over the lines, the power of the smallest bag that
      makes each game possible. */
  lemma PartTwoSmallestBags(input: string, bags: seq<Cubes>)
    requires PartTwo(input).Ok?
    requires |bags| == |Lines(input)|
    requires forall i :: 0 <= i < |bags| ==> SmallestBag(GameDraws(Lines(input)[i]), bags[i])
    ensures PartTwo(input).value == Seqs.Sum(BagPowers(bags))
  {
    var lines := Lines(input);
    assert AllGames(lines);
    forall i | 0 <= i < |bags| ensures BagPowers(bags)[i] == LinePowers(lines)[i] {
      var g := ParseGame(lines[i]).value;
      ParseGameShown(lines[i]);
      SmallestBagUnique(GameDraws(lines[i]), bags[i], g.shown);
    }
    assert BagPowers(bags) == LinePowers(lines);
  }

  // ------------------------------------------------------------- rendering

  /** The text of one item, `<count> <colour>`. */
  function FormatDraw(d: Draw): string {
    NatToString(d.count) + " " + ColourName(d.colour)
  }

  lemma ParseDrawOf(s: string, digits: string, name: string, d: Draw)
    requires Trim(s) == s && SplitOnce(s, ' ') == Some((digits, name))
    requires ParseNat(digits) == Some(d.count) && ParseColour(name) == Ok(d.colour)
    ensures ParseDraw(s) == Ok(d)
  {
  }

  lemma FormatDrawShape(d: Draw)
    ensures var digits, s := NatToString(d.count), FormatDraw(d);
            Trim(s) == s && SplitOnce(s, ' ') == Some((digits, ColourName(d.colour)))
  {
    var digits := NatToString(d.count);
    var name := ColourName(d.colour);
    var s := FormatDraw(d);
    assert s[|s| - 1] == name[|name| - 1];
    assert s[0] == digits[0] && IsDigit(digits[0]);
    TrimUnpadded(s);
    assert ' ' !in digits by {
      assert forall i :: 0 <= i < |digits| ==> IsDigit(digits[i]);
    }
    assert s == digits + [' '] + name;
    SplitOnceAt(s, ' ', digits, name);
  }

  /** Parsing the text of an item gives the item back. */
  lemma ParseDrawRoundTrip(d: Draw)
    ensures ParseDraw(FormatDraw(d)) == Ok(d)
  {
    FormatDrawShape(d);
    ParseNatRoundTrip(d.count);
    ParseDrawOf(FormatDraw(d), NatToString(d.count), ColourName(d.colour), d);
  }

}

=== FILE: day03_gear_ratios.dfy ===
/** Day 3: an engine schematic is a grid of equally long lines.  Runs of
    adjacent digits in a row are numbers; a number is a part number when a
    symbol (ASCII punctuation other than `.`) touches it, diagonals included.
    Part one sums the part numbers. */
module Day03 {
  import opened Wrappers
  import opened Text
  import opened Seqs

  /** `Schematic`: the rows and their common length. */
  datatype Schematic = Schematic(rows: seq<string>, width: nat)

  predicate Rectangular(rows: seq<string>, width: nat) {
    forall y :: 0 <= y < |rows| ==> |rows[y]| == width
  }

  /** `Schematic::new`: every line must be as long as the first one
      (`assert_eq!`), and there must be a first line (`unwrap`). */
  function NewSchematic(input: string): (r: Option<Schematic>)
    ensures r.Some? <==> |Lines(input)| > 0 && Rectangular(Lines(input), |Lines(input)[0]|)
    ensures r.Some? ==> r.value.rows == Lines(input) && r.value.width == |Lines(input)[0]|
  {
    var lines := Lines(input);
    if |lines| == 0 then None
    else if Rectangular(lines, |lines[0]|) then Some(Schematic(lines, |lines[0]|))
    else None
  }

  // ------------------------------------------------------------ digit cells

  /** One match of `match_indices(char::is_numeric)`: column, row, digit. */
  datatype Digit = Digit(x: nat, y: nat, d: nat)

  /** Row-major order of cells. */
  predicate Before(a: Digit, b: Digit) {
    a.y < b.y || (a.y == b.y && a.x < b.x)
  }

  predicate DigitAt(rows: seq<string>, c: Digit) {
    c.y < |rows| && c.x < |rows[c.y]| && IsDigit(rows[c.y][c.x]) && c.d == DigitValue(rows[c.y][c.x])
  }

  /** The cell `(cx, cy)` appears in the list. */
  predicate Listed(cells: seq<Digit>, cx: nat, cy: nat) {
    exists i :: 0 <= i < |cells| && cells[i].x == cx && cells[i].y == cy
  }

  predicate AllDigitCells(rows: seq<string>, cells: seq<Digit>) {
    forall i :: 0 <= i < |cells| ==> DigitAt(rows, cells[i])
  }

  predicate RowMajor(cells: seq<Digit>) {
    forall i, j {:trigger Before(cells[i], cells[j])} :: 0 <= i < j < |cells| ==> Before(cells[i], cells[j])
  }

  predicate FromRow(cells: seq<Digit>, y: nat) {
    forall i :: 0 <= i < |cells| ==> y <= cells[i].y
  }

  /** Every digit of the rows from `y` on is listed. */
  predicate Covers(rows: seq<string>, cells: seq<Digit>, y: nat) {
    forall cy, cx {:trigger Listed(cells, cx, cy)}
      :: y <= cy < |rows| && 0 <= cx < |rows[cy]| && IsDigit(rows[cy][cx]) ==> Listed(cells, cx, cy)
  }

  /** The digits of `row`, which is row `y`, from column `x` on. */
  function RowDigits(row: string, y: nat, x: nat): (r: seq<Digit>)
    requires x <= |row|
    ensures forall i :: 0 <= i < |r| ==> r[i].y == y && x <= r[i].x < |row|
                                         && IsDigit(row[r[i].x]) && r[i].d == DigitValue(row[r[i].x])
    ensures RowMajor(r)
    decreases |row| - x
  {
    if x == |row| then []
    else
      var rest := RowDigits(row, y, x + 1);
      if IsDigit(row[x]) then
        var r := [Digit(x, y, DigitValue(row[x]))] + rest;
        assert forall i :: 0 <= i < |rest| ==> r[i + 1] == rest[i];
        r
      else rest
  }

  lemma {:induction false} RowDigitsCover(row: string, y: nat, x: nat, cx: nat)
    requires x <= cx < |row| && IsDigit(row[cx])
    ensures Listed(RowDigits(row, y, x), cx, y)
    decreases |row| - x
  {
    var r := RowDigits(row, y, x);
    if cx == x {
      assert r[0].x == x && r[0].y == y;
    } else {
      RowDigitsCover(row, y, x + 1, cx);
      var rest := RowDigits(row, y, x + 1);
      var i :| 0 <= i < |rest| && rest[i].x == cx && rest[i].y == y;
      if IsDigit(row[x]) {
        assert r[i + 1] == rest[i];
      }
    }
  }

  /** Every digit of the rows from row `y` on, in row-major order. */
  function DigitCells(rows: seq<string>, y: nat): (r: seq<Digit>)
    requires y <= |rows|
    ensures AllDigitCells(rows, r) && RowMajor(r) && FromRow(r, y) && Covers(rows, r, y)
    decreases |rows| - y
  {
    if y == |rows| then []
    else
      var here := RowDigits(rows[y], y, 0);
      var rest := DigitCells(rows, y + 1);
      var r := here + rest;
      assert forall i :: 0 <= i < |rest| ==> r[|here| + i] == rest[i];
      assert forall i :: 0 <= i < |here| ==> r[i] == here[i];
      assert Covers(rows, r, y) by {
        forall cy, cx | y <= cy < |rows| && 0 <= cx < |rows[cy]| && IsDigit(rows[cy][cx])
          ensures Listed(r, cx, cy)
        {
          if cy == y {
            RowDigitsCover(rows[y], y, 0, cx);
            var i :| 0 <= i < |here| && here[i].x == cx && here[i].y == cy;
            assert r[i] == here[i];
          } else {
            assert Listed(rest, cx, cy);
            var i :| 0 <= i < |rest| && rest[i].x == cx && rest[i].y == cy;
            assert r[|here| + i] == rest[i];
          }
        }
      }
      r
  }

  // ---------------------------------------------------------------- numbers

  /** A number of the schematic: where it starts, its value and how many
      digits it spans. */
  datatype Number = Number(x: nat, y: nat, value: nat, len: nat)

  /** `b` continues the run that ends with `a` (`nx == exp_x && ny == y`). */
  predicate Adjacent(a: Digit, b: Digit) {
    b.y == a.y && b.x == a.x + 1
  }

  /** Length of the run of adjacent cells starting at index `j`. */
  function RunLength(cells: seq<Digit>, j: nat): (n: nat)
    requires j < |cells|
    ensures 1 <= n && j + n <= |cells|
    ensures forall t :: j <= t < j + n - 1 ==> Adjacent(cells[t], cells[t + 1])
    ensures j + n == |cells| || !Adjacent(cells[j + n - 1], cells[j + n])
    decreases |cells| - j
  {
    if j + 1 < |cells| && Adjacent(cells[j], cells[j + 1]) then 1 + RunLength(cells, j + 1) else 1
  }

  /** The value accumulated as `num *= 10; num += d`. */
  function RunValue(run: seq<Digit>): nat {
    if |run| == 0 then 0 else 10 * RunValue(run[..|run| - 1]) + run[|run| - 1].d
  }

  /** The `Numbers` iterator from index `j`: each call to `next` consumes one
      run of adjacent digits and yields its start and its value. */
  function Merge(cells: seq<Digit>, j: nat): (r: seq<Number>)
    requires j <= |cells|
    ensures |r| == 0 <==> j == |cells|
    ensures forall k :: 0 <= k < |r| ==> r[k].len >= 1
    decreases |cells| - j
  {
    if j == |cells| then []
    else
      var n := RunLength(cells, j);
      [Number(cells[j].x, cells[j].y, RunValue(cells[j..j + n]), n)] + Merge(cells, j + n)
  }

  /** `number_ind`, with the span of every number kept. */
  function Numbers(s: Schematic): seq<Number> {
    Merge(DigitCells(s.rows, 0), 0)
  }

  /** `n` covers a maximal run of digits of its row, and its value is the
      decimal value of that run. */
  predicate MaximalRun(rows: seq<string>, n: Number) {
    n.y < |rows| && 1 <= n.len && n.x + n.len <= |rows[n.y]|
    && AllDigits(rows[n.y][n.x..n.x + n.len])
    && n.value == DecimalValue(rows[n.y][n.x..n.x + n.len])
    && (n.x == 0 || !IsDigit(rows[n.y][n.x - 1]))
    && (n.x + n.len == |rows[n.y]| || !IsDigit(rows[n.y][n.x + n.len]))
  }

  function Key(c: Digit, width: nat): int {
    c.y * width + c.x
  }

  lemma MulMonotone(p: nat, q: nat, w: nat)
    requires p <= q
    ensures p * w <= q * w
  {
    assert q * w == p * w + (q - p) * w;
  }

  lemma RowMajorKey(a: Digit, b: Digit, width: nat)
    requires Before(a, b) && a.x < width && b.x < width
    ensures Key(a, width) < Key(b, width)
  {
    if a.y < b.y {
      MulMonotone(a.y + 1, b.y, width);
    }
  }

  lemma KeyIncreasing(rows: seq<string>, width: nat, cells: seq<Digit>, i: nat, j: nat)
    requires Rectangular(rows, width) && AllDigitCells(rows, cells) && RowMajor(cells)
    requires i < j < |cells|
    ensures Key(cells[i], width) < Key(cells[j], width)
  {
    assert DigitAt(rows, cells[i]) && DigitAt(rows, cells[j]);
    RowMajorKey(cells[i], cells[j], width);
  }

  /** Two cells whose keys differ by one sit next to each other in the list. */
  lemma ConsecutiveKeys(rows: seq<string>, width: nat, cells: seq<Digit>, i: nat, j: nat)
    requires Rectangular(rows, width) && AllDigitCells(rows, cells) && RowMajor(cells)
    requires i < |cells| && j < |cells| && Key(cells[j], width) == Key(cells[i], width) + 1
    ensures j == i + 1
  {
    if j < i {
      KeyIncreasing(rows, width, cells, j, i);
    } else if j > i + 1 {
      KeyIncreasing(rows, width, cells, i, i + 1);
      KeyIncreasing(rows, width, cells, i + 1, j);
    }
  }

  /** The cells of a run are the consecutive columns of one row. */
  lemma {:induction false} RunCells(cells: seq<Digit>, j: nat, n: nat, t: nat)
    requires j + n <= |cells| && t < n
    requires forall u :: j <= u < j + n - 1 ==> Adjacent(cells[u], cells[u + 1])
    ensures cells[j + t].y == cells[j].y && cells[j + t].x == cells[j].x + t
  {
    if t > 0 {
      RunCells(cells, j, n, t - 1);
      assert Adjacent(cells[j + t - 1], cells[j + t]);
    }
  }

  /** The value accumulated over a run is the decimal value of the digits it
      covers. */
  lemma {:induction false} RunValueIsDecimal(rows: seq<string>, cells: seq<Digit>, j: nat, n: nat)
    requires AllDigitCells(rows, cells)
    requires j + n <= |cells| && n >= 1
    requires forall u :: j <= u < j + n - 1 ==> Adjacent(cells[u], cells[u + 1])
    ensures cells[j].y < |rows| && cells[j].x + n <= |rows[cells[j].y]|
    ensures AllDigits(rows[cells[j].y][cells[j].x..cells[j].x + n])
    ensures RunValue(cells[j..j + n]) == DecimalValue(rows[cells[j].y][cells[j].x..cells[j].x + n])
    decreases n
  {
    var c := cells[j];
    assert DigitAt(rows, c);
    var row := rows[c.y];
    RunCells(cells, j, n, n - 1);
    var last := cells[j + n - 1];
    assert DigitAt(rows, last);
    var digits := row[c.x..c.x + n];
    var run := cells[j..j + n];
    if n == 1 {
      assert digits[..0] == [] && run[..0] == [];
    } else {
      RunValueIsDecimal(rows, cells, j, n - 1);
      assert digits[..n - 1] == row[c.x..c.x + n - 1];
      assert run[..n - 1] == cells[j..j + n - 1];
      assert AllDigits(digits) by {
        assert forall t :: 0 <= t < n - 1 ==> digits[t] == row[c.x..c.x + n - 1][t];
      }
    }
  }

  /** A run starts at `j` when the previous cell does not continue into it. */
  predicate RunStart(cells: seq<Digit>, j: nat) {
    j <= |cells| && (j == 0 || j == |cells| || !Adjacent(cells[j - 1], cells[j]))
  }

  /** The cell list of a rectangular schematic. */
  predicate CellList(rows: seq<string>, width: nat, cells: seq<Digit>) {
    Rectangular(rows, width) && AllDigitCells(rows, cells) && RowMajor(cells) && Covers(rows, cells, 0)
  }

  /** The digit to the left of a listed digit is the previous list entry. */
  lemma LeftNeighbourListed(rows: seq<string>, width: nat, cells: seq<Digit>, k: nat)
    requires CellList(rows, width, cells) && k < |cells|
    requires cells[k].x > 0 && DigitAt(rows, cells[k]) && IsDigit(rows[cells[k].y][cells[k].x - 1])
    ensures k > 0 && Adjacent(cells[k - 1], cells[k])
  {
    var c := cells[k];
    assert Listed(cells, c.x - 1, c.y);
    var i :| 0 <= i < |cells| && cells[i].x == c.x - 1 && cells[i].y == c.y;
    ConsecutiveKeys(rows, width, cells, i, k);
  }

  /** The digit to the right of a listed digit is the next list entry. */
  lemma RightNeighbourListed(rows: seq<string>, width: nat, cells: seq<Digit>, k: nat)
    requires CellList(rows, width, cells) && k < |cells| && DigitAt(rows, cells[k])
    requires cells[k].x + 1 < |rows[cells[k].y]| && IsDigit(rows[cells[k].y][cells[k].x + 1])
    ensures k + 1 < |cells| && Adjacent(cells[k], cells[k + 1])
  {
    var c := cells[k];
    assert Listed(cells, c.x + 1, c.y);
    var i :| 0 <= i < |cells| && cells[i].x == c.x + 1 && cells[i].y == c.y;
    ConsecutiveKeys(rows, width, cells, k, i);
  }

  /** The run of `n` cells starting at a run start is a maximal run of its
      row. */
  lemma NumberAtRunStart(rows: seq<string>, width: nat, cells: seq<Digit>, j: nat, n: nat)
    requires CellList(rows, width, cells)
    requires j < |cells| && RunStart(cells, j)
    requires 1 <= n && j + n <= |cells|
    requires forall t :: j <= t < j + n - 1 ==> Adjacent(cells[t], cells[t + 1])
    requires j + n == |cells| || !Adjacent(cells[j + n - 1], cells[j + n])
    ensures MaximalRun(rows, Number(cells[j].x, cells[j].y, RunValue(cells[j..j + n]), n))
  {
    RunValueIsDecimal(rows, cells, j, n);
    RunCells(cells, j, n, n - 1);
    var c, e := cells[j], cells[j + n - 1];
    assert DigitAt(rows, c) && DigitAt(rows, e);
    if c.x > 0 && IsDigit(rows[c.y][c.x - 1]) {
      LeftNeighbourListed(rows, width, cells, j);
    }
    if e.x + 1 < |rows[e.y]| && IsDigit(rows[e.y][e.x + 1]) {
      RightNeighbourListed(rows, width, cells, j + n - 1);
    }
  }

  lemma {:induction false} MergeMaximal(rows: seq<string>, width: nat, cells: seq<Digit>, j: nat)
    requires CellList(rows, width, cells)
    requires RunStart(cells, j)
    ensures AllMaximal(rows, Merge(cells, j))
    decreases |cells| - j
  {
    if j < |cells| {
      var n := RunLength(cells, j);
      var first := Number(cells[j].x, cells[j].y, RunValue(cells[j..j + n]), n);
      NumberAtRunStart(rows, width, cells, j, n);
      MergeMaximal(rows, width, cells, j + n);
      MergeStep(cells, j);
      MaximalCons(rows, first, Merge(cells, j + n));
    }
  }

  /** The iterator yields the run at `j`, then carries on from the next run
      start. */
  lemma MergeStep(cells: seq<Digit>, j: nat)
    requires j < |cells|
    ensures var n := RunLength(cells, j);
            RunStart(cells, j + n)
            && Merge(cells, j) == [Number(cells[j].x, cells[j].y, RunValue(cells[j..j + n]), n)] + Merge(cells, j + n)
  {
  }

  /** Every number of `ns` is a maximal run. */
  predicate AllMaximal(rows: seq<string>, ns: seq<Number>) {
    forall k :: 0 <= k < |ns| ==> MaximalRun(rows, ns[k])
  }

  lemma MaximalCons(rows: seq<string>, first: Number, rest: seq<Number>)
    requires MaximalRun(rows, first) && AllMaximal(rows, rest)
    ensures AllMaximal(rows, [first] + rest)
  {
    var r := [first] + rest;
    forall k | 0 <= k < |r| ensures MaximalRun(rows, r[k]) {
      if k > 0 {
        assert r[k] == rest[k - 1];
      }
    }
  }

  /** Every number the iterator yields is a maximal run of digits of its row,
      with the decimal value of that run. */
  lemma NumbersAreMaximalRuns(s: Schematic)
    requires Rectangular(s.rows, s.width)
    ensures forall k :: 0 <= k < |Numbers(s)| ==> MaximalRun(s.rows, Numbers(s)[k])
  {
    MergeMaximal(s.rows, s.width, DigitCells(s.rows, 0), 0);
  }

  /** Some number of `ns` starts at `(x, y)`. */
  predicate HasNumberAt(ns: seq<Number>, x: nat, y: nat) {
    exists k :: 0 <= k < |ns| && ns[k].x == x && ns[k].y == y
  }

  /** Every run start from `j` on begins one of the numbers yielded from `j`. */
  lemma {:induction false} MergeReachesStart(cells: seq<Digit>, j: nat, i: nat)
    requires RunStart(cells, j) && RunStart(cells, i) && j <= i < |cells|
    ensures HasNumberAt(Merge(cells, j), cells[i].x, cells[i].y)
    decreases |cells| - j
  {
    var n := RunLength(cells, j);
    var r := Merge(cells, j);
    var rest := Merge(cells, j + n);
    assert r == [Number(cells[j].x, cells[j].y, RunValue(cells[j..j + n]), n)] + rest;
    if i == j {
      assert r[0].x == cells[i].x && r[0].y == cells[i].y;
    } else {
      assert i >= j + n;
      assert RunStart(cells, j + n);
      MergeReachesStart(cells, j + n, i);
      var k :| 0 <= k < |rest| && rest[k].x == cells[i].x && rest[k].y == cells[i].y;
      assert r[k + 1] == rest[k];
    }
  }

  /** A maximal run is determined by where it starts. */
  lemma SameStartSameRun(rows: seq<string>, m: Number, n: Number)
    requires MaximalRun(rows, m) && MaximalRun(rows, n) && m.x == n.x && m.y == n.y
    ensures m == n
  {
    RunNotLonger(rows, m, n);
    RunNotLonger(rows, n, m);
  }

  /** A maximal run is no shorter than any run of digits from its start. */
  lemma RunNotLonger(rows: seq<string>, m: Number, n: Number)
    requires MaximalRun(rows, m) && MaximalRun(rows, n) && m.x == n.x && m.y == n.y
    ensures n.len <= m.len
  {
    var row := rows[m.y];
    var digits := row[n.x..n.x + n.len];
    forall q | n.x <= q < n.x + n.len
      ensures IsDigit(row[q])
    {
      assert row[q] == digits[q - n.x];
    }
  }

  /** Conversely, every maximal run of digits is one of the numbers. */
  lemma MaximalRunsAreNumbers(s: Schematic, n: Number)
    requires Rectangular(s.rows, s.width) && MaximalRun(s.rows, n)
    ensures n in Numbers(s)
  {
    var rows := s.rows;
    var cells := DigitCells(rows, 0);
    assert rows[n.y][n.x] == rows[n.y][n.x..n.x + n.len][0];
    assert Listed(cells, n.x, n.y);
    var i :| 0 <= i < |cells| && cells[i].x == n.x && cells[i].y == n.y;
    if i > 0 {
      assert DigitAt(rows, cells[i - 1]);
    }
    assert RunStart(cells, i);
    MergeReachesStart(cells, 0, i);
    var ns := Numbers(s);
    var k :| 0 <= k < |ns| && ns[k].x == n.x && ns[k].y == n.y;
    NumbersAreMaximalRuns(s);
    SameStartSameRun(rows, ns[k], n);
  }

  // ----------------------------------------------------------- part numbers

  /** `char::is_ascii_punctuation`. */
  predicate IsAsciiPunctuation(c: char) {
    ('!' <= c <= '/') || (':' <= c <= '@') || ('[' <= c <= '`') || ('{' <= c <= '~')
  }

  predicate IsSymbol(c: char) {
    c != '.' && IsAsciiPunctuation(c)
  }

  function SaturatingSub(a: nat, b: nat): nat {
    if a >= b then a - b else 0
  }

  function MinNat(a: nat, b: nat): nat {
    if a <= b then a else b
  }

  /** Some cell of columns `x0..x1` and rows `y0..y1` holds a symbol. */
  predicate SymbolIn(s: Schematic, x0: nat, x1: nat, y0: nat, y1: nat) {
    exists cx, cy :: x0 <= cx < x1 && y0 <= cy < y1 && cy < |s.rows| && cx < |s.rows[cy]|
                     && IsSymbol(s.rows[cy][cx])
  }

  /** `is_part_num` for a number at `(x, y)` that is `w` columns wide: scans
      the surrounding rectangle, clipped to the grid, column by column. */
  method IsPartNum(s: Schematic, x: nat, y: nat, w: nat) returns (found: bool)
    requires Rectangular(s.rows, s.width)
    ensures found <==> SymbolIn(s, SaturatingSub(x, 1), MinNat(s.width, x + w + 1),
                                SaturatingSub(y, 1), MinNat(|s.rows|, y + 2))
  {
    var x0, x1 := SaturatingSub(x, 1), MinNat(s.width, x + w + 1);
    var y0, y1 := SaturatingSub(y, 1), MinNat(|s.rows|, y + 2);
    var cx := x0;
    while cx < x1
      invariant x0 <= cx
      invariant !SymbolIn(s, x0, cx, y0, y1)
    {
      var cy := y0;
      while cy < y1
        invariant y0 <= cy && (cy == y0 || cy <= y1)
        invariant forall py :: y0 <= py < cy ==> py < |s.rows| && cx < |s.rows[py]| && !IsSymbol(s.rows[py][cx])
      {
        if IsSymbol(s.rows[cy][cx]) {
          return true;
        }
        cy := cy + 1;
      }
      cx := cx + 1;
    }
    return false;
  }

  /** A number whose clipped surrounding rectangle, `w` columns wide over the
      number, holds a symbol. */
  predicate Touches(s: Schematic, n: Number, w: nat)
    requires Rectangular(s.rows, s.width)
  {
    SymbolIn(s, SaturatingSub(n.x, 1), MinNat(s.width, n.x + w + 1),
             SaturatingSub(n.y, 1), MinNat(|s.rows|, n.y + 2))
  }

  /** The number's width as `is_part_num` computes it: the length of its
      decimal rendering, `n.to_string().len()`. */
  function PrintedWidth(n: Number): nat {
    |NatToString(n.value)|
  }

  /** The sum of the numbers that touch a symbol over their printed width. */
  function SumPartNumbersAsWritten(s: Schematic, ns: seq<Number>): nat
    requires Rectangular(s.rows, s.width)
  {
    if |ns| == 0 then 0
    else (if Touches(s, ns[0], PrintedWidth(ns[0])) then ns[0].value else 0)
         + SumPartNumbersAsWritten(s, ns[1..])
  }

  /** The sum of the numbers that touch a symbol over their whole run. */
  function SumPartNumbers(s: Schematic, ns: seq<Number>): nat
    requires Rectangular(s.rows, s.width)
  {
    if |ns| == 0 then 0
    else (if Touches(s, ns[0], ns[0].len) then ns[0].value else 0) + SumPartNumbers(s, ns[1..])
  }

  /** `part_one`: the scan of every number, summing those whose rectangle
      over their printed width holds a symbol. */
  method PartOne(input: string) returns (r: Option<nat>)
    ensures r.None? <==> NewSchematic(input).None?
    ensures r.Some? ==> var s := NewSchematic(input).value;
                        r.value == SumPartNumbersAsWritten(s, Numbers(s))
  {
    var schematic := NewSchematic(input);
    if schematic.None? {
      return None;
    }
    var s := schematic.value;
    var ns := Numbers(s);
    var total := 0;
    var k := |ns|;
    while k > 0
      invariant 0 <= k <= |ns|
      invariant total == SumPartNumbersAsWritten(s, ns[k..])
    {
      k := k - 1;
      var isPart := IsPartNum(s, ns[k].x, ns[k].y, PrintedWidth(ns[k]));
      assert ns[k..][1..] == ns[k + 1..];
      if isPart {
        total := total + ns[k].value;
      }
    }
    return Some(total);
  }

  /** `part_one` with the width of each number taken from its run, so that
      leading zeros are looked past: the sum of the numbers adjacent to a
      symbol. */
  method PartOneIntended(input: string) returns (r: Option<nat>)
    ensures r.None? <==> NewSchematic(input).None?
    ensures r.Some? ==> var s := NewSchematic(input).value;
                        r.value == SumPartNumbers(s, Numbers(s))
  {
    var schematic := NewSchematic(input);
    if schematic.None? {
      return None;
    }
    var s := schematic.value;
    var ns := Numbers(s);
    var total := 0;
    var k := |ns|;
    while k > 0
      invariant 0 <= k <= |ns|
      invariant total == SumPartNumbers(s, ns[k..])
    {
      k := k - 1;
      var isPart := IsPartNum(s, ns[k].x, ns[k].y, ns[k].len);
      assert ns[k..][1..] == ns[k + 1..];
      if isPart {
        total := total + ns[k].value;
      }
    }
    return Some(total);
  }

  /** Without leading zeros the printed width is the whole run, and the
      two sums agree. */
  lemma {:induction false} PrintedWidthAgrees(s: Schematic, ns: seq<Number>)
    requires Rectangular(s.rows, s.width)
    requires forall k :: 0 <= k < |ns| ==> PrintedWidth(ns[k]) == ns[k].len
    ensures SumPartNumbersAsWritten(s, ns) == SumPartNumbers(s, ns)
  {
    if |ns| > 0 {
      assert forall k :: 0 <= k < |ns| - 1 ==> ns[1..][k] == ns[k + 1];
      PrintedWidthAgrees(s, ns[1..]);
    }
  }

  /** The printed width of a number with leading zeros is shorter than its
      run, so a symbol right after `0012` is never looked at. */
  lemma LeadingZerosAsWritten()
    ensures var s := Schematic(["0012*"], 5);
            var n := Number(0, 0, 12, 4);
            Rectangular(s.rows, s.width) && MaximalRun(s.rows, n)
            && !Touches(s, n, PrintedWidth(n)) && Touches(s, n, n.len)
  {
    var s := Schematic(["0012*"], 5);
    var n := Number(0, 0, 12, 4);
    assert NatToString(12) == "12";
    assert s.rows[0][4] == '*';
    assert IsSymbol(s.rows[0][4]);
    assert DecimalValue("0012") == 12 by {
      assert "0012"[..3] == "001";
      assert "001"[..2] == "00";
      assert "00"[..1] == "0";
      assert "0"[..0] == "";
    }
    assert s.rows[0][0..4] == "0012";
  }
}

=== FILE: day04_scratchcards.dfy ===
/** Day 4: a scratchcard `Card <id>: <winning numbers> | <numbers you have>`
    matches as many of your numbers as appear among the winning ones.  Part
    one scores each card 1, 2, 4, ... by its matches; in part two a card with
    `m` matches wins one copy of each of the next `m` cards, and the answer is
    the total number of cards held. */
module Day04 {
  import opened Wrappers
  import opened Text
  import opened Seqs

  datatype Card = Card(id: nat, win: seq<nat>, given: seq<nat>)

  /** The text before the first `:` has the id as its second word. */
  ghost predicate HasHeader(s: string, id: nat) {
    exists header, numbers :: s == header + ":" + numbers && ':' !in header
                              && |SplitWhitespace(header)| >= 2
                              && ParseNat(SplitWhitespace(header)[1]) == Some(id)
  }

  /** `ns` holds the numbers the words spell, in order. */
  predicate SpelledBy(ns: seq<nat>, words: seq<string>) {
    |ns| == |words| && forall i :: 0 <= i < |words| ==> ParseNat(words[i]) == Some(ns[i])
  }

  /** `Card::from_str`: a card needs a `:` after its header and a `|`
      between its two number lists; the header's second word is the id and
      every word on either side of the `|` is a number. */
  function ParseCard(s: string): (r: Result<Card>)
    ensures r.Ok? <==> match SplitOnce(s, ':')
                       case None => false
                       case Some((header, numbers)) =>
                         match SplitOnce(Trim(numbers), '|')
                         case None => false
                         case Some((winners, yours)) =>
                           |SplitWhitespace(header)| >= 2 && ParseNat(SplitWhitespace(header)[1]).Some?
                           && ParseNats(SplitWhitespace(winners)).Some?
                           && ParseNats(SplitWhitespace(yours)).Some?
    ensures r.Ok? ==> match SplitOnce(s, ':')
                      case None => false
                      case Some((header, numbers)) =>
                        match SplitOnce(Trim(numbers), '|')
                        case None => false
                        case Some((winners, yours)) =>
                          SpelledBy(r.value.win, SplitWhitespace(winners))
                          && SpelledBy(r.value.given, SplitWhitespace(yours))
    ensures r.Ok? ==> HasHeader(s, r.value.id)
  {
    var (header, numbers) :- OkOr(SplitOnce(s, ':'));
    var (winners, yours) :- OkOr(SplitOnce(Trim(numbers), '|'));
    var words := SplitWhitespace(header);
    var idText :- if |words| >= 2 then Ok(words[1]) else Err;
    var id :- OkOr(ParseNat(idText));
    var win :- OkOr(ParseNats(SplitWhitespace(winners)));
    var given :- OkOr(ParseNats(SplitWhitespace(yours)));
    Ok(Card(id, win, given))
  }

  /** How many of `given` (with repetitions) occur in `win`. */
  function CountIn(given: seq<nat>, win: seq<nat>): (m: nat)
    ensures m <= |given|
  {
    if |given| == 0 then 0
    else CountIn(given[..|given| - 1], win) + (if given[|given| - 1] in win then 1 else 0)
  }

  /** `Card::matches`. */
  function Matches(c: Card): nat {
    CountIn(c.given, c.win)
  }

  function Pow2(k: nat): (p: nat)
    ensures p >= 1
  {
    if k == 0 then 1 else 2 * Pow2(k - 1)
  }

  /** The points of a card with `m` matches: nothing, or one point doubled
      for every match after the first. */
  function Points(m: nat): nat {
    if m == 0 then 0 else Pow2(m - 1)
  }

  /** `Card::score`: starts at 0, becomes 1 on the first match and doubles
      on every further one. */
  method Score(c: Card) returns (score: nat)
    ensures score == Points(Matches(c))
  {
    score := 0;
    var i := 0;
    while i < |c.given|
      invariant 0 <= i <= |c.given|
      invariant score == Points(CountIn(c.given[..i], c.win))
    {
      assert c.given[..i + 1][..i] == c.given[..i];
      if c.given[i] in c.win {
        if score == 0 {
          score := 1;
        } else {
          score := score * 2;
        }
      }
      i := i + 1;
    }
    assert c.given[..i] == c.given;
  }

  /** Every line must be a card (`unwrap`). */
  function ParseCards(lines: seq<string>): (r: Result<seq<Card>>)
    ensures r.Ok? <==> forall i :: 0 <= i < |lines| ==> ParseCard(lines[i]).Ok?
    ensures r.Ok? ==> |r.value| == |lines|
                      && forall i :: 0 <= i < |lines| ==> ParseCard(lines[i]) == Ok(r.value[i])
  {
    MapAll(lines, ParseCard)
  }

  function TotalPoints(cards: seq<Card>): nat {
    if |cards| == 0 then 0 else TotalPoints(cards[..|cards| - 1]) + Points(Matches(cards[|cards| - 1]))
  }

  /** `part_one` on parsed cards: the scores added up in order. */
  method TotalScore(cards: seq<Card>) returns (total: nat)
    ensures total == TotalPoints(cards)
  {
    total := 0;
    var k := 0;
    while k < |cards|
      invariant 0 <= k <= |cards|
      invariant total == TotalPoints(cards[..k])
    {
      var score := Score(cards[k]);
      assert cards[..k + 1][..k] == cards[..k];
      total := total + score;
      k := k + 1;
    }
    assert cards[..k] == cards;
  }

  /** `part_one`: fails when a line is not a card. */
  method PartOne(input: string) returns (r: Result<nat>)
    ensures r.Ok? <==> ParseCards(Lines(input)).Ok?
    ensures r.Ok? ==> r.value == TotalPoints(ParseCards(Lines(input)).value)
  {
    var parsed := ParseCards(Lines(input));
    if parsed.Err? {
      return Err;
    }
    var total := TotalScore(parsed.value);
    return Ok(total);
  }

  // ---------------------------------------------------------- copy cascade

  /** The number of matches of each card, in order. */
  function MatchCounts(cards: seq<Card>): (ms: seq<nat>)
    ensures |ms| == |cards|
    ensures forall k :: 0 <= k < |cards| ==> ms[k] == Matches(cards[k])
  {
    if |cards| == 0 then [] else [Matches(cards[0])] + MatchCounts(cards[1..])
  }

  /** The copies of card `k` (0-based) won from the cards before `t`: card
      `j` wins a copy of each of the `ms[j]` cards after it, once for every
      copy of itself. */
  function Gain(ms: seq<nat>, k: nat, t: nat): nat
    requires t <= |ms|
    decreases t, 0
  {
    if t == 0 then 0
    else
      Gain(ms, k, t - 1) + (if t - 1 < k <= t - 1 + ms[t - 1] then Copies(ms, t - 1) else 0)
  }

  /** The number of instances of card `k` held in the end: the original plus
      the copies won from earlier cards. */
  function Copies(ms: seq<nat>, k: nat): nat
    requires k < |ms|
    decreases k, 1
  {
    1 + Gain(ms, k, k)
  }

  /** Cards at or after `k` never win copies of card `k`. */
  lemma {:induction false} GainSaturates(ms: seq<nat>, k: nat, t: nat)
    requires k <= t <= |ms|
    ensures Gain(ms, k, t) == Gain(ms, k, k)
    decreases t
  {
    if t > k {
      GainSaturates(ms, k, t - 1);
    }
  }

  function TotalCopies(ms: seq<nat>, n: nat): nat
    requires n <= |ms|
  {
    if n == 0 then 0 else TotalCopies(ms, n - 1) + Copies(ms, n - 1)
  }

  /** Card `t` cannot win copies beyond the end of the table, or
      the loop of `part_two` indexes out of bounds; an id of 0 underflows. */
  predicate Overruns(c: Card, n: nat) {
    Matches(c) > 0 && (c.id == 0 || c.id + Matches(c) > n)
  }

  /** The cards are numbered 1, 2, 3, ... in order. */
  predicate Numbered(cards: seq<Card>) {
    forall t :: 0 <= t < |cards| ==> cards[t].id == t + 1
  }

  /** The inner loop of `part_two`: adds `counts[c.id - 1]` to each of the
      `Matches(c)` entries from index `c.id` on. */
  method AddCopies(counts: seq<nat>, c: Card) returns (next: seq<nat>)
    requires !Overruns(c, |counts|)
    ensures |next| == |counts|
    ensures forall k :: 0 <= k < |counts| ==>
              next[k] == counts[k] + (if c.id <= k < c.id + Matches(c) then counts[c.id - 1] else 0)
    ensures next == Deal(counts, c)
  {
    next := counts;
    var copies := Matches(c);
    var i := c.id;
    while i < c.id + copies
      invariant c.id <= i <= c.id + copies
      invariant |next| == |counts|
      invariant forall k :: 0 <= k < |counts| ==>
                  next[k] == counts[k] + (if c.id <= k < i then counts[c.id - 1] else 0)
    {
      next := next[i := next[i] + next[c.id - 1]];
      i := i + 1;
    }
    assert next == Deal(counts, c);
  }

  /** The counts once the first `t` cards, whatever their ids, have each
      added the count at index `id - 1` to the `Matches` entries from index
      `id` on, starting from one of every card. */
  function Dealt(cards: seq<Card>, t: nat): (counts: seq<nat>)
    requires t <= |cards|
    requires forall u :: 0 <= u < t ==> !Overruns(cards[u], |cards|)
    ensures |counts| == |cards|
  {
    if t == 0 then seq(|cards|, _ => 1)
    else
      assert !Overruns(cards[t - 1], |cards|);
      Deal(Dealt(cards, t - 1), cards[t - 1])
  }

  /** Card `c` adding the count at index `c.id - 1` to the `Matches(c)`
      entries from index `c.id` on. */
  function Deal(counts: seq<nat>, c: Card): (next: seq<nat>)
    requires !Overruns(c, |counts|)
    ensures |next| == |counts|
  {
    seq(|counts|, k requires 0 <= k < |counts| =>
      counts[k] + (if c.id <= k < c.id + Matches(c) then counts[c.id - 1] else 0))
  }

  /** For cards numbered 1, 2, 3, ... the dealt counts are the numbers of
      copies the cards win. */
  lemma {:induction false} DealtNumbered(cards: seq<Card>, t: nat)
    requires Numbered(cards) && t <= |cards|
    requires forall u :: 0 <= u < t ==> !Overruns(cards[u], |cards|)
    ensures Dealt(cards, t) == CountsAfter(MatchCounts(cards), t)
  {
    if t > 0 {
      DealtNumbered(cards, t - 1);
      DealNumbered(cards, MatchCounts(cards), Dealt(cards, t - 1), t - 1);
    }
  }

  /** Dealing card `t` to the copies won before it gives the copies won up
      to it. */
  lemma DealNumbered(cards: seq<Card>, ms: seq<nat>, counts: seq<nat>, t: nat)
    requires Numbered(cards) && ms == MatchCounts(cards) && t < |cards|
    requires counts == CountsAfter(ms, t) && !Overruns(cards[t], |cards|)
    ensures Deal(counts, cards[t]) == CountsAfter(ms, t + 1)
  {
    CascadeStep(cards, ms, counts, Deal(counts, cards[t]), t);
  }

  /** The outer loop of `part_two`: `counts` starts at 1 everywhere and
      every card in turn adds its own count to the cards it wins; a card
      that overruns ends it. */
  method Cascade(cards: seq<Card>) returns (r: Option<seq<nat>>)
    ensures r.None? <==> exists t :: 0 <= t < |cards| && Overruns(cards[t], |cards|)
    ensures r.Some? ==> r.value == Dealt(cards, |cards|)
    ensures r.Some? && Numbered(cards) ==> r.value == CountsAfter(MatchCounts(cards), |cards|)
  {
    var n := |cards|;
    var counts := seq(n, _ => 1);
    var t := 0;
    while t < n
      invariant 0 <= t <= n
      invariant forall u :: 0 <= u < t ==> !Overruns(cards[u], n)
      invariant counts == Dealt(cards, t)
    {
      if Overruns(cards[t], n) {
        return None;
      }
      var next := AddCopies(counts, cards[t]);
      counts := next;
      t := t + 1;
    }
    if Numbered(cards) {
      DealtNumbered(cards, n);
    }
    return Some(counts);
  }

  /** `part_two` on parsed cards: the counts after the cascade added up. */
  method CountCards(cards: seq<Card>) returns (r: Option<nat>)
    ensures r.None? <==> exists t :: 0 <= t < |cards| && Overruns(cards[t], |cards|)
    ensures r.Some? ==> r.value == Sum(Dealt(cards, |cards|))
    ensures r.Some? && Numbered(cards) ==> r.value == TotalCopies(MatchCounts(cards), |cards|)
  {
    var cascade := Cascade(cards);
    if cascade.None? {
      return None;
    }
    var counts := cascade.value;
    var n := |cards|;
    var total := 0;
    var k := 0;
    while k < n
      invariant 0 <= k <= n
      invariant total == Sum(counts[..k])
    {
      assert counts[..k + 1][..k] == counts[..k];
      total := total + counts[k];
      k := k + 1;
    }
    assert counts[..n] == counts;
    if Numbered(cards) {
      SumIsTotalCopies(MatchCounts(cards), counts, n);
    }
    return Some(total);
  }

  /** Once every card has added its copies, the count of card `k` is its
      number of copies. */
  lemma TotalStep(ms: seq<nat>, counts: seq<nat>, k: nat)
    requires counts == CountsAfter(ms, |ms|) && k < |ms|
    ensures TotalCopies(ms, k + 1) == TotalCopies(ms, k) + counts[k]
  {
    assert counts[k] == 1 + Gain(ms, k, |ms|);
    GainSaturates(ms, k, |ms|);
  }

  /** Adding up the final counts of the first `k` cards gives their total
      number of copies. */
  lemma {:induction false} SumIsTotalCopies(ms: seq<nat>, counts: seq<nat>, k: nat)
    requires counts == CountsAfter(ms, |ms|) && k <= |ms|
    ensures Sum(counts[..k]) == TotalCopies(ms, k)
  {
    if k > 0 {
      SumIsTotalCopies(ms, counts, k - 1);
      TotalStep(ms, counts, k - 1);
      assert counts[..k][..k - 1] == counts[..k - 1];
    }
  }

  /** Card `t` adding its count to the cards it wins turns the copies won
      before `t` into those won before `t + 1`. */
  lemma CascadeStep(cards: seq<Card>, ms: seq<nat>, counts: seq<nat>, next: seq<nat>, t: nat)
    requires Numbered(cards) && ms == MatchCounts(cards) && t < |cards|
    requires |counts| == |cards| && |next| == |cards|
    requires counts == CountsAfter(ms, t)
    requires var c := cards[t];
             forall k :: 0 <= k < |counts| ==>
               next[k] == counts[k] + (if c.id <= k < c.id + Matches(c) then counts[c.id - 1] else 0)
    ensures next == CountsAfter(ms, t + 1)
  {
    assert cards[t].id == t + 1 && ms[t] == Matches(cards[t]);
    assert counts[t] == Copies(ms, t);
    forall k | 0 <= k < |cards|
      ensures next[k] == CountsAfter(ms, t + 1)[k]
    {
    }
  }

  /** The count of every card once the cards before `t` have added their
      copies. */
  function CountsAfter(ms: seq<nat>, t: nat): (counts: seq<nat>)
    requires t <= |ms|
    ensures |counts| == |ms|
  {
    seq(|ms|, k requires 0 <= k < |ms| => 1 + Gain(ms, k, t))
  }

  /** `part_two`: fails when a line is not a card or a card overruns. */
  method PartTwo(input: string) returns (r: Option<nat>)
    ensures r.Some? <==> ParseCards(Lines(input)).Ok?
                         && var cards := ParseCards(Lines(input)).value;
                            forall t :: 0 <= t < |cards| ==> !Overruns(cards[t], |cards|)
    ensures r.Some? ==> var cards := ParseCards(Lines(input)).value;
                        r.value == Sum(Dealt(cards, |cards|))
    ensures r.Some? && Numbered(ParseCards(Lines(input)).value)
            ==> var cards := ParseCards(Lines(input)).value;
                r.value == TotalCopies(MatchCounts(cards), |cards|)
  {
    var parsed := ParseCards(Lines(input));
    if parsed.Err? {
      return None;
    }
    r := CountCards(parsed.value);
  }

  /** Every card keeps its original instance. */
  lemma CopiesAtLeastOne(ms: seq<nat>, k: nat)
    requires k < |ms|
    ensures Copies(ms, k) >= 1
  {
  }

  /** The worked example: matches 4, 2, 2, 1, 0, 0 give 13 points and 30
      cards. */
  lemma Example()
    ensures Points(4) + Points(2) + Points(2) + Points(1) + Points(0) + Points(0) == 13
    ensures TotalCopies([4, 2, 2, 1, 0, 0], 6) == 30
  {
    var ms := [4, 2, 2, 1, 0, 0];
    assert Copies(ms, 0) == 1;
    assert Copies(ms, 1) == 2;
    assert Copies(ms, 2) == 4;
    assert Copies(ms, 3) == 8;
    assert Copies(ms, 4) == 14;
    assert Copies(ms, 5) == 1;
  }
}

=== FILE: day05_almanac.dfy ===
/** Day 5: an almanac lists seed ranges and a chain of maps.  Each map is a
    list of `(destination, source, length)` ranges; a number inside a source
    range moves by the same offset into the destination range, any other
    number maps to itself.  Part two is the lowest location reached from any
    seed of any seed range. */
module Day05 {
  import opened Wrappers
  import opened Text
  import opened Seqs

  /** One `(dest, source, length)` line of a map. */
  datatype Range = Range(dest: nat, src: nat, len: nat) {
    predicate Contains(s: nat) {
      src <= s < src + len
    }
  }

  datatype Map = Map(ranges: seq<Range>)

  /** The first range of `m` containing `s`, if any. */
  function FirstRange(m: Map, s: nat): (r: Option<nat>)
    ensures r.None? <==> forall k :: 0 <= k < |m.ranges| ==> !m.ranges[k].Contains(s)
    ensures r.Some? ==> r.value < |m.ranges| && m.ranges[r.value].Contains(s)
                        && forall k :: 0 <= k < r.value ==> !m.ranges[k].Contains(s)
  {
    FirstRangeFrom(m.ranges, s, 0)
  }

  function FirstRangeFrom(ranges: seq<Range>, s: nat, i: nat): (r: Option<nat>)
    requires i <= |ranges|
    ensures r.None? <==> forall k :: i <= k < |ranges| ==> !ranges[k].Contains(s)
    ensures r.Some? ==> i <= r.value < |ranges| && ranges[r.value].Contains(s)
                        && forall k :: i <= k < r.value ==> !ranges[k].Contains(s)
    decreases |ranges| - i
  {
    if i == |ranges| then None
    else if ranges[i].Contains(s) then Some(i)
    else FirstRangeFrom(ranges, s, i + 1)
  }

  /** `Map::get`: the first range holding `source` decides; a number outside
      every range maps to itself. */
  method Get(m: Map, source: nat) returns (d: nat)
    ensures d == Lookup(m, source)
    ensures FirstRange(m, source).None? ==> d == source
    ensures FirstRange(m, source).Some? ==>
              var r := m.ranges[FirstRange(m, source).value];
              d == r.dest + (source - r.src)
  {
    var i := 0;
    while i < |m.ranges|
      invariant 0 <= i <= |m.ranges|
      invariant forall k :: 0 <= k < i ==> !m.ranges[k].Contains(source)
    {
      var r := m.ranges[i];
      if source >= r.src && source < r.src + r.len {
        return r.dest + (source - r.src);
      }
      i := i + 1;
    }
    return source;
  }

  /** The value `Get` returns, as a function. */
  function Lookup(m: Map, source: nat): (d: nat)
    ensures (forall k :: 0 <= k < |m.ranges| ==> !m.ranges[k].Contains(source)) ==> d == source
  {
    match FirstRange(m, source)
    case None => source
    case Some(k) => m.ranges[k].dest + (source - m.ranges[k].src)
  }

  /** Inside one range, and before any other range takes over, the map is a
      translation. */
  lemma LookupTranslates(m: Map, k: nat, a: nat, b: nat)
    requires k < |m.ranges| && m.ranges[k].Contains(a) && m.ranges[k].Contains(b)
    requires forall j :: 0 <= j < k ==> !m.ranges[j].Contains(a) && !m.ranges[j].Contains(b)
    ensures Lookup(m, b) - Lookup(m, a) == b - a
  {
  }

  /** The test of `Map::get` with the single range `(50, 98, 2)`. */
  lemma GetExample()
    ensures var m := Map([Range(50, 98, 2)]);
            Lookup(m, 97) == 97 && Lookup(m, 98) == 50 && Lookup(m, 99) == 51 && Lookup(m, 100) == 100
  {
  }

  // ---------------------------------------------------------------- parsing

  /** One range line: `split(' ')`, every piece a number, exactly three. */
  function ParseRange(line: string): (r: Result<Range>)
    ensures r.Ok? <==> (ParseNats(Split(line, ' ')).Some? && |Split(line, ' ')| == 3)
    ensures r.Ok? ==> ParseNats(Split(line, ' ')) == Some([r.value.dest, r.value.src, r.value.len])
  {
    var nums :- OkOr(ParseNats(Split(line, ' ')));
    if |nums| == 3 then
      assert nums == [nums[0], nums[1], nums[2]];
      Ok(Range(nums[0], nums[1], nums[2]))
    else Err
  }

  /** `Map::from_str`: a title line (any text), then one range per line. */
  function ParseMap(s: string): (r: Result<Map>)
    ensures r.Ok? <==> |Lines(s)| > 0 && forall i :: 1 <= i < |Lines(s)| ==> ParseRange(Lines(s)[i]).Ok?
    ensures r.Ok? ==> |r.value.ranges| == |Lines(s)| - 1
                      && forall i :: 1 <= i < |Lines(s)| ==> ParseRange(Lines(s)[i]) == Ok(r.value.ranges[i - 1])
  {
    var lines := Lines(s);
    if |lines| == 0 then Err
    else
      var ranges :- MapAll(lines[1..], ParseRange);
      assert forall i :: 1 <= i < |lines| ==> lines[i] == lines[1..][i - 1];
      Ok(Map(ranges))
  }

  /** `chunks_exact(2)`: consecutive pairs, an odd last number dropped. */
  function Pairs(xs: seq<nat>): (r: seq<(nat, nat)>)
    ensures |r| == |xs| / 2
    ensures forall i :: 0 <= i < |r| ==> r[i] == (xs[2 * i], xs[2 * i + 1])
  {
    if |xs| < 2 then []
    else
      var rest := Pairs(xs[2..]);
      assert forall i :: 0 <= i < |rest| ==> xs[2..][2 * i] == xs[2 * i + 2] && xs[2..][2 * i + 1] == xs[2 * i + 3];
      [(xs[0], xs[1])] + rest
  }

  datatype Almanac = Almanac(seeds: seq<(nat, nat)>, maps: seq<Map>)

  const Blank: string := "\n\n"

  /** The words after the `:` of the text before the first blank line. */
  function SeedWords(s: string): Option<seq<string>> {
    match SplitOnceStr(s, Blank)
    case None => None
    case Some((seedText, _)) =>
      match SplitOnce(seedText, ':')
      case None => None
      case Some((_, numbers)) => Some(SplitWhitespace(numbers))
  }

  /** The blank-line separated blocks after the first blank line. */
  function MapBlocks(s: string): seq<string> {
    match SplitOnceStr(s, Blank)
    case None => []
    case Some((_, rest)) => SplitStr(rest, Blank)
  }

  /** `Almanac2::from_str`: the seed line before the first blank line, the
      maps separated by blank lines after it.  It fails exactly when there is
      no blank line, the seed line has no `:`, a seed is not a number or a
      map does not parse; the seeds are the numbers after the `:` taken in
      pairs. */
  function ParseAlmanac(s: string): (r: Result<Almanac>)
    ensures r.Ok? <==> SeedWords(s).Some? && ParseNats(SeedWords(s).value).Some?
                       && forall i :: 0 <= i < |MapBlocks(s)| ==> ParseMap(MapBlocks(s)[i]).Ok?
    ensures r.Ok? ==> r.value.seeds == Pairs(ParseNats(SeedWords(s).value).value)
    ensures r.Ok? ==> SplitOnceStr(s, Blank).Some?
    ensures r.Ok? ==> var blocks := MapBlocks(s);
                      |r.value.maps| == |blocks|
                      && forall i :: 0 <= i < |blocks| ==> ParseMap(blocks[i]) == Ok(r.value.maps[i])
  {
    var words :- OkOr(SeedWords(s));
    var seeds :- OkOr(ParseNats(words));
    var maps :- MapAll(MapBlocks(s), ParseMap);
    Ok(Almanac(Pairs(seeds), maps))
  }

  // -------------------------------------------------------------- locations

  /** A number sent through the maps in order. */
  function Locate(maps: seq<Map>, s: nat): nat {
    if |maps| == 0 then s else Locate(maps[1..], Lookup(maps[0], s))
  }

  /** Sending a number through two chains one after the other is sending it
      through their concatenation. */
  lemma {:induction false} LocateConcat(a: seq<Map>, b: seq<Map>, s: nat)
    ensures Locate(a + b, s) == Locate(b, Locate(a, s))
    decreases |a|
  {
    if |a| == 0 {
      assert a + b == b;
    } else {
      assert (a + b)[1..] == a[1..] + b;
      LocateConcat(a[1..], b, Lookup(a[0], s));
    }
  }

  /** The locations of the seeds `start`, ..., `start + count - 1`. */
  function RangeLocations(maps: seq<Map>, start: nat, count: nat): (r: seq<nat>)
    ensures |r| == count
    ensures forall i :: 0 <= i < count ==> r[i] == Locate(maps, start + i)
  {
    if count == 0 then [] else RangeLocations(maps, start, count - 1) + [Locate(maps, start + count - 1)]
  }

  /** `Almanac2::locations`: every seed of every range, range by range. */
  function Locations(a: Almanac): (r: seq<nat>)
    ensures |r| == SeedCount(a.seeds)
    decreases |a.seeds|
  {
    if |a.seeds| == 0 then []
    else
      var (start, count) := a.seeds[0];
      RangeLocations(a.maps, start, count) + Locations(Almanac(a.seeds[1..], a.maps))
  }

  function SeedCount(seeds: seq<(nat, nat)>): nat {
    if |seeds| == 0 then 0 else seeds[0].1 + SeedCount(seeds[1..])
  }

  /** Some seed range holds `s`. */
  predicate IsSeed(seeds: seq<(nat, nat)>, s: nat) {
    exists k :: 0 <= k < |seeds| && seeds[k].0 <= s < seeds[k].0 + seeds[k].1
  }

  /** The locations are exactly the images of the seeds. */
  lemma {:induction false} LocationsOfSeeds(a: Almanac, x: nat)
    ensures x in Locations(a) <==> exists s :: IsSeed(a.seeds, s) && Locate(a.maps, s) == x
    decreases |a.seeds|
  {
    if |a.seeds| > 0 {
      var (start, count) := a.seeds[0];
      var tail := Almanac(a.seeds[1..], a.maps);
      LocationsOfSeeds(tail, x);
      assert Locations(a) == RangeLocations(a.maps, start, count) + Locations(tail);
      RangeImage(a.maps, start, count, x);
      ImageCons(a.seeds, a.maps, x);
    }
  }

  /** Some seed from `start` on, fewer than `count` of them, lands on `x`. */
  ghost predicate InImage(maps: seq<Map>, start: nat, count: nat, x: nat) {
    exists s :: start <= s < start + count && Locate(maps, s) == x
  }

  lemma RangeImage(maps: seq<Map>, start: nat, count: nat, x: nat)
    ensures x in RangeLocations(maps, start, count) <==> InImage(maps, start, count, x)
  {
    var here := RangeLocations(maps, start, count);
    if x in here {
      var i :| 0 <= i < count && here[i] == x;
      assert start <= start + i < start + count && Locate(maps, start + i) == x;
    }
    if InImage(maps, start, count, x) {
      var s :| start <= s < start + count && Locate(maps, s) == x;
      assert here[s - start] == x;
    }
  }

  /** A seed of a list of ranges lies in its first range or in the rest. */
  lemma ImageCons(seeds: seq<(nat, nat)>, maps: seq<Map>, x: nat)
    requires |seeds| > 0
    ensures (exists s :: IsSeed(seeds, s) && Locate(maps, s) == x)
            <==> InImage(maps, seeds[0].0, seeds[0].1, x) || exists s :: IsSeed(seeds[1..], s) && Locate(maps, s) == x
  {
    var (start, count) := seeds[0];
    if s :| IsSeed(seeds, s) && Locate(maps, s) == x {
      IsSeedCons(seeds, s);
    }
    if InImage(maps, start, count, x) {
      var s :| start <= s < start + count && Locate(maps, s) == x;
      IsSeedCons(seeds, s);
    }
    if s :| IsSeed(seeds[1..], s) && Locate(maps, s) == x {
      IsSeedCons(seeds, s);
    }
  }

  lemma IsSeedCons(seeds: seq<(nat, nat)>, s: nat)
    requires |seeds| > 0
    ensures IsSeed(seeds, s) <==> seeds[0].0 <= s < seeds[0].0 + seeds[0].1 || IsSeed(seeds[1..], s)
  {
    var tail := seeds[1..];
    if IsSeed(seeds, s) {
      var k :| 0 <= k < |seeds| && seeds[k].0 <= s < seeds[k].0 + seeds[k].1;
      if k > 0 {
        assert tail[k - 1] == seeds[k];
      }
    }
    if IsSeed(tail, s) {
      var k :| 0 <= k < |tail| && tail[k].0 <= s < tail[k].0 + tail[k].1;
      assert seeds[k + 1] == tail[k];
    }
  }

  /** `part_two`: the lowest location; no seed at all is a panic. */
  function PartTwo(input: string): (r: Result<nat>)
    ensures r.Ok? <==> ParseAlmanac(input).Ok? && SeedCount(ParseAlmanac(input).value.seeds) > 0
    ensures r.Ok? ==> var a := ParseAlmanac(input).value;
                      (exists s :: IsSeed(a.seeds, s) && Locate(a.maps, s) == r.value)
                      && forall s :: IsSeed(a.seeds, s) ==> r.value <= Locate(a.maps, s)
  {
    var a :- ParseAlmanac(input);
    var locations := Locations(a);
    if |locations| == 0 then Err
    else
      var m := Min(locations);
      LocationsOfSeeds(a, m);
      forall s | IsSeed(a.seeds, s) ensures m <= Locate(a.maps, s) {
        LocationsOfSeeds(a, Locate(a.maps, s));
      }
      Ok(m)
  }
}

=== FILE: day06_boat_races.dfy ===
/** Day 6: holding the button of a toy boat for `h` of the race's `t`
    milliseconds moves it `h * (t - h)` millimetres.  A race is won by beating
    the record distance `d`; the answer counts the winning holds.  Part one
    multiplies the counts of several races, part two reads the digits of each
    line as one number and counts by searching for the first winning hold. */
module Day06 {
  import opened Wrappers
  import opened Text

  /** The distance travelled when holding for `h` of `t` milliseconds. */
  function Travel(t: nat, h: nat): nat
    requires h <= t
  {
    h * (t - h)
  }

  predicate Wins(t: nat, d: nat, h: nat)
    requires h <= t
  {
    Travel(t, h) > d
  }

  /** The number of winning holds among `lo, ..., hi - 1`. */
  function CountWins(t: nat, d: nat, lo: nat, hi: nat): (n: nat)
    requires hi <= t + 1
    ensures n <= if lo <= hi then hi - lo else 0
    decreases hi - lo
  {
    if lo >= hi then 0 else (if Wins(t, d, lo) then 1 else 0) + CountWins(t, d, lo + 1, hi)
  }

  /** `winning_races`: the holds `1, ..., t - 1` that beat the record. */
  function WinningRaces(t: nat, d: nat): nat {
    if t == 0 then 0 else CountWins(t, d, 1, t)
  }

  lemma {:induction false} CountSplit(t: nat, d: nat, lo: nat, mid: nat, hi: nat)
    requires lo <= mid <= hi <= t + 1
    ensures CountWins(t, d, lo, hi) == CountWins(t, d, lo, mid) + CountWins(t, d, mid, hi)
    decreases mid - lo
  {
    if lo < mid {
      CountSplit(t, d, lo + 1, mid, hi);
    }
  }

  lemma {:induction false} CountAllWin(t: nat, d: nat, lo: nat, hi: nat)
    requires lo <= hi <= t + 1
    requires forall h :: lo <= h < hi ==> Wins(t, d, h)
    ensures CountWins(t, d, lo, hi) == hi - lo
    decreases hi - lo
  {
    if lo < hi {
      CountAllWin(t, d, lo + 1, hi);
    }
  }

  lemma {:induction false} CountNoneWin(t: nat, d: nat, lo: nat, hi: nat)
    requires hi <= t + 1
    requires forall h :: lo <= h < hi ==> !Wins(t, d, h)
    ensures CountWins(t, d, lo, hi) == 0
    decreases hi - lo
  {
    if lo < hi {
      CountNoneWin(t, d, lo + 1, hi);
    }
  }

  /** The travel curve is symmetric ... */
  lemma TravelSymmetric(t: nat, h: nat)
    requires h <= t
    ensures Travel(t, h) == Travel(t, t - h)
  {
  }

  /** ... and rises towards the middle: `f(h) - f(m) = (h - m)(t - h - m)`. */
  lemma TravelRises(t: nat, m: nat, h: nat)
    requires m <= h && h + m <= t
    ensures Travel(t, m) <= Travel(t, h)
  {
    var a, b := h - m, t - h - m;
    assert h * (t - h) - m * (t - m) == a * b;
    assert a * b >= 0;
  }

  /** With `m` the first winning hold, the winners are exactly `m .. t - m`. */
  lemma WinnersAroundMiddle(t: nat, d: nat, m: nat)
    requires 1 <= m < t && Wins(t, d, m)
    requires forall h :: 1 <= h < m ==> !Wins(t, d, h)
    ensures 2 * m <= t
    ensures WinningRaces(t, d) == t - 2 * m + 1
  {
    TravelSymmetric(t, m);
    assert Wins(t, d, t - m);
    forall h | m <= h <= t - m ensures Wins(t, d, h) {
      if h + m <= t && m <= h {
        TravelRises(t, m, h);
      }
    }
    forall h | t - m < h < t ensures !Wins(t, d, h) {
      TravelSymmetric(t, h);
      assert !Wins(t, d, t - h);
    }
    CountSplit(t, d, 1, m, t);
    CountSplit(t, d, m, t - m + 1, t);
    CountNoneWin(t, d, 1, m);
    CountAllWin(t, d, m, t - m + 1);
    CountNoneWin(t, d, t - m + 1, t);
  }

  // ------------------------------------------------------ winning_races_two

  /** The margin search of `winning_races_two` from hold `m`: keep going while
      the hold falls short of the record (`stopAtTie`, as written: `<`) or
      does not beat it (`<=`).  Evaluating `time - margin` with a margin past
      the race length underflows. */
  function FirstMargin(t: nat, d: nat, m: nat, stopAtTie: bool): (r: Option<nat>)
    requires m >= 1
    ensures r.Some? ==> m <= r.value <= t
    ensures r.Some? ==> (if stopAtTie then Travel(t, r.value) >= d else Wins(t, d, r.value))
    ensures r.Some? ==> forall h :: m <= h < r.value ==> (if stopAtTie then Travel(t, h) < d else !Wins(t, d, h))
    ensures r.None? ==> forall h :: m <= h <= t ==> (if stopAtTie then Travel(t, h) < d else !Wins(t, d, h))
    decreases t + 1 - m
  {
    if m > t then None
    else if (if stopAtTie then Travel(t, m) < d else Travel(t, m) <= d) then FirstMargin(t, d, m + 1, stopAtTie)
    else Some(m)
  }

  /** `time - 2 * margin + 1`, whose subtraction comes first and so
      underflows as soon as twice the margin passes the race length. */
  function FromMargin(t: nat, margin: Option<nat>): (r: Option<nat>)
    ensures r.Some? <==> margin.Some? && 2 * margin.value <= t
    ensures r.Some? ==> r.value + 2 * margin.value == t + 1
  {
    match margin
    case None => None
    case Some(m) => if 2 * m > t then None else Some(t - 2 * m + 1)
  }

  /** `winning_races_two` as written: the loop stops at the first hold that
      reaches the record, even one that only ties it. */
  function WinningRacesTwoAsWritten(t: nat, d: nat): (r: Option<nat>)
    ensures r.Some? ==> FirstMargin(t, d, 1, true).Some? &&
                        var m := FirstMargin(t, d, 1, true).value;
                        Travel(t, m) >= d && r.value == t - 2 * m + 1
  {
    FromMargin(t, FirstMargin(t, d, 1, true))
  }

  /** The search stopping only at a hold that beats the record. */
  function WinningRacesTwo(t: nat, d: nat): Option<nat> {
    FromMargin(t, FirstMargin(t, d, 1, false))
  }

  /** The margin search counts the winning holds whenever there is one; with
      none it runs past the race and fails. */
  lemma WinningRacesTwoCounts(t: nat, d: nat)
    ensures WinningRacesTwo(t, d) == if WinningRaces(t, d) > 0 then Some(WinningRaces(t, d)) else None
  {
    var margin := FirstMargin(t, d, 1, false);
    match margin
    case None =>
      if t > 0 {
        CountNoneWin(t, d, 1, t);
      }
    case Some(m) =>
      assert m < t;
      WinnersAroundMiddle(t, d, m);
  }

  /** No hold of the race travels exactly the record distance. */
  predicate NoTie(t: nat, d: nat) {
    forall h :: 1 <= h <= t ==> Travel(t, h) != d
  }

  /** Without a tie both searches stop at the same hold. */
  lemma {:induction false} MarginsAgree(t: nat, d: nat, m: nat)
    requires m >= 1 && NoTie(t, d)
    ensures FirstMargin(t, d, m, true) == FirstMargin(t, d, m, false)
    decreases t + 1 - m
  {
    if m <= t {
      assert Travel(t, m) != d;
      MarginsAgree(t, d, m + 1);
    }
  }

  /** Without a tie the search as written counts the winning holds. */
  lemma AsWrittenCountsWithoutTie(t: nat, d: nat)
    ensures NoTie(t, d) ==>
              WinningRacesTwoAsWritten(t, d) == if WinningRaces(t, d) > 0 then Some(WinningRaces(t, d)) else None
  {
    if NoTie(t, d) {
      MarginsAgree(t, d, 1);
      WinningRacesTwoCounts(t, d);
    }
  }

  /** When some hold only ties the record the search stops there and counts
      two holds too many: race `(7, 10)` has winners 3 and 4 only. */
  lemma TieCountsTwoTooMany()
    ensures WinningRaces(7, 10) == 2
    ensures WinningRacesTwoAsWritten(7, 10) == Some(4)
    ensures WinningRacesTwo(7, 10) == Some(2)
  {
    assert FirstMargin(7, 10, 1, true) == Some(2);
    assert FirstMargin(7, 10, 1, false) == Some(3);
    WinningRacesTwoCounts(7, 10);
  }

  /** The test race `(7, 9)` and the part-two race of the worked example. */
  lemma Examples()
    ensures WinningRaces(7, 9) == 4
    ensures WinningRacesTwo(71530, 940200) == Some(71503)
  {
    WinnersAroundMiddle(7, 9, 2);
    var t, d := 71530, 940200;
    forall h | 1 <= h < 14 ensures !Wins(t, d, h) {
      TravelRises(t, h, 13);
    }
    WinnersAroundMiddle(t, d, 14);
    WinningRacesTwoCounts(t, d);
  }

  // ---------------------------------------------------------------- parsing

  /** The numbers after the `:` of a line. */
  function ParseNumbers(line: string): (r: Result<seq<nat>>)
    ensures r.Ok? <==> ':' in line && ParseNats(SplitWhitespace(SplitOnce(line, ':').value.1)).Some?
  {
    var (_, rest) :- OkOr(SplitOnce(line, ':'));
    OkOr(ParseNats(SplitWhitespace(rest)))
  }

  /** The digits after the `:` of a line, spaces removed, as one number. */
  function ParseJoined(line: string): (r: Result<nat>)
    ensures r.Ok? <==> ':' in line && ParseNat(Concat(SplitWhitespace(SplitOnce(line, ':').value.1))).Some?
  {
    var (_, rest) :- OkOr(SplitOnce(line, ':'));
    OkOr(ParseNat(Concat(SplitWhitespace(rest))))
  }

  function Product(times: seq<nat>, distances: seq<nat>): nat
    requires |times| == |distances|
  {
    if |times| == 0 then 1
    else WinningRaces(times[0], distances[0]) * Product(times[1..], distances[1..])
  }

  /** `part_one`: a time line and a distance line of equally many numbers
      (`assert!`), the winning counts multiplied. */
  function PartOne(input: string): (r: Result<nat>)
    ensures r.Ok? <==> |Lines(input)| >= 2
                       && ParseNumbers(Lines(input)[0]).Ok? && ParseNumbers(Lines(input)[1]).Ok?
                       && |ParseNumbers(Lines(input)[0]).value| == |ParseNumbers(Lines(input)[1]).value|
    ensures r.Ok? ==> r.value == Product(ParseNumbers(Lines(input)[0]).value, ParseNumbers(Lines(input)[1]).value)
  {
    var lines := Lines(input);
    if |lines| < 2 then Err
    else
      var times :- ParseNumbers(lines[0]);
      var distances :- ParseNumbers(lines[1]);
      if |times| != |distances| then Err
      else Ok(Product(times, distances))
  }

  /** The one race of part two, read from the digits of the first two
      lines. */
  function JoinedRace(input: string): (r: Result<(nat, nat)>)
    ensures r.Ok? <==> |Lines(input)| >= 2 && ParseJoined(Lines(input)[0]).Ok? && ParseJoined(Lines(input)[1]).Ok?
    ensures r.Ok? ==> r.value == (ParseJoined(Lines(input)[0]).value, ParseJoined(Lines(input)[1]).value)
  {
    var lines := Lines(input);
    if |lines| < 2 then Err
    else
      var time :- ParseJoined(lines[0]);
      var distance :- ParseJoined(lines[1]);
      Ok((time, distance))
  }

  /** `part_two`: the margin search as written on the joined race.  When no
      hold ties the record it is the number of winning holds. */
  function PartTwo(input: string): (r: Result<nat>)
    ensures r.Ok? ==> JoinedRace(input).Ok?
    ensures JoinedRace(input).Ok? ==> var (t, d) := JoinedRace(input).value;
                                      NoTie(t, d) && WinningRaces(t, d) > 0 ==> r.Ok?
    ensures r.Ok? ==> var (t, d) := JoinedRace(input).value;
                      NoTie(t, d) ==> WinningRaces(t, d) > 0 && r.value == WinningRaces(t, d)
  {
    var (time, distance) :- JoinedRace(input);
    AsWrittenCountsWithoutTie(time, distance);
    OkOr(WinningRacesTwoAsWritten(time, distance))
  }

  /** The races of the worked example: 4 * 8 * 9. */
  lemma PartOneExample()
    ensures Product([7, 15, 30], [9, 40, 200]) == 288
  {
    WinnersAroundMiddle(7, 9, 2);
    WinnersAroundMiddle(15, 40, 4);
    WinnersAroundMiddle(30, 200, 11);
  }
}

=== FILE: day07_camel_cards.dfy ===
/** Day 7, `main.rs`: every line is a hand and a bid; the hands are ranked
    from the weakest (rank 1) to the strongest and the answer is the sum of
    bid times rank.  Part one reads the hands without jokers, part two with. */
module Day07 {
  import opened Wrappers
  import opened Text
  import opened Seqs
  import Cards = Day07Cards
  import Jokers = Day07Jokers

  /** A line: exactly two whitespace-separated fields, a hand and a bid. */
  function ParseEntry<H>(line: string, parseHand: string -> Result<H>): (r: Result<(H, nat)>)
    ensures r.Ok? <==> |SplitWhitespace(line)| == 2 && parseHand(SplitWhitespace(line)[0]).Ok?
                       && ParseNat(SplitWhitespace(line)[1]).Some?
    ensures r.Ok? ==> r.value == (parseHand(SplitWhitespace(line)[0]).value, ParseNat(SplitWhitespace(line)[1]).value)
  {
    var words := SplitWhitespace(line);
    if |words| == 0 then Err
    else
      var hand :- parseHand(words[0]);
      if |words| < 2 then Err
      else
        var bid :- OkOr(ParseNat(words[1]));
        if |words| > 2 then Err else Ok((hand, bid))
  }

  function EntryOne(line: string): Result<(Cards.FiveCards, nat)> {
    ParseEntry(line, Cards.ParseHand)
  }

  function EntryTwo(line: string): Result<(Jokers.FiveCards, nat)> {
    ParseEntry(line, Jokers.ParseHand)
  }

  /** Every line parses (the `expect`s and `unwrap`s of the line parser). */
  predicate AllParse<T>(lines: seq<string>, parse: string -> Result<T>) {
    forall i :: 0 <= i < |lines| ==> parse(lines[i]).Ok?
  }

  /** `sum` of `bid * rank` over hands listed weakest first. */
  function Winnings<H>(ranked: seq<(H, nat)>): nat {
    if |ranked| == 0 then 0
    else Winnings(ranked[..|ranked| - 1]) + ranked[|ranked| - 1].1 * |ranked|
  }

  /** The sort key of `sort_by` with `Reverse`: larger `cmp` values, that is
      weaker hands, come first. */
  function KeyOne(e: (Cards.FiveCards, nat)): int {
    -(Cards.OrderKey(e.0) as int)
  }

  function KeyTwo(e: (Jokers.FiveCards, nat)): int {
    -(Jokers.OrderKey(e.0) as int)
  }

  /** Hands ranked by the sort appear weakest first: no hand is stronger
      than one ranked above it. */
  lemma RankedWeakestFirst(ranked: seq<(Cards.FiveCards, nat)>)
    requires SortedBy(ranked, KeyOne)
    ensures forall i, j :: 0 <= i < j < |ranked| ==> !Cards.Less(ranked[i].0, ranked[j].0)
  {
    forall i, j | 0 <= i < j < |ranked| ensures !Cards.Less(ranked[i].0, ranked[j].0) {
      Cards.OrderKeyOrders(ranked[i].0, ranked[j].0);
    }
  }

  lemma RankedWeakestFirstWithJokers(ranked: seq<(Jokers.FiveCards, nat)>)
    requires SortedBy(ranked, KeyTwo)
    ensures forall i, j :: 0 <= i < j < |ranked| ==> !Jokers.Less(ranked[i].0, ranked[j].0)
  {
    forall i, j | 0 <= i < j < |ranked| ensures !Jokers.Less(ranked[i].0, ranked[j].0) {
      Jokers.OrderKeyOrders(ranked[i].0, ranked[j].0);
    }
  }

  /** `part_one`: every line must parse; the total winnings of the hands
      ranked by the stable sort, so equal hands keep their input order. */
  function PartOne(input: string): (r: Result<nat>)
    ensures r.Ok? <==> AllParse(Lines(input), EntryOne)
    ensures r.Ok? ==> exists ranked: seq<(Cards.FiveCards, nat)> ::
      && SortedBy(ranked, KeyOne)
      && multiset(ranked) == multiset(MapAll(Lines(input), EntryOne).value)
      && (forall k :: WithKey(ranked, KeyOne, k) == WithKey(MapAll(Lines(input), EntryOne).value, KeyOne, k))
      && r.value == Winnings(ranked)
  {
    var entries :- MapAll(Lines(input), EntryOne);
    var ranked := SortBy(entries, KeyOne);
    assert forall k :: WithKey(ranked, KeyOne, k) == WithKey(entries, KeyOne, k) by {
      forall k ensures WithKey(ranked, KeyOne, k) == WithKey(entries, KeyOne, k) {
        SortByStable(entries, KeyOne, k);
      }
    }
    Ok(Winnings(ranked))
  }

  /** `part_two`: the same with jokers. */
  function PartTwo(input: string): (r: Result<nat>)
    ensures r.Ok? <==> AllParse(Lines(input), EntryTwo)
    ensures r.Ok? ==> exists ranked: seq<(Jokers.FiveCards, nat)> ::
      && SortedBy(ranked, KeyTwo)
      && multiset(ranked) == multiset(MapAll(Lines(input), EntryTwo).value)
      && (forall k :: WithKey(ranked, KeyTwo, k) == WithKey(MapAll(Lines(input), EntryTwo).value, KeyTwo, k))
      && r.value == Winnings(ranked)
  {
    var entries :- MapAll(Lines(input), EntryTwo);
    var ranked := SortBy(entries, KeyTwo);
    assert forall k :: WithKey(ranked, KeyTwo, k) == WithKey(entries, KeyTwo, k) by {
      forall k ensures WithKey(ranked, KeyTwo, k) == WithKey(entries, KeyTwo, k) {
        SortByStable(entries, KeyTwo, k);
      }
    }
    Ok(Winnings(ranked))
  }
}

=== FILE: day07_cards.dfy ===
/** Day 7, `card.rs`: Camel Cards hands without jokers.  A hand is five
    cards; its kind comes from how often each card occurs, and hands are
    ordered first by kind and then card by card.  As in the derived `Ord` of
    the Rust enums, a SMALLER value is a STRONGER hand or card. */
module Day07Cards {
  import opened Wrappers
  import opened Seqs

  datatype Card = Ace | King | Queen | Jack | Ten | Nine | Eight | Seven | Six | Five | Four | Three | Two

  /** The position of a card in the enum: Ace is 0 (strongest), Two is 12. */
  function Strength(c: Card): nat {
    match c
    case Ace => 0 case King => 1 case Queen => 2 case Jack => 3 case Ten => 4
    case Nine => 5 case Eight => 6 case Seven => 7 case Six => 8 case Five => 9
    case Four => 10 case Three => 11 case Two => 12
  }

  /** `Card::all_cards`, strongest first. */
  const AllCards: seq<Card> := [Ace, King, Queen, Jack, Ten, Nine, Eight, Seven, Six, Five, Four, Three, Two]

  lemma AllCardsOnce(c: Card)
    ensures Count(AllCards, c) == 1
    ensures AllCards[Strength(c)] == c
  {
    CountOnce(AllCards, c, Strength(c));
  }

  lemma AllCardsComplete()
    ensures forall c: Card :: Count(AllCards, c) == 1
  {
    forall c: Card ensures Count(AllCards, c) == 1 {
      AllCardsOnce(c);
    }
  }

  function CardChar(c: Card): char {
    match c
    case Ace => 'A' case King => 'K' case Queen => 'Q' case Jack => 'J' case Ten => 'T'
    case Nine => '9' case Eight => '8' case Seven => '7' case Six => '6' case Five => '5'
    case Four => '4' case Three => '3' case Two => '2'
  }

  /** `Card::from_str` on a one-character string. */
  function ParseCard(ch: char): (r: Result<Card>)
    ensures r.Ok? ==> CardChar(r.value) == ch
  {
    match ch
    case 'A' => Ok(Ace) case 'K' => Ok(King) case 'Q' => Ok(Queen) case 'J' => Ok(Jack)
    case 'T' => Ok(Ten) case '9' => Ok(Nine) case '8' => Ok(Eight) case '7' => Ok(Seven)
    case '6' => Ok(Six) case '5' => Ok(Five) case '4' => Ok(Four) case '3' => Ok(Three)
    case '2' => Ok(Two) case _ => Err
  }

  lemma CardCharInjective(c: Card, d: Card)
    requires CardChar(c) == CardChar(d)
    ensures c == d
  {
  }

  lemma ParseCardChar(c: Card)
    ensures ParseCard(CardChar(c)) == Ok(c)
  {
  }

  datatype Hand = Hand(cards: seq<Card>)

  /** The Rust hand is a `[Card; 5]`. */
  type FiveCards = h: Hand | |h.cards| == 5 witness Hand([Ace, Ace, Ace, Ace, Ace])

  /** `Hand::from_str`: every character must be a card, then there must be
      exactly five of them. */
  function ParseHand(s: string): (r: Result<FiveCards>)
    ensures r.Ok? <==> |s| == 5 && forall i :: 0 <= i < |s| ==> ParseCard(s[i]).Ok?
    ensures r.Ok? ==> FormatHand(r.value) == s
  {
    var cards :- MapAll(s, ParseCard);
    if |cards| != 5 then Err else Ok(Hand(cards))
  }

  function FormatHand(h: Hand): (s: string)
    ensures |s| == |h.cards|
    ensures forall i :: 0 <= i < |s| ==> s[i] == CardChar(h.cards[i])
  {
    seq(|h.cards|, i requires 0 <= i < |h.cards| => CardChar(h.cards[i]))
  }

  /** Printing a hand and parsing it back gives the same hand. */
  lemma ParseFormatHand(h: FiveCards)
    ensures ParseHand(FormatHand(h)) == Ok(h)
  {
    var s := FormatHand(h);
    forall i | 0 <= i < 5 ensures ParseCard(s[i]) == Ok(h.cards[i]) {
      ParseCardChar(h.cards[i]);
    }
    var r := MapAll(s, ParseCard);
    assert r.Ok? && r.value == h.cards;
  }

  // ------------------------------------------------------------------ kinds

  datatype HandKind = FiveKind | FourKind | FullHouse | ThreeKind | TwoPair | OnePair | HighCard

  /** The position of a kind in the enum: FiveKind (strongest) is 0. */
  function KindRank(k: HandKind): nat {
    match k
    case FiveKind => 0 case FourKind => 1 case FullHouse => 2 case ThreeKind => 3
    case TwoPair => 4 case OnePair => 5 case HighCard => 6
  }

  /** The kind of a hand whose largest group of equal cards has `a` cards and
      whose second largest has `b`. */
  function KindOfTop(a: nat, b: nat): HandKind {
    if a >= 5 then FiveKind
    else if a == 4 then FourKind
    else if a == 3 then (if b >= 2 then FullHouse else ThreeKind)
    else if a == 2 then (if b >= 2 then TwoPair else OnePair)
    else HighCard
  }

  /** How often each card of `deck` occurs in `cards`, in deck order. */
  function Counts<T(==)>(cards: seq<T>, deck: seq<T>): (cs: seq<nat>)
    ensures |cs| == |deck|
    ensures forall i :: 0 <= i < |deck| ==> cs[i] == Count(cards, deck[i])
  {
    if |deck| == 0 then [] else [Count(cards, deck[0])] + Counts(cards, deck[1..])
  }

  lemma {:induction false} CountsAppendCard<T>(cards: seq<T>, x: T, deck: seq<T>)
    ensures Sum(Counts(cards + [x], deck)) == Sum(Counts(cards, deck)) + Count(deck, x)
    decreases |deck|
  {
    if |deck| > 0 {
      CountsAppendCard(cards, x, deck[1..]);
      CountAppend(cards, x, deck[0]);
      SumAppend([Count(cards + [x], deck[0])], Counts(cards + [x], deck[1..]));
      SumAppend([Count(cards, deck[0])], Counts(cards, deck[1..]));
    }
  }

  lemma {:induction false} CountsAppendDeck<T>(cards: seq<T>, d1: seq<T>, d2: seq<T>)
    ensures Counts(cards, d1 + d2) == Counts(cards, d1) + Counts(cards, d2)
    decreases |d1|
  {
    if |d1| > 0 {
      assert (d1 + d2)[1..] == d1[1..] + d2;
      CountsAppendDeck(cards, d1[1..], d2);
    }
  }

  /** Counting over a deck that lists every card once accounts for every
      card of the hand. */
  lemma {:induction false} CountsCoverHand<T>(cards: seq<T>, deck: seq<T>)
    requires forall i :: 0 <= i < |cards| ==> Count(deck, cards[i]) == 1
    ensures Sum(Counts(cards, deck)) == |cards|
    decreases |cards|
  {
    if |cards| == 0 {
      SumBound(Counts(cards, deck), 0);
      SumNonNegative(Counts(cards, deck));
    } else {
      var init := cards[..|cards| - 1];
      CountsCoverHand(init, deck);
      assert init + [cards[|cards| - 1]] == cards;
      CountsAppendCard(init, cards[|cards| - 1], deck);
    }
  }

  /** Pushing one group size into the two largest seen so far. */
  function Push(top: (nat, nat), c: nat): (nat, nat) {
    var (a, b) := top;
    if c >= a then (c, a) else if c > b then (a, c) else (a, b)
  }

  function TopFrom(top: (nat, nat), cs: seq<nat>): (r: (nat, nat))
    decreases |cs|
  {
    if |cs| == 0 then top else TopFrom(Push(top, cs[0]), cs[1..])
  }

  /** The largest and second largest of a list of group sizes. */
  function Top(cs: seq<nat>): (nat, nat) {
    TopFrom((0, 0), cs)
  }

  /** What `Top` means: the first component is a largest entry and the second
      the largest entry at any other position. */
  ghost predicate TopTwo(cs: seq<nat>, top: (nat, nat)) {
    top.1 <= top.0
    && (forall i :: 0 <= i < |cs| ==> cs[i] <= top.0)
    && (forall i, k :: 0 <= i < |cs| && 0 <= k < |cs| && i != k ==> cs[i] <= top.1 || cs[k] <= top.1)
    && (top.0 == 0 || exists i :: (0 <= i < |cs| && cs[i] == top.0 &&
          (top.1 == 0 || exists k :: 0 <= k < |cs| && k != i && cs[k] == top.1)))
  }

  lemma {:induction false} TopFromIsTopTwo(done: seq<nat>, cs: seq<nat>, top: (nat, nat))
    requires TopTwo(done, top)
    ensures TopTwo(done + cs, TopFrom(top, cs))
    decreases |cs|
  {
    if |cs| == 0 {
      assert done + cs == done;
    } else {
      var next := done + [cs[0]];
      PushTopTwo(done, cs[0], top);
      TopFromIsTopTwo(next, cs[1..], Push(top, cs[0]));
      assert next + cs[1..] == done + cs;
    }
  }

  /** Pushing a group size keeps the two largest of the sizes seen. */
  lemma PushTopTwo(done: seq<nat>, c: nat, top: (nat, nat))
    requires TopTwo(done, top)
    ensures TopTwo(done + [c], Push(top, c))
  {
    var next := done + [c];
    var n := |done|;
    var (a, b) := top;
    var top' := Push(top, c);
    assert next[n] == c;
    assert forall i :: 0 <= i < n ==> next[i] == done[i];
    if top.0 != 0 {
      var i :| 0 <= i < n && done[i] == a && (b == 0 || exists k :: 0 <= k < n && k != i && done[k] == b);
      if c >= a {
        assert next[n] == top'.0 && next[i] == top'.1;
      } else if c > b {
        assert next[i] == top'.0 && next[n] == top'.1;
      } else if b != 0 {
        var k :| 0 <= k < n && k != i && done[k] == b;
        assert next[i] == top'.0 && next[k] == top'.1;
      }
    } else if c > 0 {
      assert next[n] == top'.0;
    }
  }

  lemma TopIsTopTwo(cs: seq<nat>)
    ensures TopTwo(cs, Top(cs))
  {
    TopFromIsTopTwo([], cs, (0, 0));
    assert [] + cs == cs;
  }

  ghost predicate Has(cs: seq<nat>, v: nat) {
    exists i :: 0 <= i < |cs| && cs[i] == v
  }

  ghost predicate Singles(cs: seq<nat>) {
    forall i :: 0 <= i < |cs| ==> cs[i] <= 1
  }

  ghost predicate HasTwoPairs(cs: seq<nat>) {
    exists i, j :: 0 <= i < |cs| && 0 <= j < |cs| && i != j && cs[i] == 2 && cs[j] == 2
  }

  /** Where the two largest group sizes sit, and what the total of five
      leaves for the others. */
  lemma TopShape(cs: seq<nat>, top: (nat, nat)) returns (m: nat, n: nat)
    requires TopTwo(cs, top) && Sum(cs) == 5
    ensures top.0 == 0 ==> forall i :: 0 <= i < |cs| ==> cs[i] == 0
    ensures top.0 > 0 ==> m < |cs| && cs[m] == top.0 && top.0 <= 5
    ensures top.0 > 0 ==> forall i :: 0 <= i < |cs| && i != m ==> cs[i] <= top.1 && top.0 + cs[i] <= 5
    ensures top.1 > 0 ==> n < |cs| && n != m && cs[n] == top.1
    ensures top.1 > 0 ==> forall i :: 0 <= i < |cs| && i != m && i != n ==> top.0 + top.1 + cs[i] <= 5
  {
    var (a, b) := top;
    m, n := 0, 0;
    if a == 0 {
      assert forall i :: 0 <= i < |cs| ==> cs[i] <= top.0;
      return;
    }
    m :| 0 <= m < |cs| && cs[m] == a && (b == 0 || exists k :: 0 <= k < |cs| && k != m && cs[k] == b);
    SumSingle(cs, m);
    forall i | 0 <= i < |cs| && i != m ensures cs[i] <= b && a + cs[i] <= 5 {
      SumPair(cs, m, i);
    }
    if b > 0 {
      n :| 0 <= n < |cs| && n != m && cs[n] == b;
      forall i | 0 <= i < |cs| && i != m && i != n ensures a + b + cs[i] <= 5 {
        SumTriple(cs, m, n, i);
      }
    }
  }

  /** In group sizes adding up to five, the two largest decide the kind as
      the puzzle describes it. */
  lemma KindOfCounts(cs: seq<nat>, top: (nat, nat))
    requires TopTwo(cs, top) && Sum(cs) == 5
    ensures var k := KindOfTop(top.0, top.1);
      && (k == FiveKind <==> Has(cs, 5))
      && (k == FourKind <==> Has(cs, 4))
      && (k == FullHouse <==> Has(cs, 3) && Has(cs, 2))
      && (k == ThreeKind <==> Has(cs, 3) && !Has(cs, 2))
      && (k == TwoPair <==> HasTwoPairs(cs))
      && (k == OnePair <==> Has(cs, 2) && !Has(cs, 3) && !HasTwoPairs(cs))
      && (k == HighCard <==> Singles(cs))
  {
    var m, n := TopShape(cs, top);
  }

  lemma {:induction false} TopFromAppend(top: (nat, nat), x: seq<nat>, y: seq<nat>)
    ensures TopFrom(top, x + y) == TopFrom(TopFrom(top, x), y)
    decreases |x|
  {
    if |x| == 0 {
      assert x + y == y;
    } else {
      assert (x + y)[1..] == x[1..] + y;
      TopFromAppend(Push(top, x[0]), x[1..], y);
    }
  }

  /** A card that does not occur changes neither of the two largest groups. */
  lemma TopSkipsZero(x: seq<nat>, y: seq<nat>)
    ensures Top(x + [0] + y) == Top(x + y)
  {
    TopFromAppend((0, 0), x + [0], y);
    TopFromAppend((0, 0), x, [0]);
    TopFromAppend((0, 0), x, y);
    TopIsTopTwo(x);
  }

  // ------------------------------------------------------ HandKind::from_hand

  /** The state of the scan over the deck: still looking with the kind found
      so far, returned early, or `unreachable!`. */
  datatype Scan = Going(kind: HandKind) | Done(kind: HandKind) | Stuck

  /** The check after every card: a kind that already uses more than three
      cards, that is any kind stronger than `OnePair` other than `ThreeKind`,
      is returned at once. */
  function AfterCard(kind: HandKind): Scan {
    if kind != ThreeKind && KindRank(kind) < KindRank(OnePair) then Done(kind) else Going(kind)
  }

  /** One iteration of the loop of `from_hand`: the card of the deck that
      occurs `n` times in the hand updates the kind found so far. */
  function Step(s: Scan, n: nat): Scan {
    match s
    case Done(_) => s
    case Stuck => s
    case Going(kind) =>
      if n == 5 then Done(FiveKind)
      else if n == 4 then Done(FourKind)
      else if n == 3 then
        (match kind
         case HighCard => AfterCard(ThreeKind)
         case OnePair => Done(FullHouse)
         case _ => Stuck)
      else if n == 2 then
        (match kind
         case HighCard => AfterCard(OnePair)
         case OnePair => Done(TwoPair)
         case ThreeKind => Done(FullHouse)
         case _ => Stuck)
      else AfterCard(kind)
  }

  function ScanFrom(s: Scan, cs: seq<nat>): Scan
    decreases |cs|
  {
    if |cs| == 0 then s else ScanFrom(Step(s, cs[0]), cs[1..])
  }

  /** `HandKind::from_hand`; `None` stands for the `unreachable!` panics. */
  function FromHand(h: Hand): Option<HandKind> {
    match ScanFrom(Going(HighCard), Counts(h.cards, AllCards))
    case Going(k) => Some(k)
    case Done(k) => Some(k)
    case Stuck => None
  }

  /** How the scan state relates to the two largest groups seen so far. */
  predicate Tracks(s: Scan, top: (nat, nat)) {
    var (a, b) := top;
    b <= a &&
    match s
    case Going(k) => k == KindOfTop(a, b) && k in {HighCard, OnePair, ThreeKind}
    case Done(k) => k == KindOfTop(a, b) && k in {FiveKind, FourKind, FullHouse, TwoPair}
    case Stuck => false
  }

  lemma {:induction false} ScanTracks(s: Scan, top: (nat, nat), cs: seq<nat>)
    requires Tracks(s, top) && top.0 + top.1 + Sum(cs) <= 5
    ensures Tracks(ScanFrom(s, cs), TopFrom(top, cs))
    decreases |cs|
  {
    if |cs| > 0 {
      assert cs == [cs[0]] + cs[1..];
      SumAppend([cs[0]], cs[1..]);
      assert Sum([cs[0]]) == cs[0];
      SumNonNegative(cs[1..]);
      StepTracks(s, top, cs[0]);
      ScanTracks(Step(s, cs[0]), Push(top, cs[0]), cs[1..]);
    }
  }

  /** One step of the scan keeps it in line with the two largest groups. */
  lemma StepTracks(s: Scan, top: (nat, nat), c: nat)
    requires Tracks(s, top) && top.0 + top.1 + c <= 5
    ensures Tracks(Step(s, c), Push(top, c))
    ensures Push(top, c).0 + Push(top, c).1 <= top.0 + top.1 + c
  {
  }

  lemma HandCountsSum(cards: seq<Card>)
    ensures Sum(Counts(cards, AllCards)) == |cards|
  {
    AllCardsComplete();
    CountsCoverHand(cards, AllCards);
  }

  /** `from_hand` never reaches `unreachable!` on five cards, and the kind it
      returns is the one the two largest groups of equal cards determine. */
  lemma FromHandClassifies(h: FiveCards)
    ensures FromHand(h) == Some(KindOfTop(Top(Counts(h.cards, AllCards)).0, Top(Counts(h.cards, AllCards)).1))
  {
    HandCountsSum(h.cards);
    ScanTracks(Going(HighCard), (0, 0), Counts(h.cards, AllCards));
  }

  /** The kind of a hand (total on five cards by `FromHandClassifies`). */
  function Kind(h: FiveCards): (k: HandKind)
    ensures var top := Top(Counts(h.cards, AllCards)); k == KindOfTop(top.0, top.1)
  {
    FromHandClassifies(h);
    FromHand(h).value
  }

  lemma KindFromCounts(h: FiveCards, cs: seq<nat>)
    requires Counts(h.cards, AllCards) == cs
    ensures Kind(h) == KindOfTop(Top(cs).0, Top(cs).1)
  {
  }

  /** Some card occurs exactly `v` times in the hand. */
  ghost predicate Group(h: Hand, v: nat) {
    exists c: Card :: Count(h.cards, c) == v
  }

  /** No card occurs twice. */
  ghost predicate AllDistinct(h: Hand) {
    forall c: Card :: Count(h.cards, c) <= 1
  }

  ghost predicate TwoPairs(h: Hand) {
    exists c: Card, d: Card :: c != d && Count(h.cards, c) == 2 && Count(h.cards, d) == 2
  }

  lemma StrengthIndexes(i: nat)
    requires i < |AllCards|
    ensures Strength(AllCards[i]) == i
  {
  }

  /** The deck position of a card is its strength, both ways. */
  lemma DeckPositions(h: Hand)
    ensures forall c: Card :: Counts(h.cards, AllCards)[Strength(c)] == Count(h.cards, c)
    ensures forall i :: 0 <= i < |AllCards| ==> Strength(AllCards[i]) == i
  {
    forall c: Card ensures Counts(h.cards, AllCards)[Strength(c)] == Count(h.cards, c) {
      AllCardsOnce(c);
    }
    forall i | 0 <= i < |AllCards| ensures Strength(AllCards[i]) == i {
      StrengthIndexes(i);
    }
  }

  lemma GroupIsCount(h: Hand, v: nat)
    ensures Group(h, v) <==> Has(Counts(h.cards, AllCards), v)
  {
    DeckPositions(h);
  }

  lemma TwoPairsAreCounts(h: Hand)
    ensures TwoPairs(h) <==> HasTwoPairs(Counts(h.cards, AllCards))
  {
    DeckPositions(h);
  }

  lemma SinglesAreCounts(h: Hand)
    ensures AllDistinct(h) <==> Singles(Counts(h.cards, AllCards))
  {
    DeckPositions(h);
    var cs := Counts(h.cards, AllCards);
    if forall i :: 0 <= i < |AllCards| ==> cs[i] <= 1 {
      forall c: Card ensures Count(h.cards, c) <= 1 {
        assert cs[Strength(c)] <= 1;
      }
    }
    if forall c: Card :: Count(h.cards, c) <= 1 {
      forall i | 0 <= i < |AllCards| ensures cs[i] <= 1 {
        assert cs[i] == Count(h.cards, AllCards[i]);
      }
    }
  }

  /** The card letters in deck order. */
  const DeckChars: string := "AKQJT98765432"

  /** Counting cards is counting their letters in the printed hand. */
  lemma CountsByChar(h: Hand)
    ensures Counts(h.cards, AllCards) == Counts(FormatHand(h), DeckChars)
  {
    DeckCharsAreLetters();
    forall i | 0 <= i < |AllCards| ensures Count(h.cards, AllCards[i]) == Count(FormatHand(h), DeckChars[i]) {
      CountByChar(h, AllCards[i]);
    }
  }

  lemma DeckCharsAreLetters()
    ensures |DeckChars| == |AllCards|
    ensures forall i :: 0 <= i < |AllCards| ==> DeckChars[i] == CardChar(AllCards[i])
  {
  }

  /** A card occurs as often as its letter in the printed hand. */
  lemma CountByChar(h: Hand, c: Card)
    ensures Count(h.cards, c) == Count(FormatHand(h), CardChar(c))
  {
    var s := FormatHand(h);
    forall k | 0 <= k < |h.cards| ensures h.cards[k] == c <==> s[k] == CardChar(c) {
      if s[k] == CardChar(c) {
        CardCharInjective(h.cards[k], c);
      }
    }
    CountSamePositions(h.cards, s, c, CardChar(c));
  }

  /** `from_hand` classifies hands as the puzzle does: five of a kind, four
      of a kind, a full house (three and a pair), three of a kind, two pairs,
      one pair, or no card occurring twice. */
  lemma KindSemantics(h: FiveCards)
    ensures Kind(h) == FiveKind <==> Group(h, 5)
    ensures Kind(h) == FourKind <==> Group(h, 4)
    ensures Kind(h) == FullHouse <==> Group(h, 3) && Group(h, 2)
    ensures Kind(h) == ThreeKind <==> Group(h, 3) && !Group(h, 2)
    ensures Kind(h) == TwoPair <==> TwoPairs(h)
    ensures Kind(h) == OnePair <==> Group(h, 2) && !Group(h, 3) && !TwoPairs(h)
    ensures Kind(h) == HighCard <==> AllDistinct(h)
  {
    var cs := Counts(h.cards, AllCards);
    HandCountsSum(h.cards);
    TopIsTopTwo(cs);
    KindOfCounts(cs, Top(cs));
    GroupIsCount(h, 2);
    GroupIsCount(h, 3);
    GroupIsCount(h, 4);
    GroupIsCount(h, 5);
    TwoPairsAreCounts(h);
    SinglesAreCounts(h);
  }

  // ------------------------------------------------------------- ordering

  /** The tuple `(kind, cards)` that `cmp` compares. */
  function OrderDigits(h: FiveCards): (ds: seq<nat>)
    ensures |ds| == 6 && Digits(ds, 13)
  {
    [KindRank(Kind(h))] + seq(5, i requires 0 <= i < 5 => Strength(h.cards[i]))
  }

  /** `Ord for Hand`: `h1 < h2` means `h1` is the stronger hand. */
  predicate Less(h1: FiveCards, h2: FiveCards) {
    LexLess(OrderDigits(h1), OrderDigits(h2))
  }

  /** A number that orders hands as `cmp` does. */
  function OrderKey(h: FiveCards): nat {
    Positional(OrderDigits(h), 13)
  }

  lemma OrderDigitsInjective(h1: FiveCards, h2: FiveCards)
    requires OrderDigits(h1) == OrderDigits(h2)
    ensures h1 == h2
  {
    forall i | 0 <= i < 5 ensures h1.cards[i] == h2.cards[i] {
      OrderDigitsAt(h1, i);
      OrderDigitsAt(h2, i);
      StrengthInjective(h1.cards[i], h2.cards[i]);
    }
    assert h1.cards == h2.cards;
  }

  lemma OrderDigitsAt(h: FiveCards, i: nat)
    requires i < 5
    ensures OrderDigits(h)[i + 1] == Strength(h.cards[i])
  {
  }

  /** Different cards have different strengths. */
  lemma StrengthInjective(c1: Card, c2: Card)
    requires Strength(c1) == Strength(c2)
    ensures c1 == c2
  {
    AllCardsOnce(c1);
    AllCardsOnce(c2);
  }

  /** The key orders hands exactly as `cmp` does, and only equal hands share
      a key; hence `cmp` is a total order (`partial_cmp` is never `None`). */
  lemma OrderKeyOrders(h1: FiveCards, h2: FiveCards)
    ensures OrderKey(h1) < OrderKey(h2) <==> Less(h1, h2)
    ensures OrderKey(h1) == OrderKey(h2) <==> h1 == h2
  {
    PositionalOrder(OrderDigits(h1), OrderDigits(h2), 13);
    if OrderDigits(h1) == OrderDigits(h2) {
      OrderDigitsInjective(h1, h2);
    }
  }

  lemma LessTotal(h1: FiveCards, h2: FiveCards)
    ensures Less(h1, h2) || h1 == h2 || Less(h2, h1)
    ensures !(Less(h1, h2) && Less(h2, h1))
  {
    OrderKeyOrders(h1, h2);
    OrderKeyOrders(h2, h1);
  }
}

=== FILE: day07_jokers.dfy ===
/** Day 7, `card2.rs`: the same game with `J` read as a joker.  A joker is
    the weakest card in the card-by-card tie-break, but when the kind is
    determined it counts as whatever card makes the hand strongest, which
    amounts to joining the largest group. */
module Day07Jokers {
  import opened Wrappers
  import opened Seqs
  import Cards = Day07Cards

  datatype Card = Ace | King | Queen | Ten | Nine | Eight | Seven | Six | Five | Four | Three | Two | Joker

  /** The position of a card in the enum: Ace is 0, Joker 12 (weakest). */
  function Strength(c: Card): nat {
    match c
    case Ace => 0 case King => 1 case Queen => 2 case Ten => 3 case Nine => 4
    case Eight => 5 case Seven => 6 case Six => 7 case Five => 8 case Four => 9
    case Three => 10 case Two => 11 case Joker => 12
  }

  /** Every card, in enum order; `Card::non_jokers` is all but the last. */
  const Deck: seq<Card> := [Ace, King, Queen, Ten, Nine, Eight, Seven, Six, Five, Four, Three, Two, Joker]
  const NonJokers: seq<Card> := Deck[..12]

  lemma DeckOnce(c: Card)
    ensures Count(Deck, c) == 1
    ensures Deck[Strength(c)] == c
  {
    CountOnce(Deck, c, Strength(c));
  }

  lemma DeckComplete()
    ensures forall c: Card :: Count(Deck, c) == 1
  {
    forall c: Card ensures Count(Deck, c) == 1 {
      DeckOnce(c);
    }
  }

  function CardChar(c: Card): char {
    match c
    case Ace => 'A' case King => 'K' case Queen => 'Q' case Ten => 'T' case Nine => '9'
    case Eight => '8' case Seven => '7' case Six => '6' case Five => '5' case Four => '4'
    case Three => '3' case Two => '2' case Joker => 'J'
  }

  lemma CardCharInjective(c: Card, d: Card)
    requires CardChar(c) == CardChar(d)
    ensures c == d
  {
  }

  /** `Card::from_str`: as without jokers, except that `J` is the joker. */
  function ParseCard(ch: char): (r: Result<Card>)
    ensures r.Ok? ==> CardChar(r.value) == ch
  {
    match ch
    case 'A' => Ok(Ace) case 'K' => Ok(King) case 'Q' => Ok(Queen) case 'T' => Ok(Ten)
    case '9' => Ok(Nine) case '8' => Ok(Eight) case '7' => Ok(Seven) case '6' => Ok(Six)
    case '5' => Ok(Five) case '4' => Ok(Four) case '3' => Ok(Three) case '2' => Ok(Two)
    case 'J' => Ok(Joker) case _ => Err
  }

  lemma ParseCardChar(c: Card)
    ensures ParseCard(CardChar(c)) == Ok(c)
  {
  }

  /** Both readings accept exactly the same letters. */
  lemma SameLetters(ch: char)
    ensures ParseCard(ch).Ok? <==> Cards.ParseCard(ch).Ok?
  {
  }

  datatype Hand = Hand(cards: seq<Card>)

  type FiveCards = h: Hand | |h.cards| == 5 witness Hand([Ace, Ace, Ace, Ace, Ace])

  function FormatHand(h: Hand): (s: string)
    ensures |s| == |h.cards|
    ensures forall i :: 0 <= i < |s| ==> s[i] == CardChar(h.cards[i])
  {
    seq(|h.cards|, i requires 0 <= i < |h.cards| => CardChar(h.cards[i]))
  }

  /** `Hand::from_str`: five letters, each a card. */
  function ParseHand(s: string): (r: Result<FiveCards>)
    ensures r.Ok? <==> |s| == 5 && forall i :: 0 <= i < |s| ==> ParseCard(s[i]).Ok?
    ensures r.Ok? ==> FormatHand(r.value) == s
  {
    var cards :- MapAll(s, ParseCard);
    if |cards| != 5 then Err else Ok(Hand(cards))
  }

  lemma ParseFormatHand(h: FiveCards)
    ensures ParseHand(FormatHand(h)) == Ok(h)
  {
    var s := FormatHand(h);
    forall i | 0 <= i < 5 ensures ParseCard(s[i]) == Ok(h.cards[i]) {
      ParseCardChar(h.cards[i]);
    }
    var r := MapAll(s, ParseCard);
    assert r.Ok? && r.value == h.cards;
  }

  /** A string is a hand for one reading exactly when it is for the other. */
  lemma SameHandsParse(s: string)
    ensures ParseHand(s).Ok? <==> Cards.ParseHand(s).Ok?
  {
    forall i | 0 <= i < |s| ensures ParseCard(s[i]).Ok? <==> Cards.ParseCard(s[i]).Ok? {
      SameLetters(s[i]);
    }
  }

  // ------------------------------------------------------ HandKind::from_hand

  /** One iteration of the loop of the joker `from_hand`, for a card other
      than the joker occurring `n` times next to `jokers` jokers. */
  function Step(s: Cards.Scan, n: nat, jokers: nat): Cards.Scan {
    match s
    case Done(_) => s
    case Stuck => s
    case Going(kind) =>
      var total := n + jokers;
      if total == jokers then s
      else if total == 5 then Cards.Done(Cards.FiveKind)
      else if total == 4 then
        Cards.Going(if Cards.KindRank(kind) > Cards.KindRank(Cards.FourKind) then Cards.FourKind else kind)
      else if total == 3 then
        Cards.Going(match kind
                    case HighCard => Cards.ThreeKind
                    case OnePair => if jokers == 0 then Cards.FullHouse else if jokers == 1 then Cards.ThreeKind else kind
                    case ThreeKind => if jokers == 1 then Cards.FullHouse else kind
                    case TwoPair => Cards.ThreeKind
                    case _ => kind)
      else if total == 2 then
        Cards.Going(match kind
                    case HighCard => Cards.OnePair
                    case OnePair => if jokers == 0 then Cards.TwoPair else kind
                    case ThreeKind => if jokers == 0 then Cards.FullHouse else kind
                    case _ => kind)
      else s
  }

  function ScanFrom(s: Cards.Scan, cs: seq<nat>, jokers: nat): Cards.Scan
    decreases |cs|
  {
    if |cs| == 0 then s else ScanFrom(Step(s, cs[0], jokers), cs[1..], jokers)
  }

  function Jokers(h: Hand): nat {
    Count(h.cards, Joker)
  }

  /** The joker `HandKind::from_hand`: four or five jokers make five of a
      kind at once; otherwise scan the other cards. */
  function FromHand(h: Hand): Option<Cards.HandKind> {
    var jokers := Jokers(h);
    if jokers >= 4 then Some(Cards.FiveKind)
    else
      match ScanFrom(Cards.Going(Cards.HighCard), Cards.Counts(h.cards, NonJokers), jokers)
      case Going(k) => Some(k)
      case Done(k) => Some(k)
      case Stuck => None
  }

  /** How the scan state relates to the two largest groups of other cards
      seen so far, with the jokers joining the largest. */
  predicate Tracks(s: Cards.Scan, top: (nat, nat), jokers: nat) {
    var (a, b) := top;
    b <= a &&
    match s
    case Going(k) => k == (if a == 0 then Cards.HighCard else Cards.KindOfTop(a + jokers, b)) && k != Cards.FiveKind
    case Done(k) => k == Cards.FiveKind && a + jokers == 5
    case Stuck => false
  }

  lemma {:induction false} ScanTracks(s: Cards.Scan, top: (nat, nat), cs: seq<nat>, jokers: nat)
    requires jokers <= 3
    requires Tracks(s, top, jokers) && top.0 + top.1 + jokers + Sum(cs) <= 5
    ensures Tracks(ScanFrom(s, cs, jokers), Cards.TopFrom(top, cs), jokers)
    decreases |cs|
  {
    if |cs| > 0 {
      assert cs == [cs[0]] + cs[1..];
      SumAppend([cs[0]], cs[1..]);
      assert Sum([cs[0]]) == cs[0];
      SumNonNegative(cs[1..]);
      StepTracks(s, top, cs[0], jokers);
      ScanTracks(Step(s, cs[0], jokers), Cards.Push(top, cs[0]), cs[1..], jokers);
    }
  }

  /** One step of the scan keeps it in line with the two largest groups. */
  lemma StepTracks(s: Cards.Scan, top: (nat, nat), c: nat, jokers: nat)
    requires jokers <= 3
    requires Tracks(s, top, jokers) && top.0 + top.1 + jokers + c <= 5
    ensures Tracks(Step(s, c, jokers), Cards.Push(top, c), jokers)
    ensures Cards.Push(top, c).0 + Cards.Push(top, c).1 <= top.0 + top.1 + c
  {
  }

  lemma DeckCountsSum(cards: seq<Card>)
    ensures Sum(Cards.Counts(cards, Deck)) == |cards|
  {
    DeckComplete();
    Cards.CountsCoverHand(cards, Deck);
  }

  lemma DeckSplit()
    ensures Deck == NonJokers + [Joker]
  {
  }

  lemma JokerCountLast(cards: seq<Card>)
    ensures Sum(Cards.Counts(cards, NonJokers + [Joker])) == Sum(Cards.Counts(cards, NonJokers)) + Count(cards, Joker)
  {
    Cards.CountsAppendDeck(cards, NonJokers, [Joker]);
    SumAppend(Cards.Counts(cards, NonJokers), Cards.Counts(cards, [Joker]));
  }

  /** The other cards and the jokers make up the five cards. */
  lemma HandCountsSum(cards: seq<Card>)
    ensures Sum(Cards.Counts(cards, NonJokers)) + Count(cards, Joker) == |cards|
  {
    DeckCountsSum(cards);
    DeckSplit();
    JokerCountLast(cards);
  }

  /** A list of group sizes with a positive total has a positive largest. */
  lemma LargestPositive(cs: seq<nat>)
    requires Sum(cs) > 0
    ensures Cards.Top(cs).0 > 0
  {
    Cards.TopIsTopTwo(cs);
    if Cards.Top(cs).0 == 0 {
      SumBound(cs, 0);
    }
  }

  /** The joker `from_hand` never fails on five cards, and its kind is the
      kind of the hand in which the jokers join the largest other group. */
  lemma FromHandClassifies(h: FiveCards)
    ensures var top := Cards.Top(Cards.Counts(h.cards, NonJokers));
            FromHand(h) == Some(Cards.KindOfTop(top.0 + Jokers(h), top.1))
  {
    var cs := Cards.Counts(h.cards, NonJokers);
    HandCountsSum(h.cards);
    if Jokers(h) <= 3 {
      LargestPositive(cs);
      ScanTracks(Cards.Going(Cards.HighCard), (0, 0), cs, Jokers(h));
    } else if Jokers(h) == 4 {
      LargestPositive(cs);
    }
  }

  function Kind(h: FiveCards): (k: Cards.HandKind)
    ensures var top := Cards.Top(Cards.Counts(h.cards, NonJokers));
            k == Cards.KindOfTop(top.0 + Jokers(h), top.1)
  {
    FromHandClassifies(h);
    FromHand(h).value
  }

  /** Four or more jokers always make five of a kind. */
  lemma ManyJokers(h: FiveCards)
    requires Jokers(h) >= 4
    ensures Kind(h) == Cards.FiveKind
  {
    var cs := Cards.Counts(h.cards, NonJokers);
    var top := Cards.Top(cs);
    HandCountsSum(h.cards);
    if Jokers(h) == 4 {
      LargestPositive(Cards.Counts(h.cards, NonJokers));
    }
    assert top.0 + Jokers(h) >= 5;
    assert Kind(h) == Cards.KindOfTop(top.0 + Jokers(h), top.1);
  }

  // ------------------------------------------------- joker-free hands agree

  /** The letters of the other cards, in `non_jokers` order. */
  const NonJokerChars: string := "AKQT98765432"

  lemma CountsByChar(h: Hand)
    ensures Cards.Counts(h.cards, NonJokers) == Cards.Counts(FormatHand(h), NonJokerChars)
    ensures Jokers(h) == Count(FormatHand(h), 'J')
  {
    NonJokerCharsAreLetters();
    forall i | 0 <= i < |NonJokers| ensures Count(h.cards, NonJokers[i]) == Count(FormatHand(h), NonJokerChars[i]) {
      CountByChar(h, NonJokers[i]);
    }
    CountByChar(h, Joker);
  }

  lemma NonJokerCharsAreLetters()
    ensures |NonJokerChars| == |NonJokers|
    ensures forall i :: 0 <= i < |NonJokers| ==> NonJokerChars[i] == CardChar(NonJokers[i])
  {
  }

  /** A card occurs as often as its letter in the printed hand. */
  lemma CountByChar(h: Hand, c: Card)
    ensures Count(h.cards, c) == Count(FormatHand(h), CardChar(c))
  {
    var s := FormatHand(h);
    forall k | 0 <= k < |h.cards| ensures h.cards[k] == c <==> s[k] == CardChar(c) {
      if s[k] == CardChar(c) {
        CardCharInjective(h.cards[k], c);
      }
    }
    CountSamePositions(h.cards, s, c, CardChar(c));
  }

  /** A hand without `J` gets the same kind from both classifiers. */
  lemma JokerFreeSameKind(s: string)
    requires 'J' !in s
    requires ParseHand(s).Ok?
    ensures Cards.ParseHand(s).Ok?
    ensures Kind(ParseHand(s).value) == Cards.Kind(Cards.ParseHand(s).value)
  {
    SameHandsParse(s);
    var h, h1 := ParseHand(s).value, Cards.ParseHand(s).value;
    var x, y := Cards.Counts(s, "AKQ"), Cards.Counts(s, "T98765432");
    JokerFreeCounts(s);
    CountsByChar(h);
    Cards.CountsByChar(h1);
    assert Cards.Counts(h.cards, NonJokers) == x + y && Jokers(h) == 0;
    assert Cards.Counts(h1.cards, Cards.AllCards) == x + [0] + y;
    Cards.TopSkipsZero(x, y);
    KindFromCounts(h, x + y);
    Cards.KindFromCounts(h1, x + [0] + y);
  }

  lemma KindFromCounts(h: FiveCards, cs: seq<nat>)
    requires Cards.Counts(h.cards, NonJokers) == cs && Jokers(h) == 0
    ensures Kind(h) == Cards.KindOfTop(Cards.Top(cs).0, Cards.Top(cs).1)
  {
  }

  /** Without `J`, the counts over the whole deck are those over the other
      cards with a zero for the jack in between. */
  lemma JokerFreeCounts(s: string)
    requires 'J' !in s
    ensures var x, y := Cards.Counts(s, "AKQ"), Cards.Counts(s, "T98765432");
            Cards.Counts(s, NonJokerChars) == x + y && Cards.Counts(s, Cards.DeckChars) == x + [0] + y
            && Count(s, 'J') == 0
  {
    CountAbsent(s, 'J');
    DeckCounts(s);
    NonJokerCounts(s);
  }

  /** The counts over the cards other than `J`, split where the jack was. */
  lemma NonJokerCounts(s: string)
    ensures Cards.Counts(s, NonJokerChars) == Cards.Counts(s, "AKQ") + Cards.Counts(s, "T98765432")
  {
    assert NonJokerChars == "AKQ" + "T98765432";
    Cards.CountsAppendDeck(s, "AKQ", "T98765432");
  }

  /** The counts over the whole deck, split at the jack. */
  lemma DeckCounts(s: string)
    requires 'J' !in s
    ensures Cards.Counts(s, Cards.DeckChars) == Cards.Counts(s, "AKQ") + [0] + Cards.Counts(s, "T98765432")
  {
    CountAbsent(s, 'J');
    assert Cards.Counts(s, "J") == [0];
    assert Cards.DeckChars == "AKQ" + "J" + "T98765432";
    Cards.CountsAppendDeck(s, "AKQ" + "J", "T98765432");
    Cards.CountsAppendDeck(s, "AKQ", "J");
  }

  // ------------------------------------------------------------- ordering

  function OrderDigits(h: FiveCards): (ds: seq<nat>)
    ensures |ds| == 6 && Digits(ds, 13)
  {
    [Cards.KindRank(Kind(h))] + seq(5, i requires 0 <= i < 5 => Strength(h.cards[i]))
  }

  /** `Ord for Hand`: `h1 < h2` means `h1` is the stronger hand. */
  predicate Less(h1: FiveCards, h2: FiveCards) {
    LexLess(OrderDigits(h1), OrderDigits(h2))
  }

  function OrderKey(h: FiveCards): nat {
    Positional(OrderDigits(h), 13)
  }

  lemma OrderDigitsInjective(h1: FiveCards, h2: FiveCards)
    requires OrderDigits(h1) == OrderDigits(h2)
    ensures h1 == h2
  {
    forall i | 0 <= i < 5 ensures h1.cards[i] == h2.cards[i] {
      OrderDigitsAt(h1, i);
      OrderDigitsAt(h2, i);
      StrengthInjective(h1.cards[i], h2.cards[i]);
    }
    assert h1.cards == h2.cards;
  }

  lemma OrderDigitsAt(h: FiveCards, i: nat)
    requires i < 5
    ensures OrderDigits(h)[i + 1] == Strength(h.cards[i])
  {
  }

  /** Different cards have different strengths. */
  lemma StrengthInjective(c1: Card, c2: Card)
    requires Strength(c1) == Strength(c2)
    ensures c1 == c2
  {
    DeckOnce(c1);
    DeckOnce(c2);
  }

  /** The key orders hands exactly as `cmp` does, and only equal hands share
      a key. */
  lemma OrderKeyOrders(h1: FiveCards, h2: FiveCards)
    ensures OrderKey(h1) < OrderKey(h2) <==> Less(h1, h2)
    ensures OrderKey(h1) == OrderKey(h2) <==> h1 == h2
  {
    PositionalOrder(OrderDigits(h1), OrderDigits(h2), 13);
    if OrderDigits(h1) == OrderDigits(h2) {
      OrderDigitsInjective(h1, h2);
    }
  }

  lemma LessTotal(h1: FiveCards, h2: FiveCards)
    ensures Less(h1, h2) || h1 == h2 || Less(h2, h1)
    ensures !(Less(h1, h2) && Less(h2, h1))
  {
    OrderKeyOrders(h1, h2);
    OrderKeyOrders(h2, h1);
  }
}

=== FILE: day08_haunted_wasteland.dfy ===
/** Day 8: a network of nodes, each with a left and a right successor, and a
    line of `L`/`R` instructions repeated for ever.  Part one counts the steps
    of the walk from `AAA` until it first stands on `ZZZ`. */
module Day08 {
  import opened Wrappers
  import opened Text

  datatype Dir = Left | Right

  /** The two successors of one node. */
  datatype Node = Node(left: string, right: string)

  type Network = map<string, Node>

  const Start := "AAA"
  const Finish := "ZZZ"

  // ----------------------------------------------------------------- parsing

  function DirChar(d: Dir): char {
    match d
    case Left => 'L'
    case Right => 'R'
  }

  /** Any character other than `L` or `R` in the instruction line fails. */
  function ParseDir(c: char): (r: Result<Dir>)
    ensures r.Ok? <==> c == 'L' || c == 'R'
    ensures r.Ok? ==> DirChar(r.value) == c
  {
    if c == 'L' then Ok(Left) else if c == 'R' then Ok(Right) else Err
  }

  function ParseDirections(line: string): (r: Result<seq<Dir>>)
    ensures r.Ok? <==> forall i :: 0 <= i < |line| ==> line[i] == 'L' || line[i] == 'R'
    ensures r.Ok? ==> |r.value| == |line|
                      && forall i :: 0 <= i < |line| ==> DirChar(r.value[i]) == line[i]
  {
    MapAll(line, ParseDir)
  }

  const Parens: set<char> := {'(', ')'}

  /** One `KEY = (LEFT, RIGHT)` line: split at the first `=`, strip the
      whitespace and the parentheses, split at the first `,`, and trim every
      piece. */
  function ParseNode(line: string): (r: Result<(string, Node)>)
    ensures r.Ok? ==> '=' in line
  {
    match SplitOnce(line, '=')
    case None => Err
    case Some((key, dests)) =>
      var node :- ParseSuccessors(dests);
      Ok((Trim(key), node))
  }

  /** The `(LEFT, RIGHT)` half of a node line. */
  function ParseSuccessors(dests: string): (r: Result<Node>)
    ensures r.Ok? ==> ',' in TrimMatches(Trim(dests), Parens)
  {
    match SplitOnce(TrimMatches(Trim(dests), Parens), ',')
    case None => Err
    case Some((l, rt)) => Ok(Node(Trim(l), Trim(rt)))
  }

  /** A node label as the puzzle writes them: a non-empty word free of the
      separators the line format uses. */
  predicate IsLabel(w: string) {
    IsWord(w) && forall i :: 0 <= i < |w| ==> w[i] !in {'=', '(', ')', ','}
  }

  function FormatNode(key: string, node: Node): string {
    key + " = (" + node.left + ", " + node.right + ")"
  }

  lemma LabelFree(w: string, c: char)
    requires IsLabel(w) && (c == '=' || c == '(' || c == ')' || c == ',' || IsWhitespace(c))
    ensures c !in w
  {
    assert forall i :: 0 <= i < |w| ==> w[i] != c;
  }

  lemma SplitKey(key: string, dests: string)
    requires IsLabel(key)
    ensures SplitOnce(key + " =" + dests, '=') == Some((key + " ", dests))
    ensures Trim(key + " ") == key
  {
    LabelFree(key, '=');
    assert key + " =" + dests == (key + " ") + ['='] + dests;
    SplitOnceAt(key + " =" + dests, '=', key + " ", dests);
    TrimPadded([], key, " ");
    assert [] + key + " " == key + " ";
  }

  lemma TrimParens(bare: string)
    requires |bare| > 0 && bare[0] !in Parens && bare[|bare| - 1] !in Parens
    ensures TrimMatches("(" + bare + ")", Parens) == bare
  {
    var closed := bare + ")";
    var paren := "(" + bare + ")";
    assert paren[0] in Parens && paren[1..] == closed;
    assert TrimMatches(paren, Parens) == TrimMatches(closed, Parens);
    assert closed[0] == bare[0] && closed[|closed| - 1] in Parens;
    assert closed[..|closed| - 1] == bare;
    assert TrimMatches(closed, Parens) == TrimMatches(bare, Parens);
  }

  lemma StripParens(l: string, rt: string)
    requires IsLabel(l) && IsLabel(rt)
    ensures TrimMatches(Trim(" (" + l + ", " + rt + ")"), Parens) == l + ", " + rt
  {
    var bare := l + ", " + rt;
    assert " (" + l + ", " + rt + ")" == " (" + bare + ")";
    TrimSpacedParens(bare);
    BareEnds(l, rt);
    TrimParens(bare);
  }

  lemma TrimSpacedParens(bare: string)
    requires |bare| > 0
    ensures Trim(" (" + bare + ")") == "(" + bare + ")"
  {
    var paren := "(" + bare + ")";
    assert " (" + bare + ")" == " " + paren + [];
    TrimPadded(" ", paren, []);
  }

  /** The pair between the parentheses neither starts nor ends with one. */
  lemma BareEnds(l: string, rt: string)
    requires IsLabel(l) && IsLabel(rt)
    ensures var bare := l + ", " + rt;
            |bare| > 0 && bare[0] !in Parens && bare[|bare| - 1] !in Parens
  {
    var bare := l + ", " + rt;
    LabelFree(l, '(');
    LabelFree(l, ')');
    LabelFree(rt, '(');
    LabelFree(rt, ')');
    assert bare[0] == l[0] && l[0] in l;
    assert bare[|bare| - 1] == rt[|rt| - 1] && rt[|rt| - 1] in rt;
  }

  lemma SplitPair(l: string, rt: string)
    requires IsLabel(l) && IsLabel(rt)
    ensures SplitOnce(l + ", " + rt, ',') == Some((l, " " + rt))
    ensures Trim(l) == l && Trim(" " + rt) == rt
  {
    SplitPairAt(l, rt);
    TrimLabel(l);
    TrimSpacedLabel(rt);
  }

  lemma SplitPairAt(l: string, rt: string)
    requires IsLabel(l)
    ensures SplitOnce(l + ", " + rt, ',') == Some((l, " " + rt))
  {
    LabelFree(l, ',');
    assert l + ", " + rt == l + [','] + (" " + rt);
    SplitOnceAt(l + ", " + rt, ',', l, " " + rt);
  }

  lemma TrimLabel(l: string)
    requires IsLabel(l)
    ensures Trim(l) == l
  {
    TrimPadded([], l, []);
    assert [] + l + [] == l;
  }

  lemma TrimSpacedLabel(rt: string)
    requires IsLabel(rt)
    ensures Trim(" " + rt) == rt
  {
    TrimPadded(" ", rt, []);
    assert " " + rt + [] == " " + rt;
  }

  /** Parsing a written node line gives the key and both successors back. */
  lemma ParseFormatNode(key: string, node: Node)
    requires IsLabel(key) && IsLabel(node.left) && IsLabel(node.right)
    ensures ParseNode(FormatNode(key, node)) == Ok((key, node))
  {
    var dests := " (" + node.left + ", " + node.right + ")";
    assert FormatNode(key, node) == key + " =" + dests;
    SplitKey(key, dests);
    ParseFormatSuccessors(node);
  }

  lemma ParseFormatSuccessors(node: Node)
    requires IsLabel(node.left) && IsLabel(node.right)
    ensures ParseSuccessors(" (" + node.left + ", " + node.right + ")") == Ok(node)
  {
    StripParens(node.left, node.right);
    SplitPair(node.left, node.right);
  }

  /** No two entries share a key. */
  predicate DistinctKeys(entries: seq<(string, Node)>) {
    forall i, j :: 0 <= i < j < |entries| ==> entries[i].0 != entries[j].0
  }

  /** The keys the entries name. */
  function EntryKeys(entries: seq<(string, Node)>): set<string> {
    set i | 0 <= i < |entries| :: entries[i].0
  }

  /** Inserts the entries in order; `assert!(map.insert(..).is_none())`
      rejects the second occurrence of any key. */
  function BuildNetwork(entries: seq<(string, Node)>): (r: Result<Network>)
    ensures r.Ok? <==> DistinctKeys(entries)
    ensures r.Ok? ==> r.value.Keys == EntryKeys(entries)
    ensures r.Ok? ==> forall i :: 0 <= i < |entries| ==> r.value[entries[i].0] == entries[i].1
  {
    if |entries| == 0 then Ok(map[])
    else
      var n := |entries| - 1;
      var last := entries[n];
      EntriesExtend(entries);
      match BuildNetwork(entries[..n])
      case Err => Err
      case Ok(net) =>
        if last.0 in net then Err
        else
          var net' := net[last.0 := last.1];
          assert forall i :: 0 <= i < n ==> entries[..n][i] == entries[i];
          Ok(net')
  }

  /** The last entry extends the keys of the others, and the entries are
      distinct exactly when the others are and the last key is new. */
  lemma EntriesExtend(entries: seq<(string, Node)>)
    requires |entries| > 0
    ensures var n := |entries| - 1;
            EntryKeys(entries) == EntryKeys(entries[..n]) + {entries[n].0}
            && (DistinctKeys(entries) <==> DistinctKeys(entries[..n]) && entries[n].0 !in EntryKeys(entries[..n]))
  {
    var n := |entries| - 1;
    var front := entries[..n];
    assert forall i :: 0 <= i < n ==> front[i] == entries[i];
    assert EntryKeys(entries) == EntryKeys(front) + {entries[n].0} by {
      forall key | key in EntryKeys(entries)
        ensures key in EntryKeys(front) + {entries[n].0}
      {
        var i :| 0 <= i < |entries| && entries[i].0 == key;
        if i < n {
          assert front[i].0 == key;
        }
      }
      forall key | key in EntryKeys(front)
        ensures key in EntryKeys(entries)
      {
        var i :| 0 <= i < n && front[i].0 == key;
        assert entries[i].0 == key;
      }
      assert entries[n].0 in EntryKeys(entries);
    }
    if entries[n].0 in EntryKeys(front) {
      var i :| 0 <= i < n && front[i].0 == entries[n].0;
      assert entries[i].0 == entries[n].0;
    }
    if DistinctKeys(front) && entries[n].0 !in EntryKeys(front) {
      forall i, j | 0 <= i < j < |entries|
        ensures entries[i].0 != entries[j].0
      {
        if j == n {
          assert front[i].0 in EntryKeys(front);
        } else {
          assert front[i] == entries[i] && front[j] == entries[j];
        }
      }
    }
  }

  /** The first line holds the instructions, the second is skipped, and every
      later line is a node. */
  function ParseMap(input: string): (r: Result<(seq<Dir>, Network)>)
    ensures r.Ok? ==> |Lines(input)| > 0
                      && ParseDirections(Lines(input)[0]) == Ok(r.value.0)
    ensures r.Ok? ==> forall i :: 2 <= i < |Lines(input)| ==> InNetwork(Lines(input)[i], r.value.1)
    ensures r.Ok? ==> forall key :: key in r.value.1 ==> exists i :: KeyOfLine(Lines(input), i, key)
  {
    var lines := Lines(input);
    if |lines| == 0 then Err
    else
      var dirs :- ParseDirections(lines[0]);
      var nodeLines := if |lines| < 2 then [] else lines[2..];
      var entries :- MapAll(nodeLines, ParseNode);
      var net :- BuildNetwork(entries);
      NodeLinesInNetwork(lines, nodeLines, entries, net);
      NetworkKeysFromLines(lines, nodeLines, entries, net);
      Ok((dirs, net))
  }

  /** The line is a node line whose entry the network holds. */
  predicate InNetwork(line: string, net: Network) {
    ParseNode(line).Ok? && ParseNode(line).value.0 in net
    && net[ParseNode(line).value.0] == ParseNode(line).value.1
  }

  /** Line `i` is a node line, after the first two, for `key`. */
  predicate KeyOfLine(lines: seq<string>, i: int, key: string) {
    2 <= i < |lines| && ParseNode(lines[i]).Ok? && ParseNode(lines[i]).value.0 == key
  }

  /** The network built from the lines after the second holds every node
      line's entry. */
  lemma NodeLinesInNetwork(lines: seq<string>, nodeLines: seq<string>, entries: seq<(string, Node)>, net: Network)
    requires nodeLines == if |lines| < 2 then [] else lines[2..]
    requires |entries| == |nodeLines|
    requires forall i :: 0 <= i < |nodeLines| ==> ParseNode(nodeLines[i]) == Ok(entries[i])
    requires net.Keys == EntryKeys(entries)
    requires forall i :: 0 <= i < |entries| ==> net[entries[i].0] == entries[i].1
    ensures forall i :: 2 <= i < |lines| ==> InNetwork(lines[i], net)
  {
    forall i | 2 <= i < |lines|
      ensures InNetwork(lines[i], net)
    {
      assert lines[i] == nodeLines[i - 2];
      assert entries[i - 2].0 in EntryKeys(entries);
    }
  }

  /** Every key of the network built from the lines after the second is
      the key of one of them. */
  lemma NetworkKeysFromLines(lines: seq<string>, nodeLines: seq<string>, entries: seq<(string, Node)>, net: Network)
    requires nodeLines == if |lines| < 2 then [] else lines[2..]
    requires |entries| == |nodeLines|
    requires forall i :: 0 <= i < |nodeLines| ==> ParseNode(nodeLines[i]) == Ok(entries[i])
    requires net.Keys == EntryKeys(entries)
    ensures forall key :: key in net ==> exists i :: KeyOfLine(lines, i, key)
  {
    forall key | key in net
      ensures exists i :: KeyOfLine(lines, i, key)
    {
      assert key in EntryKeys(entries);
      var j :| 0 <= j < |entries| && entries[j].0 == key;
      KeyFromLine(lines, nodeLines, entries[j], j);
    }
  }

  lemma KeyFromLine(lines: seq<string>, nodeLines: seq<string>, entry: (string, Node), j: nat)
    requires nodeLines == if |lines| < 2 then [] else lines[2..]
    requires j < |nodeLines| && ParseNode(nodeLines[j]) == Ok(entry)
    ensures KeyOfLine(lines, j + 2, entry.0)
  {
    assert lines[j + 2] == nodeLines[j];
  }

  // -------------------------------------------------------------------- walk

  /** The node reached from `cur` at step `k`: the instruction is chosen by
      `k` modulo the instruction count, and an unknown node fails. */
  function Next(dirs: seq<Dir>, net: Network, cur: string, k: nat): (r: Option<string>)
    requires |dirs| > 0
    ensures r.Some? <==> cur in net
    ensures r.Some? ==> r.value == (if dirs[k % |dirs|] == Left then net[cur].left else net[cur].right)
  {
    if cur !in net then None
    else
      match dirs[k % |dirs|]
      case Left => Some(net[cur].left)
      case Right => Some(net[cur].right)
  }

  /** Reference: where the unstopped walk from `AAA` stands after `k` steps. */
  function Pos(dirs: seq<Dir>, net: Network, k: nat): Option<string>
    requires |dirs| > 0
  {
    if k == 0 then Some(Start)
    else
      match Pos(dirs, net, k - 1)
      case None => None
      case Some(cur) => Next(dirs, net, cur, k - 1)
  }

  /** `n` steps reach `ZZZ` and no earlier step did. */
  predicate FirstArrival(dirs: seq<Dir>, net: Network, n: nat)
    requires |dirs| > 0
  {
    Pos(dirs, net, n) == Some(Finish)
    && forall k :: 0 <= k < n ==> Pos(dirs, net, k).Some? && Pos(dirs, net, k).value != Finish
  }

  /** The `while cur != dest` loop, with at most `fuel` further steps: `None`
      when a node is unknown, when the instruction line is empty, or when the
      fuel runs out. */
  function WalkFrom(dirs: seq<Dir>, net: Network, cur: string, steps: nat, fuel: nat): (r: Option<nat>)
    ensures r.Some? ==> steps <= r.value <= steps + fuel
    ensures r.Some? && r.value > steps ==> |dirs| > 0
    decreases fuel
  {
    if cur == Finish then Some(steps)
    else if fuel == 0 || |dirs| == 0 then None
    else
      match Next(dirs, net, cur, steps)
      case None => None
      case Some(next) => WalkFrom(dirs, net, next, steps + 1, fuel - 1)
  }

  function Walk(dirs: seq<Dir>, net: Network, fuel: nat): Option<nat> {
    WalkFrom(dirs, net, Start, 0, fuel)
  }

  lemma {:induction false} WalkFromArrives(dirs: seq<Dir>, net: Network, cur: string, steps: nat, fuel: nat)
    requires |dirs| > 0 && Pos(dirs, net, steps) == Some(cur)
    requires forall k :: 0 <= k < steps ==> Pos(dirs, net, k).Some? && Pos(dirs, net, k).value != Finish
    ensures WalkFrom(dirs, net, cur, steps, fuel).Some? ==> FirstArrival(dirs, net, WalkFrom(dirs, net, cur, steps, fuel).value)
    decreases fuel
  {
    if cur != Finish && fuel > 0 {
      match Next(dirs, net, cur, steps)
      case None =>
      case Some(next) =>
        WalkFromArrives(dirs, net, next, steps + 1, fuel - 1);
    }
  }

  lemma {:induction false} WalkFromComplete(dirs: seq<Dir>, net: Network, cur: string, steps: nat, fuel: nat, n: nat)
    requires |dirs| > 0 && Pos(dirs, net, steps) == Some(cur)
    requires steps <= n <= steps + fuel && FirstArrival(dirs, net, n)
    ensures WalkFrom(dirs, net, cur, steps, fuel) == Some(n)
    decreases fuel
  {
    if cur != Finish {
      assert steps < n;
      assert Pos(dirs, net, steps + 1).Some?;
      WalkFromComplete(dirs, net, Next(dirs, net, cur, steps).value, steps + 1, fuel - 1, n);
    }
  }

  /** The walk returns exactly the first arrival at `ZZZ`, whenever the fuel
      covers it. */
  lemma WalkIsFirstArrival(dirs: seq<Dir>, net: Network, fuel: nat)
    ensures Walk(dirs, net, fuel).Some? ==> |dirs| > 0 && FirstArrival(dirs, net, Walk(dirs, net, fuel).value)
    ensures forall n: nat :: |dirs| > 0 && n <= fuel && FirstArrival(dirs, net, n) ==> Walk(dirs, net, fuel) == Some(n)
  {
    if |dirs| > 0 {
      WalkFromArrives(dirs, net, Start, 0, fuel);
      forall n: nat | n <= fuel && FirstArrival(dirs, net, n)
        ensures Walk(dirs, net, fuel) == Some(n)
      {
        WalkFromComplete(dirs, net, Start, 0, fuel, n);
      }
    } else {
      assert Start != Finish;
    }
  }

  /** `part_one`, with a fuel bound on the number of steps. */
  function PartOne(input: string, fuel: nat): (r: Result<nat>)
    ensures r.Ok? ==> ParseMap(input).Ok? && |ParseMap(input).value.0| > 0
                      && FirstArrival(ParseMap(input).value.0, ParseMap(input).value.1, r.value)
    ensures ParseMap(input).Ok? && |ParseMap(input).value.0| > 0 ==>
              forall n: nat :: n <= fuel && FirstArrival(ParseMap(input).value.0, ParseMap(input).value.1, n) ==> r == Ok(n)
  {
    var parsed :- ParseMap(input);
    WalkIsFirstArrival(parsed.0, parsed.1, fuel);
    OkOr(Walk(parsed.0, parsed.1, fuel))
  }

  /** The two networks of the puzzle's examples. */
  const NetworkOne: Network := map[
    "AAA" := Node("BBB", "CCC"), "BBB" := Node("DDD", "EEE"), "CCC" := Node("ZZZ", "GGG"),
    "DDD" := Node("DDD", "DDD"), "EEE" := Node("EEE", "EEE"), "GGG" := Node("GGG", "GGG"),
    "ZZZ" := Node("ZZZ", "ZZZ")]

  const NetworkTwo: Network := map[
    "AAA" := Node("BBB", "BBB"), "BBB" := Node("AAA", "ZZZ"), "ZZZ" := Node("ZZZ", "ZZZ")]

  lemma ExampleOne()
    ensures Walk([Right, Left], NetworkOne, 10) == Some(2)
  {
    var dirs := [Right, Left];
    assert WalkFrom(dirs, NetworkOne, "ZZZ", 2, 8) == Some(2);
    assert WalkFrom(dirs, NetworkOne, "CCC", 1, 9) == Some(2);
    assert WalkFrom(dirs, NetworkOne, "AAA", 0, 10) == Some(2);
  }

  lemma ExampleTwo()
    ensures Walk([Left, Left, Right], NetworkTwo, 10) == Some(6)
  {
    var dirs := [Left, Left, Right];
    assert WalkFrom(dirs, NetworkTwo, "ZZZ", 6, 4) == Some(6);
    assert WalkFrom(dirs, NetworkTwo, "BBB", 5, 5) == Some(6);
    assert WalkFrom(dirs, NetworkTwo, "AAA", 4, 6) == Some(6);
    assert WalkFrom(dirs, NetworkTwo, "BBB", 3, 7) == Some(6);
    assert WalkFrom(dirs, NetworkTwo, "AAA", 2, 8) == Some(6);
    assert WalkFrom(dirs, NetworkTwo, "BBB", 1, 9) == Some(6);
    assert WalkFrom(dirs, NetworkTwo, "AAA", 0, 10) == Some(6);
  }
}

=== FILE: day09_mirage.dfy ===
/** Day 9: extrapolating a reading one step forward (and, in part two, one
    step back) by building layers of differences until a layer is all zeros.

    `sequence` keeps the last element of every non-zero layer; the iterator's
    `next` folds those offsets from the deepest layer up and yields the
    extrapolated value.  `sequence_rev` does the same from the front, with
    differences taken the other way round.  An empty or all-zero reading
    leaves no offsets, so `next` yields `None` and the caller's `unwrap`
    fails; the model keeps that failure. */
module Day09 {
  import opened Wrappers
  import opened Text
  import opened Seqs

  /** `windows(2).map(|n| n[1] - n[0])`. */
  function Diffs(layer: seq<int>): (r: seq<int>)
    ensures |r| == if |layer| == 0 then 0 else |layer| - 1
    ensures forall i :: 0 <= i < |r| ==> r[i] == layer[i + 1] - layer[i]
  {
    if |layer| == 0 then [] else seq(|layer| - 1, i requires 0 <= i < |layer| - 1 => layer[i + 1] - layer[i])
  }

  /** `windows(2).map(|n| n[0] - n[1])`. */
  function RevDiffs(layer: seq<int>): (r: seq<int>)
    ensures |r| == if |layer| == 0 then 0 else |layer| - 1
    ensures forall i :: 0 <= i < |r| ==> r[i] == layer[i] - layer[i + 1]
  {
    if |layer| == 0 then [] else seq(|layer| - 1, i requires 0 <= i < |layer| - 1 => layer[i] - layer[i + 1])
  }

  predicate AllZero(layer: seq<int>) {
    forall i :: 0 <= i < |layer| ==> layer[i] == 0
  }

  /** `sequence`: the last element of every layer above the first all-zero
      one.  Every layer is one shorter than the one before, so the loop ends. */
  function Offsets(layer: seq<int>): (r: seq<int>)
    ensures |r| <= |layer|
    ensures |r| == 0 <==> AllZero(layer)
    ensures |r| > 0 ==> r[0] == layer[|layer| - 1]
    decreases |layer|
  {
    if AllZero(layer) then [] else [layer[|layer| - 1]] + Offsets(Diffs(layer))
  }

  /** `sequence_rev`: the first element of every layer of reversed
      differences. */
  function OffsetsRev(layer: seq<int>): (r: seq<int>)
    ensures |r| <= |layer|
    ensures |r| == 0 <==> AllZero(layer)
    ensures |r| > 0 ==> r[0] == layer[0]
    decreases |layer|
  {
    if AllZero(layer) then [] else [layer[0]] + OffsetsRev(RevDiffs(layer))
  }

  /** `SequenceIter::next` on a fresh iterator: from the deepest offset up,
      each offset absorbs the one below it; the first offset is the answer. */
  method NextValue(offsets: seq<int>) returns (r: Option<int>)
    ensures r.Some? <==> |offsets| > 0
    ensures r.Some? ==> r.value == Sum(offsets)
  {
    if |offsets| == 0 {
      return None;
    }
    var acc := offsets;
    var i := |acc|;
    assert offsets[i - 1..] == [offsets[i - 1]];
    assert Sum([offsets[i - 1]]) == Sum([]) + offsets[i - 1];
    while i > 1
      invariant 1 <= i <= |acc| == |offsets|
      invariant forall j :: 0 <= j < i - 1 ==> acc[j] == offsets[j]
      invariant forall j :: i - 1 <= j < |acc| ==> acc[j] == Sum(offsets[j..])
      decreases i
    {
      SumFront(offsets, i - 2);
      acc := acc[i - 2 := acc[i - 2] + acc[i - 1]];
      i := i - 1;
    }
    assert offsets[0..] == offsets;
    return Some(acc[0]);
  }

  /** The value the difference table predicts after the reading. */
  function Extrapolate(layer: seq<int>): int {
    Sum(Offsets(layer))
  }

  /** The value the reversed difference table predicts before the reading. */
  function ExtrapolateBack(layer: seq<int>): int {
    Sum(OffsetsRev(layer))
  }

  /** One layer of the table: the value is the layer's last element plus
      the value of its differences. */
  lemma ExtrapolateStep(layer: seq<int>)
    requires |layer| > 0
    ensures Extrapolate(layer) == layer[|layer| - 1] + Extrapolate(Diffs(layer))
  {
    if !AllZero(layer) {
      SumCons(layer[|layer| - 1], Offsets(Diffs(layer)));
    } else {
      assert AllZero(Diffs(layer));
      assert layer[|layer| - 1] == 0;
    }
  }

  lemma ExtrapolateBackStep(layer: seq<int>)
    requires |layer| > 0
    ensures ExtrapolateBack(layer) == layer[0] + ExtrapolateBack(RevDiffs(layer))
  {
    if !AllZero(layer) {
      SumCons(layer[0], OffsetsRev(RevDiffs(layer)));
    } else {
      assert AllZero(RevDiffs(layer));
      assert layer[0] == 0;
    }
  }

  /** Appending the extrapolated value keeps the difference table
      consistent: the differences of the extended reading are the extended
      differences, and an all-zero reading is extended by zero. */
  lemma ExtrapolateContinues(layer: seq<int>)
    requires |layer| > 0
    ensures Diffs(layer + [Extrapolate(layer)]) == Diffs(layer) + [Extrapolate(Diffs(layer))]
    ensures AllZero(layer) ==> Extrapolate(layer) == 0
  {
    var n := |layer|;
    var v := Extrapolate(layer);
    var ext := layer + [v];
    var d := Diffs(layer);
    var e := Extrapolate(d);
    ExtrapolateStep(layer);
    var lhs, rhs := Diffs(ext), d + [e];
    assert |lhs| == n == |rhs|;
    forall i | 0 <= i < n
      ensures lhs[i] == rhs[i]
    {
      assert lhs[i] == ext[i + 1] - ext[i];
      if i < n - 1 {
        assert ext[i + 1] == layer[i + 1] && ext[i] == layer[i];
      }
    }
  }

  /** Prepending the backward value keeps the reversed table consistent. */
  lemma ExtrapolateBackContinues(layer: seq<int>)
    requires |layer| > 0
    ensures RevDiffs([ExtrapolateBack(layer)] + layer) == [ExtrapolateBack(RevDiffs(layer))] + RevDiffs(layer)
    ensures AllZero(layer) ==> ExtrapolateBack(layer) == 0
  {
    var n := |layer|;
    var p := ExtrapolateBack(layer);
    var ext := [p] + layer;
    var d := RevDiffs(layer);
    var e := ExtrapolateBack(d);
    ExtrapolateBackStep(layer);
    var lhs, rhs := RevDiffs(ext), [e] + d;
    assert |lhs| == n == |rhs|;
    forall i | 0 <= i < n
      ensures lhs[i] == rhs[i]
    {
      assert lhs[i] == ext[i] - ext[i + 1];
      if i > 0 {
        assert ext[i + 1] == layer[i] && ext[i] == layer[i - 1];
      }
    }
  }

  lemma ReverseDiffs(layer: seq<int>)
    ensures Reverse(RevDiffs(layer)) == Diffs(Reverse(layer))
  {
    var a, b := Reverse(RevDiffs(layer)), Diffs(Reverse(layer));
    assert |a| == |b|;
    forall i | 0 <= i < |a|
      ensures a[i] == b[i]
    {
      ReverseDiffsAt(layer, i);
    }
  }

  lemma ReverseDiffsAt(layer: seq<int>, i: nat)
    requires i + 1 < |layer|
    ensures Reverse(RevDiffs(layer))[i] == Diffs(Reverse(layer))[i]
  {
    var n := |layer|;
    var j := n - 2 - i;
    var r, rl := RevDiffs(layer), Reverse(layer);
    calc {
      Reverse(r)[i];
    == { ReverseAt(r, i, j); }
      r[j];
    == { RevDiffsAt(layer, j); }
      layer[j] - layer[j + 1];
    == { ReverseAt(layer, i, j + 1); ReverseAt(layer, i + 1, j); }
      rl[i + 1] - rl[i];
    == { DiffsAt(rl, i); }
      Diffs(rl)[i];
    }
  }

  /** Element `i` of a reversal is element `j` of the original. */
  lemma ReverseAt(s: seq<int>, i: nat, j: nat)
    requires i < |s| && j == |s| - 1 - i
    ensures |Reverse(s)| == |s| && Reverse(s)[i] == s[j]
  {
  }

  lemma DiffsAt(s: seq<int>, i: nat)
    requires i + 1 < |s|
    ensures |Diffs(s)| == |s| - 1 && Diffs(s)[i] == s[i + 1] - s[i]
  {
  }

  lemma RevDiffsAt(s: seq<int>, i: nat)
    requires i + 1 < |s|
    ensures |RevDiffs(s)| == |s| - 1 && RevDiffs(s)[i] == s[i] - s[i + 1]
  {
  }

  lemma ReverseAllZero(layer: seq<int>)
    ensures AllZero(Reverse(layer)) <==> AllZero(layer)
  {
    if !AllZero(layer) {
      var i :| 0 <= i < |layer| && layer[i] != 0;
      assert Reverse(layer)[|layer| - 1 - i] == layer[i];
    }
  }

  /** `sequence_rev` of a reading is `sequence` of the reading reversed. */
  lemma {:induction false} OffsetsRevIsReversed(layer: seq<int>)
    ensures OffsetsRev(layer) == Offsets(Reverse(layer))
    decreases |layer|
  {
    ReverseAllZero(layer);
    if !AllZero(layer) {
      ReverseDiffs(layer);
      OffsetsRevIsReversed(RevDiffs(layer));
    }
  }

  /** One line of readings: whitespace-separated `i32` values. */
  function ParseReadings(line: string): (r: Result<seq<int>>)
    ensures r.Ok? <==> ParseInts(SplitWhitespace(line)).Some?
    ensures r.Ok? ==> r.value == ParseInts(SplitWhitespace(line)).value
  {
    OkOr(ParseInts(SplitWhitespace(line)))
  }

  /** The extrapolated value of one line, failing where `unwrap` panics. */
  function LineValue(line: string, backwards: bool): (r: Result<int>)
    ensures r.Ok? <==> ParseReadings(line).Ok? && !AllZero(ParseReadings(line).value)
    ensures r.Ok? && !backwards ==> r.value == Extrapolate(ParseReadings(line).value)
    ensures r.Ok? && backwards ==> r.value == ExtrapolateBack(ParseReadings(line).value)
  {
    var nums :- ParseReadings(line);
    var offsets := if backwards then OffsetsRev(nums) else Offsets(nums);
    if |offsets| == 0 then Err else Ok(Sum(offsets))
  }

  function LineForward(line: string): Result<int> {
    LineValue(line, false)
  }

  function LineBackward(line: string): Result<int> {
    LineValue(line, true)
  }

  predicate AllLinesOk(lines: seq<string>, value: string -> Result<int>) {
    forall i :: 0 <= i < |lines| ==> value(lines[i]).Ok?
  }

  /** `total` is the sum of one value per line. */
  ghost predicate SumOfLines(lines: seq<string>, value: string -> Result<int>, total: int) {
    exists vs: seq<int> :: |vs| == |lines| && Sum(vs) == total
                           && forall i :: 0 <= i < |lines| ==> value(lines[i]) == Ok(vs[i])
  }

  /** `lines().map(..).sum()`, failing when any line fails. */
  function SumLines(lines: seq<string>, value: string -> Result<int>): (r: Result<int>)
    ensures r.Ok? <==> AllLinesOk(lines, value)
    ensures r.Ok? ==> SumOfLines(lines, value, r.value)
  {
    var vs :- MapAll(lines, value);
    Ok(Sum(vs))
  }

  /** `part_one`: the sum of the forward extrapolations. */
  function PartOne(input: string): (r: Result<int>)
    ensures r.Ok? <==> AllLinesOk(Lines(input), LineForward)
    ensures r.Ok? ==> SumOfLines(Lines(input), LineForward, r.value)
  {
    SumLines(Lines(input), LineForward)
  }

  /** `part_two`: the sum of the backward extrapolations. */
  function PartTwo(input: string): (r: Result<int>)
    ensures r.Ok? <==> AllLinesOk(Lines(input), LineBackward)
    ensures r.Ok? ==> SumOfLines(Lines(input), LineBackward, r.value)
  {
    SumLines(Lines(input), LineBackward)
  }
}

=== FILE: day10_pipe.dfy ===
/** Day 10, `pipe.rs`: the six pipe tiles, their symbols, and the two
    neighbouring points each pipe connects.  Points are `(x, y)` with `y`
    growing southwards; moving north or west from the edge stays on the edge
    (`saturating_sub`), moving south or east is unbounded. */
module Day10Pipe {
  import opened Wrappers

  datatype Pipe = Ns | Ew | Ne | Nw | Sw | Se

  datatype Heading = North | South | East | West

  type Point = (nat, nat)

  /** The `Display` symbol of a pipe. */
  function Symbol(p: Pipe): char {
    match p
    case Ns => '|' case Ew => '-' case Ne => 'L'
    case Nw => 'J' case Sw => '7' case Se => 'F'
  }

  function Display(p: Pipe): (s: string)
    ensures |s| == 1 && s[0] == Symbol(p)
  {
    [Symbol(p)]
  }

  /** `TryFrom<char>`: exactly the six symbols are pipes. */
  function TryFromChar(c: char): (r: Result<Pipe>)
    ensures r.Ok? <==> c in "|-LJ7F"
    ensures r.Ok? ==> Symbol(r.value) == c
  {
    match c
    case '|' => Ok(Ns) case '-' => Ok(Ew) case 'L' => Ok(Ne)
    case 'J' => Ok(Nw) case '7' => Ok(Sw) case 'F' => Ok(Se)
    case _ => Err
  }

  /** `FromStr`: the same six symbols, as one-character strings. */
  function FromStr(s: string): (r: Result<Pipe>)
    ensures r.Ok? ==> Display(r.value) == s
  {
    if s == "|" then Ok(Ns)
    else if s == "-" then Ok(Ew)
    else if s == "L" then Ok(Ne)
    else if s == "J" then Ok(Nw)
    else if s == "7" then Ok(Sw)
    else if s == "F" then Ok(Se)
    else Err
  }

  /** Both parsers invert `Display`. */
  lemma DisplayRoundTrip(p: Pipe)
    ensures TryFromChar(Symbol(p)) == Ok(p)
    ensures FromStr(Display(p)) == Ok(p)
  {
  }

  /** `FromStr` accepts a string exactly when it is one character that
      `TryFrom<char>` accepts, and then agrees with it. */
  lemma FromStrAgrees(s: string)
    ensures FromStr(s) == (if |s| == 1 then TryFromChar(s[0]) else Err)
  {
    if FromStr(s).Ok? {
      assert s == Display(FromStr(s).value);
    } else if |s| == 1 && TryFromChar(s[0]).Ok? {
      assert s == Display(TryFromChar(s[0]).value);
    }
  }

  /** The sides of the tile a pipe's ends leave through, as its variant
      name says (`Ns` is north–south, `Ne` north–east, and so on). */
  predicate Opens(p: Pipe, h: Heading) {
    match p
    case Ns => h == North || h == South
    case Ew => h == East || h == West
    case Ne => h == North || h == East
    case Nw => h == North || h == West
    case Sw => h == South || h == West
    case Se => h == South || h == East
  }

  /** The drawn symbol agrees: `|`, `L` and `J` reach north, `|`, `7` and
      `F` south, `-`, `L` and `F` east, `-`, `J` and `7` west. */
  lemma OpensMatchesSymbol(p: Pipe)
    ensures Opens(p, North) <==> Symbol(p) == '|' || Symbol(p) == 'L' || Symbol(p) == 'J'
    ensures Opens(p, South) <==> Symbol(p) == '|' || Symbol(p) == '7' || Symbol(p) == 'F'
    ensures Opens(p, East) <==> Symbol(p) == '-' || Symbol(p) == 'L' || Symbol(p) == 'F'
    ensures Opens(p, West) <==> Symbol(p) == '-' || Symbol(p) == 'J' || Symbol(p) == '7'
  {
  }

  /** The two open sides, in the order `connections` lists them. */
  function Ends(p: Pipe): (r: (Heading, Heading))
    ensures r.0 != r.1 && Opens(p, r.0) && Opens(p, r.1)
    ensures forall h :: Opens(p, h) ==> h == r.0 || h == r.1
  {
    match p
    case Ns => (North, South)
    case Ew => (East, West)
    case Ne => (North, East)
    case Nw => (North, West)
    case Sw => (South, West)
    case Se => (South, East)
  }

  /** `north`, `south`, `east`, `west`: one step; north and west saturate
      at zero. */
  function Step(pt: Point, h: Heading): (r: Point)
    ensures h == North && pt.1 == 0 ==> r == pt
    ensures h == West && pt.0 == 0 ==> r == pt
  {
    match h
    case North => (pt.0, if pt.1 > 0 then pt.1 - 1 else 0)
    case South => (pt.0, pt.1 + 1)
    case East => (pt.0 + 1, pt.1)
    case West => (if pt.0 > 0 then pt.0 - 1 else 0, pt.1)
  }

  function Opposite(h: Heading): Heading {
    match h
    case North => South
    case South => North
    case East => West
    case West => East
  }

  /** Away from the north and west edges, a step can be undone. */
  lemma StepBack(pt: Point, h: Heading)
    requires h == North ==> pt.1 > 0
    requires h == West ==> pt.0 > 0
    ensures Step(Step(pt, h), Opposite(h)) == pt
    ensures Step(pt, h) != pt
  {
  }

  /** `connections`: the two neighbours the pipe leads to, the
      `[Point; 2]` it returns written as a pair. */
  function Connections(p: Pipe, start: Point): (r: (Point, Point))
    ensures r == (Step(start, Ends(p).0), Step(start, Ends(p).1))
  {
    match p
    case Ns => (Step(start, North), Step(start, South))
    case Ew => (Step(start, East), Step(start, West))
    case Ne => (Step(start, North), Step(start, East))
    case Nw => (Step(start, North), Step(start, West))
    case Sw => (Step(start, South), Step(start, West))
    case Se => (Step(start, South), Step(start, East))
  }

  /** `contains` on the pair. */
  predicate Connects(p: Pipe, start: Point, q: Point) {
    q == Connections(p, start).0 || q == Connections(p, start).1
  }

  /** Every open side is one of the two connections, and nothing else is. */
  lemma ConnectionsCover(p: Pipe, start: Point, h: Heading)
    ensures Opens(p, h) <==> h == Ends(p).0 || h == Ends(p).1
    ensures Opens(p, h) ==> Connects(p, start, Step(start, h))
  {
  }
}

=== FILE: day10_pipe_maze.dfy ===
/** Day 10, `main.rs`: the pipe maze.  Parsing turns every tile into an
    optional pipe and remembers where `S` stands; the start tile is then
    replaced by the pipe whose two ends both lead to neighbours that connect
    back.  Part one walks the loop in both directions at once until the two
    walkers meet; part two marks the loop and counts the tiles enclosed by
    it with a row-by-row crossing parity.

    The `visited` and `on_loop` grids have as many rows as the map and as
    many columns as its first row, and indexing them or the map outside
    those bounds panics; every such panic, and every `unwrap` of a missing
    pipe, is a failure here.  The walks carry a `fuel` bound. */
module Day10 {
  import opened Wrappers
  import opened Text
  import opened Day10Pipe

  type Grid = seq<seq<Option<Pipe>>>

  // ----------------------------------------------------------------- parsing

  /** `S` and `.` hold no pipe; an unknown character is dropped to `None`
      by `.ok()` rather than rejected. */
  function Tile(c: char): (r: Option<Pipe>)
    ensures r.Some? <==> c in "|-LJ7F"
    ensures r.Some? ==> Symbol(r.value) == c
  {
    if c == 'S' || c == '.' then None else TryFromChar(c).ToOption()
  }

  function ParseGrid(lines: seq<string>): (g: Grid)
    ensures |g| == |lines|
    ensures forall y :: 0 <= y < |lines| ==> |g[y]| == |lines[y]|
    ensures forall y, x :: 0 <= y < |lines| && 0 <= x < |lines[y]| ==> g[y][x] == Tile(lines[y][x])
  {
    seq(|lines|, y requires 0 <= y < |lines| =>
      seq(|lines[y]|, x requires 0 <= x < |lines[y]| => Tile(lines[y][x])))
  }

  /** Index of the last occurrence of `c`. */
  function LastIndex(s: string, c: char): (r: Option<nat>)
    ensures r.None? <==> c !in s
    ensures r.Some? ==> r.value < |s| && s[r.value] == c && c !in s[r.value + 1..]
  {
    if |s| == 0 then None
    else if s[|s| - 1] == c then Some(|s| - 1)
    else
      match LastIndex(s[..|s| - 1], c)
      case None => None
      case Some(i) =>
        assert s[i + 1..] == s[..|s| - 1][i + 1..] + [s[|s| - 1]];
        Some(i)
  }

  /** The position the parser's `start = (x, y)` keeps: the last `S` in
      reading order. */
  function LastStart(lines: seq<string>): (r: Option<Point>)
    ensures r.None? <==> forall y :: 0 <= y < |lines| ==> 'S' !in lines[y]
    ensures r.Some? ==> var (x, y) := r.value;
                        y < |lines| && x < |lines[y]| && lines[y][x] == 'S'
                        && 'S' !in lines[y][x + 1..]
                        && forall y' :: y < y' < |lines| ==> 'S' !in lines[y']
  {
    if |lines| == 0 then None
    else
      var n := |lines| - 1;
      match LastIndex(lines[n], 'S')
      case Some(x) => Some((x, n))
      case None =>
        var r := LastStart(lines[..n]);
        assert forall y :: 0 <= y < n ==> lines[..n][y] == lines[y];
        r
  }

  function Cell(g: Grid, pt: Point): (r: Result<Option<Pipe>>)
    ensures r.Ok? <==> pt.1 < |g| && pt.0 < |g[pt.1]|
    ensures r.Ok? ==> r.value == g[pt.1][pt.0]
  {
    if pt.1 < |g| && pt.0 < |g[pt.1]| then Ok(g[pt.1][pt.0]) else Err
  }

  /** The neighbour at `from` holds a pipe with an end at `target`. */
  function ConnectsBack(g: Grid, from: Point, target: Point): (r: Result<bool>)
    ensures r.Ok? <==> Cell(g, from).Ok?
    ensures r.Ok? ==> (r.value <==> g[from.1][from.0].Some? && Connects(g[from.1][from.0].value, from, target))
  {
    var c :- Cell(g, from);
    Ok(c.Some? && Connects(c.value, from, target))
  }

  /** Every probe `parse_map` makes is inside the map; the north and west
      probes are skipped on the first row and column. */
  predicate Probed(g: Grid, s: Point) {
    Cell(g, (s.0, s.1 + 1)).Ok? && Cell(g, (s.0 + 1, s.1)).Ok?
    && (s.1 > 0 ==> Cell(g, (s.0, s.1 - 1)).Ok?)
    && (s.0 > 0 ==> Cell(g, (s.0 - 1, s.1)).Ok?)
  }

  /** Going from `s` towards `h` reaches a pipe that leads back to `s`. */
  predicate Leads(g: Grid, s: Point, h: Heading) {
    (h == North ==> s.1 > 0) && (h == West ==> s.0 > 0)
    && ConnectsBack(g, Step(s, h), s) == Ok(true)
  }

  /** One of the four `is_some_and` probes; the north and west ones are
      short-circuited on the first row and column. */
  function Probe(g: Grid, s: Point, h: Heading): (r: Result<bool>)
    ensures r.Ok? <==> ((h == North && s.1 == 0) || (h == West && s.0 == 0) || Cell(g, Step(s, h)).Ok?)
    ensures r.Ok? ==> (r.value <==> Leads(g, s, h))
  {
    if (h == North && s.1 == 0) || (h == West && s.0 == 0) then Ok(false)
    else ConnectsBack(g, Step(s, h), s)
  }

  /** The `match (north, south, east, west)`: the first of `|`, `L`, `J`,
      `-`, `F`, `7` whose two ends are both set. */
  function Choose(north: bool, south: bool, east: bool, west: bool): (r: Option<Pipe>)
    ensures r.Some? ==> forall h :: Opens(r.value, h) ==> Flag(north, south, east, west, h)
    ensures r.Some? <==> exists h1, h2 :: h1 != h2 && Flag(north, south, east, west, h1) && Flag(north, south, east, west, h2)
  {
    var r :=
      if north && south then Some(Ns)
      else if north && east then Some(Ne)
      else if north && west then Some(Nw)
      else if east && west then Some(Ew)
      else if south && east then Some(Se)
      else if south && west then Some(Sw)
      else None;
    if r.Some? then
      assert Flag(north, south, east, west, Ends(r.value).0) && Flag(north, south, east, west, Ends(r.value).1);
      r
    else
      assert forall h1, h2 :: h1 != h2 && Flag(north, south, east, west, h1) ==> !Flag(north, south, east, west, h2);
      r
  }

  predicate Flag(north: bool, south: bool, east: bool, west: bool, h: Heading) {
    match h
    case North => north
    case South => south
    case East => east
    case West => west
  }

  /** The pipe under `S`: both of its ends lead to pipes connecting back,
      and one exists exactly when two of the four neighbours connect back. */
  function InferStart(g: Grid, s: Point): (r: Result<Pipe>)
    ensures r.Ok? ==> Probed(g, s)
    ensures r.Ok? ==> forall h :: Opens(r.value, h) ==> Leads(g, s, h)
  {
    var north :- Probe(g, s, North);
    var south :- Probe(g, s, South);
    var east :- Probe(g, s, East);
    var west :- Probe(g, s, West);
    assert forall h :: Flag(north, south, east, west, h) <==> Leads(g, s, h);
    OkOr(Choose(north, south, east, west))
  }

  /** When every probe is inside the map, a start pipe is found exactly
      when two different neighbours lead back to the start. */
  lemma InferStartComplete(g: Grid, s: Point)
    requires Probed(g, s)
    ensures InferStart(g, s).Ok? <==> exists h1, h2 :: h1 != h2 && Leads(g, s, h1) && Leads(g, s, h2)
  {
    var north, south, east, west := Probe(g, s, North).value, Probe(g, s, South).value, Probe(g, s, East).value, Probe(g, s, West).value;
    assert InferStart(g, s) == OkOr(Choose(north, south, east, west));
    ChooseLeads(g, s, north, south, east, west);
  }

  lemma ChooseLeads(g: Grid, s: Point, north: bool, south: bool, east: bool, west: bool)
    requires forall h :: Flag(north, south, east, west, h) <==> Leads(g, s, h)
    ensures Choose(north, south, east, west).Some? <==> exists h1, h2 :: h1 != h2 && Leads(g, s, h1) && Leads(g, s, h2)
  {
    if Choose(north, south, east, west).Some? {
      var h1, h2 :| h1 != h2 && Flag(north, south, east, west, h1) && Flag(north, south, east, west, h2);
      assert Leads(g, s, h1) && Leads(g, s, h2);
    }
  }

  /** The map with the start tile replaced, and the start. */
  function ParseMap(input: string): (r: Result<(Grid, Point)>)
    ensures r.Ok? ==> var (g, s) := r.value;
                      s.1 < |g| && s.0 < |g[s.1]| && g[s.1][s.0].Some?
    ensures r.Ok? ==> var (g, s) := r.value;
                      (LastStart(Lines(input)).Some? ==> s == LastStart(Lines(input)).value)
                      && forall h :: Opens(g[s.1][s.0].value, h) ==> Leads(ParseGrid(Lines(input)), s, h)
    ensures r.Ok? ==> var (g, s) := r.value;
                      var lines := Lines(input);
                      |g| == |lines|
                      && forall y, x :: 0 <= y < |lines| && 0 <= x < |lines[y]| ==>
                           |g[y]| == |lines[y]| && ((x, y) == s || g[y][x] == Tile(lines[y][x]))
  {
    var lines := Lines(input);
    var g := ParseGrid(lines);
    var s := StartOf(lines);
    var pipe :- InferStart(g, s);
    ParsedStart(lines, pipe);
    Ok((WithStart(g, s, Some(pipe)), s))
  }

  /** The facts `ParseMap` promises, for the grid it returns. */
  lemma ParsedStart(lines: seq<string>, pipe: Pipe)
    requires InferStart(ParseGrid(lines), StartOf(lines)) == Ok(pipe)
    ensures var g, s := ParseGrid(lines), StartOf(lines);
            s.1 < |g| && s.0 < |g[s.1]|
    ensures var g, s := ParseGrid(lines), StartOf(lines);
            var g' := WithStart(g, s, Some(pipe));
            g'[s.1][s.0] == Some(pipe)
            && (forall h :: Opens(pipe, h) ==> Leads(g, s, h))
            && |g'| == |lines|
            && forall y, x :: 0 <= y < |lines| && 0 <= x < |lines[y]| ==>
                 |g'[y]| == |lines[y]| && ((x, y) == s || g'[y][x] == Tile(lines[y][x]))
  {
    ReplaceStart(lines, ParseGrid(lines), StartOf(lines), Some(pipe));
  }

  /** The start `parse_map` uses: the last `S`, or `(0, 0)` without one. */
  function StartOf(lines: seq<string>): (s: Point)
    ensures LastStart(lines).Some? ==> s == LastStart(lines).value
  {
    match LastStart(lines) case None => (0, 0) case Some(p) => p
  }

  /** The grid with the start tile set to `tile`. */
  function WithStart(g: Grid, s: Point, tile: Option<Pipe>): (r: Grid)
    requires s.1 < |g| && s.0 < |g[s.1]|
    ensures |r| == |g| && s.0 < |r[s.1]| && r[s.1][s.0] == tile
  {
    g[s.1 := g[s.1][s.0 := tile]]
  }

  /** Replacing the start tile leaves every other tile as parsed. */
  lemma ReplaceStart(lines: seq<string>, g: Grid, s: Point, tile: Option<Pipe>)
    requires g == ParseGrid(lines) && s.1 < |g| && s.0 < |g[s.1]|
    ensures var g' := WithStart(g, s, tile);
            |g'| == |lines|
            && forall y, x :: 0 <= y < |lines| && 0 <= x < |lines[y]| ==>
                 |g'[y]| == |lines[y]| && ((x, y) == s || g'[y][x] == Tile(lines[y][x]))
  {
  }

  // ------------------------------------------------------------------ walks

  /** Inside the `visited` / `on_loop` grid. */
  predicate InMarks(g: Grid, p: Point) {
    |g| > 0 && p.1 < |g| && p.0 < |g[0]|
  }

  /** `find` over a pipe's connections: the first point that is unmarked,
      or equals `target`, or any point at all when `meet` holds.  Reading
      the mark of a point outside the grid fails. */
  function Pick(g: Grid, marked: set<Point>, ps: (Point, Point), target: Option<Point>, meet: bool): (r: Result<Point>)
    ensures r.Ok? ==> (r.value == ps.0 || r.value == ps.1) && (r.value !in marked || meet || target == Some(r.value))
  {
    if !InMarks(g, ps.0) then Err
    else if ps.0 !in marked || meet || target == Some(ps.0) then Ok(ps.0)
    else if !InMarks(g, ps.1) then Err
    else if ps.1 !in marked || meet || target == Some(ps.1) then Ok(ps.1)
    else Err
  }

  /** One walker's move from `p` along its pipe. */
  function Move(g: Grid, marked: set<Point>, p: Point, target: Option<Point>, meet: bool): (r: Result<Point>)
    ensures r.Ok? ==> Cell(g, p).Ok? && g[p.1][p.0].Some? && Connects(g[p.1][p.0].value, p, r.value)
  {
    var c :- Cell(g, p);
    if c.None? then Err else Pick(g, marked, Connections(c.value, p), target, meet)
  }

  /** The `part_one` loop: both walkers are marked, the left walker moves to
      an unvisited neighbour (or onto the right walker), then the right
      walker does the same (or moves anywhere once they meet). */
  function WalkFrom(g: Grid, left: Point, right: Point, visited: set<Point>, steps: nat, fuel: nat): (r: Result<nat>)
    ensures r.Ok? ==> r.value >= steps
    decreases fuel
  {
    if left == right then Ok(steps)
    else if !InMarks(g, left) then Err
    else if left in visited then Ok(steps)
    else if fuel == 0 || !InMarks(g, right) then Err
    else
      var v := visited + {left, right};
      var left' :- Move(g, v, left, Some(right), false);
      var right' :- Move(g, v, right, None, left' == right);
      WalkFrom(g, left', right', v, steps + 1, fuel - 1)
  }

  /** Both walkers leave the start along its two connections. */
  function Farthest(g: Grid, s: Point, fuel: nat): Result<nat> {
    var c :- Cell(g, s);
    if c.None? || !InMarks(g, s) then Err
    else
      var conns := Connections(c.value, s);
      WalkFrom(g, conns.0, conns.1, {s}, 1, fuel)
  }

  /** `part_one`. */
  function PartOne(input: string, fuel: nat): (r: Result<nat>)
    ensures r.Ok? ==> ParseMap(input).Ok? && r.value >= 1
  {
    var (g, s) :- ParseMap(input);
    Farthest(g, s, fuel)
  }

  /** The marking walk of `part_two`: follows the loop from the start's first
      connection until it reaches the second. */
  function TraceFrom(g: Grid, left: Point, finish: Point, onLoop: set<Point>, fuel: nat): (r: Result<set<Point>>)
    ensures r.Ok? ==> onLoop <= r.value
    decreases fuel
  {
    if left == finish then Ok(onLoop)
    else if fuel == 0 || !InMarks(g, left) then Err
    else
      var marked := onLoop + {left};
      var left' :- Move(g, marked, left, Some(finish), false);
      TraceFrom(g, left', finish, marked, fuel - 1)
  }

  function LoopTiles(g: Grid, s: Point, fuel: nat): (r: Result<set<Point>>)
    ensures r.Ok? ==> s in r.value
  {
    var c :- Cell(g, s);
    if c.None? || !InMarks(g, s) then Err
    else
      var conns := Connections(c.value, s);
      if !InMarks(g, conns.1) then Err
      else TraceFrom(g, conns.0, conns.1, {s, conns.1}, fuel)
  }

  // ------------------------------------------------------ the loop theorems

  /** Index arithmetic on a cycle. */
  function Prev(n: nat, i: nat): nat
    requires 0 < n
  {
    if i == 0 then n - 1 else i - 1
  }

  function Succ(n: nat, i: nat): nat
    requires 0 < n
  {
    if i + 1 >= n then 0 else i + 1
  }

  /** `c` is a closed loop of pipes in `g`: distinct tiles inside the marking
      grid, each holding a pipe whose two connections are its neighbours on
      the loop.  The loop is listed in the direction of the start pipe's
      first connection. */
  ghost predicate IsLoop(g: Grid, c: seq<Point>) {
    |c| >= 3
    && (forall i {:trigger Unique(c, i)} :: 0 <= i < |c| ==> Unique(c, i))
    && (forall i {:trigger LoopTile(g, c, i)} :: 0 <= i < |c| ==> LoopTile(g, c, i))
    && LoopTile(g, c, 0)
    && Connections(g[c[0].1][c[0].0].value, c[0]) == (c[1], c[|c| - 1])
  }

  /** No other tile of `c` is `c[i]`. */
  ghost predicate Unique(c: seq<Point>, i: nat)
    requires i < |c|
  {
    forall j :: 0 <= j < |c| && j != i ==> c[j] != c[i]
  }

  ghost predicate LoopTile(g: Grid, c: seq<Point>, i: nat)
    requires i < |c|
  {
    var p := c[i];
    InMarks(g, p) && Cell(g, p).Ok? && g[p.1][p.0].Some?
    && var conns := Connections(g[p.1][p.0].value, p);
       conns == (c[Prev(|c|, i)], c[Succ(|c|, i)]) || conns == (c[Succ(|c|, i)], c[Prev(|c|, i)])
  }

  function Parity(p: Point): nat {
    (p.0 + p.1) % 2
  }

  /** A connection changes `x + y` by one, unless it saturated at an edge. */
  lemma ConnectionParity(pipe: Pipe, p: Point, q: Point)
    requires Connects(pipe, p, q) && q != p
    ensures Parity(q) != Parity(p)
  {
  }

  lemma {:induction false} ParityAlong(g: Grid, c: seq<Point>, i: nat)
    requires IsLoop(g, c) && i < |c|
    ensures Parity(c[i]) == (Parity(c[0]) + i) % 2
  {
    if i > 0 {
      ParityAlong(g, c, i - 1);
      assert LoopTile(g, c, i);
      assert Prev(|c|, i) == i - 1 && Unique(c, i);
      ConnectionParity(g[c[i].1][c[i].0].value, c[i], c[i - 1]);
    }
  }

  /** A loop on the grid has even length: every move flips the parity of
      `x + y`. */
  lemma LoopIsEven(g: Grid, c: seq<Point>)
    requires IsLoop(g, c)
    ensures |c| % 2 == 0
  {
    var n := |c|;
    ParityAlong(g, c, n - 1);
    assert LoopTile(g, c, 0);
    assert Prev(n, 0) == n - 1 && Unique(c, 0);
    ConnectionParity(g[c[0].1][c[0].0].value, c[0], c[n - 1]);
  }

  /** The tiles the two walkers have marked before step `k`. */
  ghost function VisitedAt(c: seq<Point>, k: nat): set<Point> {
    set j | 0 <= j < |c| && (j < k || j > |c| - k) :: c[j]
  }

  lemma VisitedMember(c: seq<Point>, k: nat, i: nat)
    requires i < |c| && Unique(c, i)
    ensures c[i] in VisitedAt(c, k) <==> i < k || i > |c| - k
  {
    if c[i] in VisitedAt(c, k) {
      var j :| 0 <= j < |c| && (j < k || j > |c| - k) && c[j] == c[i];
      assert i == j;
    }
  }

  lemma VisitedGrows(c: seq<Point>, k: nat)
    requires 1 <= k && 2 * k + 2 <= |c|
    ensures VisitedAt(c, k) + {c[k], c[|c| - k]} == VisitedAt(c, k + 1)
  {
    var n := |c|;
    forall p | p in VisitedAt(c, k + 1)
      ensures p in VisitedAt(c, k) || p == c[k] || p == c[n - k]
    {
      var j :| 0 <= j < n && (j < k + 1 || j > n - k - 1) && c[j] == p;
      if j != k && j != n - k {
        assert c[j] in VisitedAt(c, k);
      }
    }
    forall p | p in VisitedAt(c, k)
      ensures p in VisitedAt(c, k + 1)
    {
      var j :| 0 <= j < n && (j < k || j > n - k) && c[j] == p;
      assert c[j] in VisitedAt(c, k + 1);
    }
    assert c[k] in VisitedAt(c, k + 1);
    assert c[n - k] in VisitedAt(c, k + 1);
  }

  /** A walker on the loop at `c[i]` whose backward neighbour is marked and
      whose forward neighbour is not moves forward. */
  lemma PickForward(g: Grid, c: seq<Point>, i: nat, next: nat, back: nat, marked: set<Point>, target: Option<Point>, meet: bool)
    requires i < |c| && next < |c| && back < |c| && LoopTile(g, c, i)
    requires (next == Succ(|c|, i) && back == Prev(|c|, i)) || (next == Prev(|c|, i) && back == Succ(|c|, i))
    requires InMarks(g, c[next]) && InMarks(g, c[back])
    requires c[back] in marked && !meet && target != Some(c[back])
    requires c[next] !in marked || target == Some(c[next])
    ensures Move(g, marked, c[i], target, meet) == Ok(c[next])
  {
    var p := c[i];
    var conns := Connections(g[p.1][p.0].value, p);
    assert conns == (c[next], c[back]) || conns == (c[back], c[next]);
  }

  /** The marks around the two walkers at step `k` of part one; `k'` is
      `k + 1`. */
  lemma WalkStepMarks(c: seq<Point>, k: nat, k': nat)
    requires forall i :: 0 <= i < |c| ==> Unique(c, i)
    requires 1 <= k && k' == k + 1 && 2 * k' <= |c|
    ensures c[k] != c[|c| - k] && c[k] !in VisitedAt(c, k) && c[k'] != c[|c| - k]
    ensures VisitedAt(c, k) + {c[k], c[|c| - k]} == VisitedAt(c, k')
    ensures c[k - 1] in VisitedAt(c, k') && c[k'] !in VisitedAt(c, k')
    ensures c[Succ(|c|, |c| - k)] in VisitedAt(c, k') && c[|c| - k'] !in VisitedAt(c, k')
  {
    var n := |c|;
    VisitedGrows(c, k);
    VisitedMember(c, k, k);
    VisitedMember(c, k', k - 1);
    VisitedMember(c, k', k');
    VisitedMember(c, k', n - k');
    VisitedMember(c, k', Succ(n, n - k));
    assert Unique(c, k) && Unique(c, k');
  }

  /** One round of part one on the loop: the walker at `c[k]` moves to
      `c[k + 1]` ... */
  lemma WalkLeft(g: Grid, c: seq<Point>, k: nat, k': nat)
    requires IsLoop(g, c) && 1 <= k && k' == k + 1 && 2 * k' <= |c|
    ensures Move(g, VisitedAt(c, k'), c[k], Some(c[|c| - k]), false) == Ok(c[k'])
  {
    WalkStepMarks(c, k, k');
    assert LoopTile(g, c, k) && LoopTile(g, c, k') && LoopTile(g, c, k - 1) && Unique(c, k - 1);
    ForwardStep(g, c, k, k', k - 1, VisitedAt(c, k'), Some(c[|c| - k]));
  }

  /** ... and the walker at `c[n - k]` moves to `c[n - k - 1]`. */
  lemma WalkRight(g: Grid, c: seq<Point>, k: nat, k': nat)
    requires IsLoop(g, c) && 1 <= k && k' == k + 1 && 2 * k' <= |c|
    ensures Move(g, VisitedAt(c, k'), c[|c| - k], None, false) == Ok(c[|c| - k'])
  {
    var n := |c|;
    WalkStepMarks(c, k, k');
    var a, b, d := n - k, n - k', Succ(n, n - k);
    assert LoopTile(g, c, a) && LoopTile(g, c, b) && LoopTile(g, c, d);
    ForwardStep(g, c, a, b, d, VisitedAt(c, k'), None);
  }

  /** `PickForward` for a tile of a loop. */
  lemma ForwardStep(g: Grid, c: seq<Point>, i: nat, next: nat, back: nat, marked: set<Point>, target: Option<Point>)
    requires i < |c| && next < |c| && back < |c|
    requires LoopTile(g, c, i) && LoopTile(g, c, next) && LoopTile(g, c, back)
    requires (next == Succ(|c|, i) && back == Prev(|c|, i)) || (next == Prev(|c|, i) && back == Succ(|c|, i))
    requires c[back] in marked && target != Some(c[back])
    requires c[next] !in marked || target == Some(c[next])
    ensures Move(g, marked, c[i], target, false) == Ok(c[next])
  {
    PickForward(g, c, i, next, back, marked, target, false);
  }

  /** One unfolding of the `part_one` loop. */
  lemma WalkFromStep(g: Grid, left: Point, right: Point, visited: set<Point>, steps: nat, fuel: nat,
                     left': Point, right': Point, visited': set<Point>, steps': nat, fuel': nat)
    requires left != right && InMarks(g, left) && InMarks(g, right) && left !in visited && fuel > 0
    requires visited' == visited + {left, right} && steps' == steps + 1 && fuel' == fuel - 1
    requires Move(g, visited', left, Some(right), false) == Ok(left')
    requires Move(g, visited', right, None, left' == right) == Ok(right')
    ensures WalkFrom(g, left, right, visited, steps, fuel) == WalkFrom(g, left', right', visited', steps', fuel')
  {
    WalkFromUnfold(g, left, right, visited, steps, fuel, left', right', visited');
    WalkFromArgs(g, left', right', visited', steps + 1, fuel - 1, steps', fuel');
  }

  lemma WalkFromUnfold(g: Grid, left: Point, right: Point, visited: set<Point>, steps: nat, fuel: nat,
                       left': Point, right': Point, visited': set<Point>)
    requires left != right && InMarks(g, left) && InMarks(g, right) && left !in visited && fuel > 0
    requires visited' == visited + {left, right}
    requires Move(g, visited', left, Some(right), false) == Ok(left')
    requires Move(g, visited', right, None, left' == right) == Ok(right')
    ensures WalkFrom(g, left, right, visited, steps, fuel) == WalkFrom(g, left', right', visited', steps + 1, fuel - 1)
  {
  }

  lemma WalkFromArgs(g: Grid, left: Point, right: Point, visited: set<Point>, steps: nat, fuel: nat, steps': nat, fuel': nat)
    requires steps == steps' && fuel == fuel'
    ensures WalkFrom(g, left, right, visited, steps, fuel) == WalkFrom(g, left, right, visited, steps', fuel')
  {
  }

  /** The `part_one` loop with the walkers at `c[k]` and `c[n - k]`. */
  ghost function Walkers(g: Grid, c: seq<Point>, k: nat, fuel: nat): Result<nat>
    requires 1 <= k < |c|
  {
    WalkFrom(g, c[k], c[|c| - k], VisitedAt(c, k), k, fuel)
  }

  /** One round of the `part_one` loop on the loop `c`. */
  lemma WalkRound(g: Grid, c: seq<Point>, k: nat, fuel: nat, k': nat, fuel': nat)
    requires IsLoop(g, c) && 1 <= k && k' == k + 1 && 2 * k' <= |c| && fuel > 0 && fuel' == fuel - 1
    ensures Walkers(g, c, k, fuel) == Walkers(g, c, k', fuel')
  {
    WalkStepMarks(c, k, k');
    WalkLeft(g, c, k, k');
    WalkRight(g, c, k, k');
    assert LoopTile(g, c, k) && LoopTile(g, c, |c| - k);
    WalkFromStep(g, c[k], c[|c| - k], VisitedAt(c, k), k, fuel, c[k'], c[|c| - k'], VisitedAt(c, k'), k', fuel');
  }

  lemma {:induction false} WalkOnLoop(g: Grid, c: seq<Point>, half: nat, k: nat, fuel: nat)
    requires IsLoop(g, c) && |c| == 2 * half
    requires 1 <= k <= half && fuel >= half - k
    ensures Walkers(g, c, k, fuel) == Ok(half)
    decreases half - k
  {
    if k < half {
      var k', fuel' := k + 1, fuel - 1;
      WalkRound(g, c, k, fuel, k', fuel');
      WalkOnLoop(g, c, half, k', fuel');
    } else {
      WalkersMeet(g, c, k, fuel);
    }
  }

  /** The walkers meet half way round. */
  lemma WalkersMeet(g: Grid, c: seq<Point>, k: nat, fuel: nat)
    requires 1 <= k < |c| && |c| == 2 * k
    ensures Walkers(g, c, k, fuel) == Ok(k)
  {
    assert c[|c| - k] == c[k];
  }

  /** On a loop of `n` tiles through the start, part one returns `n / 2`,
      the number of steps to the tile farthest along the loop. */
  lemma FarthestOnLoop(g: Grid, c: seq<Point>, fuel: nat)
    requires IsLoop(g, c) && fuel >= |c| / 2
    ensures Farthest(g, c[0], fuel) == Ok(|c| / 2)
  {
    var n := |c|;
    LoopIsEven(g, c);
    assert LoopTile(g, c, 0);
    assert VisitedAt(c, 1) == {c[0]} by {
      forall p | p in VisitedAt(c, 1)
        ensures p == c[0]
      {
        var j :| 0 <= j < n && (j < 1 || j > n - 1) && c[j] == p;
      }
    }
    var half, last := n / 2, n - 1;
    WalkOnLoop(g, c, half, 1, fuel);
    assert WalkFrom(g, c[1], c[last], VisitedAt(c, 1), 1, fuel) == Ok(half);
    var conns := Connections(g[c[0].1][c[0].0].value, c[0]);
    assert conns.0 == c[1] && conns.1 == c[last];
  }

  lemma PartOneOnLoop(input: string, c: seq<Point>, fuel: nat)
    requires ParseMap(input).Ok? && IsLoop(ParseMap(input).value.0, c)
    requires ParseMap(input).value.1 == c[0] && fuel >= |c| / 2
    ensures PartOne(input, fuel) == Ok(|c| / 2)
  {
    FarthestOnLoop(ParseMap(input).value.0, c, fuel);
  }

  /** The tiles marked before the marking walker stands on `c[k]`. */
  ghost function MarkedAt(c: seq<Point>, k: nat): set<Point> {
    set j | 0 <= j < |c| && (j < k || j == |c| - 1) :: c[j]
  }

  lemma MarkedMember(c: seq<Point>, k: nat, i: nat)
    requires i < |c| && Unique(c, i)
    ensures c[i] in MarkedAt(c, k) <==> i < k || i == |c| - 1
  {
    if c[i] in MarkedAt(c, k) {
      var j :| 0 <= j < |c| && (j < k || j == |c| - 1) && c[j] == c[i];
      assert i == j;
    }
  }

  lemma MarkedGrows(c: seq<Point>, k: nat)
    requires k < |c|
    ensures MarkedAt(c, k) + {c[k]} == MarkedAt(c, k + 1)
  {
    var n := |c|;
    forall p | p in MarkedAt(c, k + 1)
      ensures p in MarkedAt(c, k) + {c[k]}
    {
      var j :| 0 <= j < n && (j < k + 1 || j == n - 1) && c[j] == p;
      if j != k {
        assert c[j] in MarkedAt(c, k);
      }
    }
    forall p | p in MarkedAt(c, k)
      ensures p in MarkedAt(c, k + 1)
    {
      var j :| 0 <= j < n && (j < k || j == n - 1) && c[j] == p;
      assert c[j] in MarkedAt(c, k + 1);
    }
    assert c[k] in MarkedAt(c, k + 1);
  }

  /** One step of the marking walk along the loop. */
  lemma TraceStep(g: Grid, c: seq<Point>, k: nat)
    requires IsLoop(g, c) && 1 <= k < |c| - 1
    ensures InMarks(g, c[k]) && c[k] != c[|c| - 1]
    ensures MarkedAt(c, k) + {c[k]} == MarkedAt(c, k + 1)
    ensures Move(g, MarkedAt(c, k + 1), c[k], Some(c[|c| - 1]), false) == Ok(c[k + 1])
  {
    var n := |c|;
    MarkedGrows(c, k);
    MarkedMember(c, k + 1, k - 1);
    MarkedMember(c, k + 1, k + 1);
    assert Unique(c, k);
    assert LoopTile(g, c, k) && LoopTile(g, c, k + 1) && LoopTile(g, c, k - 1);
    ForwardStep(g, c, k, k + 1, k - 1, MarkedAt(c, k + 1), Some(c[n - 1]));
  }

  /** One unfolding of the marking walk. */
  lemma TraceFromStep(g: Grid, left: Point, finish: Point, onLoop: set<Point>, fuel: nat, left': Point)
    requires left != finish && InMarks(g, left) && fuel > 0
    requires Move(g, onLoop + {left}, left, Some(finish), false) == Ok(left')
    ensures TraceFrom(g, left, finish, onLoop, fuel) == TraceFrom(g, left', finish, onLoop + {left}, fuel - 1)
  {
  }

  lemma {:induction false} TraceOnLoop(g: Grid, c: seq<Point>, k: nat, fuel: nat)
    requires IsLoop(g, c)
    requires 1 <= k <= |c| - 1 && fuel >= |c| - 1 - k
    ensures TraceFrom(g, c[k], c[|c| - 1], MarkedAt(c, k), fuel) == Ok(MarkedAt(c, |c| - 1))
    decreases |c| - 1 - k
  {
    var n := |c|;
    if k < n - 1 {
      TraceStep(g, c, k);
      TraceFromStep(g, c[k], c[n - 1], MarkedAt(c, k), fuel, c[k + 1]);
      TraceOnLoop(g, c, k + 1, fuel - 1);
    }
  }

  /** The marking walk of part two marks exactly the tiles of the loop. */
  lemma LoopTilesOnLoop(g: Grid, c: seq<Point>, fuel: nat)
    requires IsLoop(g, c) && fuel >= |c|
    ensures LoopTiles(g, c[0], fuel) == Ok(set i | 0 <= i < |c| :: c[i])
  {
    var n := |c|;
    assert LoopTile(g, c, 0) && LoopTile(g, c, n - 1);
    assert MarkedAt(c, 1) == {c[0], c[n - 1]} by {
      forall p | p in MarkedAt(c, 1)
        ensures p == c[0] || p == c[n - 1]
      {
        var j :| 0 <= j < n && (j < 1 || j == n - 1) && c[j] == p;
      }
      assert c[0] in MarkedAt(c, 1) && c[n - 1] in MarkedAt(c, 1);
    }
    TraceOnLoop(g, c, 1, fuel);
    assert MarkedAt(c, n - 1) == set i | 0 <= i < n :: c[i] by {
      forall j | 0 <= j < n
        ensures c[j] in MarkedAt(c, n - 1)
      {
        MarkedMember(c, n - 1, j);
      }
    }
  }

  // --------------------------------------------------------- crossing count

  /** The scan state of one row: inside the loop or not, the corner that
      opened the current horizontal run (`L` or `F`), and the count. */
  datatype Scan = Scan(inside: bool, corner: Option<Pipe>, count: nat)

  /** One tile of the east-to-west scan.  `|` crosses the loop, `-` does
      not; `L` and `F` open a run that `7` or `J` closes, and the run crosses
      the loop exactly when it leaves on the other side (`L…7`, `F…J`). */
  function ScanTile(st: Scan, tile: Option<Pipe>, onLoop: bool): (r: Result<Scan>)
    ensures r.Ok? && !onLoop ==> r.value == st.(count := st.count + if st.inside then 1 else 0)
  {
    if !onLoop then Ok(if st.inside then st.(count := st.count + 1) else st)
    else
      match tile
      case None => Err
      case Some(Ns) => Ok(st.(inside := !st.inside))
      case Some(Ew) => Ok(st)
      case Some(Ne) => if st.corner.None? then Ok(st.(corner := Some(Ne))) else Err
      case Some(Nw) =>
        if st.corner == Some(Ne) then Ok(st.(corner := None))
        else if st.corner == Some(Se) then Ok(Scan(!st.inside, None, st.count))
        else Err
      case Some(Sw) =>
        if st.corner == Some(Ne) then Ok(Scan(!st.inside, None, st.count))
        else if st.corner == Some(Se) then Ok(st.(corner := None))
        else Err
      case Some(Se) => if st.corner.None? then Ok(st.(corner := Some(Se))) else Err
  }

  /** Scans row `y` from column `x` to its end. */
  function ScanRow(g: Grid, onLoop: set<Point>, y: nat, x: nat, st: Scan): (r: Result<Scan>)
    requires y < |g|
    ensures r.Ok? ==> r.value.count >= st.count
    decreases |g[y]| - x
  {
    if x >= |g[y]| then Ok(st)
    else if !InMarks(g, (x, y)) then Err
    else
      var st' :- ScanTile(st, g[y][x], (x, y) in onLoop);
      ScanRow(g, onLoop, y, x + 1, st')
  }

  /** A row must end outside the loop with no run open. */
  function RowCount(g: Grid, onLoop: set<Point>, y: nat): (r: Result<nat>)
    requires y < |g|
    ensures r.Ok? ==> var st := ScanRow(g, onLoop, y, 0, Scan(false, None, 0));
                      st.Ok? && st.value.corner.None? && !st.value.inside && r.value == st.value.count
  {
    var st :- ScanRow(g, onLoop, y, 0, Scan(false, None, 0));
    if st.corner.Some? || st.inside then Err else Ok(st.count)
  }

  function CountRows(g: Grid, onLoop: set<Point>, y: nat): Result<nat>
    requires y <= |g|
    decreases |g| - y
  {
    if y == |g| then Ok(0)
    else
      var here :- RowCount(g, onLoop, y);
      var rest :- CountRows(g, onLoop, y + 1);
      Ok(here + rest)
  }

  /** `part_two`. */
  function PartTwo(input: string, fuel: nat): (r: Result<nat>)
    ensures r.Ok? ==> ParseMap(input).Ok?
  {
    var (g, s) :- ParseMap(input);
    var onLoop :- LoopTiles(g, s, fuel);
    CountRows(g, onLoop, 0)
  }

  /** One when tile `x` of row `y` is on the loop and its pipe has a
      northern end. */
  function NorthAt(g: Grid, onLoop: set<Point>, y: nat, x: nat): nat
    requires y < |g| && x < |g[y]|
  {
    if (x, y) in onLoop && g[y][x].Some? && Opens(g[y][x].value, North) then 1 else 0
  }

  /** Loop tiles from column `x` on whose pipe has a northern end. */
  function NorthFrom(g: Grid, onLoop: set<Point>, y: nat, x: nat): nat
    requires y < |g|
    decreases |g[y]| - x
  {
    if x >= |g[y]| then 0 else NorthAt(g, onLoop, y, x) + NorthFrom(g, onLoop, y, x + 1)
  }

  function Odd(n: nat): bool {
    n % 2 == 1
  }

  /** The parity the scan keeps: with no run open, inside means an odd
      number of northern ends so far; an open `L` run has counted its own
      northern end already. */
  predicate Tracks(st: Scan, north: nat) {
    match st.corner
    case None => st.inside == Odd(north)
    case Some(Ne) => st.inside == !Odd(north)
    case Some(Se) => st.inside == Odd(north)
    case Some(_) => false
  }

  lemma ScanTileTracks(st: Scan, tile: Option<Pipe>, onLoop: bool, north: nat)
    requires Tracks(st, north) && ScanTile(st, tile, onLoop).Ok?
    ensures Tracks(ScanTile(st, tile, onLoop).value,
                   north + if onLoop && tile.Some? && Opens(tile.value, North) then 1 else 0)
  {
  }

  lemma {:induction false} ScanRowTracks(g: Grid, onLoop: set<Point>, y: nat, x: nat, st: Scan, north: nat)
    requires y < |g| && Tracks(st, north) && ScanRow(g, onLoop, y, x, st).Ok?
    ensures Tracks(ScanRow(g, onLoop, y, x, st).value, north + NorthFrom(g, onLoop, y, x))
    decreases |g[y]| - x
  {
    if x < |g[y]| {
      var on := (x, y) in onLoop;
      ScanTileTracks(st, g[y][x], on, north);
      ScanRowTracks(g, onLoop, y, x + 1, ScanTile(st, g[y][x], on).value,
                    north + if on && g[y][x].Some? && Opens(g[y][x].value, North) then 1 else 0);
    }
  }

  /** A row the scan accepts crosses the loop's northern ends an even number
      of times, and the scan is inside exactly after an odd number of them. */
  lemma RowCrossingsEven(g: Grid, onLoop: set<Point>, y: nat)
    requires y < |g| && RowCount(g, onLoop, y).Ok?
    ensures NorthFrom(g, onLoop, y, 0) % 2 == 0
  {
    ScanRowTracks(g, onLoop, y, 0, Scan(false, None, 0), 0);
  }

  // ------------------------------------------------------- enclosed tiles

  /** Loop tiles left of column `x` whose pipe has a northern end. */
  function NorthBefore(g: Grid, onLoop: set<Point>, y: nat, x: nat): nat
    requires y < |g| && x <= |g[y]|
  {
    if x == 0 then 0 else NorthBefore(g, onLoop, y, x - 1) + NorthAt(g, onLoop, y, x - 1)
  }

  /** Tile `x` of row `y` is enclosed: it is off the loop, and the ray from
      it to the west edge crosses an odd number of the loop's northern
      ends. */
  predicate Enclosed(g: Grid, onLoop: set<Point>, y: nat, x: nat)
    requires y < |g| && x < |g[y]|
  {
    (x, y) !in onLoop && Odd(NorthBefore(g, onLoop, y, x))
  }

  /** The enclosed tiles of row `y` from column `x` on. */
  function EnclosedFrom(g: Grid, onLoop: set<Point>, y: nat, x: nat): nat
    requires y < |g|
    decreases |g[y]| - x
  {
    if x >= |g[y]| then 0
    else (if Enclosed(g, onLoop, y, x) then 1 else 0) + EnclosedFrom(g, onLoop, y, x + 1)
  }

  /** The enclosed tiles of rows `y` and below. */
  function EnclosedRows(g: Grid, onLoop: set<Point>, y: nat): nat
    requires y <= |g|
    decreases |g| - y
  {
    if y == |g| then 0 else EnclosedFrom(g, onLoop, y, 0) + EnclosedRows(g, onLoop, y + 1)
  }

  /** Tile `x` of row `y` is on the loop and its pipe has a western end. */
  predicate OpensWestAt(g: Grid, onLoop: set<Point>, y: nat, x: nat)
    requires y < |g|
  {
    x < |g[y]| && (x, y) in onLoop && g[y][x].Some? && Opens(g[y][x].value, West)
  }

  /** Every loop tile of row `y` with an eastern end has a loop tile with a
      western end beside it, as on a closed loop. */
  predicate JoinsEast(g: Grid, onLoop: set<Point>, y: nat)
    requires y < |g|
  {
    forall x :: 0 <= x < |g[y]| && (x, y) in onLoop && g[y][x].Some? && Opens(g[y][x].value, East)
                ==> OpensWestAt(g, onLoop, y, x + 1)
  }

  predicate LoopJoins(g: Grid, onLoop: set<Point>) {
    forall y {:trigger JoinsEast(g, onLoop, y)} :: 0 <= y < |g| ==> JoinsEast(g, onLoop, y)
  }

  /** Where the loop joins up, scanning a row from column `x` adds the
      tiles enclosed from there on.  A run opened by `L` or `F` is only ever
      followed by loop tiles with a western end, so the scan never counts
      a tile while a run is open. */
  lemma {:induction false} ScanRowEnclosed(g: Grid, onLoop: set<Point>, y: nat, x: nat, st: Scan)
    requires y < |g| && x <= |g[y]| && JoinsEast(g, onLoop, y)
    requires Tracks(st, NorthBefore(g, onLoop, y, x))
    requires st.corner.Some? ==> OpensWestAt(g, onLoop, y, x)
    requires ScanRow(g, onLoop, y, x, st).Ok?
    ensures ScanRow(g, onLoop, y, x, st).value.count == st.count + EnclosedFrom(g, onLoop, y, x)
    decreases |g[y]| - x
  {
    if x < |g[y]| {
      var on := (x, y) in onLoop;
      var st' := ScanTile(st, g[y][x], on).value;
      ScanTileTracks(st, g[y][x], on, NorthBefore(g, onLoop, y, x));
      if st'.corner.Some? {
        assert on && g[y][x].Some? && Opens(g[y][x].value, East);
      }
      ScanRowEnclosed(g, onLoop, y, x + 1, st');
    }
  }

  /** A row the scan accepts counts its enclosed tiles. */
  lemma RowCountEnclosed(g: Grid, onLoop: set<Point>, y: nat)
    requires y < |g| && JoinsEast(g, onLoop, y) && RowCount(g, onLoop, y).Ok?
    ensures RowCount(g, onLoop, y).value == EnclosedFrom(g, onLoop, y, 0)
  {
    ScanRowEnclosed(g, onLoop, y, 0, Scan(false, None, 0));
  }

  lemma {:induction false} CountRowsEnclosed(g: Grid, onLoop: set<Point>, y: nat)
    requires y <= |g| && LoopJoins(g, onLoop) && CountRows(g, onLoop, y).Ok?
    ensures CountRows(g, onLoop, y).value == EnclosedRows(g, onLoop, y)
    decreases |g| - y
  {
    if y < |g| {
      assert JoinsEast(g, onLoop, y);
      RowCountEnclosed(g, onLoop, y);
      CountRowsEnclosed(g, onLoop, y + 1);
    }
  }

  ghost function Tiles(c: seq<Point>): set<Point> {
    set i | 0 <= i < |c| :: c[i]
  }

  /** On a loop, the tile east of a pipe's eastern end is the next or the
      previous tile of the loop, and its pipe leads back west. */
  lemma EastNeighbour(g: Grid, c: seq<Point>, i: nat)
    requires IsLoop(g, c) && i < |c|
    requires c[i].1 < |g| && c[i].0 < |g[c[i].1]| && g[c[i].1][c[i].0].Some?
    requires Opens(g[c[i].1][c[i].0].value, East)
    ensures OpensWestAt(g, Tiles(c), c[i].1, c[i].0 + 1)
  {
    var n, p := |c|, c[i];
    assert LoopTile(g, c, i);
    var pipe := g[p.1][p.0].value;
    ConnectionsCover(pipe, p, East);
    var q := (p.0 + 1, p.1);
    var j := if q == c[Prev(n, i)] then Prev(n, i) else Succ(n, i);
    assert c[j] == q;
    assert LoopTile(g, c, j);
    assert i == Prev(n, j) || i == Succ(n, j);
    var back := g[q.1][q.0].value;
    assert Connects(back, q, p);
    assert Opens(back, West);
    assert q in Tiles(c);
  }

  lemma LoopJoinsEast(g: Grid, c: seq<Point>)
    requires IsLoop(g, c)
    ensures LoopJoins(g, Tiles(c))
  {
    forall y | 0 <= y < |g|
      ensures JoinsEast(g, Tiles(c), y)
    {
      forall x | 0 <= x < |g[y]| && (x, y) in Tiles(c) && g[y][x].Some? && Opens(g[y][x].value, East)
        ensures OpensWestAt(g, Tiles(c), y, x + 1)
      {
        var i :| 0 <= i < |c| && c[i] == (x, y);
        EastNeighbour(g, c, i);
      }
    }
  }

  /** On a loop through the start, part two counts the tiles the loop
      encloses. */
  lemma PartTwoOnLoop(input: string, c: seq<Point>, fuel: nat)
    requires ParseMap(input).Ok? && IsLoop(ParseMap(input).value.0, c)
    requires ParseMap(input).value.1 == c[0] && fuel >= |c|
    ensures PartTwo(input, fuel).Ok? ==> PartTwo(input, fuel).value == EnclosedRows(ParseMap(input).value.0, Tiles(c), 0)
  {
    var g := ParseMap(input).value.0;
    LoopTilesOnLoop(g, c, fuel);
    assert LoopTiles(g, c[0], fuel) == Ok(Tiles(c));
    LoopJoinsEast(g, c);
    if PartTwo(input, fuel).Ok? {
      CountRowsEnclosed(g, Tiles(c), 0);
    }
  }
}

=== FILE: day11_cosmic_expansion.dfy ===
/** Day 11: an image of `#` galaxies on `.` space.  Every row and every
    column without a galaxy is twice as wide as it looks; part one sums the
    Manhattan distances between all pairs of galaxies after that expansion.

    `Observation::from_str` collects the galaxies in reading order (so sorted
    by row), shifts each one down by the empty rows met so far, sorts by
    column and shifts each one right by the empty columns met so far.  The gap
    before the first occupied row (column) is counted one short, since the
    pass starts with `last = 0` as if line 0 were occupied; that moves every
    galaxy by the same amount and leaves every distance unchanged, which
    `PartOneIsExpandedDistance` proves. */
module Day11 {
  import opened Wrappers
  import opened Text
  import opened Seqs

  /** `(x, y)`: column, then row. */
  type Galaxy = (nat, nat)

  datatype Axis = Column | Row

  function Coord(g: Galaxy, a: Axis): nat {
    match a
    case Column => g.0
    case Row => g.1
  }

  predicate Legal(c: char) {
    c == '#' || c == '.'
  }

  // ----------------------------------------------------------------- parsing

  /** The galaxies of one line from column `x` on; any character other than
      `#` or `.` fails. */
  function RowFrom(line: string, y: nat, x: nat): (r: Result<seq<Galaxy>>)
    requires x <= |line|
    ensures r.Ok? <==> forall i :: x <= i < |line| ==> Legal(line[i])
    ensures r.Ok? ==> forall g :: g in r.value <==> g.1 == y && x <= g.0 < |line| && line[g.0] == '#'
    decreases |line| - x
  {
    if x == |line| then Ok([])
    else if line[x] == '#' then
      var rest :- RowFrom(line, y, x + 1);
      Ok([(x, y)] + rest)
    else if line[x] == '.' then RowFrom(line, y, x + 1)
    else Err
  }

  /** A galaxy sits on a `#` of the image. */
  predicate InImage(lines: seq<string>, g: Galaxy) {
    g.1 < |lines| && g.0 < |lines[g.1]| && lines[g.1][g.0] == '#'
  }

  predicate LegalLine(line: string) {
    forall i :: 0 <= i < |line| ==> Legal(line[i])
  }

  /** Every line from `y` on is legal. */
  predicate LegalFrom(lines: seq<string>, y: nat) {
    forall j :: y <= j < |lines| ==> LegalLine(lines[j])
  }

  predicate RowsFrom(gs: seq<Galaxy>, y: nat) {
    forall i :: 0 <= i < |gs| ==> y <= gs[i].1
  }

  /** Ordered by `a`, ties allowed. */
  predicate Sorted(gs: seq<Galaxy>, a: Axis) {
    forall i, j :: 0 <= i < j < |gs| ==> Coord(gs[i], a) <= Coord(gs[j], a)
  }

  /** The galaxies of lines `y ..`, in reading order. */
  function GalaxiesFrom(lines: seq<string>, y: nat): (r: Result<seq<Galaxy>>)
    requires y <= |lines|
    ensures r.Ok? <==> LegalFrom(lines, y)
    ensures r.Ok? ==> forall g :: g in r.value <==> y <= g.1 && InImage(lines, g)
    ensures r.Ok? ==> Sorted(r.value, Row) && RowsFrom(r.value, y)
    decreases |lines| - y
  {
    if y == |lines| then Ok([])
    else
      var row := RowFrom(lines[y], y, 0);
      if row.Err? then Err
      else
        var rest :- GalaxiesFrom(lines, y + 1);
        var r := row.value + rest;
        assert forall i :: 0 <= i < |row.value| ==> r[i] == row.value[i] && r[i] in row.value;
        assert forall i :: |row.value| <= i < |r| ==> r[i] == rest[i - |row.value|];
        Ok(r)
  }

  // --------------------------------------------------------------- expansion

  /** `(v - last).saturating_sub(1)` for `last <= v`: the empty lines
      strictly between two occupied ones. */
  function Gap(last: nat, v: nat): nat {
    if v > last + 1 then v - last - 1 else 0
  }

  /** `skips` after the `i`-th galaxy of the pass along `a`. */
  function Skips(gs: seq<Galaxy>, a: Axis, i: nat): nat
    requires i < |gs|
  {
    if i == 0 then Gap(0, Coord(gs[0], a))
    else Skips(gs, a, i - 1) + Gap(Coord(gs[i - 1], a), Coord(gs[i], a))
  }

  /** The lines along `a` holding at least one galaxy. */
  function Occupied(gs: seq<Galaxy>, a: Axis): set<nat> {
    set g | g in gs :: Coord(g, a)
  }

  /** The empty lines among `0 .. v - 1`: the reference for how far a line
      at `v` moves. */
  function EmptyBelow(occupied: set<nat>, v: nat): nat {
    if v == 0 then 0 else EmptyBelow(occupied, v - 1) + (if v - 1 in occupied then 0 else 1)
  }

  /** The one gap the pass leaves out: line 0 counts as occupied. */
  function Lead(occupied: set<nat>): nat {
    if 0 in occupied then 0 else 1
  }

  lemma {:induction false} EmptyBelowAll(occupied: set<nat>, v: nat)
    requires forall u :: u < v ==> u !in occupied
    ensures EmptyBelow(occupied, v) == v
  {
    if v > 0 {
      EmptyBelowAll(occupied, v - 1);
    }
  }

  lemma {:induction false} EmptyBelowSpan(occupied: set<nat>, last: nat, v: nat)
    requires last < v
    requires forall u :: last < u < v ==> u !in occupied
    ensures EmptyBelow(occupied, v) == EmptyBelow(occupied, last + 1) + (v - last - 1)
  {
    if v > last + 1 {
      EmptyBelowSpan(occupied, last, v - 1);
    }
  }

  /** The `skips` of a sorted pass count the empty lines before each
      galaxy, less the one before the first occupied line. */
  lemma {:induction false} SkipsCountEmpty(gs: seq<Galaxy>, a: Axis, i: nat)
    requires Sorted(gs, a) && i < |gs|
    ensures Skips(gs, a, i) + Lead(Occupied(gs, a)) == EmptyBelow(Occupied(gs, a), Coord(gs[i], a))
  {
    if i == 0 {
      SkipsFirst(gs, a);
    } else {
      SkipsCountEmpty(gs, a, i - 1);
      SkipsNext(gs, a, i);
    }
  }

  /** Nothing is occupied before the first galaxy of a sorted pass. */
  lemma SkipsFirst(gs: seq<Galaxy>, a: Axis)
    requires Sorted(gs, a) && 0 < |gs|
    ensures Skips(gs, a, 0) + Lead(Occupied(gs, a)) == EmptyBelow(Occupied(gs, a), Coord(gs[0], a))
  {
    var occ := Occupied(gs, a);
    var v := Coord(gs[0], a);
    forall g | g in gs ensures v <= Coord(g, a) {
      var j :| 0 <= j < |gs| && gs[j] == g;
      assert j == 0 || Coord(gs[0], a) <= Coord(gs[j], a);
    }
    EmptyBelowAll(occ, v);
    assert 0 in occ <==> v == 0 by {
      if v == 0 { assert Coord(gs[0], a) in occ; }
    }
  }

  /** Nothing is occupied strictly between two neighbours of a sorted pass. */
  lemma SkipsNext(gs: seq<Galaxy>, a: Axis, i: nat)
    requires Sorted(gs, a) && 0 < i < |gs|
    ensures EmptyBelow(Occupied(gs, a), Coord(gs[i], a))
            == EmptyBelow(Occupied(gs, a), Coord(gs[i - 1], a)) + Gap(Coord(gs[i - 1], a), Coord(gs[i], a))
  {
    var occ := Occupied(gs, a);
    var v := Coord(gs[i], a);
    var last := Coord(gs[i - 1], a);
    assert last in occ;
    if last < v {
      forall j | 0 <= j < |gs| ensures Coord(gs[j], a) <= last || v <= Coord(gs[j], a) {
        assert j < i ==> j == i - 1 || Coord(gs[j], a) <= last;
        assert j >= i ==> j == i || v <= Coord(gs[j], a);
      }
      EmptyBelowSpan(occ, last, v);
    }
  }

  /** Moves a galaxy `d` further along `a`. */
  function Shift(g: Galaxy, a: Axis, d: nat): (r: Galaxy)
    ensures Coord(r, a) == Coord(g, a) + d
    ensures a == Row ==> r.0 == g.0
    ensures a == Column ==> r.1 == g.1
  {
    match a
    case Column => (g.0 + d, g.1)
    case Row => (g.0, g.1 + d)
  }

  /** `r` is `g` moved along `a` by the empty lines before it, less the
      leading one, with its other coordinate kept. */
  predicate MovedPast(g: Galaxy, r: Galaxy, a: Axis, occupied: set<nat>) {
    Coord(r, a) + Lead(occupied) == Coord(g, a) + EmptyBelow(occupied, Coord(g, a))
    && Coord(r, Other(a)) == Coord(g, Other(a))
  }

  /** One `iter_mut` pass along `a` over galaxies sorted along `a`. */
  function Expand(gs: seq<Galaxy>, a: Axis): (r: seq<Galaxy>)
    requires Sorted(gs, a)
    ensures |r| == |gs|
    ensures forall i {:trigger MovedPast(gs[i], r[i], a, Occupied(gs, a))} :: 0 <= i < |gs| ==>
              MovedPast(gs[i], r[i], a, Occupied(gs, a))
  {
    var r := seq(|gs|, i requires 0 <= i < |gs| => Shift(gs[i], a, Skips(gs, a, i)));
    forall i | 0 <= i < |gs|
      ensures MovedPast(gs[i], r[i], a, Occupied(gs, a))
    {
      SkipsCountEmpty(gs, a, i);
    }
    r
  }

  function Other(a: Axis): Axis {
    match a
    case Column => Row
    case Row => Column
  }

  function ColumnKey(g: Galaxy): int {
    g.0
  }

  lemma SortedByColumn(s: seq<Galaxy>)
    requires SortedBy(s, ColumnKey)
    ensures Sorted(s, Column)
  {
    forall i, j | 0 <= i < j < |s| ensures Coord(s[i], Column) <= Coord(s[j], Column) {
      assert ColumnKey(s[i]) <= ColumnKey(s[j]);
    }
  }

  /** The two passes of `from_str` over galaxies in reading order, with the
      sort by column between them.  `sort_unstable_by_key` is modelled by a
      stable sort, one of the orders it may produce. */
  function ExpandImage(gs: seq<Galaxy>): (r: seq<Galaxy>)
    requires Sorted(gs, Row)
    ensures |r| == |gs|
  {
    var sorted := SortBy(Expand(gs, Row), ColumnKey);
    SortedByColumn(sorted);
    Expand(sorted, Column)
  }

  /** `Observation::from_str`: fails on any character other than `#`, `.`
      and line breaks. */
  function ParseObservation(input: string): (r: Result<seq<Galaxy>>)
    ensures r.Ok? <==> LegalFrom(Lines(input), 0)
    ensures r.Ok? ==> GalaxiesFrom(Lines(input), 0).Ok?
                      && r.value == ExpandImage(GalaxiesFrom(Lines(input), 0).value)
  {
    var found := GalaxiesFrom(Lines(input), 0);
    if found.Err? then Err else Ok(ExpandImage(found.value))
  }

  /** Where a galaxy of the image ends up once every empty row and column
      is doubled. */
  function Expanded(gs: seq<Galaxy>, g: Galaxy): Galaxy {
    (g.0 + EmptyBelow(Occupied(gs, Column), g.0), g.1 + EmptyBelow(Occupied(gs, Row), g.1))
  }

  // --------------------------------------------------------------- distances

  function AbsDiff(a: nat, b: nat): nat {
    if a < b then b - a else a - b
  }

  function Distance(g: Galaxy, h: Galaxy): nat {
    AbsDiff(g.0, h.0) + AbsDiff(g.1, h.1)
  }

  /** The distances from `g` to the first `n` galaxies of `hs`. */
  function DistancesTo(g: Galaxy, hs: seq<Galaxy>, n: nat): nat
    requires n <= |hs|
  {
    if n == 0 then 0 else DistancesTo(g, hs, n - 1) + Distance(g, hs[n - 1])
  }

  /** The distances of all pairs whose first galaxy is among the first `n`. */
  function PairsBefore(gs: seq<Galaxy>, n: nat): nat
    requires n <= |gs|
  {
    if n == 0 then 0 else PairsBefore(gs, n - 1) + DistancesTo(gs[n - 1], gs[n..], |gs| - n)
  }

  /** The sum over every unordered pair of galaxies. */
  function PairDistances(gs: seq<Galaxy>): nat {
    PairsBefore(gs, |gs|)
  }

  /** `shortest_paths`: the two nested loops over `i` and the galaxies
      after `i`. */
  method ShortestPaths(gs: seq<Galaxy>) returns (sum: nat)
    ensures sum == PairDistances(gs)
  {
    sum := 0;
    var i := 0;
    while i < |gs|
      invariant 0 <= i <= |gs|
      invariant sum == PairsBefore(gs, i)
    {
      var rest := gs[i + 1..];
      var j := 0;
      var inner := sum;
      while j < |rest|
        invariant 0 <= j <= |rest|
        invariant inner == sum + DistancesTo(gs[i], rest, j)
      {
        inner := inner + AbsDiff(gs[i].0, rest[j].0);
        inner := inner + AbsDiff(gs[i].1, rest[j].1);
        j := j + 1;
      }
      sum := inner;
      i := i + 1;
    }
  }

  /** `h` is `g` moved by `(dx, dy)`. */
  predicate MovedBy(g: Galaxy, h: Galaxy, dx: nat, dy: nat) {
    h.0 == g.0 + dx && h.1 == g.1 + dy
  }

  /** Both sequences list the same galaxies up to one common offset. */
  predicate Translated(gs: seq<Galaxy>, hs: seq<Galaxy>, dx: nat, dy: nat) {
    |gs| == |hs| && forall i :: 0 <= i < |gs| ==> MovedBy(gs[i], hs[i], dx, dy)
  }

  lemma {:induction false} DistancesToTranslated(g: Galaxy, h: Galaxy, gs: seq<Galaxy>, hs: seq<Galaxy>, dx: nat, dy: nat, n: nat)
    requires MovedBy(g, h, dx, dy) && Translated(gs, hs, dx, dy) && n <= |gs|
    ensures DistancesTo(h, hs, n) == DistancesTo(g, gs, n)
  {
    if n > 0 {
      DistancesToTranslated(g, h, gs, hs, dx, dy, n - 1);
      assert MovedBy(gs[n - 1], hs[n - 1], dx, dy);
    }
  }

  lemma TranslatedSuffix(gs: seq<Galaxy>, hs: seq<Galaxy>, dx: nat, dy: nat, n: nat)
    requires Translated(gs, hs, dx, dy) && n <= |gs|
    ensures Translated(gs[n..], hs[n..], dx, dy)
  {
    forall i | 0 <= i < |gs| - n ensures MovedBy(gs[n..][i], hs[n..][i], dx, dy) {
      assert MovedBy(gs[n + i], hs[n + i], dx, dy);
    }
  }

  lemma {:induction false} PairsBeforeTranslated(gs: seq<Galaxy>, hs: seq<Galaxy>, dx: nat, dy: nat, n: nat)
    requires Translated(gs, hs, dx, dy) && n <= |gs|
    ensures PairsBefore(hs, n) == PairsBefore(gs, n)
  {
    if n > 0 {
      PairsBeforeTranslated(gs, hs, dx, dy, n - 1);
      TranslatedSuffix(gs, hs, dx, dy, n);
      assert MovedBy(gs[n - 1], hs[n - 1], dx, dy);
      DistancesToTranslated(gs[n - 1], hs[n - 1], gs[n..], hs[n..], dx, dy, |gs| - n);
    }
  }

  /** Moving every galaxy by the same offset changes no distance. */
  lemma PairDistancesTranslated(gs: seq<Galaxy>, hs: seq<Galaxy>, dx: nat, dy: nat)
    requires Translated(gs, hs, dx, dy)
    ensures PairDistances(hs) == PairDistances(gs)
  {
    PairsBeforeTranslated(gs, hs, dx, dy, |gs|);
  }

  /** `part_one`. */
  method PartOne(input: string) returns (r: Result<nat>)
    ensures r.Ok? <==> ParseObservation(input).Ok?
    ensures r.Ok? ==> r.value == PairDistances(ParseObservation(input).value)
  {
    var obs := ParseObservation(input);
    if obs.Err? {
      return Err;
    }
    var sum := ShortestPaths(obs.value);
    return Ok(sum);
  }

  // ---------------------------------------------------------- the promise

  /** After both passes, put back the two missing leading gaps, the galaxies
      are exactly the expanded galaxies of the image: each where doubling
      the empty rows and columns puts it. */
  lemma ExpandImageExpands(gs: seq<Galaxy>)
    requires Sorted(gs, Row)
    ensures forall h :: h in Restored(gs, ExpandImage(gs)) <==> exists o :: o in gs && h == Expanded(gs, o)
  {
    forall h | h in Restored(gs, ExpandImage(gs)) ensures exists o :: o in gs && h == Expanded(gs, o) {
      RestoredIsExpanded(gs, h);
    }
    forall o | o in gs ensures Expanded(gs, o) in Restored(gs, ExpandImage(gs)) {
      ExpandedIsRestored(gs, o);
    }
  }

  lemma RestoredIsExpanded(gs: seq<Galaxy>, h: Galaxy)
    requires Sorted(gs, Row) && h in Restored(gs, ExpandImage(gs))
    ensures exists o :: o in gs && h == Expanded(gs, o)
  {
    var rows := Expand(gs, Row);
    var sorted := SortBy(rows, ColumnKey);
    SortedByColumn(sorted);
    var back := Restored(gs, Expand(sorted, Column));
    OccupiedColumnsKept(gs, rows, sorted);
    var i := IndexOf(h, back);
    var j := IndexOf(sorted[i], rows);
    ExpandedAt(gs, rows, sorted, i, j);
    assert gs[j] in gs && h == Expanded(gs, gs[j]);
  }

  lemma ExpandedIsRestored(gs: seq<Galaxy>, o: Galaxy)
    requires Sorted(gs, Row) && o in gs
    ensures Expanded(gs, o) in Restored(gs, ExpandImage(gs))
  {
    var rows := Expand(gs, Row);
    var sorted := SortBy(rows, ColumnKey);
    SortedByColumn(sorted);
    OccupiedColumnsKept(gs, rows, sorted);
    var j := IndexOf(o, gs);
    var i := IndexOf(rows[j], sorted);
    ExpandedAt(gs, rows, sorted, i, j);
  }

  /** One galaxy through both passes. */
  lemma ExpandedAt(gs: seq<Galaxy>, rows: seq<Galaxy>, sorted: seq<Galaxy>, i: nat, j: nat)
    requires Sorted(gs, Row) && rows == Expand(gs, Row)
    requires Sorted(sorted, Column) && Occupied(sorted, Column) == Occupied(gs, Column)
    requires i < |sorted| && j < |rows| && sorted[i] == rows[j]
    ensures Restored(gs, Expand(sorted, Column))[i] == Expanded(gs, gs[j])
  {
    var out := Expand(sorted, Column);
    var ox, oy := Occupied(gs, Column), Occupied(gs, Row);
    var o := gs[j];
    assert MovedPast(sorted[i], out[i], Column, Occupied(sorted, Column));
    assert MovedPast(o, rows[j], Row, oy);
    var back := Restored(gs, out);
    assert back[i].0 == out[i].0 + Lead(ox);
    assert back[i].1 == out[i].1 + Lead(oy);
    SamePoint(back[i], Expanded(gs, o));
  }

  /** A position of `x` in `s`. */
  lemma IndexOf<T>(x: T, s: seq<T>) returns (i: nat)
    requires x in multiset(s)
    ensures i < |s| && s[i] == x
  {
    assert x in s;
    i :| i < |s| && s[i] == x;
  }

  lemma SamePoint(g: Galaxy, h: Galaxy)
    requires g.0 == h.0 && g.1 == h.1
    ensures g == h
  {
  }

  /** The parsed galaxies with the two leading gaps put back. */
  function Restored(gs: seq<Galaxy>, out: seq<Galaxy>): (r: seq<Galaxy>)
    ensures Translated(out, r, Lead(Occupied(gs, Column)), Lead(Occupied(gs, Row)))
  {
    seq(|out|, i requires 0 <= i < |out| => (out[i].0 + Lead(Occupied(gs, Column)), out[i].1 + Lead(Occupied(gs, Row))))
  }

  /** The row pass and the sort keep the set of occupied columns. */
  lemma OccupiedColumnsKept(gs: seq<Galaxy>, rows: seq<Galaxy>, sorted: seq<Galaxy>)
    requires |rows| == |gs| && forall i :: 0 <= i < |gs| ==> rows[i].0 == gs[i].0
    requires multiset(sorted) == multiset(rows)
    ensures Occupied(sorted, Column) == Occupied(gs, Column)
  {
    forall u | u in Occupied(gs, Column) ensures u in Occupied(sorted, Column) {
      var g :| g in gs && g.0 == u;
      var j :| 0 <= j < |gs| && gs[j] == g;
      assert rows[j] in multiset(sorted);
      assert rows[j] in sorted && rows[j].0 == u;
    }
    forall u | u in Occupied(sorted, Column) ensures u in Occupied(gs, Column) {
      var g :| g in sorted && g.0 == u;
      assert g in multiset(rows);
      var j :| 0 <= j < |rows| && rows[j] == g;
      assert gs[j] in gs && gs[j].0 == u;
    }
  }

  /** Part one is the sum of the pairwise distances between the expanded
      galaxies, one for every `#` of the image. */
  lemma PartOneIsExpandedDistance(input: string)
    requires ParseObservation(input).Ok?
    ensures var gs := GalaxiesFrom(Lines(input), 0).value;
            var hs := Restored(gs, ParseObservation(input).value);
            PairDistances(ParseObservation(input).value) == PairDistances(hs)
            && |hs| == |gs|
            && (forall o :: o in gs <==> InImage(Lines(input), o))
            && forall h :: h in hs <==> exists o :: o in gs && h == Expanded(gs, o)
  {
    var gs := GalaxiesFrom(Lines(input), 0).value;
    var out := ParseObservation(input).value;
    ExpandImageExpands(gs);
    PairDistancesTranslated(out, Restored(gs, out), Lead(Occupied(gs, Column)), Lead(Occupied(gs, Row)));
  }
}

=== FILE: day12_hot_springs.dfy ===
/** Day 12: rows of springs, each operational (`.`), damaged (`#`) or
    unknown (`?`), with the lengths of the runs of damaged springs listed
    after the row.  Part one counts, per row, the ways of placing the runs.

    `combo_rec` places the next run at every offset from the first free cell,
    marking it in a scratch row `combo` that is otherwise operational, checks
    the scratch row against the known cells up to the cell after the run, and
    recurses past that cell.  Counts are memoised by (runs left, end of the
    run just placed). */
module Day12 {
  import opened Wrappers
  import opened Text
  import opened Seqs

  datatype Condition = Good | Bad | Unknown

  function Symbol(c: Condition): char {
    match c
    case Good => '.'
    case Bad => '#'
    case Unknown => '?'
  }

  /** `TryFrom<char>`: only the three symbols are conditions. */
  function TryFromChar(c: char): (r: Result<Condition>)
    ensures r.Ok? <==> c == '.' || c == '#' || c == '?'
    ensures r.Ok? ==> Symbol(r.value) == c
  {
    match c
    case '.' => Ok(Good)
    case '#' => Ok(Bad)
    case '?' => Ok(Unknown)
    case _ => Err
  }

  /** `row_string`. */
  function RowString(cs: seq<Condition>): string {
    seq(|cs|, i requires 0 <= i < |cs| => Symbol(cs[i]))
  }

  /** Parsing the printed row gives the row back, and a parsed string is
      printed as it was read. */
  lemma RowStringRoundTrip(cs: seq<Condition>, s: string)
    ensures MapAll(RowString(cs), TryFromChar) == Ok(cs)
    ensures MapAll(s, TryFromChar).Ok? ==> RowString(MapAll(s, TryFromChar).value) == s
  {
    var r := MapAll(RowString(cs), TryFromChar);
    assert forall i :: 0 <= i < |cs| ==> TryFromChar(Symbol(cs[i])) == Ok(cs[i]);
    assert r.value == cs;
  }

  /** `condition_match`: every known cell of `base` agrees with `test`.  The
      `assert_eq!` on the lengths is a demand on the caller. */
  function ConditionMatch(base: seq<Condition>, test: seq<Condition>): (r: bool)
    requires |base| == |test|
    ensures r <==> forall i :: 0 <= i < |base| ==> base[i] == Unknown || base[i] == test[i]
  {
    if |base| == 0 then true
    else if base[0] != Unknown && base[0] != test[0] then false
    else
      assert forall i :: 1 <= i < |base| ==> base[i] == base[1..][i - 1] && test[i] == test[1..][i - 1];
      ConditionMatch(base[1..], test[1..])
  }

  datatype RowCondition = RowCondition(conditions: seq<Condition>, sequences: seq<nat>)

  /** `RowCondition::from_str`: the row, one space, then comma-separated run
      lengths. */
  function ParseRow(s: string): (r: Result<RowCondition>)
    ensures r.Ok? <==> SplitOnce(s, ' ').Some?
                       && MapAll(SplitOnce(s, ' ').value.0, TryFromChar).Ok?
                       && ParseNats(Split(SplitOnce(s, ' ').value.1, ',')).Some?
    ensures r.Ok? ==> RowString(r.value.conditions) == SplitOnce(s, ' ').value.0
                      && r.value.sequences == ParseNats(Split(SplitOnce(s, ' ').value.1, ',')).value
  {
    var (row, runs) :- OkOr(SplitOnce(s, ' '));
    var conditions :- MapAll(row, TryFromChar);
    var sequences :- OkOr(ParseNats(Split(runs, ',')));
    RowStringRoundTrip([], row);
    Ok(RowCondition(conditions, sequences))
  }

  // ------------------------------------------------------------ placements

  /** No known-damaged cell in `conds[lo..hi]`. */
  predicate NoBad(conds: seq<Condition>, lo: nat, hi: nat)
    requires lo <= hi <= |conds|
  {
    forall k :: lo <= k < hi ==> conds[k] != Bad
  }

  /** A run of `s` damaged springs fits at `start`: it lies in the row, none
      of its cells is known operational, and the cell after it, if any, is not
      known damaged. */
  predicate RunFits(conds: seq<Condition>, start: nat, s: nat) {
    start + s <= |conds|
    && (forall k :: start <= k < start + s ==> conds[k] != Good)
    && (start + s < |conds| ==> conds[start + s] != Bad)
  }

  /** `space_needed`: the runs and one gap between each two. */
  function SpaceNeeded(runs: seq<nat>): int {
    Sum(runs) + |runs| - 1
  }

  /** `combo_rec` reaches its loop only when `space_remaining -
      space_needed` does not underflow. */
  predicate Feasible(conds: seq<Condition>, filled: nat, runs: seq<nat>) {
    |runs| == 0 || filled >= |conds| || SpaceNeeded(runs) <= |conds| - filled
  }

  /** The last offset the loop tries. */
  function LastOffset(conds: seq<Condition>, filled: nat, runs: seq<nat>): (r: nat)
    requires |runs| > 0 && filled < |conds| && Feasible(conds, filled, runs)
    ensures filled + r + runs[0] <= |conds|
  {
    SumFront(runs, 0);
    assert runs[0..] == runs;
    SumNonNegative(runs[1..]);
    |conds| - filled - SpaceNeeded(runs)
  }

  /** The count `combo_rec` returns, without the memo: at the end of the row
      or of the runs, 1 when nothing after `filled` is known damaged;
      otherwise the sum over every offset of the loop. */
  function ComboCount(conds: seq<Condition>, filled: nat, runs: seq<nat>): nat
    requires Feasible(conds, filled, runs)
    decreases |runs|, 1, 0
  {
    if |runs| == 0 || filled >= |conds| then
      (if NoBad(conds, if filled < |conds| then filled else |conds|, |conds|) then 1 else 0)
    else
      OffsetsSum(conds, filled, runs, LastOffset(conds, filled, runs) + 1)
  }

  /** The loop's `count` after its first `n` offsets. */
  function OffsetsSum(conds: seq<Condition>, filled: nat, runs: seq<nat>, n: nat): nat
    requires |runs| > 0 && filled < |conds| && Feasible(conds, filled, runs)
    requires n <= LastOffset(conds, filled, runs) + 1
    decreases |runs|, 0, n
  {
    if n == 0 then 0
    else OffsetsSum(conds, filled, runs, n - 1) + Placement(conds, filled, runs, n - 1)
  }

  /** The placements past offset `i`: the cells skipped must not be known
      damaged and the run must fit; the recursion starts after the cell that
      follows the run. */
  function Placement(conds: seq<Condition>, filled: nat, runs: seq<nat>, i: nat): nat
    requires |runs| > 0 && filled < |conds| && Feasible(conds, filled, runs)
    requires i <= LastOffset(conds, filled, runs)
    decreases |runs|, 0, 0
  {
    var s := runs[0];
    var next := filled + i + s + 1;
    if NoBad(conds, filled, filled + i) && RunFits(conds, filled + i, s) then
      RestFeasible(conds, filled, runs, i);
      ComboCount(conds, next, runs[1..])
    else 0
  }

  /** The recursive call never underflows. */
  lemma RestFeasible(conds: seq<Condition>, filled: nat, runs: seq<nat>, i: nat)
    requires |runs| > 0 && filled < |conds| && Feasible(conds, filled, runs)
    requires i <= LastOffset(conds, filled, runs)
    ensures Feasible(conds, filled + i + runs[0] + 1, runs[1..])
    ensures |runs| > 1 && Positive(runs) ==> filled + i + runs[0] + 1 < |conds|
  {
    SumFront(runs, 0);
    assert runs[0..] == runs;
    if |runs| > 1 && Positive(runs) {
      RunsNeedRoom(runs[1..]);
    }
  }

  predicate Positive(runs: seq<nat>) {
    forall k :: 0 <= k < |runs| ==> runs[k] > 0
  }

  lemma {:induction false} RunsNeedRoom(runs: seq<nat>)
    requires Positive(runs)
    ensures Sum(runs) >= |runs|
    decreases |runs|
  {
    if |runs| > 0 {
      var init := runs[..|runs| - 1];
      assert Positive(init) by {
        assert forall k :: 0 <= k < |init| ==> init[k] == runs[k];
      }
      RunsNeedRoom(init);
    }
  }

  // ------------------------------------------------------------ reference

  /** The arrangements of `runs` over `conds[i..]`, deciding one cell at a
      time: the cell is operational, or the next run starts at it. */
  function Arrangements(conds: seq<Condition>, i: nat, runs: seq<nat>): nat
    decreases |conds| - i
  {
    if i >= |conds| then (if |runs| == 0 then 1 else 0)
    else
      (if conds[i] != Bad then Arrangements(conds, i + 1, runs) else 0)
      + (if |runs| > 0 && RunFits(conds, i, runs[0]) then Arrangements(conds, i + runs[0] + 1, runs[1..]) else 0)
  }

  /** With no runs left there is one arrangement, exactly when no known
      damaged cell remains. */
  lemma {:induction false} ArrangementsNoRuns(conds: seq<Condition>, i: nat)
    ensures Arrangements(conds, i, []) == if NoBad(conds, if i < |conds| then i else |conds|, |conds|) then 1 else 0
    decreases |conds| - i
  {
    if i < |conds| {
      ArrangementsNoRuns(conds, i + 1);
    }
  }

  /** Runs that cannot fit in what is left of the row have no arrangement. */
  lemma {:induction false} ArrangementsTooShort(conds: seq<Condition>, i: nat, runs: seq<nat>)
    requires |runs| > 0 && Positive(runs)
    requires |conds| - i < SpaceNeeded(runs)
    ensures Arrangements(conds, i, runs) == 0
    decreases |conds| - i
  {
    if i < |conds| {
      ArrangementsTooShort(conds, i + 1, runs);
      SumFront(runs, 0);
      assert runs[0..] == runs;
      if |runs| > 1 && RunFits(conds, i, runs[0]) {
        assert Positive(runs[1..]) by {
          assert forall k :: 0 <= k < |runs| - 1 ==> runs[1..][k] == runs[k + 1];
        }
        ArrangementsTooShort(conds, i + runs[0] + 1, runs[1..]);
      }
    }
  }

  /** The loop's offsets written with the reference count. */
  function ReferenceSum(conds: seq<Condition>, filled: nat, runs: seq<nat>, n: nat): nat
    requires |runs| > 0 && filled + n <= |conds|
  {
    if n == 0 then 0
    else ReferenceSum(conds, filled, runs, n - 1) + ReferenceAt(conds, filled, runs, n - 1)
  }

  /** `Placement` with the reference count after the run. */
  function ReferenceAt(conds: seq<Condition>, filled: nat, runs: seq<nat>, i: nat): nat
    requires |runs| > 0 && filled + i < |conds|
  {
    if NoBad(conds, filled, filled + i) && RunFits(conds, filled + i, runs[0])
    then Arrangements(conds, filled + i + runs[0] + 1, runs[1..]) else 0
  }

  /** The reference at one cell of the row. */
  lemma ArrangementsStep(conds: seq<Condition>, p: nat, p': nat, runs: seq<nat>)
    requires |runs| > 0 && Positive(runs) && p < |conds| && p' == p + 1
    ensures Arrangements(conds, p, runs)
            == (if conds[p] != Bad then Arrangements(conds, p', runs) else 0)
               + (if RunFits(conds, p, runs[0]) then Arrangements(conds, p + runs[0] + 1, runs[1..]) else 0)
  {
  }

  /** Unfolding the reference `n` cells: every placement at an earlier offset,
      plus the arrangements from `filled + n` when the skipped cells may all
      be operational. */
  lemma {:induction false} ArrangementsUnfold(conds: seq<Condition>, filled: nat, runs: seq<nat>, n: nat)
    requires |runs| > 0 && Positive(runs) && filled + n <= |conds|
    ensures Arrangements(conds, filled, runs)
            == ReferenceSum(conds, filled, runs, n)
               + (if NoBad(conds, filled, filled + n) then Arrangements(conds, filled + n, runs) else 0)
  {
    if n > 0 {
      var i := n - 1;
      ArrangementsUnfold(conds, filled, runs, i);
      var p := filled + i;
      ArrangementsStep(conds, p, filled + n, runs);
      assert NoBad(conds, filled, filled + n) <==> NoBad(conds, filled, p) && conds[p] != Bad;
    }
  }

  /** Offset by offset, the loop agrees with the reference. */
  lemma {:induction false} OffsetsSumIsReference(conds: seq<Condition>, filled: nat, runs: seq<nat>, n: nat)
    requires |runs| > 0 && Positive(runs) && filled < |conds| && Feasible(conds, filled, runs)
    requires n <= LastOffset(conds, filled, runs) + 1
    ensures filled + n <= |conds|
    ensures OffsetsSum(conds, filled, runs, n) == ReferenceSum(conds, filled, runs, n)
    decreases |runs|, 0, n
  {
    RunsNeedRoom(runs);
    if n > 0 {
      OffsetsSumIsReference(conds, filled, runs, n - 1);
      var i := n - 1;
      if NoBad(conds, filled, filled + i) && RunFits(conds, filled + i, runs[0]) {
        RestFeasible(conds, filled, runs, i);
        assert Positive(runs[1..]) by {
          assert forall k :: 0 <= k < |runs| - 1 ==> runs[1..][k] == runs[k + 1];
        }
        ComboCountIsArrangements(conds, filled + i + runs[0] + 1, runs[1..]);
      }
    }
  }

  /** For positive runs, the count `combo_rec` computes is the number of
      arrangements, provided the row has not already run out while runs
      remain. */
  lemma {:induction false} ComboCountIsArrangements(conds: seq<Condition>, filled: nat, runs: seq<nat>)
    requires Positive(runs) && Feasible(conds, filled, runs)
    requires filled < |conds| || |runs| == 0
    ensures ComboCount(conds, filled, runs) == Arrangements(conds, filled, runs)
    decreases |runs|, 1, 0
  {
    if |runs| == 0 {
      ArrangementsNoRuns(conds, filled);
    } else {
      var n := LastOffset(conds, filled, runs) + 1;
      OffsetsSumIsReference(conds, filled, runs, n);
      ArrangementsUnfold(conds, filled, runs, n);
      ArrangementsTooShort(conds, filled + n, runs);
    }
  }

  // ------------------------------------------------------------ the search

  /** `slice::fill` on `lo .. hi`. */
  function Fill(combo: seq<Condition>, lo: nat, hi: nat, c: Condition): (r: seq<Condition>)
    requires lo <= hi <= |combo|
    ensures |r| == |combo|
  {
    seq(|combo|, k requires 0 <= k < |combo| => if lo <= k < hi then c else combo[k])
  }

  predicate GoodFrom(combo: seq<Condition>, filled: nat) {
    forall k :: filled <= k < |combo| ==> combo[k] == Good
  }

  /** The `n` last runs of the row. */
  function Suffix(all: seq<nat>, n: nat): seq<nat>
    requires n <= |all|
  {
    all[|all| - n..]
  }

  /** Every memo entry `(runs left, end)` holds the count from the cell
      after `end` with that many runs left. */
  predicate CacheSound(conds: seq<Condition>, all: seq<nat>, cache: map<(nat, nat), nat>) {
    forall key :: key in cache ==>
      key.0 <= |all| && Feasible(conds, key.1 + 1, Suffix(all, key.0))
      && cache[key] == ComboCount(conds, key.1 + 1, Suffix(all, key.0))
  }

  /** The scratch row around offset `i` is operational except for the run,
      so `condition_match` on the checked range is the placement test. */
  lemma MatchIsPlacement(conds: seq<Condition>, combo: seq<Condition>, filled: nat, i: nat, s: nat)
    requires |combo| == |conds| && GoodFrom(combo, filled) && filled + i + s <= |conds|
    ensures var stop := if |conds| < filled + i + s + 1 then |conds| else filled + i + s + 1;
            var marked := Fill(combo, filled + i, filled + i + s, Bad);
            ConditionMatch(conds[filled..stop], marked[filled..stop])
            <==> NoBad(conds, filled, filled + i) && RunFits(conds, filled + i, s)
  {
    var stop := if |conds| < filled + i + s + 1 then |conds| else filled + i + s + 1;
    var marked := Fill(combo, filled + i, filled + i + s, Bad);
    var b, t := conds[filled..stop], marked[filled..stop];
    assert forall k :: 0 <= k < |b| ==> b[k] == conds[filled + k] && t[k] == marked[filled + k];
    if NoBad(conds, filled, filled + i) && RunFits(conds, filled + i, s) {
      forall k | 0 <= k < |b| ensures b[k] == Unknown || b[k] == t[k] {
        if k < i {
          assert b[k] != Bad && t[k] == Good;
        } else if k < i + s {
          assert b[k] != Good && t[k] == Bad;
        } else {
          assert b[k] != Bad && t[k] == Good;
        }
      }
    }
    if ConditionMatch(b, t) {
      forall k | filled <= k < filled + i ensures conds[k] != Bad {
        assert t[k - filled] == Good;
      }
      forall k | filled + i <= k < filled + i + s ensures conds[k] != Good {
        assert t[k - filled] == Bad;
      }
      if filled + i + s < |conds| {
        assert t[i + s] == Good;
      }
    }
  }

  /** `combo_rec`.  The scratch row comes back as it went in, and the memo
      stays sound. */
  method ComboRec(conds: seq<Condition>, all: seq<nat>, cache: map<(nat, nat), nat>,
                  combo: seq<Condition>, filled: nat, runs: seq<nat>)
    returns (count: nat, cache': map<(nat, nat), nat>, combo': seq<Condition>)
    requires |combo| == |conds| && GoodFrom(combo, filled)
    requires |runs| <= |all| && runs == Suffix(all, |runs|)
    requires Feasible(conds, filled, runs) && CacheSound(conds, all, cache)
    ensures count == ComboCount(conds, filled, runs)
    ensures combo' == combo
    ensures CacheSound(conds, all, cache')
    decreases |runs|, 1
  {
    cache', combo' := cache, combo;
    if |runs| == 0 || filled >= |combo| {
      var from := if filled < |combo| then filled else |combo|;
      var m := ConditionMatch(conds[from..], combo[from..]);
      assert m <==> NoBad(conds, from, |conds|) by {
        assert forall k :: from <= k < |conds| ==> conds[from..][k - from] == conds[k] && combo[from..][k - from] == Good;
      }
      count := if m then 1 else 0;
      return;
    }
    count := 0;
    var spaceRemaining := |combo| - filled;
    var spaceNeeded := Sum(runs) + |runs| - 1;
    var i := 0;
    while i <= spaceRemaining - spaceNeeded
      invariant 0 <= i <= LastOffset(conds, filled, runs) + 1
      invariant combo' == combo && CacheSound(conds, all, cache')
      invariant count == OffsetsSum(conds, filled, runs, i)
    {
      var c;
      c, cache', combo' := TryOffset(conds, all, cache', combo', filled, runs, i);
      count := count + c;
      i := i + 1;
    }
  }

  /** One turn of the loop: mark the run at offset `i` in the scratch row,
      test it, take the count from the memo or from the recursion (and
      remember it), then mark the run operational again. */
  method TryOffset(conds: seq<Condition>, all: seq<nat>, cache: map<(nat, nat), nat>,
                   combo: seq<Condition>, filled: nat, runs: seq<nat>, i: nat)
    returns (c: nat, cache': map<(nat, nat), nat>, combo': seq<Condition>)
    requires |combo| == |conds| && GoodFrom(combo, filled)
    requires 0 < |runs| <= |all| && runs == Suffix(all, |runs|)
    requires filled < |conds| && Feasible(conds, filled, runs) && CacheSound(conds, all, cache)
    requires i <= LastOffset(conds, filled, runs)
    ensures c == Placement(conds, filled, runs, i)
    ensures combo' == combo && CacheSound(conds, all, cache')
    decreases |runs|, 0
  {
    cache' := cache;
    var s, rest := runs[0], runs[1..];
    var start, end := filled + i, filled + i + s;
    var stop := if |combo| < end + 1 then |combo| else end + 1;
    combo' := Fill(combo, start, end, Bad);
    var marked := combo';
    OffsetOutcome(conds, combo, filled, runs, i, end, stop, marked);
    c := 0;
    if ConditionMatch(conds[filled..stop], combo'[filled..stop]) {
      assert rest == Suffix(all, |rest|);
      MarkedGoodAfter(combo, filled, start, end);
      c, cache', combo' := CountAfterRun(conds, all, cache', combo', end, rest);
    }
    assert combo' == marked;
    combo' := Fill(combo', start, end, Good);
    FillRestores(combo, filled, start, end);
  }

  /** The completions after a run ending at `end`: from the memo when it
      holds them, otherwise counted and recorded. */
  method CountAfterRun(conds: seq<Condition>, all: seq<nat>, cache: map<(nat, nat), nat>,
                       marked: seq<Condition>, end: nat, rest: seq<nat>)
    returns (c: nat, cache': map<(nat, nat), nat>, combo': seq<Condition>)
    requires |marked| == |conds| && GoodFrom(marked, end + 1)
    requires |rest| <= |all| && rest == Suffix(all, |rest|)
    requires Feasible(conds, end + 1, rest) && CacheSound(conds, all, cache)
    ensures c == ComboCount(conds, end + 1, rest)
    ensures combo' == marked && CacheSound(conds, all, cache')
    decreases |rest|, 2
  {
    var key := (|rest|, end);
    if key in cache {
      c, cache', combo' := cache[key], cache, marked;
    } else {
      c, cache', combo' := ComboRec(conds, all, cache, marked, end + 1, rest);
      CacheInsert(conds, all, cache', key, c);
      cache' := cache'[key := c];
    }
  }

  /** With the run marked at offset `i`, `condition_match` on the checked
      range decides the placement: a match counts the completions after
      the run, a mismatch counts nothing. */
  lemma OffsetOutcome(conds: seq<Condition>, combo: seq<Condition>, filled: nat, runs: seq<nat>, i: nat,
                      end: nat, stop: nat, marked: seq<Condition>)
    requires |combo| == |conds| && GoodFrom(combo, filled)
    requires |runs| > 0 && filled < |conds| && Feasible(conds, filled, runs)
    requires i <= LastOffset(conds, filled, runs)
    requires end == filled + i + runs[0] && stop == (if |combo| < end + 1 then |combo| else end + 1)
    requires marked == Fill(combo, filled + i, end, Bad)
    ensures ConditionMatch(conds[filled..stop], marked[filled..stop]) ==>
              Feasible(conds, end + 1, runs[1..]) && Placement(conds, filled, runs, i) == ComboCount(conds, end + 1, runs[1..])
    ensures !ConditionMatch(conds[filled..stop], marked[filled..stop]) ==> Placement(conds, filled, runs, i) == 0
  {
    RestFeasible(conds, filled, runs, i);
    MatchIsPlacement(conds, combo, filled, i, runs[0]);
  }

  /** Recording a count that is right keeps the memo sound. */
  lemma CacheInsert(conds: seq<Condition>, all: seq<nat>, cache: map<(nat, nat), nat>, key: (nat, nat), c: nat)
    requires CacheSound(conds, all, cache)
    requires key.0 <= |all| && Feasible(conds, key.1 + 1, Suffix(all, key.0))
    requires c == ComboCount(conds, key.1 + 1, Suffix(all, key.0))
    ensures CacheSound(conds, all, cache[key := c])
  {
    var cache' := cache[key := c];
    forall k: (nat, nat) | k in cache'
      ensures k.0 <= |all| && Feasible(conds, k.1 + 1, Suffix(all, k.0))
              && cache'[k] == ComboCount(conds, k.1 + 1, Suffix(all, k.0))
    {
      if k != key {
        assert k in cache && cache'[k] == cache[k];
      }
    }
  }

  /** Past the marked run the scratch row is still operational. */
  lemma MarkedGoodAfter(combo: seq<Condition>, filled: nat, lo: nat, hi: nat)
    requires filled <= lo <= hi <= |combo| && GoodFrom(combo, filled)
    ensures GoodFrom(Fill(combo, lo, hi, Bad), hi + 1)
  {
  }

  /** Unmarking the run gives the scratch row back. */
  lemma FillRestores(combo: seq<Condition>, filled: nat, lo: nat, hi: nat)
    requires filled <= lo <= hi <= |combo| && GoodFrom(combo, filled)
    ensures Fill(Fill(combo, lo, hi, Bad), lo, hi, Good) == combo
  {
  }

  /** `possible_combinations`: an all-operational scratch row and an empty
      memo.  A row whose runs need more room than it has makes the
      subtraction in `combo_rec` underflow. */
  method PossibleCombinations(row: RowCondition) returns (r: Result<nat>)
    ensures r.Ok? <==> Feasible(row.conditions, 0, row.sequences)
    ensures r.Ok? ==> r.value == ComboCount(row.conditions, 0, row.sequences)
  {
    if !Feasible(row.conditions, 0, row.sequences) {
      return Err;
    }
    var combo := seq(|row.conditions|, _ => Good);
    assert row.sequences == Suffix(row.sequences, |row.sequences|);
    var count, _, _ := ComboRec(row.conditions, row.sequences, map[], combo, 0, row.sequences);
    return Ok(count);
  }

  /** What `possible_combinations` counts, for rows of positive runs with at
      least one cell (see `EmptyRowAsWritten` for the row without cells). */
  lemma CombinationsAreArrangements(row: RowCondition)
    requires Feasible(row.conditions, 0, row.sequences)
    ensures Positive(row.sequences) && (|row.conditions| > 0 || |row.sequences| == 0)
            ==> ComboCount(row.conditions, 0, row.sequences) == Arrangements(row.conditions, 0, row.sequences)
  {
    if Positive(row.sequences) && (|row.conditions| > 0 || |row.sequences| == 0) {
      ComboCountIsArrangements(row.conditions, 0, row.sequences);
    }
  }

  /** A row without cells takes the base case at once and counts one
      arrangement, whatever the runs. */
  lemma EmptyRowAsWritten()
    ensures ComboCount([], 0, [1]) == 1
    ensures Arrangements([], 0, [1]) == 0
  {
  }

  /** The count as intended: the empty row gives no arrangement when runs
      remain. */
  function Combinations(row: RowCondition): (r: nat)
    requires Feasible(row.conditions, 0, row.sequences)
    ensures Positive(row.sequences) ==> r == Arrangements(row.conditions, 0, row.sequences)
  {
    if |row.conditions| == 0 && |row.sequences| > 0 then 0
    else
      CombinationsAreArrangements(row);
      ComboCount(row.conditions, 0, row.sequences)
  }

  /** One line of part one: the `unwrap` of the parse, then the count of
      `possible_combinations`.  It is the number of arrangements unless the
      row has no cells, which counts one whatever the runs. */
  function LineCount(line: string): (r: Result<nat>)
    ensures r.Ok? <==> ParseRow(line).Ok? && Feasible(ParseRow(line).value.conditions, 0, ParseRow(line).value.sequences)
    ensures r.Ok? ==> var row := ParseRow(line).value;
                      Positive(row.sequences) && (|row.conditions| > 0 || |row.sequences| == 0)
                      ==> r.value == Arrangements(row.conditions, 0, row.sequences)
    ensures r.Ok? && |ParseRow(line).value.conditions| == 0 ==> r.value == 1
  {
    var row :- ParseRow(line);
    if !Feasible(row.conditions, 0, row.sequences) then Err
    else
      CombinationsAreArrangements(row);
      Ok(ComboCount(row.conditions, 0, row.sequences))
  }

  /** The count of every line, all or nothing. */
  function LineCounts(lines: seq<string>): (r: Result<seq<nat>>)
    ensures r.Ok? <==> forall j :: 0 <= j < |lines| ==> LineCount(lines[j]).Ok?
    ensures r.Ok? ==> |r.value| == |lines| && forall j :: 0 <= j < |lines| ==> LineCount(lines[j]) == Ok(r.value[j])
  {
    MapAll(lines, LineCount)
  }

  /** `part_one`: the sum of the counts over all lines; any line that fails
      makes it fail. */
  function PartOne(input: string): (r: Result<int>)
    ensures r.Ok? <==> LineCounts(Lines(input)).Ok?
    ensures r.Ok? ==> r.value == Sum(LineCounts(Lines(input)).value)
  {
    var counts :- LineCounts(Lines(input));
    Ok(Sum(counts))
  }
}

=== FILE: day13_point_of_incidence.dfy ===
/** Day 13: patterns of ash and rock separated by blank lines.  Each
    pattern has a line of reflection between two rows or two columns; part
    one scores the first one whose mirrored pairs agree exactly, part two
    the first one whose mirrored pairs differ in exactly one place (the
    smudge).

    `rows_mirror(p, m, t)` compares row `m - k` with row `m + 1 + k` for
    every `k` up to the nearer edge, counting mismatched characters over the
    zipped pair (so only up to the shorter row) and giving up as soon as the
    count passes `t`; the line is accepted when the count is exactly `t`.
    `cols_mirror` does the same on columns, and can panic on a ragged
    pattern when a column it asks for is missing from a short row. */
module Day13 {
  import opened Wrappers
  import opened Text
  import opened Seqs

  /** `Pattern`: the lines of one section. */
  type Pattern = seq<string>

  function NewPattern(section: string): (p: Pattern)
    ensures |p| == 0 <==> |section| == 0
    ensures forall i :: 0 <= i < |p| ==> '\n' !in p[i]
  {
    Lines(section)
  }

  function Rows(p: Pattern): nat {
    |p|
  }

  /** `columns`: the width of the first row, or 0 for an empty pattern. */
  function Columns(p: Pattern): (n: nat)
    ensures |p| == 0 ==> n == 0
    ensures |p| > 0 ==> n == |p[0]|
  {
    if |p| == 0 then 0 else |p[0]|
  }

  function GetRow(p: Pattern, i: nat): (r: Option<string>)
    ensures r.None? <==> i >= Rows(p)
    ensures r.Some? ==> r.value == p[i]
  {
    if i < |p| then Some(p[i]) else None
  }

  /** Every row is long enough to have character `c`. */
  predicate HasColumn(p: Pattern, c: nat) {
    forall j :: 0 <= j < |p| ==> c < |p[j]|
  }

  /** `get_column`: character `c` of every row, collected into an
      `Option<String>` that is `None` as soon as one row is too short. */
  function GetColumn(p: Pattern, c: nat): (r: Option<string>)
    ensures r.Some? <==> HasColumn(p, c)
    ensures r.Some? ==> |r.value| == |p| && forall j :: 0 <= j < |p| ==> r.value[j] == p[j][c]
  {
    if HasColumn(p, c) then Some(seq(|p|, j requires 0 <= j < |p| => p[j][c])) else None
  }

  function Column(p: Pattern, c: nat): (col: string)
    requires HasColumn(p, c)
    ensures |col| == |p|
  {
    GetColumn(p, c).value
  }

  /** The length of the shortest row. */
  function Shortest(p: Pattern): (s: nat)
    requires |p| > 0
    ensures s <= |p[0]|
  {
    if |p| == 1 then |p[0]|
    else
      var rest := Shortest(p[1..]);
      if |p[0]| <= rest then |p[0]| else rest
  }

  /** Some row is exactly as short as `Shortest`, and none is shorter. */
  lemma {:induction false} ShortestIsMinimum(p: Pattern)
    requires |p| > 0
    ensures forall j :: 0 <= j < |p| ==> Shortest(p) <= |p[j]|
    ensures exists j :: 0 <= j < |p| && Shortest(p) == |p[j]|
  {
    if |p| > 1 {
      ShortestIsMinimum(p[1..]);
      assert forall j :: 1 <= j < |p| ==> p[1..][j - 1] == p[j];
      if |p[0]| > Shortest(p[1..]) {
        var j :| 0 <= j < |p[1..]| && Shortest(p[1..]) == |p[1..][j]|;
        assert Shortest(p) == |p[j + 1]|;
      }
    }
  }

  /** A column exists exactly below the shortest row's length. */
  lemma {:induction false} HasColumnBelowShortest(p: Pattern, c: nat)
    requires |p| > 0
    ensures HasColumn(p, c) <==> c < Shortest(p)
  {
    ShortestIsMinimum(p);
  }

  // ------------------------------------------------------ counting mismatches

  /** Mismatched positions among the first `n` of two strings. */
  function MismatchCount(a: string, b: string, n: nat): nat
    requires n <= |a| && n <= |b|
  {
    if n == 0 then 0 else MismatchCount(a, b, n - 1) + (if a[n - 1] != b[n - 1] then 1 else 0)
  }

  function MinLen(a: string, b: string): nat {
    if |a| <= |b| then |a| else |b|
  }

  /** Mismatches over `a.chars().zip(b.chars())`. */
  function Mismatches(a: string, b: string): nat {
    MismatchCount(a, b, MinLen(a, b))
  }

  /** The zipped pair agrees everywhere. */
  predicate Agree(a: string, b: string) {
    forall i :: 0 <= i < MinLen(a, b) ==> a[i] == b[i]
  }

  lemma {:induction false} MismatchCountZero(a: string, b: string, n: nat)
    requires n <= |a| && n <= |b|
    ensures MismatchCount(a, b, n) == 0 <==> forall i :: 0 <= i < n ==> a[i] == b[i]
  {
    if n > 0 {
      MismatchCountZero(a, b, n - 1);
    }
  }

  lemma {:induction false} MismatchCountGrows(a: string, b: string, n: nat, n': nat)
    requires n <= n' <= |a| && n' <= |b|
    ensures MismatchCount(a, b, n) <= MismatchCount(a, b, n')
    decreases n' - n
  {
    if n < n' {
      MismatchCountGrows(a, b, n, n' - 1);
    }
  }

  /** No mismatches exactly when the zipped pair agrees; for strings of one
      length that is equality. */
  lemma {:induction false} MismatchesZero(a: string, b: string)
    ensures Mismatches(a, b) == 0 <==> Agree(a, b)
    ensures |a| == |b| ==> (Agree(a, b) <==> a == b)
  {
    MismatchCountZero(a, b, MinLen(a, b));
  }

  /** The inner `zip` loop: adds the pair's mismatches to `diff`, stopping
      early once the running count passes `target`. */
  method CountPair(a: string, b: string, diff: nat, target: nat) returns (diff': nat, over: bool)
    requires diff <= target
    ensures over <==> diff + Mismatches(a, b) > target
    ensures !over ==> diff' == diff + Mismatches(a, b)
  {
    var n := MinLen(a, b);
    diff' := diff;
    var k := 0;
    while k < n
      invariant k <= n
      invariant diff' == diff + MismatchCount(a, b, k) <= target
    {
      if a[k] != b[k] {
        diff' := diff' + 1;
        if diff' > target {
          MismatchCountGrows(a, b, k + 1, n);
          return diff', true;
        }
      }
      k := k + 1;
    }
    return diff', false;
  }

  // --------------------------------------------------------------- rows

  /** `mirror.min(rows - mirror - 2)`: the last pair index before an edge. */
  function Reach(size: nat, m: nat): (k: nat)
    requires m + 2 <= size
    ensures k <= m && m + 1 + k < size
    ensures k == m || m + 2 + k == size
  {
    if m <= size - m - 2 then m else size - m - 2
  }

  /** Mismatches over the first `n` mirrored row pairs around the line
      after row `m`. */
  function RowsTotal(p: Pattern, m: nat, n: nat): nat
    requires n <= m + 1 && (n == 0 || m + n < |p|)
  {
    if n == 0 then 0 else RowsTotal(p, m, n - 1) + Mismatches(p[m - (n - 1)], p[m + n])
  }

  lemma {:induction false} RowsTotalGrows(p: Pattern, m: nat, n: nat, n': nat)
    requires n <= n' <= m + 1 && (n' == 0 || m + n' < |p|)
    ensures RowsTotal(p, m, n) <= RowsTotal(p, m, n')
    decreases n' - n
  {
    if n < n' {
      RowsTotalGrows(p, m, n, n' - 1);
    }
  }

  lemma RowsTotalStep(p: Pattern, m: nat, i: nat)
    requires i <= m && m + i + 1 < |p|
    ensures RowsTotal(p, m, i + 1) == RowsTotal(p, m, i) + Mismatches(p[m - i], p[m + i + 1])
  {
  }

  /** Once the running total passes a budget it stays past it. */
  lemma RowsTotalExceeds(p: Pattern, m: nat, t: nat, n: nat, n': nat)
    requires n <= n' <= m + 1 && (n' == 0 || m + n' < |p|)
    requires RowsTotal(p, m, n) > t
    ensures RowsTotal(p, m, n') > t
  {
    RowsTotalGrows(p, m, n, n');
  }

  /** The line after row `m` reflects with exactly `t` smudges. */
  predicate RowReflects(p: Pattern, m: nat, t: nat)
    requires m + 2 <= |p|
  {
    RowsTotal(p, m, Reach(|p|, m) + 1) == t
  }

  /** `rows_mirror`. */
  method RowsMirror(p: Pattern, m: nat, t: nat) returns (r: bool)
    requires m + 2 <= |p|
    ensures r <==> RowReflects(p, m, t)
  {
    var last := Reach(|p|, m);
    var diff := 0;
    var i := 0;
    while i <= last
      invariant i <= last + 1
      invariant diff == RowsTotal(p, m, i) <= t
    {
      var over;
      diff, over := CountPair(p[m - i], p[m + i + 1], diff, t);
      if over {
        RowsTotalExceeds(p, m, t, i + 1, last + 1);
        return false;
      }
      i := i + 1;
    }
    return diff == t;
  }

  /** Row pair `k` around the line after row `m` agrees. */
  predicate PairAgrees(p: Pattern, m: nat, k: nat)
    requires k <= m && m + 1 + k < |p|
  {
    Agree(p[m - k], p[m + 1 + k])
  }

  lemma {:induction false} RowsTotalZero(p: Pattern, m: nat, n: nat)
    requires n <= m + 1 && m + n < |p|
    ensures RowsTotal(p, m, n) == 0 <==> forall k {:trigger PairAgrees(p, m, k)} :: 0 <= k < n ==> PairAgrees(p, m, k)
  {
    if n > 0 {
      RowsTotalZero(p, m, n - 1);
      MismatchesZero(p[m - (n - 1)], p[m + n]);
      assert PairAgrees(p, m, n - 1) <==> Mismatches(p[m - (n - 1)], p[m + n]) == 0;
    }
  }

  /** With no smudges allowed, a line reflects exactly when every mirrored
      pair up to the nearer edge agrees. */
  lemma {:induction false} ExactReflection(p: Pattern, m: nat)
    requires m + 2 <= |p|
    ensures RowReflects(p, m, 0) <==>
            forall k {:trigger PairAgrees(p, m, k)} :: 0 <= k <= Reach(|p|, m) ==> PairAgrees(p, m, k)
  {
    RowsTotalZero(p, m, Reach(|p|, m) + 1);
  }

  // --------------------------------------------------------------- columns

  /** Columns `c` up to `w` of the pattern, as rows. */
  function ColumnsFrom(p: Pattern, c: nat, w: nat): (q: Pattern)
    requires |p| > 0 && c <= w <= Shortest(p)
    ensures |q| == w - c
    decreases w - c
  {
    if c == w then []
    else
      HasColumnBelowShortest(p, c);
      [Column(p, c)] + ColumnsFrom(p, c + 1, w)
  }

  /** Every column that `get_column` can produce, in order: one per
      character of the shortest row. */
  function ColumnView(p: Pattern): (q: Pattern)
    requires |p| > 0
    ensures |q| == Shortest(p)
  {
    ColumnsFrom(p, 0, Shortest(p))
  }

  lemma {:induction false} ColumnsFromAt(p: Pattern, c: nat, w: nat, k: nat)
    requires |p| > 0 && c <= w <= Shortest(p) && c + k < w
    ensures HasColumn(p, c + k) && ColumnsFrom(p, c, w)[k] == Column(p, c + k)
    decreases k
  {
    HasColumnBelowShortest(p, c + k);
    if k > 0 {
      ColumnsFromAt(p, c + 1, w, k - 1);
    }
  }

  /** Entry `c` of the view is `get_column(c)`. */
  lemma {:induction false} ColumnViewAt(p: Pattern, c: nat)
    requires |p| > 0 && c < Shortest(p)
    ensures HasColumn(p, c) && ColumnView(p)[c] == Column(p, c)
  {
    ColumnsFromAt(p, 0, Shortest(p), c);
  }

  /** How many column pairs exist before a short row runs out. */
  function Available(p: Pattern, m: nat): (a: nat)
    requires |p| > 0
    ensures a == 0 || m + a < |ColumnView(p)|
  {
    if Shortest(p) > m + 1 then Shortest(p) - m - 1 else 0
  }

  /** What `cols_mirror` returns, or `Err` for its `unwrap` panic: the pairs
      are compared in order and the check gives up once the mismatches pass
      `t`, so a missing column only panics if it is reached first. */
  function ColsOutcome(p: Pattern, m: nat, t: nat): Result<bool>
    requires |p| > 0 && m + 2 <= |p[0]|
  {
    var q := ColumnView(p);
    var n := Reach(|p[0]|, m) + 1;
    var a := Available(p, m);
    if a >= n then Ok(RowsTotal(q, m, n) == t)
    else if RowsTotal(q, m, a) <= t then Err
    else Ok(false)
  }

  /** With every pair's columns present, the answer is the total. */
  lemma {:induction false} ColsComplete(p: Pattern, m: nat, t: nat)
    requires |p| > 0 && m + 2 <= |p[0]|
    requires Available(p, m) >= Reach(|p[0]|, m) + 1
    ensures ColsOutcome(p, m, t) == Ok(RowsTotal(ColumnView(p), m, Reach(|p[0]|, m) + 1) == t)
  {
  }

  /** With a column missing, the answer depends on the pairs before it. */
  lemma {:induction false} ColsIncomplete(p: Pattern, m: nat, t: nat)
    requires |p| > 0 && m + 2 <= |p[0]|
    requires Available(p, m) < Reach(|p[0]|, m) + 1
    ensures ColsOutcome(p, m, t) == if RowsTotal(ColumnView(p), m, Available(p, m)) <= t then Err else Ok(false)
  {
  }

  /** A column of pair `i` is missing with the budget not yet passed. */
  lemma {:induction false} ColsMissing(p: Pattern, m: nat, t: nat, i: nat)
    requires |p| > 0 && m + 2 <= |p[0]|
    requires i <= Reach(|p[0]|, m) && i == Available(p, m)
    requires RowsTotal(ColumnView(p), m, i) <= t
    ensures ColsOutcome(p, m, t) == Err
  {
    ColsIncomplete(p, m, t);
  }

  /** The mismatches passed the budget at pair `i`: the answer is `false`. */
  lemma {:induction false} ColsOver(p: Pattern, m: nat, t: nat, i: nat)
    requires |p| > 0 && m + 2 <= |p[0]|
    requires i <= Reach(|p[0]|, m) && i < Available(p, m)
    requires RowsTotal(ColumnView(p), m, i + 1) > t
    ensures ColsOutcome(p, m, t) == Ok(false)
  {
    var n := Reach(|p[0]|, m) + 1;
    var a := Available(p, m);
    if a >= n {
      RowsTotalExceeds(ColumnView(p), m, t, i + 1, n);
      ColsComplete(p, m, t);
    } else {
      RowsTotalExceeds(ColumnView(p), m, t, i + 1, a);
      ColsIncomplete(p, m, t);
    }
  }

  /** `cols_mirror`. */
  method ColsMirror(p: Pattern, m: nat, t: nat) returns (r: Result<bool>)
    requires |p| > 0 && m + 2 <= |p[0]|
    ensures r == ColsOutcome(p, m, t)
  {
    var last := Reach(|p[0]|, m);
    var diff := 0;
    var i := 0;
    while i <= last
      invariant i <= last + 1 && i <= Available(p, m)
      invariant diff == RowsTotal(ColumnView(p), m, i) <= t
    {
      var stop;
      diff, stop := ColsPair(p, m, t, i, diff);
      if stop.Some? {
        return stop.value;
      }
      i := i + 1;
    }
    ColsComplete(p, m, t);
    return Ok(diff == t);
  }

  /** One pass of the `cols_mirror` loop: pair `i` panics on a missing
      column, passes the budget, or adds its mismatches. */
  method ColsPair(p: Pattern, m: nat, t: nat, i: nat, diff: nat) returns (diff': nat, stop: Option<Result<bool>>)
    requires |p| > 0 && m + 2 <= |p[0]|
    requires i <= Reach(|p[0]|, m) && i <= Available(p, m)
    requires diff == RowsTotal(ColumnView(p), m, i) <= t
    ensures stop.Some? ==> stop.value == ColsOutcome(p, m, t)
    ensures stop.None? ==> i + 1 <= Available(p, m) && diff' == RowsTotal(ColumnView(p), m, i + 1) <= t
  {
    var a := GetColumn(p, m - i);
    var b := GetColumn(p, m + i + 1);
    HasColumnBelowShortest(p, m + i + 1);
    if a.None? || b.None? {
      ColsMissing(p, m, t, i);
      return diff, Some(Err);
    }
    ColumnViewAt(p, m - i);
    ColumnViewAt(p, m + i + 1);
    RowsTotalStep(ColumnView(p), m, i);
    var over;
    diff', over := CountPair(a.value, b.value, diff, t);
    if over {
      ColsOver(p, m, t, i);
      return diff', Some(Ok(false));
    }
    return diff', None;
  }

  // --------------------------------------------------------- transposition

  predicate Rectangular(p: Pattern) {
    |p| > 0 && forall j :: 0 <= j < |p| ==> |p[j]| == |p[0]|
  }

  lemma {:induction false} RectangularShortest(p: Pattern)
    requires Rectangular(p)
    ensures Shortest(p) == |p[0]|
  {
    ShortestIsMinimum(p);
  }

  /** The columns of a rectangular pattern, as rows. */
  function Transpose(p: Pattern): (q: Pattern)
    requires Rectangular(p)
    ensures |q| == |p[0]|
    ensures forall c :: 0 <= c < |q| ==> |q[c]| == |p| && forall j :: 0 <= j < |p| ==> q[c][j] == p[j][c]
  {
    seq(|p[0]|, c requires 0 <= c < |p[0]| => seq(|p|, j requires 0 <= j < |p| => p[j][c]))
  }

  /** Transposing a rectangular pattern twice gives it back. */
  lemma {:induction false} TransposeTwice(p: Pattern)
    requires Rectangular(p) && |p[0]| > 0
    ensures Rectangular(Transpose(p))
    ensures Transpose(Transpose(p)) == p
  {
    var q := Transpose(p);
    var r := Transpose(q);
    assert |r| == |p|;
    forall j | 0 <= j < |p|
      ensures r[j] == p[j]
    {
      assert |r[j]| == |q| == |p[j]|;
      forall c | 0 <= c < |q|
        ensures r[j][c] == p[j][c]
      {
        assert r[j][c] == q[c][j];
      }
    }
  }

  /** On a rectangular pattern `get_column` yields every column, and they
      are the rows of the transposed pattern. */
  lemma {:induction false} ColumnViewIsTranspose(p: Pattern)
    requires Rectangular(p)
    ensures ColumnView(p) == Transpose(p)
  {
    RectangularShortest(p);
    var q, q' := ColumnView(p), Transpose(p);
    forall c | 0 <= c < |q|
      ensures q[c] == q'[c]
    {
      ColumnViewAt(p, c);
    }
  }

  /** On a rectangular pattern `cols_mirror` never panics, and it is
      `rows_mirror` on the transposed pattern. */
  lemma {:induction false} ColumnsAreTransposedRows(p: Pattern, m: nat, t: nat)
    requires Rectangular(p) && m + 2 <= |p[0]|
    ensures ColsOutcome(p, m, t) == Ok(RowReflects(Transpose(p), m, t))
  {
    ColumnViewIsTranspose(p);
  }

  // --------------------------------------------------------------- scoring

  /** The first horizontal line from row `i` on that reflects with `t`
      smudges, scanning `i in 0..rows - 1`. */
  function FirstRowLine(p: Pattern, i: nat, t: nat): (r: Option<nat>)
    requires |p| > 0 && i <= |p| - 1
    ensures r.Some? ==> i <= r.value && r.value + 2 <= |p| && RowReflects(p, r.value, t)
    ensures r.Some? ==> forall j :: i <= j < r.value ==> !RowReflects(p, j, t)
    ensures r.None? ==> forall j :: i <= j && j + 2 <= |p| ==> !RowReflects(p, j, t)
    decreases |p| - i
  {
    if i == |p| - 1 then None
    else if RowReflects(p, i, t) then Some(i)
    else FirstRowLine(p, i + 1, t)
  }

  /** The first vertical line from column `i` on that reflects, failing if a
      column check panics first or if there is none (`unreachable!`). */
  function FirstColLine(p: Pattern, i: nat, t: nat): (r: Result<nat>)
    requires |p| > 0 && 0 < |p[0]| && i <= |p[0]| - 1
    ensures r.Ok? ==> i <= r.value && r.value + 2 <= |p[0]| && ColsOutcome(p, r.value, t) == Ok(true)
    ensures r.Ok? ==> forall j :: i <= j < r.value ==> ColsOutcome(p, j, t) == Ok(false)
    ensures (forall j :: i <= j && j + 2 <= |p[0]| ==> ColsOutcome(p, j, t) == Ok(false)) ==> r.Err?
    decreases |p[0]| - i
  {
    if i == |p[0]| - 1 then Err
    else
      var here :- ColsOutcome(p, i, t);
      if here then Ok(i) else FirstColLine(p, i + 1, t)
  }

  /** One section's score: `100 * (i + 1)` for the first reflecting
      horizontal line, otherwise `i + 1` for the first vertical one.  An
      empty section underflows `rows() - 1`, an empty first row underflows
      `columns() - 1`. */
  function SectionValue(section: string, t: nat): (r: Result<nat>)
    ensures |section| == 0 ==> r.Err?
    ensures r.Ok? ==> r.value > 0
    ensures r.Ok? && |NewPattern(section)| >= 2 && FirstRowLine(NewPattern(section), 0, t).Some? ==>
              r.value % 100 == 0 && r.value / 100 + 1 <= |NewPattern(section)| && RowReflects(NewPattern(section), r.value / 100 - 1, t)
  {
    var p := NewPattern(section);
    if |p| == 0 then Err
    else
      match FirstRowLine(p, 0, t)
      case Some(i) => Ok(100 * (i + 1))
      case None =>
        if |p[0]| == 0 then Err
        else
          var i :- FirstColLine(p, 0, t);
          Ok(i + 1)
  }

  /** Horizontal lines take precedence: when any horizontal line reflects,
      the score is `100` times one past the first of them. */
  lemma {:induction false} HorizontalFirst(section: string, t: nat, m: nat)
    requires m + 2 <= |NewPattern(section)| && RowReflects(NewPattern(section), m, t)
    ensures SectionValue(section, t).Ok?
    ensures var v := SectionValue(section, t).value;
            v % 100 == 0 && 0 < v <= 100 * (m + 1) && RowReflects(NewPattern(section), v / 100 - 1, t)
  {
  }

  /** A pattern without a reflecting horizontal line scores its first
      reflecting vertical line. */
  lemma {:induction false} VerticalOtherwise(section: string, t: nat)
    requires var p := NewPattern(section); |p| > 0 && FirstRowLine(p, 0, t).None?
    requires SectionValue(section, t).Ok?
    ensures var p := NewPattern(section); var v := SectionValue(section, t).value;
            v + 1 <= |p[0]| && ColsOutcome(p, v - 1, t) == Ok(true)
            && forall j :: 0 <= j < v - 1 ==> ColsOutcome(p, j, t) == Ok(false)
  {
    var p := NewPattern(section);
    assert |p[0]| > 0;
    var r := FirstColLine(p, 0, t);
    assert r.Ok? && SectionValue(section, t) == Ok(r.value + 1);
  }

  /** The blank-line-separated sections of the input. */
  function Sections(input: string): seq<string> {
    SplitStr(input, "\n\n")
  }

  predicate AllScored(sections: seq<string>, t: nat) {
    forall i :: 0 <= i < |sections| ==> SectionValue(sections[i], t).Ok?
  }

  /** The score of each section, in order. */
  function SectionValues(sections: seq<string>, t: nat): (v: seq<int>)
    requires AllScored(sections, t)
    ensures |v| == |sections|
    ensures forall i :: 0 <= i < |sections| ==> v[i] == SectionValue(sections[i], t).value
  {
    if |sections| == 0 then []
    else [SectionValue(sections[0], t).value] + SectionValues(sections[1..], t)
  }

  /** `split("\n\n").map(..).sum()`, with smudge budget `t`: fails when any
      section fails, and otherwise every section contributes its score. */
  function Summarize(input: string, t: nat): (r: Result<nat>)
    ensures r.Ok? <==> AllScored(Sections(input), t)
    ensures r.Ok? ==> r.value == Sum(SectionValues(Sections(input), t))
    ensures r.Ok? ==> r.value >= |Sections(input)|
  {
    var sections := Sections(input);
    var score := s => SectionValue(s, t);
    assert forall i :: 0 <= i < |sections| ==> score(sections[i]) == SectionValue(sections[i], t);
    match MapAll(sections, score)
    case Err => Err
    case Ok(values) =>
      assert forall i :: 0 <= i < |values| ==> values[i] >= 1 by {
        forall i | 0 <= i < |values| ensures values[i] >= 1 {
          assert SectionValue(sections[i], t) == Ok(values[i]);
        }
      }
      SumAtLeastLength(values);
      assert values == SectionValues(sections, t);
      Ok(Sum(values))
  }

  function PartOne(input: string): Result<nat> {
    Summarize(input, 0)
  }

  function PartTwo(input: string): Result<nat> {
    Summarize(input, 1)
  }
}

=== FILE: day14_parabolic_dish.dfy ===
/** Day 14, `main.rs`: the load on the north support beams after tilting
    the platform north (part one), and after a billion spin cycles (part
    two).

    Part two records every platform it has seen with the number of spins
    that produced it, spins until a platform repeats, and then uses the
    period of that repetition to skip ahead to the billionth spin.  The
    model bounds the search by a `limit` on the number of spins. */
module Day14Main {
  import opened Wrappers
  import opened Seqs
  import opened Day14

  /** The number of spin cycles part two asks about. */
  const Cycles: nat := 1_000_000_000

  /** `height()` divides by the width, so a platform of empty lines makes
      every operation panic. */
  predicate Usable(p: Platform) {
    WellFormed(p) && p.width > 0
  }

  /** `part_one`: tilt north and weigh the round rocks. */
  method PartOne(input: string) returns (r: Result<nat>)
    ensures r.Ok? <==> Parse(input).Ok? && Usable(Parse(input).value)
    ensures r.Ok? ==> var q := Tilt(Parse(input).value, North);
                      Settled(q, North) && RoundCount(q) == RoundCount(Parse(input).value)
                      && r.value == LoadBefore(q, |q.rows|)
  {
    var parsed := Parse(input);
    if parsed.Err? || !Usable(parsed.value) {
      return Err;
    }
    var q := Tilt(parsed.value, North);
    TiltSettles(parsed.value, North);
    var load := Load(q);
    return Ok(load);
  }

  /** `x` after `n` applications of `f`. */
  function Iterate<T>(f: T -> T, x: T, n: nat): T {
    if n == 0 then x else f(Iterate(f, x, n - 1))
  }

  /** Applying `f` `a` times and then `b` times is applying it `a + b`
      times. */
  lemma {:induction false} IterateAdd<T>(f: T -> T, x: T, a: nat, b: nat)
    ensures Iterate(f, Iterate(f, x, a), b) == Iterate(f, x, a + b)
    decreases b
  {
    if b > 0 {
      IterateAdd(f, x, a, b - 1);
    }
  }

  /** Once the value after `s` steps reappears after `e` steps, every
      further `e - s` steps bring the same value back. */
  lemma {:induction false} Periodic<T>(f: T -> T, x: T, s: nat, e: nat, k: nat, rest: nat, m: nat)
    requires s < e && Iterate(f, x, s) == Iterate(f, x, e)
    requires m == s + k * (e - s) + rest
    ensures Iterate(f, x, m) == Iterate(f, x, s + rest)
    decreases k
  {
    if k > 0 {
      MulSucc(k - 1, e - s);
      var j := (k - 1) * (e - s) + rest;
      IterateAdd(f, x, e, j);
      IterateAdd(f, x, s, j);
      Periodic(f, x, s, e, k - 1, rest, s + j);
    }
  }

  /** The skip-ahead of part two: after a repeat between steps `s` and `e`,
      `e` steps followed by `(n - s) % (e - s)` more give the value after
      `n` steps. */
  lemma SkipAhead<T>(f: T -> T, x: T, s: nat, e: nat, n: nat)
    requires s < e && Iterate(f, x, s) == Iterate(f, x, e) && s <= n
    ensures Iterate(f, Iterate(f, x, e), (n - s) % (e - s)) == Iterate(f, x, n)
  {
    var rest := (n - s) % (e - s);
    var k := (n - s) / (e - s);
    Periodic(f, x, s, e, k, rest, n);
    IterateAdd(f, x, e, rest);
    IterateAdd(f, x, s, rest);
  }

  /** One spin cycle, on the platforms where `spin` does not panic. */
  function SpinStep(p: Platform): (q: Platform)
    ensures Usable(p) ==> Usable(q) && q.width == p.width && |q.rows| == |p.rows| && RoundCount(q) == RoundCount(p)
  {
    if Usable(p) then Spin(p) else p
  }

  /** The platform after `n` spin cycles. */
  function SpinN(p: Platform, n: nat): Platform {
    Iterate(SpinStep, p, n)
  }

  /** Spinning keeps a platform usable and keeps its rocks. */
  lemma {:induction false} SpinNUsable(p: Platform, n: nat)
    requires Usable(p)
    ensures Usable(SpinN(p, n)) && |SpinN(p, n).rows| == |p.rows| && RoundCount(SpinN(p, n)) == RoundCount(p)
  {
    if n > 0 {
      SpinNUsable(p, n - 1);
    }
  }

  lemma SpinNNext(p: Platform, n: nat)
    ensures SpinN(p, n + 1) == SpinStep(SpinN(p, n))
  {
  }

  /** `for _ in 0..k { platform.spin() }` */
  method SpinTimes(p: Platform, k: nat) returns (q: Platform)
    requires Usable(p)
    ensures q == SpinN(p, k) && Usable(q)
  {
    q := p;
    var i := 0;
    while i < k
      invariant i <= k && q == SpinN(p, i) && Usable(q)
    {
      SpinNNext(p, i);
      q := SpinStep(q);
      i := i + 1;
    }
  }

  /** The first `n + 1` values of the sequence `x, f(x), f(f(x)), ...` are
      all different. */
  ghost predicate DistinctUpTo<T>(f: T -> T, x: T, n: nat) {
    forall i, j {:trigger Iterate(f, x, i), Iterate(f, x, j)} :: 0 <= i < j <= n ==> Iterate(f, x, i) != Iterate(f, x, j)
  }

  /** Values recorded with their step numbers are pairwise different. */
  lemma RecordedDistinct<T>(f: T -> T, x: T, n: nat, seen: map<T, nat>)
    requires forall k :: 0 <= k <= n ==> Iterate(f, x, k) in seen && seen[Iterate(f, x, k)] == k
    ensures DistinctUpTo(f, x, n)
  {
    forall i, j | 0 <= i < j <= n
      ensures Iterate(f, x, i) != Iterate(f, x, j)
    {
      assert seen[Iterate(f, x, i)] == i && seen[Iterate(f, x, j)] == j;
    }
  }

  /** The loop of `part_two`: record each value with the number of steps
      that produced it, and stop at the first value seen before, giving the
      step it was first seen at and the current step.  `None` when `limit`
      steps bring no repeat. */
  method FirstRepeat<T(==)>(f: T -> T, x: T, limit: nat) returns (r: Option<(nat, nat)>)
    ensures r.Some? ==> r.value.0 < r.value.1 <= limit && Iterate(f, x, r.value.0) == Iterate(f, x, r.value.1)
    ensures r.Some? ==> DistinctUpTo(f, x, r.value.1 - 1)
    ensures r.None? ==> DistinctUpTo(f, x, limit)
  {
    var seen: map<T, nat> := map[x := 0];
    var cur := x;
    var n: nat := 0;
    while true
      invariant n <= limit && cur == Iterate(f, x, n)
      invariant forall k :: 0 <= k <= n ==> Iterate(f, x, k) in seen && seen[Iterate(f, x, k)] == k
      invariant forall q {:trigger seen[q]} :: q in seen ==> seen[q] <= n && Iterate(f, x, seen[q]) == q
      decreases limit - n
    {
      if n >= limit {
        RecordedDistinct(f, x, n, seen);
        return None;
      }
      n := n + 1;
      cur := f(cur);
      if cur in seen {
        RecordedDistinct(f, x, n - 1, seen);
        return Some((seen[cur], n));
      }
      seen := seen[cur := n];
    }
  }


  /** The rest of `part_two` on a parsed platform: skip ahead from the
      first repeat to `cycles` spins and weigh the rocks.  `Err` stands for
      reaching `limit` spins without a repeat, and for a repeat first seen
      after more than `cycles` spins, where `cycles - start` underflows. */
  method LoadAfter(p: Platform, cycles: nat, limit: nat) returns (r: Result<nat>)
    requires Usable(p)
    ensures r.Ok? ==> var q := SpinN(p, cycles);
                      Usable(q) && r.value == LoadBefore(q, |q.rows|)
    ensures r.Err? && limit <= cycles ==> DistinctUpTo(SpinStep, p, limit)
  {
    var found := FirstRepeat(SpinStep, p, limit);
    if found.None? {
      return Err;
    }
    var (start, end) := found.value;
    if start > cycles {
      return Err;
    }
    var rem := (cycles - start) % (end - start);
    SpinNUsable(p, end);
    var last := SpinTimes(SpinN(p, end), rem);
    SkipAhead(SpinStep, p, start, end, cycles);
    var load := Load(last);
    return Ok(load);
  }

  /** `part_two`: the load after a billion spins, found by detecting the
      first repeated platform within `limit` spins.  `Err` also stands for
      a parse failure and for a platform without columns. */
  method PartTwo(input: string, limit: nat) returns (r: Result<nat>)
    ensures Parse(input).Err? || !Usable(Parse(input).value) ==> r.Err?
    ensures r.Ok? ==> var q := SpinN(Parse(input).value, Cycles);
                      Usable(q) && r.value == LoadBefore(q, |q.rows|)
    ensures r.Err? && Parse(input).Ok? && Usable(Parse(input).value) && limit <= Cycles ==>
              DistinctUpTo(SpinStep, Parse(input).value, limit)
  {
    var parsed := Parse(input);
    if parsed.Err? || !Usable(parsed.value) {
      return Err;
    }
    r := LoadAfter(parsed.value, Cycles, limit);
  }
}

=== FILE: day14_platform.dfy ===
/** Day 14, `platform.rs`: a grid of round rocks `O`, cube rocks `#` and
    empty cells, tilted so that every round rock rolls as far as it can.

    `Platform` keeps the cells in one flat vector of `width`-long rows;
    here the rows are kept, and `Get`/`Set` reproduce the flat indexing
    `y * width + x`.  `tilt(d)` visits the cells row by row (bottom row
    first for South) and, inside a row, column by column (rightmost first
    for East); each round rock it meets slides in direction `d` while the
    next cell is on the platform and empty.  Visiting the cells nearest the
    far edge first is what makes one pass enough: `TiltSettles` proves that
    afterwards no round rock can move further. */
module Day14 {
  import opened Wrappers
  import opened Text
  import opened Seqs

  datatype Rock = Round | Cube

  /** `Option<Rock>`: `None` is an empty cell. */
  type Cell = Option<Rock>

  /** `TryFrom<char>`: only `O` and `#` are rocks. */
  function RockFromChar(c: char): (r: Result<Rock>)
    ensures r.Ok? <==> c == 'O' || c == '#'
    ensures r == Ok(Round) <==> c == 'O'
  {
    match c
    case 'O' => Ok(Round)
    case '#' => Ok(Cube)
    case _ => Err
  }

  /** `Rock::try_from(c).ok()`: anything that is not a rock is empty. */
  function CellFromChar(c: char): Cell {
    RockFromChar(c).ToOption()
  }

  datatype Direction = North | South | East | West

  datatype Platform = Platform(rows: seq<seq<Cell>>, width: nat)

  /** Every row holds `width` cells. */
  predicate WellFormed(p: Platform) {
    forall y :: 0 <= y < |p.rows| ==> |p.rows[y]| == p.width
  }

  /** `height`: the flat length divided by `width`, which is the number of
      rows; with `width == 0` the division panics. */
  function Height(p: Platform): nat
    requires p.width > 0
  {
    |p.rows|
  }

  predicate InBounds(p: Platform, x: nat, y: nat) {
    x < p.width && y < |p.rows|
  }

  function At(p: Platform, x: nat, y: nat): Cell
    requires WellFormed(p) && InBounds(p, x, y)
  {
    p.rows[y][x]
  }

  predicate IsRound(p: Platform, x: nat, y: nat)
    requires WellFormed(p) && InBounds(p, x, y)
  {
    At(p, x, y) == Some(Round)
  }

  predicate IsCube(p: Platform, x: nat, y: nat)
    requires WellFormed(p) && InBounds(p, x, y)
  {
    At(p, x, y) == Some(Cube)
  }

  /** `get`: the cell at flat index `y * width + x`, or `None` past the end.
      An `x` beyond the width reaches into a later row, as the flat vector
      does. */
  function Get(p: Platform, x: nat, y: nat): (c: Cell)
    requires WellFormed(p)
    ensures InBounds(p, x, y) ==> c == At(p, x, y)
    ensures y >= |p.rows| ==> c == None
  {
    if p.width == 0 then None
    else
      var q, r := x / p.width, x % p.width;
      FlatSplit(x, p.width, q, r);
      if y + q < |p.rows| then p.rows[y + q][r] else None
  }

  /** A column inside the width stays in its own row. */
  lemma FlatSplit(x: nat, w: nat, q: nat, r: nat)
    requires w > 0 && q == x / w && r == x % w
    ensures r < w
    ensures x < w ==> q == 0 && r == x
  {
  }

  /** The platform with one cell replaced. */
  function Put(p: Platform, x: nat, y: nat, c: Cell): (q: Platform)
    requires WellFormed(p) && InBounds(p, x, y)
    ensures WellFormed(q) && q.width == p.width && |q.rows| == |p.rows|
  {
    p.(rows := p.rows[y := p.rows[y][x := c]])
  }

  /** Only the replaced cell changes. */
  lemma PutAt(p: Platform, x: nat, y: nat, c: Cell, x': nat, y': nat)
    requires WellFormed(p) && InBounds(p, x, y) && InBounds(p, x', y')
    ensures At(Put(p, x, y, c), x', y') == if x' == x && y' == y then c else At(p, x', y')
  {
  }

  /** `set`: writes the cell at flat index `y * width + x` and reports
      whether that index exists; past the end it changes nothing. */
  function Set(p: Platform, x: nat, y: nat, c: Cell): (r: (bool, Platform))
    requires WellFormed(p)
    ensures !r.0 ==> r.1 == p
    ensures y >= |p.rows| ==> !r.0
    ensures InBounds(p, x, y) ==> r.0 && r.1 == Put(p, x, y, c)
  {
    if p.width == 0 then (false, p)
    else
      var q, r := x / p.width, x % p.width;
      FlatSplit(x, p.width, q, r);
      if y + q < |p.rows| then (true, Put(p, r, y + q, c)) else (false, p)
  }

  /** A write that succeeds lands on the cell at the flat index, counted
      from the start of row `y`. */
  lemma SetFlat(p: Platform, x: nat, y: nat, c: Cell)
    requires WellFormed(p)
    ensures Set(p, x, y, c).0 ==> p.width > 0 && InBounds(p, x % p.width, y + x / p.width)
                                  && Set(p, x, y, c).1 == Put(p, x % p.width, y + x / p.width, c)
  {
  }

  // ------------------------------------------------------------ directions

  /** `add_offset` followed by the bounds part of the filter: the next cell
      in direction `d`, if it is on a `w` by `h` platform. */
  function Ahead(d: Direction, w: nat, h: nat, x: nat, y: nat): (r: Option<(nat, nat)>)
    requires x < w && y < h
    ensures r.Some? ==> r.value.0 < w && r.value.1 < h
    ensures r.Some? ==> Dist(d, w, h, r.value.0, r.value.1) + 1 == Dist(d, w, h, x, y)
    ensures r.Some? && (d == North || d == South) ==> r.value.0 == x
    ensures r.Some? && (d == East || d == West) ==> r.value.1 == y
    ensures r.None? <==> Dist(d, w, h, x, y) == 0
  {
    match d
    case North => if y > 0 then Some((x, y - 1)) else None
    case South => if y + 1 < h then Some((x, y + 1)) else None
    case East => if x + 1 < w then Some((x + 1, y)) else None
    case West => if x > 0 then Some((x - 1, y)) else None
  }

  /** How many cells lie between `(x, y)` and the edge it faces. */
  function Dist(d: Direction, w: nat, h: nat, x: nat, y: nat): nat
    requires x < w && y < h
  {
    match d
    case North => y
    case South => h - 1 - y
    case East => w - 1 - x
    case West => x
  }

  /** The rock at `(x, y)` cannot roll: the edge or a rock is in the way. */
  predicate Blocked(p: Platform, d: Direction, x: nat, y: nat)
    requires WellFormed(p) && InBounds(p, x, y)
  {
    var a := Ahead(d, p.width, |p.rows|, x, y);
    a.None? || At(p, a.value.0, a.value.1).Some?
  }

  /** The inner `while let`: where a rock starting at `(x, y)` stops. */
  function Slide(p: Platform, d: Direction, x: nat, y: nat): (r: (nat, nat))
    requires WellFormed(p) && InBounds(p, x, y)
    ensures InBounds(p, r.0, r.1)
    ensures (d == North || d == South) ==> r.0 == x
    ensures (d == East || d == West) ==> r.1 == y
    ensures Dist(d, p.width, |p.rows|, r.0, r.1) <= Dist(d, p.width, |p.rows|, x, y)
    ensures (r.0 == x && r.1 == y) || At(p, r.0, r.1).None?
    ensures Blocked(p, d, r.0, r.1)
    decreases Dist(d, p.width, |p.rows|, x, y)
  {
    match Ahead(d, p.width, |p.rows|, x, y)
    case None => (x, y)
    case Some(n) => if At(p, n.0, n.1).None? then Slide(p, d, n.0, n.1) else (x, y)
  }

  // ------------------------------------------------------------ round rocks

  function RowRounds(row: seq<Cell>): nat {
    Count(row, Some(Round))
  }

  /** The number of round rocks. */
  function RoundsIn(rows: seq<seq<Cell>>): nat {
    if |rows| == 0 then 0 else RoundsIn(rows[..|rows| - 1]) + RowRounds(rows[|rows| - 1])
  }

  function RoundCount(p: Platform): nat {
    RoundsIn(p.rows)
  }

  lemma {:induction false} RoundsInUpdate(rows: seq<seq<Cell>>, y: nat, row: seq<Cell>)
    requires y < |rows|
    ensures RoundsIn(rows[y := row]) + RowRounds(rows[y]) == RoundsIn(rows) + RowRounds(row)
    decreases |rows|
  {
    var n := |rows| - 1;
    if y < n {
      assert rows[y := row][..n] == rows[..n][y := row];
      RoundsInUpdate(rows[..n], y, row);
    } else {
      assert rows[y := row][..n] == rows[..n];
    }
  }

  /** Putting `c` at `(x, y)` changes the count by what leaves and enters. */
  lemma PutRounds(p: Platform, x: nat, y: nat, c: Cell)
    requires WellFormed(p) && InBounds(p, x, y)
    ensures RoundCount(Put(p, x, y, c)) + (if IsRound(p, x, y) then 1 else 0)
            == RoundCount(p) + (if c == Some(Round) then 1 else 0)
  {
    CountUpdate(p.rows[y], x, c, Some(Round));
    RoundsInUpdate(p.rows, y, p.rows[y][x := c]);
  }

  // ------------------------------------------------------------------ tilt

  /** The `k`-th index visited in `0..size`, forwards or reversed; it is
      also the inverse map. */
  function Order(rev: bool, size: nat, k: nat): (r: nat)
    requires k < size
    ensures r < size
    ensures rev ==> r + k + 1 == size
    ensures !rev ==> r == k
  {
    if rev then size - 1 - k else k
  }

  /** `y_range` and `x_range`: South visits rows bottom up, East visits
      columns right to left. */
  function RowAt(d: Direction, h: nat, i: nat): nat
    requires i < h
  {
    Order(d == South, h, i)
  }

  function ColAt(d: Direction, w: nat, j: nat): nat
    requires j < w
  {
    Order(d == East, w, j)
  }

  /** The rock at the visited cell slides: `set(x, y, None)` then
      `set(nx, ny, Some(Round))`, both in bounds. */
  function MoveRock(p: Platform, d: Direction, x: nat, y: nat): (q: Platform)
    requires WellFormed(p) && InBounds(p, x, y)
    ensures WellFormed(q) && q.width == p.width && |q.rows| == |p.rows|
    ensures RoundCount(q) == RoundCount(p)
    ensures forall x', y' {:trigger IsCube(q, x', y')} :: InBounds(p, x', y') ==> (IsCube(q, x', y') <==> IsCube(p, x', y'))
  {
    if IsRound(p, x, y) then
      var n := Slide(p, d, x, y);
      var empty := Put(p, x, y, None);
      PutRounds(p, x, y, None);
      PutRounds(empty, n.0, n.1, Some(Round));
      PutAt(p, x, y, None, n.0, n.1);
      var q := Put(empty, n.0, n.1, Some(Round));
      assert forall x', y' {:trigger IsCube(q, x', y')} :: InBounds(p, x', y') ==> (IsCube(q, x', y') <==> IsCube(p, x', y')) by {
        forall x', y' | InBounds(p, x', y')
          ensures IsCube(q, x', y') <==> IsCube(p, x', y')
        {
          PutAt(p, x, y, None, x', y');
          PutAt(empty, n.0, n.1, Some(Round), x', y');
        }
      }
      q
    else p
  }

  /** The inner loop of `tilt` from the `j`-th visited column of the `i`-th
      visited row. */
  function TiltRow(p: Platform, d: Direction, i: nat, j: nat): (q: Platform)
    requires WellFormed(p) && i < |p.rows| && j <= p.width
    ensures WellFormed(q) && q.width == p.width && |q.rows| == |p.rows|
    ensures RoundCount(q) == RoundCount(p)
    ensures forall x', y' {:trigger IsCube(q, x', y')} :: InBounds(p, x', y') ==> (IsCube(q, x', y') <==> IsCube(p, x', y'))
    decreases p.width - j
  {
    if j == p.width then p
    else TiltRow(MoveRock(p, d, ColAt(d, p.width, j), RowAt(d, |p.rows|, i)), d, i, j + 1)
  }

  /** The outer loop of `tilt` from the `i`-th visited row. */
  function TiltRows(p: Platform, d: Direction, i: nat): (q: Platform)
    requires WellFormed(p) && i <= |p.rows|
    ensures WellFormed(q) && q.width == p.width && |q.rows| == |p.rows|
    ensures RoundCount(q) == RoundCount(p)
    ensures forall x', y' {:trigger IsCube(q, x', y')} :: InBounds(p, x', y') ==> (IsCube(q, x', y') <==> IsCube(p, x', y'))
    decreases |p.rows| - i
  {
    if i == |p.rows| then p else TiltRows(TiltRow(p, d, i, 0), d, i + 1)
  }

  /** `tilt`: keeps the shape, the number of round rocks and every cube
      rock where it was.  `tilt` calls `height()` first, which panics on a
      zero width. */
  function Tilt(p: Platform, d: Direction): (q: Platform)
    requires WellFormed(p) && p.width > 0
    ensures WellFormed(q) && q.width == p.width && |q.rows| == |p.rows|
    ensures RoundCount(q) == RoundCount(p)
    ensures forall x', y' {:trigger IsCube(q, x', y')} :: InBounds(p, x', y') ==> (IsCube(q, x', y') <==> IsCube(p, x', y'))
  {
    TiltRows(p, d, 0)
  }

  /** `spin`: North, West, South, East. */
  function Spin(p: Platform): (q: Platform)
    requires WellFormed(p) && p.width > 0
    ensures WellFormed(q) && q.width == p.width && |q.rows| == |p.rows|
    ensures RoundCount(q) == RoundCount(p)
  {
    Tilt(Tilt(Tilt(Tilt(p, North), West), South), East)
  }

  // --------------------------------------------------------------- settling

  /** No round rock can roll any further in direction `d`. */
  ghost predicate Settled(p: Platform, d: Direction)
    requires WellFormed(p)
  {
    forall x, y {:trigger IsRound(p, x, y)} :: InBounds(p, x, y) && IsRound(p, x, y) ==> Blocked(p, d, x, y)
  }

  /** The cell `(x, y)` has been visited once the loops reach the `j`-th
      column of the `i`-th row. */
  predicate Visited(d: Direction, w: nat, h: nat, i: nat, j: nat, x: nat, y: nat)
    requires x < w && y < h
  {
    var r := Order(d == South, h, y);
    r < i || (r == i && Order(d == East, w, x) < j)
  }

  /** Every visited round rock is blocked. */
  ghost predicate SettledUpTo(p: Platform, d: Direction, i: nat, j: nat)
    requires WellFormed(p)
  {
    forall x, y {:trigger IsRound(p, x, y)} :: InBounds(p, x, y) && Visited(d, p.width, |p.rows|, i, j, x, y) && IsRound(p, x, y)
      ==> Blocked(p, d, x, y)
  }

  /** The only newly visited cell is the one the loops are at. */
  lemma VisitedNext(d: Direction, w: nat, h: nat, i: nat, j: nat, x: nat, y: nat)
    requires i < h && j < w && x < w && y < h
    requires Visited(d, w, h, i, j + 1, x, y) && !Visited(d, w, h, i, j, x, y)
    ensures x == ColAt(d, w, j) && y == RowAt(d, h, i)
  {
  }

  /** The cell whose next cell is the one being visited has not been
      visited yet: it lies a row later, or a column later in the same row. */
  lemma BehindUnvisited(d: Direction, w: nat, h: nat, i: nat, j: nat, x: nat, y: nat)
    requires i < h && j < w && x < w && y < h
    requires Visited(d, w, h, i, j + 1, x, y)
    ensures var a := Ahead(d, w, h, x, y);
            a.None? || a.value.0 != ColAt(d, w, j) || a.value.1 != RowAt(d, h, i)
  {
  }

  /** Visiting one more cell keeps every visited round rock blocked. */
  lemma {:induction false} MoveKeepsSettled(p: Platform, d: Direction, i: nat, j: nat)
    requires WellFormed(p) && i < |p.rows| && j < p.width
    requires SettledUpTo(p, d, i, j)
    ensures SettledUpTo(MoveRock(p, d, ColAt(d, p.width, j), RowAt(d, |p.rows|, i)), d, i, j + 1)
  {
    var w, h := p.width, |p.rows|;
    var x, y := ColAt(d, w, j), RowAt(d, h, i);
    var q := MoveRock(p, d, x, y);
    if !IsRound(p, x, y) {
      forall x', y' | InBounds(q, x', y') && Visited(d, w, h, i, j + 1, x', y') && IsRound(q, x', y')
        ensures Blocked(q, d, x', y')
      {
        if !Visited(d, w, h, i, j, x', y') {
          VisitedNext(d, w, h, i, j, x', y');
        }
      }
    } else {
      var n := Slide(p, d, x, y);
      var empty := Put(p, x, y, None);
      assert q == Put(empty, n.0, n.1, Some(Round));
      forall x', y' | InBounds(q, x', y') && Visited(d, w, h, i, j + 1, x', y') && IsRound(q, x', y')
        ensures Blocked(q, d, x', y')
      {
        if x' == n.0 && y' == n.1 {
          MovedRockBlocked(p, d, x, y, n, empty, q);
        } else {
          OtherRockBlocked(p, d, i, j, n, empty, q, x', y');
        }
      }
    }
  }

  /** The rock that just slid is blocked where it stopped: what lies ahead
      of it is further along than both cells the move wrote. */
  lemma MovedRockBlocked(p: Platform, d: Direction, x: nat, y: nat, n: (nat, nat), empty: Platform, q: Platform)
    requires WellFormed(p) && InBounds(p, x, y)
    requires n == Slide(p, d, x, y)
    requires empty == Put(p, x, y, None) && q == Put(empty, n.0, n.1, Some(Round))
    ensures Blocked(q, d, n.0, n.1)
  {
    var w, h := p.width, |p.rows|;
    var a := Ahead(d, w, h, n.0, n.1);
    if a.Some? {
      PutAt(p, x, y, None, a.value.0, a.value.1);
      PutAt(empty, n.0, n.1, Some(Round), a.value.0, a.value.1);
      assert Dist(d, w, h, a.value.0, a.value.1) < Dist(d, w, h, n.0, n.1) <= Dist(d, w, h, x, y);
    }
  }

  /** A rock visited earlier stays blocked: the cell emptied by the move is
      never the one ahead of it, and the filled cell only blocks more. */
  lemma OtherRockBlocked(p: Platform, d: Direction, i: nat, j: nat, n: (nat, nat), empty: Platform, q: Platform, x': nat, y': nat)
    requires WellFormed(p) && i < |p.rows| && j < p.width
    requires SettledUpTo(p, d, i, j)
    requires var x, y := ColAt(d, p.width, j), RowAt(d, |p.rows|, i);
             IsRound(p, x, y) && n == Slide(p, d, x, y)
             && empty == Put(p, x, y, None) && q == Put(empty, n.0, n.1, Some(Round))
    requires InBounds(p, x', y') && Visited(d, p.width, |p.rows|, i, j + 1, x', y') && IsRound(q, x', y')
    requires !(x' == n.0 && y' == n.1)
    ensures Blocked(q, d, x', y')
  {
    var w, h := p.width, |p.rows|;
    var x, y := ColAt(d, w, j), RowAt(d, h, i);
    PutAt(p, x, y, None, x', y');
    PutAt(empty, n.0, n.1, Some(Round), x', y');
    assert !(x' == x && y' == y);
    if !Visited(d, w, h, i, j, x', y') {
      VisitedNext(d, w, h, i, j, x', y');
    }
    assert IsRound(p, x', y') && Blocked(p, d, x', y');
    var a := Ahead(d, w, h, x', y');
    BehindUnvisited(d, w, h, i, j, x', y');
    if a.Some? {
      PutAt(p, x, y, None, a.value.0, a.value.1);
      PutAt(empty, n.0, n.1, Some(Round), a.value.0, a.value.1);
    }
  }

  /** After a whole row every cell of it counts as visited. */
  lemma RowDone(p: Platform, d: Direction, i: nat)
    requires WellFormed(p) && i < |p.rows|
    requires SettledUpTo(p, d, i, p.width)
    ensures SettledUpTo(p, d, i + 1, 0)
  {
    forall x, y | InBounds(p, x, y) && Visited(d, p.width, |p.rows|, i + 1, 0, x, y) && IsRound(p, x, y)
      ensures Blocked(p, d, x, y)
    {
      assert Visited(d, p.width, |p.rows|, i, p.width, x, y);
    }
  }

  lemma {:induction false} TiltRowSettles(p: Platform, d: Direction, i: nat, j: nat)
    requires WellFormed(p) && i < |p.rows| && j <= p.width
    requires SettledUpTo(p, d, i, j)
    ensures SettledUpTo(TiltRow(p, d, i, j), d, i + 1, 0)
    decreases p.width - j
  {
    if j == p.width {
      RowDone(p, d, i);
    } else {
      MoveKeepsSettled(p, d, i, j);
      TiltRowSettles(MoveRock(p, d, ColAt(d, p.width, j), RowAt(d, |p.rows|, i)), d, i, j + 1);
    }
  }

  lemma {:induction false} TiltRowsSettles(p: Platform, d: Direction, i: nat)
    requires WellFormed(p) && i <= |p.rows|
    requires SettledUpTo(p, d, i, 0)
    ensures Settled(TiltRows(p, d, i), d)
    decreases |p.rows| - i
  {
    if i == |p.rows| {
      forall x, y | InBounds(p, x, y) && IsRound(p, x, y)
        ensures Blocked(p, d, x, y)
      {
        assert Visited(d, p.width, |p.rows|, i, 0, x, y);
      }
    } else {
      TiltRowSettles(p, d, i, 0);
      TiltRowsSettles(TiltRow(p, d, i, 0), d, i + 1);
    }
  }

  /** After `tilt(d)` every round rock has the edge or a rock next to it
      in direction `d`. */
  lemma TiltSettles(p: Platform, d: Direction)
    requires WellFormed(p) && p.width > 0
    ensures Settled(Tilt(p, d), d)
  {
    TiltRowsSettles(p, d, 0);
  }

  // ------------------------------------------------------------ idempotence

  /** On a settled platform a visited rock stays put. */
  lemma SettledMoveFixed(p: Platform, d: Direction, x: nat, y: nat)
    requires WellFormed(p) && InBounds(p, x, y) && Settled(p, d)
    ensures MoveRock(p, d, x, y) == p
  {
    if IsRound(p, x, y) {
      assert Blocked(p, d, x, y);
      var n := Slide(p, d, x, y);
      assert n.0 == x && n.1 == y;
      var q := Put(Put(p, x, y, None), x, y, Some(Round));
      assert q.rows[y] == p.rows[y];
      assert q.rows == p.rows;
    }
  }

  lemma {:induction false} SettledTiltRowFixed(p: Platform, d: Direction, i: nat, j: nat)
    requires WellFormed(p) && i < |p.rows| && j <= p.width && Settled(p, d)
    ensures TiltRow(p, d, i, j) == p
    decreases p.width - j
  {
    if j < p.width {
      SettledMoveFixed(p, d, ColAt(d, p.width, j), RowAt(d, |p.rows|, i));
      SettledTiltRowFixed(p, d, i, j + 1);
    }
  }

  lemma {:induction false} SettledTiltRowsFixed(p: Platform, d: Direction, i: nat)
    requires WellFormed(p) && i <= |p.rows| && Settled(p, d)
    ensures TiltRows(p, d, i) == p
    decreases |p.rows| - i
  {
    if i < |p.rows| {
      SettledTiltRowFixed(p, d, i, 0);
      SettledTiltRowsFixed(p, d, i + 1);
    }
  }

  /** Tilting a settled platform changes nothing, so a second tilt in the
      same direction is a no-op. */
  lemma TiltIdempotent(p: Platform, d: Direction)
    requires WellFormed(p) && p.width > 0
    ensures Tilt(Tilt(p, d), d) == Tilt(p, d)
  {
    TiltSettles(p, d);
    SettledTiltRowsFixed(Tilt(p, d), d, 0);
  }

  // -------------------------------------------------------------- stretches

  /** Tilting `d` moves rocks along the columns for North and South and
      along the rows for East and West: the number of such lines, and the
      length of each. */
  function LineCount(p: Platform, d: Direction): nat {
    if d == North || d == South then p.width else |p.rows|
  }

  function LineLength(p: Platform, d: Direction): nat {
    if d == North || d == South then |p.rows| else p.width
  }

  /** Line `a` for direction `d`: column `a` top to bottom, or row `a` left
      to right. */
  function Line(p: Platform, d: Direction, a: nat): (l: seq<Cell>)
    requires WellFormed(p) && a < LineCount(p, d)
    ensures |l| == LineLength(p, d)
  {
    if d == North || d == South then seq(|p.rows|, y requires 0 <= y < |p.rows| => p.rows[y][a])
    else p.rows[a]
  }

  /** The line through `(x, y)`, and the position of the cell in it. */
  function LineOf(d: Direction, x: nat, y: nat): nat {
    if d == North || d == South then x else y
  }

  function PosOf(d: Direction, x: nat, y: nat): nat {
    if d == North || d == South then y else x
  }

  /** A stretch of a line ends at `k`: at a cube rock or at the end. */
  predicate StretchEnd(l: seq<Cell>, k: nat) {
    k == |l| || (k < |l| && l[k] == Some(Cube))
  }

  /** The profile of a line: for each `k` from 0 to its length, 0 when
      no stretch ends at `k`, else one more than the number of round rocks
      before `k`.  Two lines of one length with the same profile have their
      cube rocks in the same places and as many round rocks in each stretch
      between them. */
  function Profile(l: seq<Cell>): (r: seq<nat>)
    ensures |r| == |l| + 1
    ensures forall k :: 0 <= k <= |l| ==> (r[k] > 0 <==> StretchEnd(l, k))
  {
    seq(|l| + 1, k requires 0 <= k <= |l| => if StretchEnd(l, k) then Count(l[..k], Some(Round)) + 1 else 0)
  }

  /** The profiles of all the lines of direction `d`. */
  function Profiles(p: Platform, d: Direction): (r: seq<seq<nat>>)
    requires WellFormed(p)
    ensures |r| == LineCount(p, d)
  {
    seq(LineCount(p, d), a requires 0 <= a < LineCount(p, d) => Profile(Line(p, d, a)))
  }

  /** Writing a cell changes only its own line, at its own position. */
  lemma LinePut(p: Platform, x: nat, y: nat, c: Cell, d: Direction, a: nat)
    requires WellFormed(p) && InBounds(p, x, y) && a < LineCount(p, d)
    ensures Line(Put(p, x, y, c), d, a)
            == if a == LineOf(d, x, y) then Line(p, d, a)[PosOf(d, x, y) := c] else Line(p, d, a)
  {
    var q := Put(p, x, y, c);
    if d == North || d == South {
      forall t | 0 <= t < |p.rows|
        ensures Line(q, d, a)[t] == (if a == x then Line(p, d, a)[y := c] else Line(p, d, a))[t]
      {
        PutAt(p, x, y, c, a, t);
      }
    }
  }

  /** The cells a sliding rock passes over, and the one it stops on, are
      empty. */
  lemma {:induction false} SlideOverEmpty(p: Platform, d: Direction, x: nat, y: nat)
    requires WellFormed(p) && InBounds(p, x, y)
    ensures var n, s, l := Slide(p, d, x, y), PosOf(d, x, y), Line(p, d, LineOf(d, x, y));
            var e := PosOf(d, n.0, n.1);
            forall t :: 0 <= t < |l| && t != s && (s <= t <= e || e <= t <= s) ==> l[t] == None
    decreases Dist(d, p.width, |p.rows|, x, y)
  {
    match Ahead(d, p.width, |p.rows|, x, y)
    case None =>
    case Some(n) =>
      if At(p, n.0, n.1).None? {
        SlideOverEmpty(p, d, n.0, n.1);
      }
  }

  /** Moving a round rock from `i` to `j` over empty cells keeps the number
      of round rocks before each end of a stretch: no cube rock lies between
      the two positions. */
  lemma MovePrefix(l: seq<Cell>, i: nat, j: nat, k: nat)
    requires i < |l| && j < |l| && l[i] == Some(Round)
    requires forall t :: 0 <= t < |l| && t != i && (i <= t <= j || j <= t <= i) ==> l[t] == None
    requires StretchEnd(l, k)
    ensures Count(l[i := None][j := Some(Round)][..k], Some(Round)) == Count(l[..k], Some(Round))
  {
    var m := l[i := None][j := Some(Round)];
    if i == j {
      assert m == l;
    } else if i < k && j < k {
      assert m[..k] == l[..k][i := None][j := Some(Round)];
      CountUpdate(l[..k], i, None, Some(Round));
      CountUpdate(l[..k][i := None], j, Some(Round), Some(Round));
    } else if k <= i && k <= j {
      assert m[..k] == l[..k];
    } else {
      assert false;
    }
  }

  /** The same move seen on the profile of the line it happens in. */
  lemma MoveProfile(l: seq<Cell>, i: nat, j: nat)
    requires i < |l| && j < |l| && l[i] == Some(Round)
    requires forall t :: 0 <= t < |l| && t != i && (i <= t <= j || j <= t <= i) ==> l[t] == None
    ensures Profile(l[i := None][j := Some(Round)]) == Profile(l)
  {
    var m := l[i := None][j := Some(Round)];
    forall k | 0 <= k <= |l|
      ensures Profile(m)[k] == Profile(l)[k]
    {
      assert StretchEnd(m, k) <==> StretchEnd(l, k);
      if StretchEnd(l, k) {
        MovePrefix(l, i, j, k);
      }
    }
  }

  /** One visited rock sliding keeps the profile of every line. */
  lemma MoveKeepsProfiles(p: Platform, d: Direction, x: nat, y: nat)
    requires WellFormed(p) && InBounds(p, x, y)
    ensures Profiles(MoveRock(p, d, x, y), d) == Profiles(p, d)
  {
    var q := MoveRock(p, d, x, y);
    if IsRound(p, x, y) {
      var n := Slide(p, d, x, y);
      var empty := Put(p, x, y, None);
      assert q == Put(empty, n.0, n.1, Some(Round));
      SlideOverEmpty(p, d, x, y);
      forall a | 0 <= a < LineCount(p, d)
        ensures Profiles(q, d)[a] == Profiles(p, d)[a]
      {
        LinePut(p, x, y, None, d, a);
        LinePut(empty, n.0, n.1, Some(Round), d, a);
        if a == LineOf(d, x, y) {
          MoveProfile(Line(p, d, a), PosOf(d, x, y), PosOf(d, n.0, n.1));
        }
      }
    }
  }

  lemma {:induction false} TiltRowKeepsProfiles(p: Platform, d: Direction, i: nat, j: nat)
    requires WellFormed(p) && i < |p.rows| && j <= p.width
    ensures Profiles(TiltRow(p, d, i, j), d) == Profiles(p, d)
    decreases p.width - j
  {
    if j < p.width {
      MoveKeepsProfiles(p, d, ColAt(d, p.width, j), RowAt(d, |p.rows|, i));
      TiltRowKeepsProfiles(MoveRock(p, d, ColAt(d, p.width, j), RowAt(d, |p.rows|, i)), d, i, j + 1);
    }
  }

  lemma {:induction false} TiltRowsKeepsProfiles(p: Platform, d: Direction, i: nat)
    requires WellFormed(p) && i <= |p.rows|
    ensures Profiles(TiltRows(p, d, i), d) == Profiles(p, d)
    decreases |p.rows| - i
  {
    if i < |p.rows| {
      TiltRowKeepsProfiles(p, d, i, 0);
      TiltRowsKeepsProfiles(TiltRow(p, d, i, 0), d, i + 1);
    }
  }

  /** `tilt(d)` keeps the profile of every column for North and South and
      of every row for East and West. */
  lemma TiltKeepsProfiles(p: Platform, d: Direction)
    requires WellFormed(p) && p.width > 0
    ensures Profiles(Tilt(p, d), d) == Profiles(p, d)
  {
    TiltRowsKeepsProfiles(p, d, 0);
  }

  /** So each stretch of a line from its start or a cube rock to the next
      cube rock or the end holds as many round rocks after `tilt(d)` as
      before. */
  lemma TiltStretchRounds(p: Platform, d: Direction, a: nat, k0: nat, k1: nat)
    requires WellFormed(p) && p.width > 0 && a < LineCount(p, d)
    requires (k0 == 0 || StretchEnd(Line(p, d, a), k0)) && StretchEnd(Line(p, d, a), k1) && k0 <= k1
    ensures Count(Line(Tilt(p, d), d, a)[k0..k1], Some(Round)) == Count(Line(p, d, a)[k0..k1], Some(Round))
  {
    var l, l' := Line(p, d, a), Line(Tilt(p, d), d, a);
    TiltKeepsProfiles(p, d);
    assert Profiles(Tilt(p, d), d)[a] == Profile(l') && Profiles(p, d)[a] == Profile(l);
    ProfileStretch(l, l', k0, k1);
  }

  /** Two lines with the same profile hold as many round rocks between any
      two stretch ends. */
  lemma ProfileStretch(l: seq<Cell>, l': seq<Cell>, k0: nat, k1: nat)
    requires Profile(l') == Profile(l)
    requires (k0 == 0 || StretchEnd(l, k0)) && StretchEnd(l, k1) && k0 <= k1
    ensures Count(l'[k0..k1], Some(Round)) == Count(l[k0..k1], Some(Round))
  {
    assert |l'| == |l|;
    assert Profile(l')[k1] == Profile(l)[k1];
    assert k0 > 0 ==> Profile(l')[k0] == Profile(l)[k0];
    assert l[..k1] == l[..k0] + l[k0..k1];
    assert l'[..k1] == l'[..k0] + l'[k0..k1];
    CountConcat(l[..k0], l[k0..k1], Some(Round));
    CountConcat(l'[..k0], l'[k0..k1], Some(Round));
    if k0 == 0 {
      assert l[..k0] == [] && l'[..k0] == [];
    }
  }

  // ------------------------------------------------------------------ load

  /** The load of the round rocks in the first `n` cells of a row, each
      weighing `weight`. */
  function RowLoad(row: seq<Cell>, weight: nat, n: nat): nat
    requires n <= |row|
  {
    if n == 0 then 0 else RowLoad(row, weight, n - 1) + (if row[n - 1] == Some(Round) then weight else 0)
  }

  /** Rows before `y`, each round rock weighing `height - row`. */
  function LoadBefore(p: Platform, y: nat): nat
    requires WellFormed(p) && y <= |p.rows|
  {
    if y == 0 then 0 else LoadBefore(p, y - 1) + RowLoad(p.rows[y - 1], |p.rows| - (y - 1), p.width)
  }

  /** `load`: every round rock weighs its distance from the south edge,
      counting its own row. */
  method Load(p: Platform) returns (load: nat)
    requires WellFormed(p) && p.width > 0
    ensures load == LoadBefore(p, |p.rows|)
  {
    load := 0;
    var col := 0;
    while col < Height(p)
      invariant col <= |p.rows|
      invariant load == LoadBefore(p, col)
    {
      var row := 0;
      while row < p.width
        invariant row <= p.width
        invariant load == LoadBefore(p, col) + RowLoad(p.rows[col], |p.rows| - col, row)
      {
        if Get(p, row, col) == Some(Round) {
          load := load + (Height(p) - col);
        }
        row := row + 1;
      }
      col := col + 1;
    }
  }

  lemma {:induction false} RowLoadIsWeightedCount(row: seq<Cell>, weight: nat, n: nat)
    requires n <= |row|
    ensures RowLoad(row, weight, n) == weight * RowRounds(row[..n])
  {
    if n > 0 {
      RowLoadIsWeightedCount(row, weight, n - 1);
      RoundsStep(row, n);
      WeightStep(RowLoad(row, weight, n - 1), weight, RowRounds(row[..n - 1]), row[n - 1] == Some(Round));
    }
  }

  lemma RoundsStep(row: seq<Cell>, n: nat)
    requires 0 < n <= |row|
    ensures RowRounds(row[..n]) == RowRounds(row[..n - 1]) + if row[n - 1] == Some(Round) then 1 else 0
  {
    assert row[..n] == row[..n - 1] + [row[n - 1]];
    CountAppend(row[..n - 1], row[n - 1], Some(Round));
  }

  lemma WeightStep(load: nat, weight: nat, k: nat, round: bool)
    requires load == weight * k
    ensures load + (if round then weight else 0) == weight * (k + if round then 1 else 0)
  {
    MulSucc(k, weight);
  }

  /** Each row's load is its number of round rocks times its weight. */
  lemma {:induction false} LoadIsWeightedCount(p: Platform, y: nat)
    requires WellFormed(p) && y <= |p.rows|
    ensures y > 0 ==> LoadBefore(p, y) == LoadBefore(p, y - 1) + (|p.rows| - (y - 1)) * RowRounds(p.rows[y - 1])
  {
    if y > 0 {
      RowLoadIsWeightedCount(p.rows[y - 1], |p.rows| - (y - 1), p.width);
      assert p.rows[y - 1][..p.width] == p.rows[y - 1];
    }
  }

  // --------------------------------------------------------------- parsing

  /** Every line is as long as the first. */
  predicate SameLengths(lines: seq<string>) {
    forall y :: 0 <= y < |lines| ==> |lines[y]| == |lines[0]|
  }

  function RowOf(line: string): (row: seq<Cell>)
    ensures |row| == |line| && forall x :: 0 <= x < |line| ==> row[x] == CellFromChar(line[x])
  {
    seq(|line|, x requires 0 <= x < |line| => CellFromChar(line[x]))
  }

  /** `FromStr`: lines of differing length fail; any character but `O` and
      `#` is an empty cell; no lines give width 0. */
  function Parse(s: string): (r: Result<Platform>)
    ensures r.Ok? <==> SameLengths(Lines(s))
    ensures r.Ok? ==> WellFormed(r.value) && |r.value.rows| == |Lines(s)|
    ensures r.Ok? ==> r.value.width == if |Lines(s)| == 0 then 0 else |Lines(s)[0]|
    ensures r.Ok? ==> forall y, x :: 0 <= y < |Lines(s)| && 0 <= x < |Lines(s)[y]| ==>
                        r.value.rows[y][x] == CellFromChar(Lines(s)[y][x])
  {
    var lines := Lines(s);
    if !SameLengths(lines) then Err
    else
      var w := if |lines| == 0 then 0 else |lines[0]|;
      Ok(Platform(seq(|lines|, y requires 0 <= y < |lines| => RowOf(lines[y])), w))
  }
}

=== FILE: day15_lens_library.dfy ===
/** Day 15: the HASH algorithm and the HASHMAP of 256 boxes of lenses.

    HASH folds the bytes of a string into a value below 256: add the byte,
    multiply by 17, reduce modulo 256.  The model reads each character's
    code as its byte, so it describes ASCII input.

    The HASHMAP keeps, in box `HASH(label)`, an ordered list of labelled
    lenses.  `label=f` replaces the focal length of the lens with that label
    where it stands, or appends a new lens; `label-` removes the lens with
    that label and closes the gap.  The focusing power of a lens is
    (box + 1) * (slot + 1) * focal length. */
module Day15 {
  import opened Wrappers
  import opened Text
  import opened Seqs

  // ------------------------------------------------------------------ HASH

  /** One round of HASH on the code of `c`. */
  function HashStep(cur: nat, c: char): (r: nat)
    ensures r < 256
  {
    (cur + c as int) * 17 % 256
  }

  /** HASH of `s` started from `acc`, consuming `s` from the front. */
  function HashFrom(acc: nat, s: string): (r: nat)
    ensures acc < 256 || |s| > 0 ==> r < 256
    decreases |s|
  {
    if |s| == 0 then acc else HashFrom(HashStep(acc, s[0]), s[1..])
  }

  function Hash(s: string): nat {
    HashFrom(0, s)
  }

  /** Hashing a concatenation is hashing the second part from the first
      part's value. */
  lemma {:induction false} HashFromAppend(acc: nat, s: string, t: string)
    ensures HashFrom(acc, s + t) == HashFrom(HashFrom(acc, s), t)
    decreases |s|
  {
    if |s| == 0 {
      assert s + t == t;
    } else {
      assert (s + t)[1..] == s[1..] + t;
      HashFromAppend(HashStep(acc, s[0]), s[1..], t);
    }
  }

  /** `ascii_hash`: a value below 256, the HASH of the input. */
  method AsciiHash(s: string) returns (h: nat)
    ensures h < 256 && h == Hash(s)
  {
    h := 0;
    var i := 0;
    while i < |s|
      invariant i <= |s| && h < 256 && h == HashFrom(0, s[..i])
    {
      assert s[..i + 1] == s[..i] + [s[i]];
      HashFromAppend(0, s[..i], [s[i]]);
      assert [s[i]][1..] == [];
      h := HashStep(h, s[i]);
      i := i + 1;
    }
    assert s[..i] == s;
  }

  /** The value HASH approximates: the codes weighted by powers of 17,
      without any reduction. */
  function Polynomial(s: string): int
    decreases |s|
  {
    if |s| == 0 then 0 else (Polynomial(s[..|s| - 1]) + s[|s| - 1] as int) * 17
  }

  lemma ModMultiple(x: int, y: int)
    ensures (x + 256 * y) % 256 == x % 256
  {
  }

  /** Reducing before a round of HASH does not change the round's value. */
  lemma ModStep(a: int, c: int)
    ensures (a % 256 + c) * 17 % 256 == (a + c) * 17 % 256
  {
    var q := a / 256;
    assert a == 256 * q + a % 256;
    assert (a + c) * 17 == (a % 256 + c) * 17 + 256 * (17 * q);
    ModMultiple((a % 256 + c) * 17, 17 * q);
  }

  /** HASH reduces modulo 256 after every character, which gives the same
      value as reducing the whole polynomial once. */
  lemma {:induction false} HashIsPolynomial(s: string)
    ensures Hash(s) == Polynomial(s) % 256
    decreases |s|
  {
    if |s| > 0 {
      var init, c := s[..|s| - 1], s[|s| - 1];
      assert s == init + [c];
      HashFromAppend(0, init, [c]);
      assert [c][1..] == [];
      HashIsPolynomial(init);
      ModStep(Polynomial(init), c as int);
    }
  }

  /** The worked example: HASH of `HASH` is 52. */
  lemma HashOfHash()
    ensures Hash("HASH") == 52
  {
    var s := "HASH";
    assert s[1..] == "ASH" && s[1..][1..] == "SH" && s[1..][1..][1..] == "H" && "H"[1..] == [];
    assert HashStep(0, 'H') == 200 && HashStep(200, 'A') == 153;
    assert HashStep(153, 'S') == 172 && HashStep(172, 'H') == 52;
  }

  // ----------------------------------------------------------------- steps

  /** `input.trim().split(',')`. */
  function Steps(input: string): (r: seq<string>)
    ensures |r| > 0
    ensures forall i :: 0 <= i < |r| ==> ',' !in r[i]
    ensures Join(r, ',') == Trim(input)
  {
    Split(Trim(input), ',')
  }

  function HashAll(steps: seq<string>): (r: seq<nat>)
    ensures |r| == |steps| && forall i :: 0 <= i < |r| ==> r[i] == Hash(steps[i]) && r[i] < 256
  {
    seq(|steps|, i requires 0 <= i < |steps| => Hash(steps[i]))
  }

  /** `part_one`: the sum of the HASH of every step, at most 255 per step. */
  function PartOne(input: string): (r: nat)
    ensures r <= 255 * |Steps(input)|
    ensures r == Sum(HashAll(Steps(input)))
  {
    var hs := HashAll(Steps(input));
    SumBound(hs, 255);
    SumNonNegative(hs);
    Sum(hs)
  }

  // --------------------------------------------------------------- HASHMAP

  datatype Lens = Lens(name: string, focal: nat)

  type Box = seq<Lens>

  /** `[Vec<(&str, usize)>; 256]`: the boxes in order. */
  datatype Hashmap = Hashmap(boxes: seq<Box>)

  const BoxCount: nat := 256

  /** Every lens sits in the box its label hashes to. */
  predicate InOwnBox(box: Box, i: nat) {
    forall j :: 0 <= j < |box| ==> Hash(box[j].name) == i
  }

  /** No label occurs twice in a box. */
  predicate UniqueLabels(box: Box) {
    forall j, k :: 0 <= j < k < |box| ==> box[j].name != box[k].name
  }

  /** What `add` and `remove` keep true of the map. */
  predicate Valid(h: Hashmap) {
    |h.boxes| == BoxCount
    && forall i :: 0 <= i < BoxCount ==> InOwnBox(h.boxes[i], i) && UniqueLabels(h.boxes[i])
  }

  /** `Hashmap::new`: 256 empty boxes. */
  function New(): (h: Hashmap)
    ensures Valid(h) && forall i :: 0 <= i < BoxCount ==> h.boxes[i] == []
  {
    Hashmap(seq(BoxCount, _ => []))
  }

  /** `iter().find(|(k, _)| *k == key)` from slot `from` on: the first slot
      holding `key`. */
  function FindFrom(box: Box, key: string, from: nat): (r: Option<nat>)
    requires from <= |box|
    ensures r.Some? ==> from <= r.value < |box| && box[r.value].name == key
                        && forall j :: from <= j < r.value ==> box[j].name != key
    ensures r.None? ==> forall j :: from <= j < |box| ==> box[j].name != key
    decreases |box| - from
  {
    if from == |box| then None
    else if box[from].name == key then Some(from)
    else FindFrom(box, key, from + 1)
  }

  function Find(box: Box, key: string): (r: Option<nat>)
    ensures r.Some? ==> r.value < |box| && box[r.value].name == key
                        && forall j :: 0 <= j < r.value ==> box[j].name != key
    ensures r.None? ==> forall j :: 0 <= j < |box| ==> box[j].name != key
  {
    FindFrom(box, key, 0)
  }

  /** The box after `add(key, value)`. */
  function AddToBox(box: Box, key: string, value: nat): (r: Box)
    ensures Find(box, key).Some? ==>
              var j := Find(box, key).value;
              |r| == |box| && r[j] == Lens(key, value)
              && forall k :: 0 <= k < |box| && k != j ==> r[k] == box[k]
    ensures Find(box, key).None? ==> |r| == |box| + 1 && r[..|box|] == box && r[|box|] == Lens(key, value)
  {
    match Find(box, key)
    case Some(j) => box[j := Lens(key, value)]
    case None => box + [Lens(key, value)]
  }

  /** `add`: only the box of `key` changes. */
  function Add(h: Hashmap, key: string, value: nat): (r: Hashmap)
    requires |h.boxes| == BoxCount
    ensures |r.boxes| == BoxCount && r.boxes[Hash(key)] == AddToBox(h.boxes[Hash(key)], key, value)
    ensures forall i :: 0 <= i < BoxCount && i != Hash(key) ==> r.boxes[i] == h.boxes[i]
    ensures Valid(h) ==> Valid(r)
  {
    var i := Hash(key);
    var box := h.boxes[i];
    var box' := AddToBox(box, key, value);
    var r := Hashmap(h.boxes[i := box']);
    assert Valid(h) ==> InOwnBox(box', i) && UniqueLabels(box') by {
      if Valid(h) {
        assert InOwnBox(box, i) && UniqueLabels(box);
      }
    }
    r
  }

  /** `retain(|(k, _)| *k != key)`. */
  function Retain(box: Box, key: string): (r: Box)
    ensures |r| <= |box|
    ensures forall j :: 0 <= j < |r| ==> r[j].name != key
    ensures forall j :: 0 <= j < |r| ==> r[j] in box
    decreases |box|
  {
    if |box| == 0 then []
    else if box[|box| - 1].name == key then Retain(box[..|box| - 1], key)
    else Retain(box[..|box| - 1], key) + [box[|box| - 1]]
  }

  /** A box without `key` is left as it is. */
  lemma {:induction false} RetainAbsent(box: Box, key: string)
    requires forall j :: 0 <= j < |box| ==> box[j].name != key
    ensures Retain(box, key) == box
    decreases |box|
  {
    if |box| > 0 {
      RetainAbsent(box[..|box| - 1], key);
    }
  }

  lemma RetainAppend(box: Box, lens: Lens, key: string)
    ensures Retain(box + [lens], key) == if lens.name == key then Retain(box, key) else Retain(box, key) + [lens]
  {
    assert (box + [lens])[..|box|] == box;
  }

  /** With unique labels, `retain` takes out exactly the one lens with
      `key` and keeps the others in order. */
  lemma {:induction false} RetainUnique(box: Box, key: string, j: nat)
    requires j < |box| && box[j].name == key
    requires forall k :: 0 <= k < |box| && k != j ==> box[k].name != key
    ensures Retain(box, key) == box[..j] + box[j + 1..]
    decreases |box|
  {
    var n := |box|;
    if j == n - 1 {
      RetainAbsent(box[..n - 1], key);
      assert box[j + 1..] == [];
    } else {
      RetainUnique(box[..n - 1], key, j);
      assert box[..n - 1][..j] == box[..j];
      assert box[..n - 1][j + 1..] + [box[n - 1]] == box[j + 1..];
    }
  }

  /** Removing keeps labels unique and every lens in its own box. */
  lemma {:induction false} RetainValid(box: Box, key: string, i: nat)
    requires InOwnBox(box, i) && UniqueLabels(box)
    ensures InOwnBox(Retain(box, key), i) && UniqueLabels(Retain(box, key))
  {
    var f := Find(box, key);
    if f.None? {
      RetainAbsent(box, key);
    } else {
      var j := f.value;
      RetainUnique(box, key, j);
      var r := Retain(box, key);
      forall a, b | 0 <= a < b < |r|
        ensures r[a].name != r[b].name
      {
        var a' := if a < j then a else a + 1;
        var b' := if b < j then b else b + 1;
        assert r[a] == box[a'] && r[b] == box[b'];
      }
    }
  }

  /** `remove`: only the box of `key` changes. */
  function Remove(h: Hashmap, key: string): (r: Hashmap)
    requires |h.boxes| == BoxCount
    ensures |r.boxes| == BoxCount && r.boxes[Hash(key)] == Retain(h.boxes[Hash(key)], key)
    ensures forall i :: 0 <= i < BoxCount && i != Hash(key) ==> r.boxes[i] == h.boxes[i]
    ensures Valid(h) ==> Valid(r)
  {
    var i := Hash(key);
    assert Valid(h) ==> InOwnBox(Retain(h.boxes[i], key), i) && UniqueLabels(Retain(h.boxes[i], key)) by {
      if Valid(h) {
        RetainValid(h.boxes[i], key, i);
      }
    }
    Hashmap(h.boxes[i := Retain(h.boxes[i], key)])
  }

  /** In a valid map, removing a present key deletes exactly its lens and
      closes the gap; removing an absent key changes nothing. */
  lemma RemoveClosesGap(h: Hashmap, key: string)
    requires Valid(h)
    ensures var box := h.boxes[Hash(key)];
            match Find(box, key)
            case Some(j) => Remove(h, key).boxes[Hash(key)] == box[..j] + box[j + 1..]
            case None => Remove(h, key) == h
  {
    var i := Hash(key);
    var box := h.boxes[i];
    assert UniqueLabels(box);
    match Find(box, key)
    case Some(j) =>
      RetainUnique(box, key, j);
    case None =>
      RetainAbsent(box, key);
      assert h.boxes[i := box] == h.boxes;
  }

  /** The focal length stored under `key`, if any. */
  function Lookup(h: Hashmap, key: string): (r: Option<nat>)
    requires |h.boxes| == BoxCount
  {
    var box := h.boxes[Hash(key)];
    match Find(box, key)
    case Some(j) => Some(box[j].focal)
    case None => None
  }

  /** `add` behaves as an assignment of the association list. */
  lemma AddLookup(h: Hashmap, key: string, value: nat, other: string)
    requires Valid(h)
    ensures Lookup(Add(h, key, value), key) == Some(value)
    ensures other != key ==> Lookup(Add(h, key, value), other) == Lookup(h, other)
  {
    var i := Hash(key);
    var box := h.boxes[i];
    var box' := Add(h, key, value).boxes[i];
    match Find(box, key)
    case Some(j) =>
      assert box'[j] == Lens(key, value);
    case None =>
      assert box'[|box|] == Lens(key, value);
    if other != key && Hash(other) == i {
      var f, f' := Find(box, other), Find(box', other);
      if f.Some? {
        assert box'[f.value] == box[f.value];
      }
      if f'.Some? {
        assert f'.value < |box| && box'[f'.value] == box[f'.value];
      }
    }
  }

  /** `remove` deletes the association of `key` and no other. */
  lemma RemoveLookup(h: Hashmap, key: string, other: string)
    requires Valid(h)
    ensures Lookup(Remove(h, key), key) == None
    ensures other != key ==> Lookup(Remove(h, key), other) == Lookup(h, other)
  {
    var i := Hash(key);
    var box := h.boxes[i];
    var box' := Remove(h, key).boxes[i];
    assert Find(box', key).None?;
    if other != key && Hash(other) == i {
      RemoveClosesGap(h, key);
      assert UniqueLabels(box) && UniqueLabels(box');
      var f, f' := Find(box, other), Find(box', other);
      if f.Some? {
        assert box[f.value] in box';
      }
      if f'.Some? {
        assert box'[f'.value] in box;
      }
      match Find(box, key)
      case Some(j) =>
        if f.Some? {
          var k := if f.value < j then f.value else f.value - 1;
          assert box'[k] == box[f.value];
        }
      case None =>
    }
  }

  // ---------------------------------------------------------------- power

  /** The focusing power of the first `n` lenses of box `i`. */
  function BoxPower(box: Box, i: nat, n: nat): nat
    requires n <= |box|
  {
    if n == 0 then 0 else BoxPower(box, i, n - 1) + (i + 1) * n * box[n - 1].focal
  }

  /** The focusing power of the first `n` boxes. */
  function PowerBefore(h: Hashmap, n: nat): nat
    requires n <= |h.boxes|
  {
    if n == 0 then 0 else PowerBefore(h, n - 1) + BoxPower(h.boxes[n - 1], n - 1, |h.boxes[n - 1]|)
  }

  /** `power`: the sum over boxes and slots. */
  method Power(h: Hashmap) returns (p: nat)
    ensures p == PowerBefore(h, |h.boxes|)
  {
    p := 0;
    var mi := 0;
    while mi < |h.boxes|
      invariant mi <= |h.boxes| && p == PowerBefore(h, mi)
    {
      var box := h.boxes[mi];
      var bi := 0;
      while bi < |box|
        invariant bi <= |box| && p == PowerBefore(h, mi) + BoxPower(box, mi, bi)
      {
        var term := (mi + 1) * (bi + 1) * box[bi].focal;
        assert BoxPower(box, mi, bi + 1) == BoxPower(box, mi, bi) + term;
        p := p + term;
        bi := bi + 1;
      }
      assert PowerBefore(h, mi + 1) == PowerBefore(h, mi) + BoxPower(box, mi, |box|);
      mi := mi + 1;
    }
  }

  /** Only the first `n` lenses count towards `BoxPower(.., n)`. */
  lemma {:induction false} BoxPowerPrefix(a: Box, b: Box, i: nat, n: nat)
    requires n <= |a| && n <= |b| && a[..n] == b[..n]
    ensures BoxPower(a, i, n) == BoxPower(b, i, n)
  {
    if n > 0 {
      assert a[n - 1] == a[..n][n - 1] == b[..n][n - 1] == b[n - 1];
      assert a[..n - 1] == a[..n][..n - 1];
      assert b[..n - 1] == b[..n][..n - 1];
      BoxPowerPrefix(a, b, i, n - 1);
    }
  }

  /** A new lens adds its own power and moves no other lens. */
  lemma AppendPower(box: Box, lens: Lens, i: nat)
    ensures BoxPower(box + [lens], i, |box| + 1) == BoxPower(box, i, |box|) + (i + 1) * (|box| + 1) * lens.focal
  {
    assert (box + [lens])[..|box|] == box[..|box|];
    BoxPowerPrefix(box + [lens], box, i, |box|);
  }

  /** Replacing a focal length changes the box's power only in that slot. */
  lemma {:induction false} ReplacePower(box: Box, i: nat, j: nat, lens: Lens, n: nat)
    requires j < |box| && n <= |box|
    ensures BoxPower(box[j := lens], i, n) + (if j < n then (i + 1) * (j + 1) * box[j].focal else 0)
            == BoxPower(box, i, n) + (if j < n then (i + 1) * (j + 1) * lens.focal else 0)
  {
    if n > 0 {
      ReplacePower(box, i, j, lens, n - 1);
    }
  }

  // --------------------------------------------------------------- part two

  /** A step of the initialisation sequence. */
  datatype Step = Put(name: string, focal: nat) | Take(name: string)

  /** `k=v` is an insertion, which panics when `v` is not a number;
      anything else is a removal of the step without its trailing `-`s. */
  function ParseStep(step: string): (r: Result<Step>)
    ensures SplitOnce(step, '=').None? ==> r == Ok(Take(TrimEndMatches(step, '-')))
    ensures SplitOnce(step, '=').Some? ==>
              var (k, v) := SplitOnce(step, '=').value;
              (r.Ok? <==> ParseNat(v).Some?) && (r.Ok? ==> r.value == Put(k, ParseNat(v).value))
  {
    match SplitOnce(step, '=')
    case Some((k, v)) =>
      var f :- OkOr(ParseNat(v));
      Ok(Put(k, f))
    case None => Ok(Take(TrimEndMatches(step, '-')))
  }

  function Apply(h: Hashmap, s: Step): (r: Hashmap)
    requires |h.boxes| == BoxCount
    ensures |r.boxes| == BoxCount && (Valid(h) ==> Valid(r))
  {
    match s
    case Put(k, f) => Add(h, k, f)
    case Take(k) => Remove(h, k)
  }

  /** The map after the steps, in order. */
  function Run(h: Hashmap, steps: seq<Step>): (r: Hashmap)
    requires |h.boxes| == BoxCount
    ensures |r.boxes| == BoxCount && (Valid(h) ==> Valid(r))
    decreases |steps|
  {
    if |steps| == 0 then h else Run(Apply(h, steps[0]), steps[1..])
  }

  /** After the steps, a label maps to the focal length of its last
      insertion, unless a removal of it came later. */
  ghost function LastValue(steps: seq<Step>, key: string): Option<nat>
    decreases |steps|
  {
    if |steps| == 0 then None
    else
      var last := steps[|steps| - 1];
      if last.name != key then LastValue(steps[..|steps| - 1], key)
      else match last
        case Put(_, f) => Some(f)
        case Take(_) => None
  }

  lemma {:induction false} RunAppend(h: Hashmap, steps: seq<Step>, s: Step)
    requires |h.boxes| == BoxCount
    ensures Run(h, steps + [s]) == Apply(Run(h, steps), s)
    decreases |steps|
  {
    if |steps| == 0 {
      assert steps + [s] == [s];
    } else {
      assert (steps + [s])[1..] == steps[1..] + [s];
      RunAppend(Apply(h, steps[0]), steps[1..], s);
    }
  }

  /** The map left by the steps holds exactly the last value each label
      was given. */
  lemma {:induction false} RunLookup(steps: seq<Step>, key: string)
    ensures Lookup(Run(New(), steps), key) == LastValue(steps, key)
    decreases |steps|
  {
    if |steps| == 0 {
      assert New().boxes[Hash(key)] == [];
    } else {
      var init, last := steps[..|steps| - 1], steps[|steps| - 1];
      assert steps == init + [last];
      RunAppend(New(), init, last);
      RunLookup(init, key);
      ApplyLookup(Run(New(), init), last, key);
    }
  }

  /** One step changes the lookup of its own label only. */
  lemma ApplyLookup(h: Hashmap, s: Step, key: string)
    requires Valid(h)
    ensures s.name != key ==> Lookup(Apply(h, s), key) == Lookup(h, key)
    ensures s.name == key ==> Lookup(Apply(h, s), key) == (if s.Put? then Some(s.focal) else None)
  {
    match s
    case Put(k, f) => AddLookup(h, k, f, key);
    case Take(k) => RemoveLookup(h, k, key);
  }

  /** `part_two`: the focusing power after the whole sequence, failing
      where a power does not parse. */
  method PartTwo(input: string) returns (r: Result<nat>)
    ensures r.Ok? <==> MapAll(Steps(input), ParseStep).Ok?
    ensures r.Ok? ==> var h := Run(New(), MapAll(Steps(input), ParseStep).value);
                      Valid(h) && r.value == PowerBefore(h, BoxCount)
  {
    var parsed := MapAll(Steps(input), ParseStep);
    if parsed.Err? {
      return Err;
    }
    var h := Run(New(), parsed.value);
    var p := Power(h);
    return Ok(p);
  }
}

=== FILE: day16_floor_lava.dfy ===
/** Day 16, `main.rs`: the tiles energized by a beam entering at the top
    left heading right (part one), and the most tiles any beam entering
    from an edge can energize (part two). */
module Day16Main {
  import opened Wrappers
  import opened Text
  import opened Seqs
  import opened Day16

  /** `part_one`: the beam enters the top-left tile heading right. */
  method PartOne(input: string) returns (r: Result<nat>)
    ensures r.Ok? <==> Parse(input).Ok?
    ensures r.Ok? ==> r.value == Energy(Parse(input).value, Beam(Right, 0, 0))
  {
    var g :- Parse(input);
    var n := Energize(g, Beam(Right, 0, 0));
    return Ok(n);
  }

  /** The beams `(d, x, y)` for `x` in `0..n`, in order. */
  function RowBeams(d: Direction, n: nat, y: nat): (r: seq<Beam>)
    ensures |r| == n && forall x :: 0 <= x < n ==> r[x] == Beam(d, x, y)
  {
    if n == 0 then [] else RowBeams(d, n - 1, y) + [Beam(d, n - 1, y)]
  }

  /** The beams `(d, x, y)` for `y` in `0..n`, in order. */
  function ColumnBeams(d: Direction, n: nat, x: nat): (r: seq<Beam>)
    ensures |r| == n && forall y :: 0 <= y < n ==> r[y] == Beam(d, x, y)
  {
    if n == 0 then [] else ColumnBeams(d, n - 1, x) + [Beam(d, x, n - 1)]
  }

  /** The beams part two tries, in its order: down from the top row, up
      from the bottom row, right from the left column, left from the
      right column. */
  function Candidates(g: Contraption): seq<Beam>
    requires Height(g) > 0
  {
    var w, h := g.width, Height(g);
    RowBeams(Down, w, 0) + RowBeams(Up, w, h - 1) + ColumnBeams(Right, h, 0) + ColumnBeams(Left, h, w - 1)
  }

  /** A beam on a tile of the border, heading into the grid. */
  predicate EntersFromEdge(g: Contraption, b: Beam)
    requires Height(g) > 0
  {
    InGrid(g, b)
    && match b.direction
       case Down => b.y == 0
       case Up => b.y == Height(g) - 1
       case Right => b.x == 0
       case Left => b.x == g.width - 1
  }

  /** Part two tries exactly the beams that enter from an edge. */
  lemma CandidatesEnterFromEdge(g: Contraption, b: Beam)
    requires Height(g) > 0
    ensures b in Candidates(g) <==> EntersFromEdge(g, b)
  {
    var w, h := g.width, Height(g);
    var top, bottom, left, right := RowBeams(Down, w, 0), RowBeams(Up, w, h - 1), ColumnBeams(Right, h, 0), ColumnBeams(Left, h, w - 1);
    assert Candidates(g) == top + bottom + left + right;
    if EntersFromEdge(g, b) {
      match b.direction
      case Down => assert b == top[b.x];
      case Up => assert b == bottom[b.x];
      case Right => assert b == left[b.y];
      case Left => assert b == right[b.y];
    }
  }

  /** The energy of each beam of `starts`, in order. */
  method Energies(g: Contraption, starts: seq<Beam>) returns (es: seq<nat>)
    ensures |es| == |starts| && forall i :: 0 <= i < |starts| ==> es[i] == Energy(g, starts[i])
  {
    es := [];
    var i := 0;
    while i < |starts|
      invariant i <= |starts| && |es| == i
      invariant forall j :: 0 <= j < i ==> es[j] == Energy(g, starts[j])
    {
      var n := Energize(g, starts[i]);
      es := es + [n];
      i := i + 1;
    }
  }

  /** A parsed contraption with columns has a row per line, and at least
      one line. */
  lemma ParsedHeight(s: string)
    requires Parse(s).Ok?
    ensures var g := Parse(s).value;
            g.width > 0 ==> Height(g) == |Lines(s)| > 0
  {
    var g := Parse(s).value;
    var n := |Lines(s)|;
    ParseGet(s, 0, 0);
    assert |g.cells| == n * g.width;
    if g.width > 0 {
      DivExact(n, g.width);
      assert Height(g) == n * g.width / g.width;
    }
  }

  /** `part_two`: the most tiles a beam entering from an edge energizes.
      `height()` panics on a contraption without columns. */
  method PartTwo(input: string) returns (r: Result<nat>)
    ensures r.Ok? <==> Parse(input).Ok? && Parse(input).value.width > 0
    ensures r.Ok? ==> var g := Parse(input).value;
                      Height(g) > 0
                      && (forall b :: EntersFromEdge(g, b) ==> Energy(g, b) <= r.value)
                      && exists b :: EntersFromEdge(g, b) && r.value == Energy(g, b)
  {
    var g :- Parse(input);
    if g.width == 0 {
      return Err;
    }
    ParsedHeight(input);
    var starts := Candidates(g);
    var es := Energies(g, starts);
    assert |starts| > 0 by {
      assert |RowBeams(Down, g.width, 0)| > 0;
    }
    var best := Max(es);
    forall b | EntersFromEdge(g, b)
      ensures Energy(g, b) <= best
    {
      CandidatesEnterFromEdge(g, b);
      var i :| 0 <= i < |starts| && starts[i] == b;
    }
    ghost var i :| 0 <= i < |es| && best == es[i];
    CandidatesEnterFromEdge(g, starts[i]);
    return Ok(best);
  }
}

=== FILE: day16_heat_splitter.dfy ===
/** Day 16, `heat_splitter.rs`: a beam of light crossing a contraption of
    mirrors and splitters, and the number of tiles it energizes.

    A beam is a position and a direction.  At an empty cell it moves on; a
    mirror turns it by a right angle; a splitter it meets side-on sends out
    two beams along the splitter, and one it meets end-on lets it pass.
    Beams leaving the grid are dropped.  `energize` steps every live beam at
    once, keeps only the beams in a position and direction not seen before,
    and stops when none are left; the answer is the number of positions
    seen.  `energize` keeps the seen states as a map from position to a
    set of directions; here they are a set of beams, and the count of
    positions is the size of the set of their coordinates. */
module Day16 {
  import opened Wrappers
  import opened Text
  import opened Seqs
  import opened Reachability

  datatype Direction = Up | Down | Left | Right

  datatype Beam = Beam(direction: Direction, x: nat, y: nat)

  predicate IsHorizontal(d: Direction) {
    d == Left || d == Right
  }

  /** The column offset of one step in direction `d`. */
  function DX(d: Direction): int {
    match d
    case Left => -1
    case Right => 1
    case _ => 0
  }

  /** The row offset of one step in direction `d`; rows grow downwards. */
  function DY(d: Direction): int {
    match d
    case Up => -1
    case Down => 1
    case _ => 0
  }

  /** `b` is one step on from position `(x, y)` in its own direction. */
  predicate StepFrom(x: nat, y: nat, b: Beam) {
    b.x == x + DX(b.direction) && b.y == y + DY(b.direction)
  }

  /** `Beam::step`: `None` where a coordinate would drop below zero. */
  function StepBeam(b: Beam): (r: Option<Beam>)
    ensures r.None? <==> (b.direction == Up && b.y == 0) || (b.direction == Left && b.x == 0)
    ensures r.Some? ==> r.value.direction == b.direction && StepFrom(b.x, b.y, r.value)
  {
    match b.direction
    case Up => if b.y == 0 then None else Some(b.(y := b.y - 1))
    case Down => Some(b.(y := b.y + 1))
    case Left => if b.x == 0 then None else Some(b.(x := b.x - 1))
    case Right => Some(b.(x := b.x + 1))
  }

  /** Named for the way the top of the mirror leans: `/` leans right and
      `\` leans left. */
  datatype Mirror = LeansRight | LeansLeft

  /** `Mirror::turn`: a right-angle turn in place. */
  function Turn(m: Mirror, b: Beam): (r: Beam)
    ensures r.x == b.x && r.y == b.y
    ensures IsHorizontal(r.direction) <==> !IsHorizontal(b.direction)
  {
    var d := match (m, b.direction)
      case (LeansLeft, Up) => Left
      case (LeansLeft, Left) => Up
      case (LeansLeft, Down) => Right
      case (LeansLeft, Right) => Down
      case (LeansRight, Up) => Right
      case (LeansRight, Right) => Up
      case (LeansRight, Down) => Left
      case (LeansRight, Left) => Down;
    b.(direction := d)
  }

  /** A mirror sends a beam back the way it came when it is met from the
      other side: turning twice restores the direction. */
  lemma TurnTwice(m: Mirror, b: Beam)
    ensures Turn(m, Turn(m, b)) == b
  {
  }

  datatype Splitter = Horizontal | Vertical

  /** `Splitter::split`: a beam meeting the splitter side-on becomes two
      beams, in place, along the splitter; one meeting it end-on is not
      split. */
  function SplitBeam(s: Splitter, b: Beam): (r: Option<(Beam, Beam)>)
    ensures r.None? <==> ((s == Horizontal) == IsHorizontal(b.direction))
    ensures r.Some? ==> r.value.0.x == r.value.1.x == b.x && r.value.0.y == r.value.1.y == b.y
    ensures r.Some? ==> (s == Horizontal ==> r.value.0.direction == Left && r.value.1.direction == Right)
                        && (s == Vertical ==> r.value.0.direction == Up && r.value.1.direction == Down)
  {
    match (s, b.direction)
    case (Horizontal, Left) => None
    case (Horizontal, Right) => None
    case (Horizontal, _) => Some((b.(direction := Left), b.(direction := Right)))
    case (Vertical, Up) => None
    case (Vertical, Down) => None
    case (Vertical, _) => Some((b.(direction := Up), b.(direction := Down)))
  }

  datatype Cell = Empty | MirrorCell(mirror: Mirror) | SplitterCell(splitter: Splitter)

  /** An optional beam as a list of at most one. */
  function Listed(o: Option<Beam>): (r: seq<Beam>)
    ensures |r| <= 1 && (o.Some? ==> r == [o.value]) && (o.None? ==> r == [])
  {
    if o.Some? then [o.value] else []
  }

  /** `Cell::activate`: the beams leaving the cell, each one step on from
      it; a split sends the second beam first. */
  function Activate(c: Cell, b: Beam): (r: seq<Beam>)
    ensures |r| <= 2
    ensures forall i :: 0 <= i < |r| ==> StepFrom(b.x, b.y, r[i])
    ensures c == Empty ==> r == Listed(StepBeam(b))
  {
    match c
    case Empty => Listed(StepBeam(b))
    case MirrorCell(m) => Listed(StepBeam(Turn(m, b)))
    case SplitterCell(s) =>
      match SplitBeam(s, b)
      case Some((first, second)) => Listed(StepBeam(second)) + Listed(StepBeam(first))
      case None => Listed(StepBeam(b))
  }

  /** `TryFrom<char> for Cell`. */
  function CellFromChar(c: char): (r: Result<Cell>)
    ensures r.Ok? <==> c in {'.', '/', '\\', '|', '-'}
    ensures r == Ok(Empty) <==> c == '.'
  {
    match c
    case '.' => Ok(Empty)
    case '/' => Ok(MirrorCell(LeansRight))
    case '\\' => Ok(MirrorCell(LeansLeft))
    case '|' => Ok(SplitterCell(Vertical))
    case '-' => Ok(SplitterCell(Horizontal))
    case _ => Err
  }

  /** The cells row after row, `width` to a row. */
  datatype Contraption = Contraption(cells: seq<Cell>, width: nat)

  /** The number of rows.  `height()` divides by the width and panics on
      width zero; `step` only asks for it after a beam has passed the
      column test, which no beam passes at width zero, so the model reads
      zero rows there. */
  function Height(g: Contraption): nat {
    if g.width == 0 then 0 else |g.cells| / g.width
  }

  /** `get`: flat indexing, `None` past the end. */
  function Get(g: Contraption, x: nat, y: nat): (r: Option<Cell>)
    ensures r.Some? <==> y * g.width + x < |g.cells|
  {
    var i := y * g.width + x;
    if i < |g.cells| then Some(g.cells[i]) else None
  }

  predicate InGrid(g: Contraption, b: Beam)
  {
    b.x < g.width && b.y < Height(g)
  }

  /** The beams that stay on the grid, in order. */
  function KeepInGrid(g: Contraption, bs: seq<Beam>): (r: seq<Beam>)
    ensures |r| <= |bs|
    ensures forall b :: b in r <==> b in bs && InGrid(g, b)
    decreases |bs|
  {
    if |bs| == 0 then []
    else if InGrid(g, bs[0]) then [bs[0]] + KeepInGrid(g, bs[1..])
    else KeepInGrid(g, bs[1..])
  }

  /** What one beam turns into in one step: the cell under it (empty off
      the end of the cells) activated, and the results off the grid
      dropped. */
  function Successors(g: Contraption, b: Beam): (r: seq<Beam>)
    ensures |r| <= 2
    ensures forall s :: s in r ==> InGrid(g, s) && StepFrom(b.x, b.y, s)
  {
    var c := match Get(g, b.x, b.y) case Some(c) => c case None => Empty;
    KeepInGrid(g, Activate(c, b))
  }

  /** `step`: the successors of every beam, beam by beam. */
  function StepAll(g: Contraption, beams: seq<Beam>): (r: seq<Beam>)
    ensures forall s :: s in r <==> exists b :: b in beams && s in Successors(g, b)
    decreases |beams|
  {
    if |beams| == 0 then []
    else
      var rest := StepAll(g, beams[1..]);
      assert forall b :: b in beams <==> b == beams[0] || b in beams[1..];
      Successors(g, beams[0]) + rest
  }

  /** `retain` with insertion into the history: keep, in order, the beams
      not seen before, each once, and add them all to the history. */
  function RetainNew(seen: set<Beam>, beams: seq<Beam>): (r: (set<Beam>, seq<Beam>))
    ensures r.0 == seen + set b | b in beams
    ensures forall b :: b in r.1 <==> b in beams && b !in seen
    ensures forall i, j :: 0 <= i < j < |r.1| ==> r.1[i] != r.1[j]
    decreases |beams|
  {
    if |beams| == 0 then (seen, [])
    else if beams[0] in seen then
      var r := RetainNew(seen, beams[1..]);
      assert forall b :: b in beams <==> b == beams[0] || b in beams[1..];
      r
    else
      var (seen', kept) := RetainNew(seen + {beams[0]}, beams[1..]);
      assert forall b :: b in beams <==> b == beams[0] || b in beams[1..];
      (seen', [beams[0]] + kept)
  }

  // ---------------------------------------------------------- reachability

  /** The contraption's step relation, for the reachability lemmas. */
  function Step(g: Contraption): Beam -> seq<Beam> {
    b => Successors(g, b)
  }

  function DirOf(k: nat): Direction {
    if k == 0 then Up else if k == 1 then Down else if k == 2 then Left else Right
  }

  function DirIndex(d: Direction): (k: nat)
    ensures k < 4 && DirOf(k) == d
  {
    match d
    case Up => 0
    case Down => 1
    case Left => 2
    case Right => 3
  }

  /** Every beam on the grid, and the starting beam. */
  ghost function Universe(g: Contraption, start: Beam): (u: set<Beam>)
    ensures start in u && forall b :: InGrid(g, b) ==> b in u
  {
    var u := (set x, y, k | 0 <= x < g.width && 0 <= y < Height(g) && 0 <= k < 4 :: Beam(DirOf(k), x, y)) + {start};
    assert forall b :: InGrid(g, b) ==> b == Beam(DirOf(DirIndex(b.direction)), b.x, b.y);
    u
  }

  /** Whatever the beams, their successors are in the universe. */
  lemma ReachInUniverse(g: Contraption, start: Beam, k: nat)
    ensures Reach(Step(g), start, k) <= Universe(g, start)
  {
    var u := Universe(g, start);
    forall a
      ensures SuccessorsIn(Step(g), a, u)
    {
    }
    ReachWithin(Step(g), start, u, k);
  }

  /** The beams reachable from `start` in any number of steps. */
  ghost function Reachable(g: Contraption, start: Beam): set<Beam> {
    set b | b in Universe(g, start) && exists k: nat :: b in Reach(Step(g), start, k)
  }

  /** The positions of a set of beams. */
  function Tiles(s: set<Beam>): set<(nat, nat)> {
    set b | b in s :: (b.x, b.y)
  }

  /** The number of tiles a beam entering at `start` energizes. */
  ghost function Energy(g: Contraption, start: Beam): nat {
    |Tiles(Reachable(g, start))|
  }

  /** The history is made of reachable beams; the frontier holds the beams
      whose successors have not been looked at yet. */
  ghost predicate Explored(g: Contraption, start: Beam, seen: set<Beam>, frontier: seq<Beam>, k: nat) {
    start in seen
    && seen <= Reach(Step(g), start, k)
    && (forall b :: b in frontier ==> b in seen)
    && (forall a {:trigger SuccessorsIn(Step(g), a, seen)} :: a in seen && a !in frontier ==> SuccessorsIn(Step(g), a, seen))
  }

  /** The beams a round produces are reachable in one more step. */
  lemma NextGrows(g: Contraption, start: Beam, seen: set<Beam>, beams: seq<Beam>, k: nat)
    requires seen <= Reach(Step(g), start, k) && forall b :: b in beams ==> b in seen
    ensures forall s :: s in StepAll(g, beams) ==> s in Reach(Step(g), start, k + 1)
  {
    forall s | s in StepAll(g, beams)
      ensures s in Reach(Step(g), start, k + 1)
    {
      var b :| b in beams && s in Successors(g, b);
      ReachStep(Step(g), start, k, b, s);
    }
  }

  /** One round of `energize` keeps the exploration invariant. */
  lemma ExploreStep(g: Contraption, start: Beam, seen: set<Beam>, beams: seq<Beam>, k: nat)
    requires Explored(g, start, seen, beams, k)
    ensures var r := RetainNew(seen, StepAll(g, beams));
            Explored(g, start, r.0, r.1, k + 1)
  {
    var next := StepAll(g, beams);
    var r := RetainNew(seen, next);
    NextGrows(g, start, seen, beams, k);
    ReachGrows(Step(g), start, k);
    forall a | a in r.0 && a !in r.1
      ensures SuccessorsIn(Step(g), a, r.0)
    {
      forall b | b in Successors(g, a)
        ensures b in r.0
      {
        if a in seen && a in beams {
          assert b in next;
        } else if a in seen {
          assert SuccessorsIn(Step(g), a, seen);
        }
      }
    }
  }

  /** When the frontier is empty, the history is exactly the reachable
      set. */
  lemma ExploredDone(g: Contraption, start: Beam, seen: set<Beam>, k: nat)
    requires Explored(g, start, seen, [], k)
    ensures seen == Reachable(g, start)
  {
    assert Closed(Step(g), seen);
    ReachInUniverse(g, start, k);
    forall b | b in Reachable(g, start)
      ensures b in seen
    {
      var j: nat :| b in Reach(Step(g), start, j);
      ClosedHoldsReach(Step(g), start, seen, j, b);
    }
  }

  /** The history never leaves the universe, so it cannot grow forever. */
  lemma SeenBound(g: Contraption, start: Beam, seen: set<Beam>, k: nat)
    requires seen <= Reach(Step(g), start, k)
    ensures |seen| <= |Universe(g, start)|
  {
    ReachInUniverse(g, start, k);
    SubsetCard(seen, Universe(g, start));
  }

  /** One round explores, never shrinks the history, and grows it whenever
      it leaves beams to follow. */
  lemma ExploreProgress(g: Contraption, start: Beam, seen: set<Beam>, beams: seq<Beam>, k: nat)
    requires Explored(g, start, seen, beams, k)
    ensures var r := RetainNew(seen, StepAll(g, beams));
            Explored(g, start, r.0, r.1, k + 1) && |r.0| <= |Universe(g, start)|
            && |seen| <= |r.0| && (|r.1| > 0 ==> |seen| < |r.0|)
  {
    var r := RetainNew(seen, StepAll(g, beams));
    ExploreStep(g, start, seen, beams, k);
    SeenBound(g, start, r.0, k + 1);
    if |r.1| > 0 {
      assert r.1[0] in r.0 && r.1[0] !in seen;
      SubsetCard(seen + {r.1[0]}, r.0);
    } else {
      SubsetCard(seen, r.0);
    }
  }

  /** `energize`: the number of tiles the beam entering at `start`
      energizes. */
  method Energize(g: Contraption, start: Beam) returns (n: nat)
    ensures n == Energy(g, start)
  {
    var seen := {start};
    var beams := [start];
    ghost var k := 0;
    ghost var u := Universe(g, start);
    SeenBound(g, start, seen, k);
    while |beams| > 0
      invariant Explored(g, start, seen, beams, k)
      invariant |seen| <= |u|
      decreases |u| - |seen| + (if |beams| > 0 then 1 else 0)
    {
      var r := RetainNew(seen, StepAll(g, beams));
      ExploreProgress(g, start, seen, beams, k);
      seen, beams := r.0, r.1;
      k := k + 1;
    }
    ExploredDone(g, start, seen, k);
    n := |Tiles(seen)|;
  }

  /** `FromStr`: every line as long as the first, every character a cell.
      The cells are the lines' cells, row after row. */
  function ParseRow(line: string): (r: Result<seq<Cell>>)
    ensures r.Ok? <==> forall i :: 0 <= i < |line| ==> CellFromChar(line[i]).Ok?
    ensures r.Ok? ==> |r.value| == |line| && forall i :: 0 <= i < |line| ==> r.value[i] == CellFromChar(line[i]).value
  {
    MapAll(line, CellFromChar)
  }

  /** Every line has `width` characters, all of them cells. */
  predicate Rectangle(lines: seq<string>, width: nat) {
    forall y :: 0 <= y < |lines| ==> |lines[y]| == width && ParseRow(lines[y]).Ok?
  }

  function ParseRows(lines: seq<string>, width: nat): (r: Result<seq<seq<Cell>>>)
    ensures r.Ok? <==> Rectangle(lines, width)
    ensures r.Ok? ==> |r.value| == |lines| && forall y :: 0 <= y < |lines| ==> r.value[y] == ParseRow(lines[y]).value
  {
    var rows :- MapAll(lines, ParseRow);
    if forall y :: 0 <= y < |lines| ==> |lines[y]| == width then Ok(rows) else Err
  }

  function Parse(s: string): (r: Result<Contraption>)
    ensures var lines := Lines(s);
            var w := if |lines| == 0 then 0 else |lines[0]|;
            (r.Ok? <==> Rectangle(lines, w))
            && (r.Ok? ==> r.value.width == w && r.value.cells == Flatten(ParseRows(lines, w).value))
  {
    var lines := Lines(s);
    var w := if |lines| == 0 then 0 else |lines[0]|;
    var rows :- ParseRows(lines, w);
    Ok(Contraption(Flatten(rows), w))
  }

  /** A parsed contraption is as tall as the input, and `get(x, y)` reads
      character `x` of line `y`. */
  lemma ParseGet(s: string, x: nat, y: nat)
    requires Parse(s).Ok?
    ensures var g := Parse(s).value;
            var lines := Lines(s);
            |g.cells| == |lines| * g.width
            && (y < |lines| && x < g.width ==> Get(g, x, y) == Some(CellFromChar(lines[y][x]).value))
  {
    var g := Parse(s).value;
    var lines := Lines(s);
    var rows := ParseRows(lines, g.width).value;
    FlattenLength(rows, g.width);
    if y < |lines| && x < g.width {
      FlattenAt(rows, g.width, y, x);
    }
  }
}

=== FILE: day17_clumsy_crucible.dfy ===
/** Day 17, `dijkstra.rs`: the least heat a crucible loses on its way from
    the top-left block of the city to the bottom-right one, when it must
    turn after a number of blocks in one direction and may only turn after
    a number of blocks.

    A search state is a position, a heading and a run counter.  `run` is
    zero on the first block after a turn and grows by one on each block
    straight on; the four states at the start have run zero.  The search is
    Dijkstra's algorithm over these states with the frontier kept as a map
    from state to best known cost and the unvisited states kept as a set. */
module Day17 {
  import opened Wrappers
  import opened Text
  import opened Seqs
  import opened Day17Point
  import SP = ShortestPath

  datatype Dir = Up | Down | Left | Right

  datatype State = State(point: Point, dir: Dir, run: nat)

  /** The city: one heat-loss digit per block, row after row. */
  datatype Grid = Grid(cells: seq<nat>, width: nat, height: nat)

  /** The rules of one search: the city, the fewest blocks before a turn
      (`min`), the most blocks in one direction (`max`), and the smallest
      run counter accepted at the finish (`finishRun`). */
  datatype Crucible = Crucible(grid: Grid, min: nat, max: nat, finishRun: nat)

  // ------------------------------------------------------------- the map

  /** One row of digits. */
  function ParseDigits(line: string): (r: Result<seq<nat>>)
    ensures r.Ok? <==> forall i :: 0 <= i < |line| ==> IsDigit(line[i])
    ensures r.Ok? ==> |r.value| == |line| && forall i :: 0 <= i < |line| ==> r.value[i] == DigitValue(line[i])
  {
    if |line| == 0 then Ok([])
    else if !IsDigit(line[0]) then Err
    else
      var rest :- ParseDigits(line[1..]);
      Ok([DigitValue(line[0])] + rest)
  }

  function ParseLines(lines: seq<string>): (r: Result<seq<seq<nat>>>)
    ensures r.Ok? <==> forall y :: 0 <= y < |lines| ==> ParseDigits(lines[y]).Ok?
    ensures r.Ok? ==> |r.value| == |lines| && forall y :: 0 <= y < |lines| ==> r.value[y] == ParseDigits(lines[y]).value
  {
    if |lines| == 0 then Ok([])
    else
      var row :- ParseDigits(lines[0]);
      var rest :- ParseLines(lines[1..]);
      Ok([row] + rest)
  }

  /** `parse_map`: the width is the first line's length and the height the
      number of lines; every character must be a digit.  The only shape
      check is that the number of cells divided by the height is the width
      with nothing left over, so rows of different lengths pass when the
      total comes out right. */
  function ParseMap(input: string): (r: Result<Grid>)
    ensures var lines := Lines(input);
            r.Ok? <==> |lines| > 0 && ParseLines(lines).Ok?
                       && |Flatten(ParseLines(lines).value)| == |lines[0]| * |lines|
    ensures r.Ok? ==> var lines := Lines(input);
                      r.value.width == |lines[0]| && r.value.height == |lines|
                      && r.value.cells == Flatten(ParseLines(lines).value)
                      && |r.value.cells| == r.value.width * r.value.height
  {
    var lines := Lines(input);
    if |lines| == 0 then Err
    else
      var rows :- ParseLines(lines);
      var cells := Flatten(rows);
      var w, h := |lines[0]|, |lines|;
      DivModExact(|cells|, h, w);
      if |cells| / h == w && |cells| % h == 0 then Ok(Grid(cells, w, h)) else Err
  }

  /** Rows of equal length, all digits, always pass. */
  lemma RectangleParses(input: string)
    requires var lines := Lines(input);
             |lines| > 0 && forall y :: 0 <= y < |lines| ==> |lines[y]| == |lines[0]| && ParseDigits(lines[y]).Ok?
    ensures ParseMap(input).Ok?
  {
    var lines := Lines(input);
    FlattenLength(ParseLines(lines).value, |lines[0]|);
  }

  // ----------------------------------------------------------- the moves

  predicate InGrid(g: Grid, p: Point) {
    p.x < g.width && p.y < g.height
  }

  /** The heat lost on entering block `p`, read at `y * width + x`. */
  function Weight(g: Grid, p: Point): nat {
    var i := p.y * g.width + p.x;
    if i < |g.cells| then g.cells[i] else 0
  }

  /** A block of a well-formed grid is read from its cells, never from the
      fallback. */
  lemma WeightInRange(g: Grid, p: Point)
    requires |g.cells| == g.width * g.height && InGrid(g, p)
    ensures p.y * g.width + p.x < |g.cells|
  {
    MulSucc(p.y, g.width);
    MulLe(p.y + 1, g.height, g.width);
  }

  lemma MulLe(a: nat, b: nat, c: nat)
    requires a <= b
    ensures a * c <= b * c
  {
  }

  /** The bottom-right block.  `width - 1` underflows on a grid of empty
      lines, which `dijkstra` does not survive; the model keeps the function
      total and never searches such a grid. */
  function Finish(g: Grid): Point {
    Point(if g.width > 0 then g.width - 1 else 0, if g.height > 0 then g.height - 1 else 0)
  }

  /** The block one step from `p` in direction `d`, by the checked point
      arithmetic. */
  function Neighbour(p: Point, d: Dir): Option<Point> {
    match d
    case Up => Sub(p, 0, 1)
    case Down => Add(p, 0, 1)
    case Left => Sub(p, 1, 0)
    case Right => Add(p, 1, 0)
  }

  /** `min.saturating_sub(1)` */
  function TurnRun(min: nat): nat {
    if min == 0 then 0 else min - 1
  }

  /** A state of the search: on the grid with a run counter below `max`;
      the states `unvis` starts with. */
  predicate InSpace(k: Crucible, s: State) {
    InGrid(k.grid, s.point) && s.run < k.max
  }

  /** `add_dir(d)` from state `s`: the state one block on heading `d`,
      straight on adding one to the run and a turn starting it again, when
      that block is on the grid and the state is one of the search's. */
  function Target(k: Crucible, s: State, d: Dir): (r: Option<State>)
    ensures r.Some? ==> InSpace(k, r.value) && r.value.dir == d
    ensures r.Some? ==> r.value.run == (if d == s.dir then s.run + 1 else 0)
  {
    match Neighbour(s.point, d)
    case None => None
    case Some(p) =>
      var r := if s.dir == d then s.run + 1 else 0;
      if InGrid(k.grid, p) && r < k.max then Some(State(p, d, r)) else None
  }

  predicate Vertical(d: Dir) {
    d == Up || d == Down
  }

  /** The states the search relaxes from `s`: straight on while the run is
      below `min - 1` or below `max - 1`, and, once the run has reached
      `min - 1`, the two turns. */
  function Moves(k: Crucible, s: State): (r: seq<State>)
    ensures |r| <= 3 && forall t :: t in r ==> InSpace(k, t)
  {
    var before := s.run < TurnRun(k.min);
    var inRange := s.run >= TurnRun(k.min) && s.run + 1 < k.max;
    var forward := if before || inRange then Listed(Target(k, s, s.dir)) else [];
    if before then forward
    else
      forward
      + (if !Vertical(s.dir) then Listed(Target(k, s, Up)) + Listed(Target(k, s, Down)) else [])
      + (if Vertical(s.dir) then Listed(Target(k, s, Right)) + Listed(Target(k, s, Left)) else [])
  }

  function Listed(o: Option<State>): (r: seq<State>)
    ensures |r| <= 1 && (o.Some? ==> r == [o.value]) && (o.None? ==> r == [])
  {
    if o.Some? then [o.value] else []
  }

  /** The direction straight back. */
  function Reverse(d: Dir): Dir {
    match d
    case Up => Down
    case Down => Up
    case Left => Right
    case Right => Left
  }

  /** The transition rules: every move goes one block on in its heading;
      straight on adds one to the run and needs a run below `max - 1` or
      below `min - 1`; a turn needs a run of at least `min - 1` and starts
      the run again; the crucible never reverses. */
  lemma MoveRules(k: Crucible, s: State, t: State)
    requires t in Moves(k, s)
    ensures Neighbour(s.point, t.dir) == Some(t.point)
    ensures t.dir != Reverse(s.dir)
    ensures t.dir == s.dir ==> t.run == s.run + 1 && (s.run + 1 < k.max || s.run < TurnRun(k.min))
    ensures t.dir != s.dir ==> t.run == 0 && s.run >= TurnRun(k.min)
    ensures t.run < k.max
  {
  }

  /** Going straight on is a move while the run is below `min - 1` or one
      more block stays below `max`, when the next block is on the grid. */
  lemma StraightOn(k: Crucible, s: State, p: Point)
    requires Neighbour(s.point, s.dir) == Some(p) && InGrid(k.grid, p) && s.run + 1 < k.max
    ensures State(p, s.dir, s.run + 1) in Moves(k, s)
  {
  }

  /** Turning to either side is a move once the run has reached `min - 1`,
      when the block turned to is on the grid. */
  lemma TurnTo(k: Crucible, s: State, d: Dir, p: Point)
    requires d != s.dir && d != Reverse(s.dir) && s.run >= TurnRun(k.min) && k.max > 0
    requires Neighbour(s.point, d) == Some(p) && InGrid(k.grid, p)
    ensures State(p, d, 0) in Moves(k, s)
  {
  }

  // ------------------------------------------------------------ the graph

  function StartState(d: Dir): State {
    State(Point(0, 0), d, 0)
  }

  function DirOf(i: nat): Dir {
    if i == 0 then Up else if i == 1 then Down else if i == 2 then Left else Right
  }

  function DirIndex(d: Dir): (i: nat)
    ensures i < 4 && DirOf(i) == d
  {
    match d
    case Up => 0
    case Down => 1
    case Left => 2
    case Right => 3
  }

  /** The states `unvis` starts with: every block, heading and run below
      `max`. */
  function Space(k: Crucible): (r: set<State>)
    ensures forall s :: s in r <==> InSpace(k, s)
  {
    var w, h := k.grid.width, k.grid.height;
    var r := set x, y, i, run | 0 <= x < w && 0 <= y < h && 0 <= i < 4 && 0 <= run < k.max :: State(Point(x, y), DirOf(i), run);
    assert forall s :: InSpace(k, s) ==> s == State(Point(s.point.x, s.point.y), DirOf(DirIndex(s.dir)), s.run);
    r
  }

  /** A state the search returns on: on the finish block with a run of at
      least `finishRun`. */
  predicate AtGoal(k: Crucible, s: State) {
    s.point == Finish(k.grid) && s.run >= k.finishRun
  }

  /** The search `dijkstra` runs: the moves of `Moves`, the weight of the
      block entered, no moving on from the finish block, the goal of
      `AtGoal`, and the four headings on the top-left block at cost zero. */
  function Graph(k: Crucible): SP.Graph<State> {
    SP.Graph((s: State) => Moves(k, s), (s: State) => Weight(k.grid, s.point), (s: State) => s.point == Finish(k.grid),
             (s: State) => AtGoal(k, s),
             [StartState(Up), StartState(Down), StartState(Left), StartState(Right)], Space(k))
  }

  /** On a grid with a block and a positive `max`, the start states and
      every move are states of the search. */
  lemma GraphWellFormed(k: Crucible)
    requires k.grid.width > 0 && k.grid.height > 0 && k.max > 0
    ensures SP.WellFormed(Graph(k))
  {
    var g := Graph(k);
    forall s, t | t in g.succ(s)
      ensures t in g.space
    {
      assert t in Moves(k, s);
    }
  }

  /** A route of the crucible from the top-left block, passing the finish
      block only at its end. */
  ghost predicate Route(k: Crucible, p: seq<State>) {
    SP.Route(Graph(k), p)
  }

  ghost predicate GoalRoute(k: Crucible, p: seq<State>) {
    SP.GoalRoute(Graph(k), p)
  }

  /** The heat lost along a route: every block entered after the first. */
  function HeatLoss(k: Crucible, p: seq<State>): nat {
    SP.Cost(Graph(k), p)
  }

  /** Each step of a route follows the transition rules and leaves a block
      other than the finish. */
  lemma RouteRules(k: Crucible, p: seq<State>, i: nat)
    requires Route(k, p) && i + 1 < |p|
    ensures p[i].point != Finish(k.grid) && p[0].point == Point(0, 0) && p[0].run == 0
    ensures Neighbour(p[i].point, p[i + 1].dir) == Some(p[i + 1].point) && p[i + 1].dir != Reverse(p[i].dir)
    ensures p[i + 1].dir == p[i].dir ==> p[i + 1].run == p[i].run + 1
    ensures p[i + 1].dir != p[i].dir ==> p[i + 1].run == 0 && p[i].run >= TurnRun(k.min)
  {
    assert p[i + 1] in Graph(k).succ(p[i]);
    MoveRules(k, p[i], p[i + 1]);
  }

  /** With `max` zero no state has a move, so a route is a start state
      alone. */
  lemma NoMoves(k: Crucible, p: seq<State>)
    requires k.max == 0 && Route(k, p)
    ensures |p| == 1 && p[0].point == Point(0, 0) && p[0].run == 0
  {
    assert SP.Route(Graph(k), p);
    assert |p| <= 1 || Graph(k).succ(p[0]) != [] by {
      if |p| > 1 {
        assert p[1] in Graph(k).succ(p[0]);
      }
    }
    assert Graph(k).succ(p[0]) == [];
  }

  // ------------------------------------------------------------ the search

  /** `dijkstra` on a parsed grid: the least heat loss of a route to the
      finish block with an accepted run, `None` where `dijkstra` panics
      because the frontier runs dry.  With `max` zero no state is
      unvisited, and only a single-block grid whose start is accepted at
      the finish returns. */
  method Lowest(k: Crucible) returns (r: Option<nat>)
    requires k.grid.width > 0 && k.grid.height > 0
    ensures r.Some? <==> exists p :: GoalRoute(k, p)
    ensures r.Some? ==> (exists p :: GoalRoute(k, p) && HeatLoss(k, p) == r.value)
                        && forall p :: GoalRoute(k, p) ==> r.value <= HeatLoss(k, p)
  {
    if k.max == 0 {
      var start := [StartState(Up)];
      if k.grid.width == 1 && k.grid.height == 1 && k.finishRun == 0 {
        assert GoalRoute(k, start) && HeatLoss(k, start) == 0;
        return Some(0);
      }
      forall p | GoalRoute(k, p)
        ensures false
      {
        NoMoves(k, p);
      }
      return None;
    }
    var g := Graph(k);
    GraphWellFormed(k);
    r := SP.Search(g);
    forall p
      ensures GoalRoute(k, p) == SP.GoalRoute(g, p) && HeatLoss(k, p) == SP.Cost(g, p)
    {
    }
    if r.Some? {
      ghost var p :| SP.GoalRoute(g, p) && SP.Cost(g, p) == r.value;
      assert GoalRoute(k, p);
    }
  }

  /** `dijkstra(input, min, max)`: parse the map and search it, accepting
      at the finish a run of at least `min`.  `Err` stands for each panic:
      a malformed map, a map of empty lines, and no route reaching an
      accepted state at the finish. */
  method Dijkstra(input: string, min: nat, max: nat) returns (r: Result<nat>)
    ensures r.Ok? <==> ParseMap(input).Ok? && ParseMap(input).value.width > 0
                       && exists p :: GoalRoute(Crucible(ParseMap(input).value, min, max, min), p)
    ensures r.Ok? ==> var k := Crucible(ParseMap(input).value, min, max, min);
                      (exists p :: GoalRoute(k, p) && HeatLoss(k, p) == r.value)
                      && forall p :: GoalRoute(k, p) ==> r.value <= HeatLoss(k, p)
  {
    r := Solve(input, min, max, min);
  }

  /** `dijkstra` with the finish accepting a run of at least `min - 1`, the
      same count the turn rule uses: `min` blocks in the last direction. */
  method DijkstraIntended(input: string, min: nat, max: nat) returns (r: Result<nat>)
    ensures r.Ok? <==> ParseMap(input).Ok? && ParseMap(input).value.width > 0
                       && exists p :: GoalRoute(Crucible(ParseMap(input).value, min, max, TurnRun(min)), p)
    ensures r.Ok? ==> var k := Crucible(ParseMap(input).value, min, max, TurnRun(min));
                      (exists p :: GoalRoute(k, p) && HeatLoss(k, p) == r.value)
                      && forall p :: GoalRoute(k, p) ==> r.value <= HeatLoss(k, p)
  {
    r := Solve(input, min, max, TurnRun(min));
  }

  method Solve(input: string, min: nat, max: nat, finishRun: nat) returns (r: Result<nat>)
    ensures r.Ok? <==> ParseMap(input).Ok? && ParseMap(input).value.width > 0
                       && exists p :: GoalRoute(Crucible(ParseMap(input).value, min, max, finishRun), p)
    ensures r.Ok? ==> var k := Crucible(ParseMap(input).value, min, max, finishRun);
                      (exists p :: GoalRoute(k, p) && HeatLoss(k, p) == r.value)
                      && forall p :: GoalRoute(k, p) ==> r.value <= HeatLoss(k, p)
  {
    var parsed := ParseMap(input);
    if parsed.Err? || parsed.value.width == 0 {
      return Err;
    }
    var found := Lowest(Crucible(parsed.value, min, max, finishRun));
    if found.None? {
      return Err;
    }
    return Ok(found.value);
  }

  /** `part_one`: at most three blocks in one direction and no least run;
      here the finish check and its intended form agree. */
  method PartOne(input: string) returns (r: Result<nat>)
    ensures r.Ok? <==> ParseMap(input).Ok? && ParseMap(input).value.width > 0
                       && exists p :: GoalRoute(Crucible(ParseMap(input).value, 0, 3, 0), p)
    ensures r.Ok? ==> var k := Crucible(ParseMap(input).value, 0, 3, 0);
                      (exists p :: GoalRoute(k, p) && HeatLoss(k, p) == r.value)
                      && forall p :: GoalRoute(k, p) ==> r.value <= HeatLoss(k, p)
  {
    r := Dijkstra(input, 0, 3);
  }

  /** `part_two`: the ultra crucible, four to ten blocks in one direction,
      accepted at the finish only with a run counter of at least four. */
  method PartTwo(input: string) returns (r: Result<nat>)
    ensures r.Ok? <==> ParseMap(input).Ok? && ParseMap(input).value.width > 0
                       && exists p :: GoalRoute(Crucible(ParseMap(input).value, 4, 10, 4), p)
    ensures r.Ok? ==> var k := Crucible(ParseMap(input).value, 4, 10, 4);
                      (exists p :: GoalRoute(k, p) && HeatLoss(k, p) == r.value)
                      && forall p :: GoalRoute(k, p) ==> r.value <= HeatLoss(k, p)
  {
    r := Dijkstra(input, 4, 10);
  }

  // ------------------------------------------------- the finish check

  /** The run counter cannot outgrow the blocks behind it: heading down it
      is at most the row, and equal only in the first column; heading right
      it is at most the column, and equal only in the first row.  Every
      state of a route is on the grid. */
  ghost predicate RunBounded(k: Crucible, s: State) {
    InGrid(k.grid, s.point)
    && (s.dir == Down ==> s.run <= s.point.y && (s.run == s.point.y ==> s.point.x == 0))
    && (s.dir == Right ==> s.run <= s.point.x && (s.run == s.point.x ==> s.point.y == 0))
  }

  lemma {:induction false} RouteRunBounded(k: Crucible, p: seq<State>)
    requires Route(k, p) && k.grid.width > 0 && k.grid.height > 0
    ensures RunBounded(k, SP.Last(p))
    decreases |p|
  {
    if |p| == 1 {
      assert p[0] in Graph(k).starts;
    } else {
      var q := p[..|p| - 1];
      SP.RoutePrefix(Graph(k), p);
      RouteRunBounded(k, q);
      MoveRules(k, SP.Last(q), SP.Last(p));
    }
  }

  /** A route reaching the bottom-right block of a grid at least two blocks
      wide and high arrives heading down or right, with a run at least two
      below the height or the width. */
  lemma FinishRun(k: Crucible, p: seq<State>)
    requires Route(k, p) && k.grid.width > 1 && k.grid.height > 1 && SP.Last(p).point == Finish(k.grid)
    ensures SP.Last(p).dir == Down ==> SP.Last(p).run + 2 <= k.grid.height
    ensures SP.Last(p).dir == Right ==> SP.Last(p).run + 2 <= k.grid.width
    ensures SP.Last(p).dir == Down || SP.Last(p).dir == Right
  {
    RouteRunBounded(k, p);
    var q := p[..|p| - 1];
    SP.RoutePrefix(Graph(k), p);
    RouteRunBounded(k, q);
    MoveRules(k, SP.Last(q), SP.Last(p));
  }

  /** A five by five city of blocks that each lose one unit of heat. */
  function Ones(): (g: Grid)
    ensures g.width == 5 && g.height == 5 && |g.cells| == 25
  {
    Grid(seq(25, i => 1), 5, 5)
  }

  /** As written, the ultra crucible never finishes on `Ones`: a run of
      `min` = 4 at the finish means five blocks straight, but the last leg
      has only four blocks to cover. */
  lemma OnesNeverFinishAsWritten()
    ensures forall p :: !GoalRoute(Crucible(Ones(), 4, 10, 4), p)
  {
    var k := Crucible(Ones(), 4, 10, 4);
    forall p | GoalRoute(k, p)
      ensures false
    {
      FinishRun(k, p);
    }
  }

  /** Four blocks right and four down. */
  function OnesRoute(): seq<State> {
    [StartState(Right), State(Point(1, 0), Right, 1), State(Point(2, 0), Right, 2),
     State(Point(3, 0), Right, 3), State(Point(4, 0), Right, 4), State(Point(4, 1), Down, 0),
     State(Point(4, 2), Down, 1), State(Point(4, 3), Down, 2), State(Point(4, 4), Down, 3)]
  }

  /** With the finish counted as the turn rule counts, `OnesRoute` reaches
      an accepted state at the finish with a heat loss of 8. */
  lemma OnesFinishIntended()
    ensures GoalRoute(Crucible(Ones(), 4, 10, 3), OnesRoute())
    ensures HeatLoss(Crucible(Ones(), 4, 10, 3), OnesRoute()) == 8
  {
    var r := OnesRoute();
    OnesPrefix(9);
    assert r[..9] == r;
  }

  /** The first `n` states of `OnesRoute` are a route losing `n - 1`. */
  lemma {:induction false} OnesPrefix(n: nat)
    requires 1 <= n <= 9
    ensures var k, r := Crucible(Ones(), 4, 10, 3), OnesRoute();
            Route(k, r[..n]) && HeatLoss(k, r[..n]) == n - 1
  {
    var k, r := Crucible(Ones(), 4, 10, 3), OnesRoute();
    if n == 1 {
      assert Route(k, r[..1]);
    } else {
      OnesPrefix(n - 1);
      OnesStep(n - 1);
      Extend(k, r, n - 1);
    }
  }

  /** Each state of `OnesRoute` after the first is a move of the one
      before, entering a block that loses one. */
  lemma OnesStep(i: nat)
    requires 0 < i < 9
    ensures var k, r := Crucible(Ones(), 4, 10, 3), OnesRoute();
            r[i - 1].point != Finish(k.grid) && r[i] in Moves(k, r[i - 1]) && Weight(k.grid, r[i].point) == 1
  {
    var k, r := Crucible(Ones(), 4, 10, 3), OnesRoute();
    if i == 5 {
      TurnTo(k, r[4], Down, r[5].point);
    } else {
      StraightOn(k, r[i - 1], r[i].point);
    }
    OnesWeight(r[i].point);
  }

  /** A route to state `i - 1` of `r` that moves on to state `i` is a route
      one longer, losing the heat of the block entered. */
  lemma Extend(k: Crucible, r: seq<State>, i: nat)
    requires 0 < i < |r| && Route(k, r[..i]) && r[i - 1].point != Finish(k.grid) && r[i] in Moves(k, r[i - 1])
    ensures Route(k, r[..i + 1]) && HeatLoss(k, r[..i + 1]) == HeatLoss(k, r[..i]) + Weight(k.grid, r[i].point)
  {
    assert r[..i + 1] == r[..i] + [r[i]];
    SP.RouteExtend(Graph(k), r[..i], r[i]);
  }

  /** Every block of `Ones` loses one unit of heat. */
  lemma OnesWeight(p: Point)
    requires InGrid(Ones(), p)
    ensures Weight(Ones(), p) == 1
  {
    WeightInRange(Ones(), p);
  }
}

=== FILE: day17_point.dfy ===
/** Day 17, `point.rs`: grid points with `usize` coordinates, moved by
    checked addition and subtraction of an offset. */
module Day17Point {
  import opened Wrappers
  import opened Seqs

  /** The largest `usize` on a 64-bit target. */
  const UsizeMax: nat := 0xFFFF_FFFF_FFFF_FFFF

  datatype Point = Point(x: nat, y: nat)

  /** Both coordinates are `usize` values. */
  predicate Fits(p: Point) {
    p.x <= UsizeMax && p.y <= UsizeMax
  }

  /** `p + (dx, dy)`: `checked_add` on each coordinate, `None` on
      overflow. */
  function Add(p: Point, dx: nat, dy: nat): (r: Option<Point>)
    ensures r.Some? <==> p.x + dx <= UsizeMax && p.y + dy <= UsizeMax
    ensures r.Some? ==> Fits(r.value) && r.value.x - dx == p.x && r.value.y - dy == p.y
  {
    if p.x + dx > UsizeMax || p.y + dy > UsizeMax then None
    else Some(Point(p.x + dx, p.y + dy))
  }

  /** `p - (dx, dy)`: `checked_sub` on each coordinate, `None` below
      zero. */
  function Sub(p: Point, dx: nat, dy: nat): (r: Option<Point>)
    ensures r.None? <==> dx > p.x || dy > p.y
    ensures r.Some? ==> r.value.x + dx == p.x && r.value.y + dy == p.y
  {
    if dx > p.x || dy > p.y then None
    else Some(Point(p.x - dx, p.y - dy))
  }

  /** Subtracting an offset undoes adding it. */
  lemma SubAdd(p: Point, dx: nat, dy: nat)
    requires Add(p, dx, dy).Some?
    ensures Sub(Add(p, dx, dy).value, dx, dy) == Some(p)
  {
  }

  /** Adding an offset undoes subtracting it, for a point that fits. */
  lemma AddSub(p: Point, dx: nat, dy: nat)
    requires Fits(p) && Sub(p, dx, dy).Some?
    ensures Add(Sub(p, dx, dy).value, dx, dy) == Some(p)
  {
  }

  function AbsDiff(a: nat, b: nat): nat {
    if a < b then b - a else a - b
  }

  /** `distance`: the Manhattan distance. */
  function Distance(p: Point, q: Point): (d: nat)
    ensures d == 0 <==> p == q
  {
    AbsDiff(p.x, q.x) + AbsDiff(p.y, q.y)
  }

  lemma DistanceSymmetric(p: Point, q: Point)
    ensures Distance(p, q) == Distance(q, p)
  {
  }

  /** Going through a third point is never shorter. */
  lemma DistanceTriangle(p: Point, q: Point, r: Point)
    ensures Distance(p, r) <= Distance(p, q) + Distance(q, r)
  {
  }

  /** A move by an offset covers the offset's length. */
  lemma DistanceOfAdd(p: Point, dx: nat, dy: nat)
    requires Add(p, dx, dy).Some?
    ensures Distance(p, Add(p, dx, dy).value) == dx + dy
  {
  }

  /** `Index<Point>`: row `y`, column `x`. */
  function At<T>(grid: seq<seq<T>>, p: Point): (v: T)
    requires p.y < |grid| && p.x < |grid[p.y]|
    ensures v in grid[p.y]
  {
    grid[p.y][p.x]
  }

  /** Reading a rectangular grid at a point is reading its rows laid end to
      end at `y * width + x`, the index the search uses. */
  lemma AtFlat<T>(grid: seq<seq<T>>, w: nat, p: Point)
    requires forall i :: 0 <= i < |grid| ==> |grid[i]| == w
    requires p.y < |grid| && p.x < w
    ensures p.y * w + p.x < |Flatten(grid)| && At(grid, p) == Flatten(grid)[p.y * w + p.x]
  {
    FlattenAt(grid, w, p.y, p.x);
  }

  /** The test: one step down from `(0, 1)` reaches row 2. */
  lemma AddExample()
    ensures Add(Point(0, 1), 0, 1) == Some(Point(0, 2))
  {
  }
}

=== FILE: day18_lavaduct_lagoon.dfy ===
/** Day 18, `lagoon.rs`: the dig plan traces the edge of a lagoon one
    straight trench at a time, and the lagoon's size in cubic metres is
    found from the corners of that edge by the shoelace formula plus half
    the length of the edge plus one, which is Pick's theorem counting the
    edge's own metres.

    Vertices are the positions after each trench, starting from the origin;
    `y` grows downwards.  Coordinates are unbounded here, where `Vertex`
    holds `i64`. */
module Day18 {
  import opened Wrappers
  import opened Text
  import opened Seqs

  datatype Vertex = Vertex(x: int, y: int)

  datatype Heading = Up | Down | Left | Right

  /** One line of the dig plan: a heading and a distance.  The distance is
      parsed as an `i64`, so a negative one is accepted and digs backwards. */
  datatype Move = Move(dir: Heading, count: int)

  const Origin := Vertex(0, 0)

  function Abs(n: int): nat {
    if n < 0 then -n else n
  }

  // ------------------------------------------------------------ the area

  /** `a.x.abs_diff(b.x) + a.y.abs_diff(b.y)`: the length of a trench. */
  function Manhattan(a: Vertex, b: Vertex): int {
    Abs(a.x - b.x) + Abs(a.y - b.y)
  }

  /** One shoelace term: twice the signed area swept from the origin. */
  function Cross(a: Vertex, b: Vertex): int {
    a.x * b.y - a.y * b.x
  }

  /** The summand `area` takes for each pair of consecutive vertices. */
  function Term(a: Vertex, b: Vertex): int {
    Manhattan(a, b) + (a.x * b.y - a.y * b.x)
  }

  /** `f` summed over `windows(2)`: each vertex with the next. */
  function Chain(f: (Vertex, Vertex) -> int, v: seq<Vertex>): int
    decreases |v|
  {
    if |v| < 2 then 0 else f(v[0], v[1]) + Chain(f, v[1..])
  }

  function Last(v: seq<Vertex>): Vertex
    requires |v| > 0
  {
    v[|v| - 1]
  }

  /** `f` summed over every edge of the closed polygon, the edge from the
      last vertex back to the first included. */
  function Closed(f: (Vertex, Vertex) -> int, v: seq<Vertex>): int {
    if |v| == 0 then 0 else Chain(f, v) + f(Last(v), v[0])
  }

  /** Twice the signed area: positive when the edge runs clockwise on
      screen, with `y` growing downwards. */
  function Shoelace(v: seq<Vertex>): int {
    Closed(Cross, v)
  }

  function Perimeter(v: seq<Vertex>): int {
    Closed(Manhattan, v)
  }

  /** Integer `/ 2` on `i64`, which rounds towards zero. */
  function Half(n: int): int {
    if n >= 0 then n / 2 else -((-n) / 2)
  }

  /** `Lagoon::area` as written: the signed shoelace sum, so a plan that
      runs anticlockwise takes the enclosed area off instead of adding it. */
  function AreaAsWritten(v: seq<Vertex>): (r: int)
    ensures |v| < 3 ==> r == 0
  {
    if |v| < 3 then 0
    else
      var first, last := v[0], Last(v);
      Half(Chain(Term, v) + first.y * last.x - first.x * last.y + Manhattan(last, first)) + 1
  }

  /** The size of the lagoon: the shoelace area whichever way the edge
      runs, plus the edge's own metres by Pick's theorem. */
  function Area(v: seq<Vertex>): (a: int)
    ensures a >= 0 && (|v| >= 3 ==> a >= 1)
  {
    if |v| < 3 then 0
    else
      PerimeterNonNegative(v);
      (Abs(Shoelace(v)) + Perimeter(v)) / 2 + 1
  }

  lemma {:induction false} ChainManhattanNonNegative(v: seq<Vertex>)
    ensures Chain(Manhattan, v) >= 0
    decreases |v|
  {
    if |v| >= 2 {
      ChainManhattanNonNegative(v[1..]);
    }
  }

  lemma PerimeterNonNegative(v: seq<Vertex>)
    ensures Perimeter(v) >= 0
  {
    ChainManhattanNonNegative(v);
  }

  /** The windows' summands split into the shoelace terms and the trench
      lengths. */
  lemma {:induction false} ChainTerm(v: seq<Vertex>)
    ensures Chain(Term, v) == Chain(Cross, v) + Chain(Manhattan, v)
    decreases |v|
  {
    if |v| >= 2 {
      ChainTerm(v[1..]);
    }
  }

  /** `area`'s sum is the shoelace sum plus the perimeter, halved towards
      zero. */
  lemma AreaAsWrittenIs(v: seq<Vertex>)
    requires |v| >= 3
    ensures AreaAsWritten(v) == Half(Shoelace(v) + Perimeter(v)) + 1
  {
    ChainTerm(v);
    assert v[0].y * Last(v).x - v[0].x * Last(v).y == Cross(Last(v), v[0]);
  }

  /** Where the edge runs clockwise the two agree. */
  lemma AsWrittenAgrees(v: seq<Vertex>)
    ensures Shoelace(v) >= 0 ==> AreaAsWritten(v) == Area(v)
  {
    if |v| >= 3 {
      AreaAsWrittenIs(v);
    }
  }

  /** Adding a vertex at the end adds the edge to it. */
  lemma {:induction false} ChainAppend(f: (Vertex, Vertex) -> int, v: seq<Vertex>, b: Vertex)
    requires |v| > 0
    ensures Chain(f, v + [b]) == Chain(f, v) + f(Last(v), b)
    decreases |v|
  {
    if |v| > 1 {
      assert (v + [b])[1..] == v[1..] + [b];
      ChainAppend(f, v[1..], b);
    }
  }

  /** The closed sums do not depend on which vertex the list starts at. */
  lemma ClosedRotate(f: (Vertex, Vertex) -> int, v: seq<Vertex>)
    requires |v| >= 2
    ensures Closed(f, v[1..] + [v[0]]) == Closed(f, v)
  {
    var w := v[1..] + [v[0]];
    ChainAppend(f, v[1..], v[0]);
    assert w[0] == v[1] && Last(v[1..]) == Last(v);
  }

  /** Starting the plan at another corner gives the same lagoon. */
  lemma AreaRotate(v: seq<Vertex>)
    requires |v| >= 2
    ensures Area(v[1..] + [v[0]]) == Area(v)
    ensures AreaAsWritten(v[1..] + [v[0]]) == AreaAsWritten(v)
  {
    ClosedRotate(Cross, v);
    ClosedRotate(Manhattan, v);
    if |v| >= 3 {
      AreaAsWrittenIs(v);
      AreaAsWrittenIs(v[1..] + [v[0]]);
    }
  }

  function Signed(negate: bool, n: int): int {
    if negate then -n else n
  }

  /** Walking the edge backwards sums every edge the other way round. */
  lemma {:induction false} ChainReverse(f: (Vertex, Vertex) -> int, negate: bool, v: seq<Vertex>)
    requires forall a, b :: f(b, a) == Signed(negate, f(a, b))
    ensures Chain(f, Reverse(v)) == Signed(negate, Chain(f, v))
    decreases |v|
  {
    if |v| >= 2 {
      var u := v[..|v| - 1];
      assert v == u + [Last(v)];
      ChainAppend(f, u, Last(v));
      ChainReverse(f, negate, u);
      assert Reverse(v) == [Last(v)] + Reverse(u);
      assert (Reverse(v))[1..] == Reverse(u);
    }
  }

  lemma ClosedReverse(f: (Vertex, Vertex) -> int, negate: bool, v: seq<Vertex>)
    requires forall a, b :: f(b, a) == Signed(negate, f(a, b))
    ensures Closed(f, Reverse(v)) == Signed(negate, Closed(f, v))
  {
    if |v| > 0 {
      ChainReverse(f, negate, v);
      assert Last(Reverse(v)) == v[0] && Reverse(v)[0] == Last(v);
    }
  }

  /** The lagoon does not depend on the way round the edge is dug, while
      `area` as written does: reversing the plan negates the shoelace sum. */
  lemma AreaReverse(v: seq<Vertex>)
    ensures Area(Reverse(v)) == Area(v)
    ensures Shoelace(Reverse(v)) == -Shoelace(v) && Perimeter(Reverse(v)) == Perimeter(v)
  {
    ClosedReverse(Cross, true, v);
    ClosedReverse(Manhattan, false, v);
  }

  function Shift(v: seq<Vertex>, t: Vertex): (r: seq<Vertex>)
    ensures |r| == |v| && forall i :: 0 <= i < |v| ==> r[i] == Vertex(v[i].x + t.x, v[i].y + t.y)
  {
    seq(|v|, i requires 0 <= i < |v| => Vertex(v[i].x + t.x, v[i].y + t.y))
  }

  function Diff(b: Vertex, a: Vertex): Vertex {
    Vertex(b.x - a.x, b.y - a.y)
  }

  lemma CrossShift(a: Vertex, b: Vertex, t: Vertex)
    ensures Cross(Vertex(a.x + t.x, a.y + t.y), Vertex(b.x + t.x, b.y + t.y)) == Cross(a, b) + Cross(t, Diff(b, a))
  {
  }

  /** The cross product is additive in its second argument. */
  lemma CrossAdd(t: Vertex, a: Vertex, b: Vertex, c: Vertex)
    ensures Cross(t, Diff(b, a)) + Cross(t, Diff(c, b)) == Cross(t, Diff(c, a))
  {
    assert t.x * (b.y - a.y) + t.x * (c.y - b.y) == t.x * (c.y - a.y);
    assert t.y * (b.x - a.x) + t.y * (c.x - b.x) == t.y * (c.x - a.x);
  }

  /** Moving every vertex by `t` adds a sum that telescopes to the ends. */
  lemma {:induction false} ChainCrossShift(v: seq<Vertex>, t: Vertex)
    requires |v| > 0
    ensures Chain(Cross, Shift(v, t)) == Chain(Cross, v) + Cross(t, Diff(Last(v), v[0]))
    decreases |v|
  {
    if |v| >= 2 {
      var w := Shift(v, t);
      assert w[1..] == Shift(v[1..], t);
      ChainCrossShift(v[1..], t);
      CrossShift(v[0], v[1], t);
      CrossAdd(t, v[0], v[1], Last(v));
    } else {
      assert Diff(Last(v), v[0]) == Origin;
    }
  }

  lemma {:induction false} ChainManhattanShift(v: seq<Vertex>, t: Vertex)
    ensures Chain(Manhattan, Shift(v, t)) == Chain(Manhattan, v)
    decreases |v|
  {
    if |v| >= 2 {
      assert Shift(v, t)[1..] == Shift(v[1..], t);
      ChainManhattanShift(v[1..], t);
    }
  }

  lemma ShoelaceShift(v: seq<Vertex>, t: Vertex)
    ensures Shoelace(Shift(v, t)) == Shoelace(v)
  {
    if |v| > 0 {
      var w := Shift(v, t);
      ChainCrossShift(v, t);
      CrossShift(Last(v), v[0], t);
      CrossAdd(t, v[0], Last(v), v[0]);
      assert Diff(v[0], v[0]) == Origin;
      assert Last(w) == Vertex(Last(v).x + t.x, Last(v).y + t.y);
    }
  }

  /** The lagoon does not depend on where the digging starts: moving every
      corner by the same amount leaves the area alone. */
  lemma AreaShift(v: seq<Vertex>, t: Vertex)
    ensures Area(Shift(v, t)) == Area(v)
  {
    ShoelaceShift(v, t);
    ChainManhattanShift(v, t);
    if |v| > 0 {
      assert Last(Shift(v, t)) == Vertex(Last(v).x + t.x, Last(v).y + t.y);
    }
  }

  lemma ChainCons(f: (Vertex, Vertex) -> int, a: Vertex, v: seq<Vertex>)
    requires |v| > 0
    ensures Chain(f, [a] + v) == f(a, v[0]) + Chain(f, v)
  {
    assert ([a] + v)[1..] == v;
  }

  /** The windows of a plan cut in two: those of each half and the one
      across the cut. */
  lemma {:induction false} ChainConcat(f: (Vertex, Vertex) -> int, u: seq<Vertex>, w: seq<Vertex>)
    requires |u| > 0 && |w| > 0
    ensures Chain(f, u + w) == Chain(f, u) + f(Last(u), w[0]) + Chain(f, w)
    decreases |u|
  {
    if |u| == 1 {
      ChainCons(f, u[0], w);
      assert u + w == [u[0]] + w;
    } else {
      ChainConcat(f, u[1..], w);
      ChainCons(f, u[0], u[1..] + w);
      assert u + w == [u[0]] + (u[1..] + w);
      ChainCons(f, u[0], u[1..]);
      assert u == [u[0]] + u[1..];
    }
  }

  /** The windows of a four-vertex plan, one by one. */
  lemma Chain4(f: (Vertex, Vertex) -> int, a: Vertex, b: Vertex, c: Vertex, d: Vertex)
    ensures Chain(f, [a, b, c, d]) == f(a, b) + f(b, c) + f(c, d)
  {
    ChainCons(f, b, [c, d]);
    assert [b, c, d] == [b] + [c, d];
    ChainCons(f, a, [b, c, d]);
    assert [a, b, c, d] == [a] + [b, c, d];
  }

  /** The windows of a seven-vertex plan, one by one. */
  lemma Chain7(f: (Vertex, Vertex) -> int, a: Vertex, b: Vertex, c: Vertex, d: Vertex, e: Vertex, g: Vertex, h: Vertex)
    ensures Chain(f, [a, b, c, d, e, g, h]) == f(a, b) + f(b, c) + f(c, d) + f(d, e) + f(e, g) + f(g, h)
  {
    Chain4(f, a, b, c, d);
    ChainCons(f, e, [g, h]);
    assert [e, g, h] == [e] + [g, h];
    ChainConcat(f, [a, b, c, d], [e, g, h]);
    assert [a, b, c, d, e, g, h] == [a, b, c, d] + [e, g, h];
  }

  /** A `w` by `h` rectangle dug clockwise from its top-left corner. */
  function Rectangle(w: nat, h: nat): seq<Vertex> {
    [Vertex(0, 0), Vertex(w, 0), Vertex(w, h), Vertex(0, h)]
  }

  /** A rectangle `w` by `h` apart holds `(w + 1) * (h + 1)` metres, dug
      either way round; `area` as written gets the clockwise one right. */
  lemma RectangleArea(w: nat, h: nat)
    ensures Shoelace(Rectangle(w, h)) == 2 * (w * h) && Perimeter(Rectangle(w, h)) == 2 * (w + h)
    ensures Area(Rectangle(w, h)) == (w + 1) * (h + 1)
    ensures Area(Reverse(Rectangle(w, h))) == (w + 1) * (h + 1)
    ensures AreaAsWritten(Rectangle(w, h)) == (w + 1) * (h + 1)
  {
    var v := Rectangle(w, h);
    RectangleSums(w, h);
    RectangleArith(w, h);
    assert Area(v) == (Abs(Shoelace(v)) + Perimeter(v)) / 2 + 1;
    AreaReverse(v);
    AsWrittenAgrees(v);
  }

  lemma RectangleArith(w: nat, h: nat)
    ensures Abs(2 * (w * h)) == 2 * (w * h)
    ensures (2 * (w * h) + 2 * (w + h)) / 2 + 1 == (w + 1) * (h + 1)
  {
    var k := w * h + w + h;
    assert w * h >= 0;
    assert 2 * (w * h) + 2 * (w + h) == 2 * k;
    assert (w + 1) * (h + 1) == k + 1;
  }

  lemma RectangleSums(w: nat, h: nat)
    ensures Shoelace(Rectangle(w, h)) == 2 * (w * h) && Perimeter(Rectangle(w, h)) == 2 * (w + h)
  {
    var v := Rectangle(w, h);
    Chain4(Cross, v[0], v[1], v[2], v[3]);
    Chain4(Manhattan, v[0], v[1], v[2], v[3]);
  }

  /** The windows of a six-vertex plan, one by one. */
  lemma Chain6(f: (Vertex, Vertex) -> int, a: Vertex, b: Vertex, c: Vertex, d: Vertex, e: Vertex, g: Vertex)
    ensures Chain(f, [a, b, c, d, e, g]) == f(a, b) + f(b, c) + f(c, d) + f(d, e) + f(e, g)
  {
    Chain4(f, a, b, c, d);
    ChainConcat(f, [a, b, c, d], [e, g]);
    assert [a, b, c, d] + [e, g] == [a, b, c, d, e, g];
  }

  /** The L-shaped lagoon of `lagoon_area`, six corners and 8 metres. */
  lemma TestAreaL()
    ensures AreaAsWritten([Vertex(0, 0), Vertex(2, 0), Vertex(2, 1), Vertex(1, 1), Vertex(1, 2), Vertex(0, 2)]) == 8
  {
    Chain6(Term, Vertex(0, 0), Vertex(2, 0), Vertex(2, 1), Vertex(1, 1), Vertex(1, 2), Vertex(0, 2));
  }

  /** The fourteen-cornered lagoon of `lagoon_area`, given in two halves
      of seven corners, holds 62 metres. */
  lemma TestAreaLarge(u: seq<Vertex>, w: seq<Vertex>)
    requires u == [Vertex(0, 0), Vertex(6, 0), Vertex(6, 5), Vertex(4, 5), Vertex(4, 7), Vertex(6, 7), Vertex(6, 9)]
    requires w == [Vertex(1, 9), Vertex(1, 7), Vertex(0, 7), Vertex(0, 5), Vertex(2, 5), Vertex(2, 2), Vertex(0, 2)]
    ensures AreaAsWritten(u + w) == 62
  {
    LargeFirstHalf(u);
    LargeSecondHalf(w);
    var v := u + w;
    ChainConcat(Term, u, w);
    assert Last(u) == Vertex(6, 9) && w[0] == Vertex(1, 9);
    assert Term(Vertex(6, 9), Vertex(1, 9)) == 50;
    assert Chain(Term, v) == 120;
    assert |v| == 14 && v[0] == Vertex(0, 0) && Last(v) == Vertex(0, 2);
    AreaOfChain(v, 120, Vertex(0, 0), Vertex(0, 2));
    assert Half(122) == 61;
  }

  /** The area as written, from the chained sum and the two ends alone. */
  lemma AreaOfChain(v: seq<Vertex>, c: int, a: Vertex, b: Vertex)
    requires |v| >= 3 && v[0] == a && Last(v) == b && Chain(Term, v) == c
    ensures AreaAsWritten(v) == Half(c + a.y * b.x - a.x * b.y + Manhattan(b, a)) + 1
  {
  }

  /** The first seven corners of the large lagoon. */
  lemma LargeFirstHalf(u: seq<Vertex>)
    requires u == [Vertex(0, 0), Vertex(6, 0), Vertex(6, 5), Vertex(4, 5), Vertex(4, 7), Vertex(6, 7), Vertex(6, 9)]
    ensures Chain(Term, u) == 65
  {
    LargeFirstHalfCorners();
  }

  lemma LargeFirstHalfCorners()
    ensures Chain(Term, [Vertex(0, 0), Vertex(6, 0), Vertex(6, 5), Vertex(4, 5), Vertex(4, 7), Vertex(6, 7), Vertex(6, 9)]) == 65
  {
    Chain7(Term, Vertex(0, 0), Vertex(6, 0), Vertex(6, 5), Vertex(4, 5), Vertex(4, 7), Vertex(6, 7), Vertex(6, 9));
  }

  /** The last seven corners of the large lagoon. */
  lemma LargeSecondHalf(w: seq<Vertex>)
    requires w == [Vertex(1, 9), Vertex(1, 7), Vertex(0, 7), Vertex(0, 5), Vertex(2, 5), Vertex(2, 2), Vertex(0, 2)]
    ensures Chain(Term, w) == 5
  {
    LargeSecondHalfCorners();
  }

  lemma LargeSecondHalfCorners()
    ensures Chain(Term, [Vertex(1, 9), Vertex(1, 7), Vertex(0, 7), Vertex(0, 5), Vertex(2, 5), Vertex(2, 2), Vertex(0, 2)]) == 5
  {
    Chain7(Term, Vertex(1, 9), Vertex(1, 7), Vertex(0, 7), Vertex(0, 5), Vertex(2, 5), Vertex(2, 2), Vertex(0, 2));
  }

  // ------------------------------------------------------------ the plan

  /** The trench end reached from `p` by digging `m`. */
  function Advance(p: Vertex, m: Move): (q: Vertex)
    ensures Manhattan(p, q) == Abs(m.count)
    ensures (m.dir == Up || m.dir == Down) ==> q.x == p.x
    ensures (m.dir == Left || m.dir == Right) ==> q.y == p.y
  {
    match m.dir
    case Up => Vertex(p.x, p.y - m.count)
    case Down => Vertex(p.x, p.y + m.count)
    case Left => Vertex(p.x - m.count, p.y)
    case Right => Vertex(p.x + m.count, p.y)
  }

  /** Where the digger stands after `w`: the last vertex, or the origin
      before the first trench. */
  function End(w: seq<Vertex>): Vertex {
    if |w| == 0 then Origin else Last(w)
  }

  /** The vertices the plan pushes: the end of each trench in turn. */
  function Walk(moves: seq<Move>): (r: seq<Vertex>)
    ensures |r| == |moves|
    decreases |moves|
  {
    if |moves| == 0 then []
    else
      var w := Walk(moves[..|moves| - 1]);
      w + [Advance(End(w), moves[|moves| - 1])]
  }

  /** Each vertex is the one before it, or the origin, moved by its line of
      the plan. */
  lemma {:induction false} WalkAt(moves: seq<Move>, i: nat)
    requires i < |moves|
    ensures Walk(moves)[i] == Advance(if i == 0 then Origin else Walk(moves)[i - 1], moves[i])
    decreases |moves|
  {
    var n := |moves|;
    var w := Walk(moves[..n - 1]);
    if i < n - 1 {
      WalkAt(moves[..n - 1], i);
      assert moves[..n - 1][i] == moves[i];
    } else if i > 0 {
      assert Walk(moves)[i - 1] == w[i - 1];
    }
  }

  /** The total length of the trenches. */
  function Dug(moves: seq<Move>): nat
    decreases |moves|
  {
    if |moves| == 0 then 0 else Dug(moves[..|moves| - 1]) + Abs(moves[|moves| - 1].count)
  }

  /** Along the walk, the edges from the first vertex on are the trenches
      after the first. */
  lemma {:induction false} ChainWalk(moves: seq<Move>)
    requires |moves| > 0
    ensures Chain(Manhattan, Walk(moves)) == Dug(moves) - Abs(moves[0].count)
    decreases |moves|
  {
    var n := |moves|;
    if n > 1 {
      var u := moves[..n - 1];
      ChainWalk(u);
      ChainAppend(Manhattan, Walk(u), Advance(End(Walk(u)), moves[n - 1]));
      assert u[0] == moves[0];
    }
  }

  /** A plan that comes back to where it started has the trenches' total
      length as its perimeter. */
  lemma {:induction false} ClosedPlanPerimeter(moves: seq<Move>)
    requires |moves| > 0 && Last(Walk(moves)) == Origin
    ensures Perimeter(Walk(moves)) == Dug(moves)
  {
    ChainWalk(moves);
    WalkAt(moves, 0);
  }

  /** An `a` by `a` square dug anticlockwise, down first. */
  function Anticlockwise(a: int): seq<Move> {
    [Move(Down, a), Move(Right, a), Move(Up, a), Move(Left, a)]
  }

  /** Its corners are those of the clockwise square taken in reverse. */
  lemma AnticlockwiseWalk(a: nat)
    ensures Walk(Anticlockwise(a)) == Reverse(Rectangle(a, a))
  {
    var ms := Anticlockwise(a);
    var w := Walk(ms);
    WalkAt(ms, 0);
    WalkAt(ms, 1);
    WalkAt(ms, 2);
    WalkAt(ms, 3);
    var r := Reverse(Rectangle(a, a));
    assert r == [Vertex(0, a), Vertex(a, a), Vertex(a, 0), Vertex(0, 0)];
  }

  /** Dug anticlockwise, an `a` by `a` square holds `(a + 1) * (a + 1)`
      metres, but `area` as written gives `1 + 2 * a - a * a`: the signed
      shoelace sum is negative and cancels the perimeter.  The two-by-two
      square gives 1 instead of 9. */
  lemma AnticlockwiseSquare(a: nat)
    ensures AreaAsWritten(Walk(Anticlockwise(a))) == 1 + 2 * a - a * a
    ensures Area(Walk(Anticlockwise(a))) == (a + 1) * (a + 1)
  {
    var v := Rectangle(a, a);
    AnticlockwiseWalk(a);
    RectangleArea(a, a);
    AreaReverse(v);
    AreaAsWrittenIs(Reverse(v));
    assert Half(2 * (a + a) - 2 * (a * a)) == 2 * a - a * a;
  }

  // ----------------------------------------------------------- parsing

  function HeadingOf(s: string): Option<Heading> {
    if s == "U" then Some(Up)
    else if s == "D" then Some(Down)
    else if s == "L" then Some(Left)
    else if s == "R" then Some(Right)
    else None
  }

  function HeadingText(d: Heading): (s: string)
    ensures HeadingOf(s) == Some(d) && IsWord(s)
  {
    match d
    case Up => "U"
    case Down => "D"
    case Left => "L"
    case Right => "R"
  }

  /** One line of `Lagoon::from_str`: a heading, a distance and a colour,
      separated by whitespace, and nothing more. */
  function ParseMove(line: string): (r: Result<Move>)
    ensures var f := SplitWhitespace(line);
            r.Ok? <==> |f| == 3 && HeadingOf(f[0]).Some? && ParseInt(f[1]).Some?
    ensures var f := SplitWhitespace(line);
            r.Ok? ==> r.value.dir == HeadingOf(f[0]).value && r.value.count == ParseInt(f[1]).value
  {
    var f := SplitWhitespace(line);
    if |f| < 1 then Err
    else if |f| < 2 then Err
    else match ParseInt(f[1])
      case None => Err
      case Some(count) =>
        if |f| < 3 then Err
        else if |f| > 3 then Err
        else match HeadingOf(f[0])
          case None => Err
          case Some(d) => Ok(Move(d, count))
  }

  /** A line of the plan as the puzzle writes it. */
  function MoveLine(m: Move, colour: string): string
    requires m.count >= 0
  {
    Join([HeadingText(m.dir), NatToString(m.count), colour], ' ')
  }

  lemma NatWord(k: nat)
    ensures IsWord(NatToString(k)) && ParseInt(NatToString(k)) == Some(k)
  {
    var n := NatToString(k);
    forall i | 0 <= i < |n| ensures !IsWhitespace(n[i]) {
      assert IsDigit(n[i]);
    }
    ParseNatRoundTrip(k);
    assert IsDigit(n[0]);
  }

  /** Parsing a written line gives its move back, whatever the colour. */
  lemma ParseMoveLine(m: Move, colour: string)
    requires m.count >= 0 && IsWord(colour)
    ensures ParseMove(MoveLine(m, colour)) == Ok(m)
  {
    var n := NatToString(m.count);
    var f := [HeadingText(m.dir), n, colour];
    NatWord(m.count);
    SplitWhitespaceJoin(f);
    var r := ParseMove(MoveLine(m, colour));
    assert r.Ok?;
  }

  /** The direction digit of a colour code: 0 right, 1 down, 2 left, 3 up. */
  function HeadingOfCode(d: nat): Option<Heading> {
    if d == 0 then Some(Right)
    else if d == 1 then Some(Down)
    else if d == 2 then Some(Left)
    else if d == 3 then Some(Up)
    else None
  }

  function CodeOf(d: Heading): (c: nat)
    ensures c < 4 && HeadingOfCode(c) == Some(d)
  {
    match d
    case Right => 0
    case Down => 1
    case Left => 2
    case Up => 3
  }

  /** A colour code `from_hashes` accepts: `#`, five hex digits of
      distance (an `i64`, so a sign is allowed) and one direction digit. */
  predicate ValidHash(h: string) {
    |h| == 7 && h[0] == '#' && IsHexDigit(h[6]) && HeadingOfCode(HexDigitValue(h[6])).Some?
    && ParseHexInt(h[1..6]).Some?
  }

  /** The single direction character, read by `u8::from_str_radix`. */
  lemma ParseHexDigit(s: string)
    requires |s| == 1
    ensures ParseHexNat(s).Some? <==> IsHexDigit(s[0])
    ensures ParseHexNat(s).Some? ==> ParseHexNat(s).value == HexDigitValue(s[0])
  {
    if s[0] != '+' {
      assert UnsignedDigits(s) == s;
      if IsHexDigit(s[0]) {
        assert s[..0] == [] && HexValue(s[..0]) == 0;
        assert HexValue(s) == 16 * HexValue(s[..0]) + HexDigitValue(s[0]);
      }
    }
  }

  /** Decodes the colour code, brackets already trimmed. */
  function ParseHash(h: string): (r: Result<Move>)
    ensures r.Ok? <==> ValidHash(h)
    ensures r.Ok? ==> Some(r.value.dir) == HeadingOfCode(HexDigitValue(h[6]))
                      && Some(r.value.count) == ParseHexInt(h[1..6])
  {
    if !(|h| > 0 && h[0] == '#') || |h| != 7 then Err
    else
      ParseHexDigit(h[6..]);
      match ParseHexNat(h[6..])
      case None => Err
      case Some(code) =>
        match ParseHexInt(h[1..6])
        case None => Err
        case Some(count) =>
          match HeadingOfCode(code)
          case None => Err
          case Some(d) => Ok(Move(d, count))
  }

  /** One line of `Lagoon::from_hashes`: the colour code is the third field
      with its brackets trimmed; further fields are ignored. */
  function HashMove(line: string): (r: Result<Move>)
    ensures |SplitWhitespace(line)| < 3 ==> r.Err?
    ensures |SplitWhitespace(line)| >= 3 ==> r == ParseHash(TrimMatches(SplitWhitespace(line)[2], {'(', ')'}))
  {
    var f := SplitWhitespace(line);
    if |f| < 3 then Err else ParseHash(TrimMatches(f[2], {'(', ')'}))
  }

  /** The colour field that encodes `m`, its distance in five hex digits. */
  function HashField(m: Move): string
    requires 0 <= m.count < Pow(16, 5)
  {
    ['('] + HashCode(m) + [')']
  }

  /** The colour code of `m`, without its brackets. */
  function HashCode(m: Move): (h: string)
    requires 0 <= m.count < Pow(16, 5)
    ensures |h| == 7
  {
    "#" + HexFixed(m.count, 5) + [HexChar(CodeOf(m.dir))]
  }

  /** A colour code decodes to the move it encodes. */
  lemma ParseHashCode(m: Move)
    requires 0 <= m.count < Pow(16, 5)
    ensures ParseHash(HashCode(m)) == Ok(m)
  {
    var h := HashCode(m);
    var hex := HexFixed(m.count, 5);
    assert h[1..6] == hex && h[6] == HexChar(CodeOf(m.dir));
    HexFixedValue(m.count, 5);
    assert hex[0] != '-';
    assert ParseHexNat(hex) == Some(m.count) by {
      assert UnsignedDigits(hex) == hex by { assert hex[0] != '+'; }
    }
  }

  /** The bracketed field is one word, and trimming it leaves the code. */
  lemma HashFieldTrim(m: Move)
    requires 0 <= m.count < Pow(16, 5)
    ensures IsWord(HashField(m)) && TrimMatches(HashField(m), {'(', ')'}) == HashCode(m)
  {
    var h := HashCode(m);
    var field := HashField(m);
    assert field == ['('] + h + [')'];
    assert IsWord(field) by {
      forall i | 0 <= i < |field| ensures !IsWhitespace(field[i]) {
        if 2 <= i < 7 {
          assert field[i] == HexFixed(m.count, 5)[i - 2];
        }
      }
    }
    var cs := {'(', ')'};
    assert h[0] == '#' && IsHexDigit(h[6]);
    assert TrimMatches(h, cs) == h;
    assert TrimMatches(h + [')'], cs) == h by {
      assert (h + [')'])[..|h|] == h;
    }
    assert field[1..] == h + [')'];
  }

  /** Decoding a colour field gives its move back, whatever the first two
      fields say. */
  lemma HashFieldRoundTrip(a: string, b: string, m: Move)
    requires IsWord(a) && IsWord(b) && 0 <= m.count < Pow(16, 5)
    ensures HashMove(Join([a, b, HashField(m)], ' ')) == Ok(m)
  {
    HashFieldTrim(m);
    SplitWhitespaceJoin([a, b, HashField(m)]);
    ParseHashCode(m);
  }

  /** The lines of a dig plan, each read by `ParseMove`; one bad line
      fails the plan. */
  function ParseMoves(lines: seq<string>): (r: Result<seq<Move>>)
    ensures r.Ok? <==> forall i :: 0 <= i < |lines| ==> ParseMove(lines[i]).Ok?
    ensures r.Ok? ==> |r.value| == |lines|
                      && forall i :: 0 <= i < |lines| ==> ParseMove(lines[i]) == Ok(r.value[i])
  {
    MapAll(lines, ParseMove)
  }

  /** The lines of a dig plan, each read from its colour code. */
  function HashMoves(lines: seq<string>): (r: Result<seq<Move>>)
    ensures r.Ok? <==> forall i :: 0 <= i < |lines| ==> HashMove(lines[i]).Ok?
    ensures r.Ok? ==> |r.value| == |lines|
                      && forall i :: 0 <= i < |lines| ==> HashMove(lines[i]) == Ok(r.value[i])
  {
    MapAll(lines, HashMove)
  }

  /** `Lagoon::from_str`: the trench ends of the plan. */
  function FromStr(input: string): (r: Result<seq<Vertex>>)
    ensures r.Ok? <==> ParseMoves(Lines(input)).Ok?
    ensures r.Ok? ==> |r.value| == |Lines(input)|
  {
    var moves :- ParseMoves(Lines(input));
    Ok(Walk(moves))
  }

  /** `Lagoon::from_hashes`: the trench ends of the plan in the colours. */
  function FromHashes(input: string): (r: Result<seq<Vertex>>)
    ensures r.Ok? <==> HashMoves(Lines(input)).Ok?
    ensures r.Ok? ==> |r.value| == |Lines(input)|
  {
    var moves :- HashMoves(Lines(input));
    Ok(Walk(moves))
  }

  /** `part_one`: `area` of the plan as written, `Err` when a line is
      malformed; the size of the lagoon when the plan runs clockwise. */
  function PartOne(input: string): (r: Result<int>)
    ensures r.Ok? <==> ParseMoves(Lines(input)).Ok?
    ensures r.Ok? && Shoelace(FromStr(input).value) >= 0 ==> r.value == Area(FromStr(input).value)
  {
    var v :- FromStr(input);
    AsWrittenAgrees(v);
    Ok(AreaAsWritten(v))
  }

  /** `part_two`: `area` of the plan hidden in the colour codes. */
  function PartTwo(input: string): (r: Result<int>)
    ensures r.Ok? <==> HashMoves(Lines(input)).Ok?
    ensures r.Ok? && Shoelace(FromHashes(input).value) >= 0 ==> r.value == Area(FromHashes(input).value)
  {
    var v :- FromHashes(input);
    AsWrittenAgrees(v);
    Ok(AreaAsWritten(v))
  }

  /** Part one is the lagoon dug by the moves the lines spell. */
  lemma PartOneOf(input: string, moves: seq<Move>)
    requires |moves| == |Lines(input)|
    requires forall i :: 0 <= i < |moves| ==> ParseMove(Lines(input)[i]) == Ok(moves[i])
    ensures PartOne(input) == Ok(AreaAsWritten(Walk(moves)))
    ensures Shoelace(Walk(moves)) >= 0 ==> PartOne(input) == Ok(Area(Walk(moves)))
  {
    ParseMovesOf(Lines(input), moves);
    assert FromStr(input) == Ok(Walk(moves));
    AsWrittenAgrees(Walk(moves));
  }

  lemma ParseMovesOf(lines: seq<string>, moves: seq<Move>)
    requires |moves| == |lines|
    requires forall i :: 0 <= i < |moves| ==> ParseMove(lines[i]) == Ok(moves[i])
    ensures ParseMoves(lines) == Ok(moves)
  {
    var r := ParseMoves(lines);
    assert r.Ok?;
    assert r.value == moves by {
      assert forall i :: 0 <= i < |moves| ==> Ok(r.value[i]) == Ok(moves[i]);
    }
  }

  /** Part two is the lagoon dug by the moves the colour codes spell. */
  lemma PartTwoOf(input: string, moves: seq<Move>)
    requires |moves| == |Lines(input)|
    requires forall i :: 0 <= i < |moves| ==> HashMove(Lines(input)[i]) == Ok(moves[i])
    ensures PartTwo(input) == Ok(AreaAsWritten(Walk(moves)))
    ensures Shoelace(Walk(moves)) >= 0 ==> PartTwo(input) == Ok(Area(Walk(moves)))
  {
    HashMovesOf(Lines(input), moves);
    assert FromHashes(input) == Ok(Walk(moves));
    AsWrittenAgrees(Walk(moves));
  }

  lemma HashMovesOf(lines: seq<string>, moves: seq<Move>)
    requires |moves| == |lines|
    requires forall i :: 0 <= i < |moves| ==> HashMove(lines[i]) == Ok(moves[i])
    ensures HashMoves(lines) == Ok(moves)
  {
    var r := HashMoves(lines);
    assert r.Ok?;
    assert r.value == moves by {
      assert forall i :: 0 <= i < |moves| ==> Ok(r.value[i]) == Ok(moves[i]);
    }
  }
}

=== FILE: day19_aplenty.dfy ===
/** Day 19, `main.rs`: the input holds the workflows, a blank line, then the
    parts.  Part one follows each part through the workflows from `in` and
    adds up the ratings of the accepted ones; part two counts the rating
    combinations in [1, 4000] for each category that `in` accepts. */
module Day19 {
  import opened Wrappers
  import Seqs
  import opened Text
  import opened Day19Part
  import opened Day19Workflow
  import opened Day19Ranges

  const Start := "in"

  // ------------------------------------------------------------- lookup

  /** `workflows.iter().find(|w| w.name == name)`, as an index. */
  function FindWorkflow(list: seq<Workflow>, name: string): (r: Option<nat>)
    ensures r.Some? ==> r.value < |list| && list[r.value].name == name
                        && forall j :: 0 <= j < r.value ==> list[j].name != name
    ensures r.None? ==> forall j :: 0 <= j < |list| ==> list[j].name != name
  {
    if |list| == 0 then None
    else if list[0].name == name then Some(0)
    else match FindWorkflow(list[1..], name)
      case None => None
      case Some(k) => Some(k + 1)
  }

  /** The workflows that `find` reaches: each name maps to the first
      workflow of that name. */
  function FirstByName(list: seq<Workflow>): (ws: Workflows)
    ensures forall name :: name in ws <==> FindWorkflow(list, name).Some?
    ensures forall name :: name in ws ==> ws[name] == list[FindWorkflow(list, name).value]
  {
    if |list| == 0 then map[]
    else FirstByName(list[1..])[list[0].name := list[0]]
  }

  /** Workflow `i` is the last one of its name. */
  predicate LastOfName(list: seq<Workflow>, i: nat)
    requires i < |list|
  {
    forall j :: i < j < |list| ==> list[j].name != list[i].name
  }

  /** The map that inserting the workflows in order builds: a later
      workflow replaces an earlier one of the same name. */
  function LastByName(list: seq<Workflow>): (ws: Workflows)
    ensures forall i :: 0 <= i < |list| ==> list[i].name in ws
    ensures forall name :: name in ws ==> ws[name].name == name && ws[name] in list
    ensures forall i :: 0 <= i < |list| && LastOfName(list, i) ==> ws[list[i].name] == list[i]
  {
    if |list| == 0 then map[]
    else
      var front := list[..|list| - 1];
      var w := list[|list| - 1];
      var ws := LastByName(front)[w.name := w];
      LastByNameStep(list, front, LastByName(front), ws);
      ws
  }

  lemma LastByNameStep(list: seq<Workflow>, front: seq<Workflow>, before: Workflows, ws: Workflows)
    requires |list| > 0 && front == list[..|list| - 1]
    requires forall i :: 0 <= i < |front| ==> front[i].name in before
    requires forall name :: name in before ==> before[name].name == name && before[name] in front
    requires forall i :: 0 <= i < |front| && LastOfName(front, i) ==> before[front[i].name] == front[i]
    requires ws == before[list[|list| - 1].name := list[|list| - 1]]
    ensures forall i :: 0 <= i < |list| ==> list[i].name in ws
    ensures forall name :: name in ws ==> ws[name].name == name && ws[name] in list
    ensures forall i :: 0 <= i < |list| && LastOfName(list, i) ==> ws[list[i].name] == list[i]
  {
    var w := list[|list| - 1];
    assert forall i :: 0 <= i < |front| ==> front[i] == list[i];
    forall name | name in ws
      ensures ws[name].name == name && ws[name] in list
    {
      if name != w.name {
        var k :| 0 <= k < |front| && front[k] == before[name];
        assert list[k] == ws[name];
      }
    }
    forall i | 0 <= i < |list| && LastOfName(list, i)
      ensures ws[list[i].name] == list[i]
    {
      if i < |front| {
        assert list[|list| - 1].name != list[i].name;
        assert LastOfName(front, i);
      }
    }
  }

  /** No two workflows share a name. */
  predicate DistinctNames(list: seq<Workflow>) {
    forall i, j :: 0 <= i < j < |list| ==> list[i].name != list[j].name
  }

  lemma FirstLastName(list: seq<Workflow>, name: string)
    requires DistinctNames(list)
    ensures name in FirstByName(list) <==> name in LastByName(list)
    ensures name in LastByName(list) ==> FirstByName(list)[name] == LastByName(list)[name]
  {
    var first, last := FirstByName(list), LastByName(list);
    if name in first {
      var k := FindWorkflow(list, name).value;
      assert list[k].name in last;
      assert LastOfName(list, k);
    }
    if name in last {
      var j :| 0 <= j < |list| && list[j] == last[name];
      assert FindWorkflow(list, name).Some?;
    }
  }

  /** With distinct names, looking up the first and the last workflow of a
      name agree, so part one and part two follow the same workflows. */
  lemma FirstLastAgree(list: seq<Workflow>)
    requires DistinctNames(list)
    ensures FirstByName(list) == LastByName(list)
  {
    var first, last := FirstByName(list), LastByName(list);
    forall name
      ensures name in first <==> name in last
      ensures name in last ==> first[name] == last[name]
    {
      FirstLastName(list, name);
    }
    assert first.Keys == last.Keys;
  }

  // ------------------------------------------------------------ execute

  /** `execute`: apply the starting workflow, then, while the action moves
      to another workflow, `find` it and apply it; the part is accepted when
      the final action is `A`.  A missing workflow panics in `expect`, and
      a cycle of moves never ends: both are `Err`, the second once `fuel`
      moves have been made. */
  method Execute(p: Part, list: seq<Workflow>, starter: Workflow, fuel: nat) returns (r: Result<bool>)
    ensures r == Follow(FirstByName(list), Apply(starter, p), p, fuel)
  {
    var ws := FirstByName(list);
    var action := Apply(starter, p);
    var left := fuel;
    while action.Move?
      invariant Follow(ws, action, p, left) == Follow(ws, Apply(starter, p), p, fuel)
      decreases left
    {
      if left == 0 {
        return Err;
      }
      var k := FindWorkflow(list, action.target);
      if k.None? {
        return Err;
      }
      action := Apply(list[k.value], p);
      left := left - 1;
    }
    return Ok(action == Accept);
  }

  /** More fuel never changes an answer that was reached. */
  lemma {:induction false} FollowMore(ws: Workflows, action: Action, p: Part, fuel: nat, more: nat)
    requires Follow(ws, action, p, fuel).Ok? && fuel <= more
    ensures Follow(ws, action, p, more) == Follow(ws, action, p, fuel)
    decreases fuel
  {
    if action.Move? {
      FollowMore(ws, Apply(ws[action.target], p), p, fuel - 1, more - 1);
    }
  }

  // ----------------------------------------------------------- part one

  /** The blank line between the workflows and the parts; its absence is
      the `context` error. */
  function Divide(input: string): (r: Result<(string, string)>)
    ensures r.Ok? ==> input == r.value.0 + "\n\n" + r.value.1 && NoMatchBefore(input, "\n\n", |r.value.0|)
    ensures r.Err? ==> NoMatchBefore(input, "\n\n", |input| + 1)
  {
    OkOr(SplitOnceStr(input, "\n\n"))
  }

  /** Every line of the first section as a workflow. */
  function ParseWorkflows(lines: seq<string>): (r: Result<seq<Workflow>>)
    ensures r.Ok? <==> forall i :: 0 <= i < |lines| ==> ParseWorkflow(lines[i]).Ok?
    ensures r.Ok? ==> |r.value| == |lines|
                      && forall i :: 0 <= i < |lines| ==> ParseWorkflow(lines[i]) == Ok(r.value[i])
  {
    MapAll(lines, ParseWorkflow)
  }

  /** Every line of the second section as a part. */
  function ParseParts(lines: seq<string>): (r: Result<seq<Part>>)
    ensures r.Ok? <==> forall i :: 0 <= i < |lines| ==> ParsePart(lines[i]).Ok?
    ensures r.Ok? ==> |r.value| == |lines|
                      && forall i :: 0 <= i < |lines| ==> ParsePart(lines[i]) == Ok(r.value[i])
  {
    MapAll(lines, ParsePart)
  }

  /** Whether following the workflows from `start` accepts the part. */
  function Outcome(ws: Workflows, start: Workflow, fuel: nat, p: Part): Result<bool> {
    Follow(ws, Apply(start, p), p, fuel)
  }

  /** Following the workflows from `start` accepts the part. */
  predicate Accepts(ws: Workflows, start: Workflow, fuel: nat, p: Part) {
    Outcome(ws, start, fuel, p) == Ok(true)
  }

  /** How following the workflows from `start` ends for each part. */
  function Runner(ws: Workflows, start: Workflow, fuel: nat): Part -> Result<bool> {
    p => Outcome(ws, start, fuel, p)
  }

  /** The ratings of the accepted parts added up, in order; one part for
      which following the workflows fails fails the sum. */
  function Score(ws: Workflows, start: Workflow, parts: seq<Part>, fuel: nat): Result<nat> {
    ScoreBy(Runner(ws, start, fuel), parts)
  }

  /** The sum of the parts that `run` accepts, failing when `run` fails
      for some part. */
  function ScoreBy(run: Part -> Result<bool>, parts: seq<Part>): Result<nat> {
    if |parts| == 0 then Ok(0)
    else
      var p := parts[|parts| - 1];
      Gain(ScoreBy(run, parts[..|parts| - 1]), p, run(p))
  }

  /** The sum so far plus what part `p` adds, given whether it was
      accepted. */
  function Gain(sum: Result<nat>, p: Part, accepted: Result<bool>): Result<nat> {
    match sum
    case Err => Err
    case Ok(n) =>
      match accepted
      case Err => Err
      case Ok(yes) => Ok(if yes then n + Total(p) else n)
  }

  /** What each part adds: its total rating when `run` accepts it, else 0. */
  function GainsBy(run: Part -> Result<bool>, parts: seq<Part>): (g: seq<int>)
    ensures |g| == |parts|
    ensures forall i :: 0 <= i < |parts| ==> g[i] == if run(parts[i]) == Ok(true) then Total(parts[i]) else 0
  {
    seq(|parts|, i requires 0 <= i < |parts| => if run(parts[i]) == Ok(true) then Total(parts[i]) else 0)
  }

  /** What each part adds: its total rating when it is accepted, else 0. */
  function Gains(ws: Workflows, start: Workflow, parts: seq<Part>, fuel: nat): (g: seq<int>)
    ensures |g| == |parts|
    ensures forall i :: 0 <= i < |parts| ==> g[i] == if Accepts(ws, start, fuel, parts[i]) then Total(parts[i]) else 0
  {
    GainsBy(Runner(ws, start, fuel), parts)
  }

  /** The score fails exactly when following the workflows fails for some
      part. */
  lemma ScoreOk(ws: Workflows, start: Workflow, parts: seq<Part>, fuel: nat)
    ensures Score(ws, start, parts, fuel).Ok? <==>
              forall i :: 0 <= i < |parts| ==> Outcome(ws, start, fuel, parts[i]).Ok?
  {
    ScoreByOk(Runner(ws, start, fuel), parts);
  }

  lemma {:induction false} ScoreByOk(run: Part -> Result<bool>, parts: seq<Part>)
    ensures ScoreBy(run, parts).Ok? <==> forall i :: 0 <= i < |parts| ==> run(parts[i]).Ok?
  {
    if |parts| > 0 {
      var front, p := parts[..|parts| - 1], parts[|parts| - 1];
      ScoreByOk(run, front);
      assert forall i :: 0 <= i < |front| ==> front[i] == parts[i];
      GainDefined(ScoreBy(run, front), p, run(p));
    }
  }

  lemma GainDefined(sum: Result<nat>, p: Part, accepted: Result<bool>)
    ensures Gain(sum, p, accepted).Ok? <==> sum.Ok? && accepted.Ok?
  {
  }

  /** A score that succeeds is the sum of the accepted parts' total
      ratings. */
  lemma ScoreValue(ws: Workflows, start: Workflow, parts: seq<Part>, fuel: nat)
    requires Score(ws, start, parts, fuel).Ok?
    ensures Score(ws, start, parts, fuel).value == Seqs.Sum(Gains(ws, start, parts, fuel))
  {
    ScoreByValue(Runner(ws, start, fuel), parts);
  }

  lemma {:induction false} ScoreByValue(run: Part -> Result<bool>, parts: seq<Part>)
    requires ScoreBy(run, parts).Ok?
    ensures ScoreBy(run, parts).value == Seqs.Sum(GainsBy(run, parts))
  {
    if |parts| > 0 {
      var front, p := parts[..|parts| - 1], parts[|parts| - 1];
      GainDefined(ScoreBy(run, front), p, run(p));
      ScoreByValue(run, front);
      GainOk(ScoreBy(run, front).value, p, run(p).value);
      var g := if run(p) == Ok(true) then Total(p) else 0;
      GainsByFront(run, parts);
      Seqs.SumAppend(GainsBy(run, front), [g]);
      assert Seqs.Sum([g]) == g;
    }
  }

  lemma GainsByFront(run: Part -> Result<bool>, parts: seq<Part>)
    requires |parts| > 0
    ensures var p := parts[|parts| - 1];
            GainsBy(run, parts) == GainsBy(run, parts[..|parts| - 1]) + [if run(p) == Ok(true) then Total(p) else 0]
  {
    var front, p := parts[..|parts| - 1], parts[|parts| - 1];
    var a := GainsBy(run, parts);
    var b := GainsBy(run, front) + [if run(p) == Ok(true) then Total(p) else 0];
    assert |a| == |b|;
    forall i | 0 <= i < |a|
      ensures a[i] == b[i]
    {
      if i < |front| {
        assert front[i] == parts[i];
      }
    }
  }

  /** One more part adds its total rating when it is accepted. */
  lemma ScoreStep(ws: Workflows, start: Workflow, parts: seq<Part>, front: seq<Part>, p: Part, fuel: nat, sum: nat,
                  accepted: bool)
    requires parts == front + [p] && Score(ws, start, front, fuel) == Ok(sum)
    requires Outcome(ws, start, fuel, p) == Ok(accepted)
    ensures Score(ws, start, parts, fuel) == Ok(if accepted then sum + Total(p) else sum)
  {
    var run := Runner(ws, start, fuel);
    assert parts[..|parts| - 1] == front;
    assert run(p) == Ok(accepted);
    assert ScoreBy(run, parts) == Gain(Ok(sum), p, Ok(accepted));
    GainOk(sum, p, accepted);
  }

  lemma GainOk(sum: nat, p: Part, accepted: bool)
    ensures Gain(Ok(sum), p, Ok(accepted)) == Ok(if accepted then sum + Total(p) else sum)
  {
  }

  /** The accepted parts' ratings added in order, each part run through
      `execute`. */
  method SumAccepted(list: seq<Workflow>, start: Workflow, parts: seq<Part>, fuel: nat) returns (r: Result<nat>)
    ensures r == Score(FirstByName(list), start, parts, fuel)
  {
    var sum := 0;
    var k := 0;
    while k < |parts|
      invariant 0 <= k <= |parts|
      invariant Score(FirstByName(list), start, parts[..k], fuel) == Ok(sum)
    {
      assert parts[..k + 1][..k] == parts[..k];
      var accepted := Execute(parts[k], list, start, fuel);
      if accepted.Err? {
        ScoreOk(FirstByName(list), start, parts, fuel);
        return Err;
      }
      if accepted.value {
        sum := sum + Total(parts[k]);
      }
      k := k + 1;
    }
    assert parts[..k] == parts;
    return Ok(sum);
  }

  /** `part_one`.  It fails without the blank line, when a workflow or a
      part does not parse, without a workflow named `in` (the `unwrap`),
      and when following the workflows fails for some part.  Otherwise it
      is the sum over the parts that `execute` accepts, starting from the
      first workflow named `in`, with one move per workflow of fuel. */
  method PartOne(input: string) returns (r: Result<nat>)
    ensures r.Ok? ==> Divide(input).Ok? && ParseWorkflows(Lines(Divide(input).value.0)).Ok?
                      && ParseParts(Lines(Divide(input).value.1)).Ok?
    ensures r.Ok? ==> var list := ParseWorkflows(Lines(Divide(input).value.0)).value;
                      var ws := FirstByName(list);
                      Start in ws && Score(ws, ws[Start], ParseParts(Lines(Divide(input).value.1)).value, |list|) == r
    ensures Divide(input).Ok? && ParseWorkflows(Lines(Divide(input).value.0)).Ok? && ParseParts(Lines(Divide(input).value.1)).Ok? ==>
              var list := ParseWorkflows(Lines(Divide(input).value.0)).value;
              var ws := FirstByName(list);
              r.Ok? <==> Start in ws && Score(ws, ws[Start], ParseParts(Lines(Divide(input).value.1)).value, |list|).Ok?
  {
    var sections := Divide(input);
    if sections.Err? {
      return Err;
    }
    var parsed := ParseWorkflows(Lines(sections.value.0));
    if parsed.Err? {
      return Err;
    }
    var list := parsed.value;
    var k := FindWorkflow(list, Start);
    if k.None? {
      return Err;
    }
    var parts := ParseParts(Lines(sections.value.1));
    if parts.Err? {
      return Err;
    }
    r := SumAccepted(list, list[k.value], parts.value, |list|);
  }

  // ----------------------------------------------------------- part two

  /** The `for` loop that inserts each parsed workflow into the map under
      its name. */
  method WorkflowMap(list: seq<Workflow>) returns (ws: Workflows)
    ensures ws == LastByName(list)
  {
    ws := map[];
    var k := 0;
    while k < |list|
      invariant 0 <= k <= |list|
      invariant ws == LastByName(list[..k])
    {
      assert list[..k + 1][..k] == list[..k];
      ws := ws[list[k].name := list[k]];
      k := k + 1;
    }
    assert list[..k] == list;
  }

  /** The workflows of the input's first section, by last insertion. */
  function Table(input: string): (r: Result<seq<Workflow>>)
    ensures r.Ok? <==> Divide(input).Ok? && ParseWorkflows(Lines(Divide(input).value.0)).Ok?
    ensures r.Ok? ==> r == ParseWorkflows(Lines(Divide(input).value.0))
  {
    var sections :- Divide(input);
    ParseWorkflows(Lines(sections.0))
  }

  /** `part_two` as intended, with `eval_range` clipping the ranges it
      splits.  It fails without the blank line, when a workflow does not
      parse, without a workflow named `in`, and when counting reaches a
      missing workflow or runs out of fuel (a cycle).  The count is the
      number of rating combinations in [1, 4000] for each category that
      following the workflows from `in` accepts. */
  method PartTwoClipped(input: string) returns (r: Result<nat>)
    ensures r.Ok? ==> Table(input).Ok? && Start in LastByName(Table(input).value)
    ensures Table(input).Ok? && Start in LastByName(Table(input).value) ==>
              var list := Table(input).value;
              var ws := LastByName(list);
              r == Count(ws, ws[Start], Full, |list|)
    ensures r.Ok? ==> var list := Table(input).value;
                      var ws := LastByName(list);
                      r.value == |Points(Full, p => Accepts(ws, ws[Start], |list|, p))|
  {
    var sections := Divide(input);
    if sections.Err? {
      return Err;
    }
    var list :- ParseWorkflows(Lines(sections.value.0));
    var ws := WorkflowMap(list);
    if Start !in ws {
      return Err;
    }
    r := Count(ws, ws[Start], Full, |list|);
    if r.Ok? {
      CountAccepted(ws, ws[Start], Full, |list|);
      PointsAgree(Full, p => Follow(ws, Apply(ws[Start], p), p, |list|) == Ok(true),
                  p => Accepts(ws, ws[Start], |list|, p));
    }
  }

  /** `part_two` as written, with the unclipped `eval_range`: where it
      succeeds the clipped count succeeds too and is never larger.  It fails
      as `PartTwoClipped` does, and also when a split underflows. */
  method PartTwo(input: string) returns (r: Result<nat>)
    ensures r.Ok? ==> Table(input).Ok? && Start in LastByName(Table(input).value)
    ensures Table(input).Ok? && Start in LastByName(Table(input).value) ==>
              var list := Table(input).value;
              var ws := LastByName(list);
              r == EvalRange(ws, ws[Start], Full, |list|)
    ensures r.Ok? ==> var list := Table(input).value;
                      var ws := LastByName(list);
                      Count(ws, ws[Start], Full, |list|).Ok? && Count(ws, ws[Start], Full, |list|).value <= r.value
  {
    var sections := Divide(input);
    if sections.Err? {
      return Err;
    }
    var list :- ParseWorkflows(Lines(sections.value.0));
    var ws := WorkflowMap(list);
    if Start !in ws {
      return Err;
    }
    r := EvalRange(ws, ws[Start], Full, |list|);
    if r.Ok? {
      EvalRangeCovers(ws, ws[Start], Full, |list|);
    }
  }

  /** With distinct workflow names, part two counts exactly the rating
      combinations that part one's `execute` would accept. */
  lemma PartTwoCountsExecute(input: string, n: nat)
    requires Table(input).Ok? && DistinctNames(Table(input).value)
    requires var list := Table(input).value;
             var ws := LastByName(list);
             Start in ws && Count(ws, ws[Start], Full, |list|) == Ok(n)
    ensures var list := Table(input).value;
            var ws := FirstByName(list);
            Start in ws && n == |Points(Full, p => Accepts(ws, ws[Start], |list|, p))|
  {
    var list := Table(input).value;
    FirstLastAgree(list);
    var ws := LastByName(list);
    CountAccepted(ws, ws[Start], Full, |list|);
    PointsAgree(Full, p => Follow(ws, Apply(ws[Start], p), p, |list|) == Ok(true),
                p => Accepts(ws, ws[Start], |list|, p));
  }
}

=== FILE: day19_part.dfy ===
/** Day 19, `part.rs`: a machine part rated in four categories, written
    `{x=787,m=2655,a=1222,s=2876}`.  The braces are trimmed, the fields are
    comma-separated `key=value` pairs in any order, and each of the four
    categories must be given exactly once. */
module Day19Part {
  import opened Wrappers
  import opened Text

  /** The four rating categories, `RuleApply` in `workflow.rs`. */
  datatype Category = X | M | A | S

  datatype Part = Part(x: nat, m: nat, a: nat, s: nat)

  function Rating(p: Part, c: Category): nat {
    match c
    case X => p.x
    case M => p.m
    case A => p.a
    case S => p.s
  }

  /** `x + m + a + s`, what part one adds up for an accepted part. */
  function Total(p: Part): nat {
    p.x + p.m + p.a + p.s
  }

  function CategoryName(c: Category): (key: string)
    ensures |key| == 1
  {
    match c
    case X => "x"
    case M => "m"
    case A => "a"
    case S => "s"
  }

  /** The category a key names; keys are matched exactly. */
  function CategoryOf(key: string): (r: Option<Category>)
    ensures r.Some? ==> CategoryName(r.value) == key
    ensures r.None? ==> forall c :: CategoryName(c) != key
  {
    if key == "x" then Some(X)
    else if key == "m" then Some(M)
    else if key == "a" then Some(A)
    else if key == "s" then Some(S)
    else
      assert forall c :: CategoryName(c) != key;
      None
  }

  lemma CategoryNameRoundTrip(c: Category)
    ensures CategoryOf(CategoryName(c)) == Some(c)
  {
  }

  /** One field: the trimmed pair splits at its first `=`, the trimmed value
      is a decimal number and the trimmed key names a category. */
  function ParseField(kv: string): (r: Result<(Category, nat)>)
    ensures r.Ok? <==> var pair := SplitOnce(Trim(kv), '=');
                       pair.Some? && ParseNat(Trim(pair.value.1)).Some? && CategoryOf(Trim(pair.value.0)).Some?
    ensures r.Ok? ==> var pair := SplitOnce(Trim(kv), '=').value;
                      CategoryName(r.value.0) == Trim(pair.0) && ParseNat(Trim(pair.1)) == Some(r.value.1)
  {
    match SplitOnce(Trim(kv), '=')
    case None => Err
    case Some((key, value)) =>
      match ParseNat(Trim(value))
      case None => Err
      case Some(n) =>
        match CategoryOf(Trim(key))
        case None => Err
        case Some(c) => Ok((c, n))
  }

  /** The categories the fields name. */
  function Keys(fields: seq<(Category, nat)>): set<Category> {
    set i | 0 <= i < |fields| :: fields[i].0
  }

  /** No category is named twice. */
  predicate NoRepeat(fields: seq<(Category, nat)>) {
    forall i, j :: 0 <= i < j < |fields| ==> fields[i].0 != fields[j].0
  }

  /** The `assign` closure over all fields in order: a category given a
      second time is an error. */
  function Assign(fields: seq<(Category, nat)>): (r: Result<map<Category, nat>>)
    ensures r.Ok? <==> NoRepeat(fields)
    ensures r.Ok? ==> r.value.Keys == Keys(fields)
    ensures r.Ok? ==> forall i :: 0 <= i < |fields| ==> r.value[fields[i].0] == fields[i].1
  {
    if |fields| == 0 then Ok(map[])
    else
      var front := fields[..|fields| - 1];
      var (c, n) := fields[|fields| - 1];
      FieldsExtend(fields);
      match Assign(front)
      case Err => Err
      case Ok(held) =>
        if c in held then Err
        else Ok(held[c := n])
  }

  /** The last field extends the keys of the others, and no category
      repeats exactly when none repeats among the others and the last one is
      new. */
  lemma FieldsExtend(fields: seq<(Category, nat)>)
    requires |fields| > 0
    ensures var n := |fields| - 1;
            (forall i :: 0 <= i < n ==> fields[..n][i] == fields[i])
            && Keys(fields) == Keys(fields[..n]) + {fields[n].0}
            && (NoRepeat(fields) <==> NoRepeat(fields[..n]) && fields[n].0 !in Keys(fields[..n]))
  {
    var n := |fields| - 1;
    var front := fields[..n];
    assert forall i :: 0 <= i < n ==> front[i] == fields[i];
    assert Keys(fields) == Keys(front) + {fields[n].0} by {
      forall c | c in Keys(fields)
        ensures c in Keys(front) + {fields[n].0}
      {
        var i :| 0 <= i < |fields| && fields[i].0 == c;
        if i < n {
          assert front[i].0 == c;
        }
      }
      forall c | c in Keys(front)
        ensures c in Keys(fields)
      {
        var i :| 0 <= i < n && front[i].0 == c;
        assert fields[i].0 == c;
      }
      assert fields[n].0 in Keys(fields);
    }
    if fields[n].0 in Keys(front) {
      var i :| 0 <= i < n && front[i].0 == fields[n].0;
      assert fields[i].0 == fields[n].0;
    }
    if NoRepeat(front) && fields[n].0 !in Keys(front) {
      forall i, j | 0 <= i < j < |fields|
        ensures fields[i].0 != fields[j].0
      {
        if j == n {
          assert front[i].0 in Keys(front);
        } else {
          assert front[i] == fields[i] && front[j] == fields[j];
        }
      }
    }
  }

  const Braces: set<char> := {'{', '}'}

  /** The comma-separated fields between the braces. */
  function Fields(line: string): Result<seq<(Category, nat)>> {
    MapAll(Split(TrimMatches(line, Braces), ','), ParseField)
  }

  /** Every category is among `keys`. */
  predicate Complete(keys: set<Category>) {
    X in keys && M in keys && A in keys && S in keys
  }

  /** The part whose ratings `held` gives. */
  function PartFrom(held: map<Category, nat>): (p: Part)
    requires Complete(held.Keys)
    ensures forall c :: c in held ==> Rating(p, c) == held[c]
  {
    Part(held[X], held[M], held[A], held[S])
  }

  /** The part the assigned fields describe, when all four are given. */
  function PartOf(fields: seq<(Category, nat)>): (r: Result<Part>)
    ensures r.Ok? <==> NoRepeat(fields) && Complete(Keys(fields))
    ensures r.Ok? ==> forall i :: 0 <= i < |fields| ==> Rating(r.value, fields[i].0) == fields[i].1
  {
    match Assign(fields)
    case Err => Err
    case Ok(held) => if Complete(held.Keys) then Ok(PartFrom(held)) else Err
  }

  /** `Part::from_str`.  It fails when a field is not a `key=value` pair, a
      value is not a number, a key is not one of `x`, `m`, `a`, `s`, a
      category is given twice, or a category is missing. */
  function ParsePart(line: string): (r: Result<Part>)
    ensures r.Ok? <==> Fields(line).Ok? && NoRepeat(Fields(line).value) && Complete(Keys(Fields(line).value))
    ensures r.Ok? ==> var fields := Fields(line).value;
                      forall i :: 0 <= i < |fields| ==> Rating(r.value, fields[i].0) == fields[i].1
  {
    match Fields(line)
    case Err => Err
    case Ok(fields) => PartOf(fields)
  }

  function FieldText(c: Category, n: nat): string {
    CategoryName(c) + ['='] + NatToString(n)
  }

  /** The part as the puzzle input writes it. */
  function PartText(p: Part): string {
    ['{'] + Join(FieldTexts(p), ',') + ['}']
  }

  lemma ParseFieldOf(kv: string, key: string, value: string, c: Category, n: nat)
    requires Trim(kv) == kv && SplitOnce(kv, '=') == Some((key, value))
    requires Trim(value) == value && ParseNat(value) == Some(n)
    requires Trim(key) == key && CategoryOf(key) == Some(c)
    ensures ParseField(kv) == Ok((c, n))
  {
  }

  lemma ParseFieldText(c: Category, n: nat)
    ensures ParseField(FieldText(c, n)) == Ok((c, n))
  {
    FieldTextParts(c, n);
    ParseNatRoundTrip(n);
    CategoryNameRoundTrip(c);
    ParseFieldOf(FieldText(c, n), CategoryName(c), NatToString(n), c, n);
  }

  /** The text of a field is unpadded and splits at its `=` into the key
      and the digits, both unpadded. */
  lemma FieldTextParts(c: Category, n: nat)
    ensures var key, digits, kv := CategoryName(c), NatToString(n), FieldText(c, n);
            Trim(kv) == kv && SplitOnce(kv, '=') == Some((key, digits))
            && Trim(digits) == digits && Trim(key) == key
  {
    var key := CategoryName(c);
    var digits := NatToString(n);
    var kv := FieldText(c, n);
    assert IsDigit(digits[0]) && IsDigit(digits[|digits| - 1]);
    assert kv[0] == key[0] && kv[|kv| - 1] == digits[|digits| - 1];
    TrimUnpadded(kv);
    SplitOnceAt(kv, '=', key, digits);
    TrimUnpadded(digits);
    TrimUnpadded(key);
  }

  lemma FieldTextShape(c: Category, n: nat)
    ensures ',' !in FieldText(c, n)
    ensures |FieldText(c, n)| > 0 && FieldText(c, n)[0] !in Braces
    ensures FieldText(c, n)[|FieldText(c, n)| - 1] !in Braces
  {
    var digits := NatToString(n);
    assert IsDigit(digits[|digits| - 1]);
    assert FieldText(c, n)[|FieldText(c, n)| - 1] == digits[|digits| - 1];
    assert forall i :: 0 <= i < |digits| ==> IsDigit(digits[i]);
  }

  function FieldTexts(p: Part): seq<string> {
    [FieldText(X, p.x), FieldText(M, p.m), FieldText(A, p.a), FieldText(S, p.s)]
  }

  function FieldsOf(p: Part): seq<(Category, nat)> {
    [(X, p.x), (M, p.m), (A, p.a), (S, p.s)]
  }

  lemma TrimPartText(p: Part)
    ensures TrimMatches(PartText(p), Braces) == Join(FieldTexts(p), ',')
  {
    var fs := FieldTexts(p);
    FieldTextShape(X, p.x);
    FieldTextShape(S, p.s);
    JoinShape(fs, ',', Braces);
    TrimMatchesWrapped('{', Join(fs, ','), '}', Braces);
  }

  lemma SplitPartText(p: Part)
    ensures Split(TrimMatches(PartText(p), Braces), ',') == FieldTexts(p)
  {
    TrimPartText(p);
    FieldTextShape(X, p.x);
    FieldTextShape(M, p.m);
    FieldTextShape(A, p.a);
    FieldTextShape(S, p.s);
    SplitJoin(FieldTexts(p), ',');
  }

  lemma FieldsOfText(p: Part)
    ensures Fields(PartText(p)) == Ok(FieldsOf(p))
  {
    var fs := FieldTexts(p);
    var fields := FieldsOf(p);
    forall i | 0 <= i < 4
      ensures ParseField(fs[i]) == Ok(fields[i])
    {
      var c := fields[i].0;
      assert fs[i] == FieldText(c, fields[i].1);
      ParseFieldText(c, fields[i].1);
    }
    MapAllOk(fs, ParseField, fields);
    assert Fields(PartText(p)) == MapAll(fs, ParseField) by {
      SplitPartText(p);
    }
  }

  lemma PartOfFields(p: Part)
    ensures PartOf(FieldsOf(p)) == Ok(p)
  {
    var fields := FieldsOf(p);
    assert fields[0].0 == X && fields[1].0 == M && fields[2].0 == A && fields[3].0 == S;
    assert Complete(Keys(fields));
    var r := PartOf(fields);
    assert Rating(r.value, X) == p.x && Rating(r.value, M) == p.m;
    assert Rating(r.value, A) == p.a && Rating(r.value, S) == p.s;
  }

  /** Rendering a part and parsing it back gives the same part. */
  lemma PartTextRoundTrip(p: Part)
    ensures ParsePart(PartText(p)) == Ok(p)
  {
    FieldsOfText(p);
    PartOfFields(p);
  }
}

=== FILE: day19_ranges.dfy ===
/** Day 19: why counting boxes counts parts.  `Points(b, P)` is the set of
    rating combinations in box `b` that satisfy `P`; the clipped
    `eval_range` of a box is exactly the number of its combinations that
    following the workflows accepts. */
module Day19Ranges {
  import opened Wrappers
  import opened Day19Part
  import opened Day19Workflow

  ghost function Points(b: Box, P: Part -> bool): set<Part> {
    set x: nat, m: nat, a: nat, s: nat |
      b.x.lo <= x <= b.x.hi && b.m.lo <= m <= b.m.hi && b.a.lo <= a <= b.a.hi && b.s.lo <= s <= b.s.hi
      && P(Part(x, m, a, s))
      :: Part(x, m, a, s)
  }

  lemma PointsMember(b: Box, P: Part -> bool, p: Part)
    ensures p in Points(b, P) <==> InBox(p, b) && P(p)
  {
    if InBox(p, b) && P(p) {
      assert p == Part(p.x, p.m, p.a, p.s);
    }
  }

  /** Predicates that agree on a box pick the same points of it. */
  lemma PointsAgree(b: Box, P: Part -> bool, Q: Part -> bool)
    requires forall p :: InBox(p, b) ==> P(p) == Q(p)
    ensures Points(b, P) == Points(b, Q)
  {
    forall p
      ensures p in Points(b, P) <==> p in Points(b, Q)
    {
      PointsMember(b, P, p);
      PointsMember(b, Q, p);
    }
  }

  lemma PointsNone(b: Box, P: Part -> bool)
    requires forall p :: InBox(p, b) ==> !P(p)
    ensures Points(b, P) == {}
  {
    forall p | p in Points(b, P)
      ensures false
    {
      PointsMember(b, P, p);
    }
  }

  /** The points of a box are those of any two boxes that cut one of its
      ranges in two. */
  lemma PointsCut(b: Box, c: Category, lower: Interval, upper: Interval, P: Part -> bool)
    requires forall n: nat :: Within(n, Get(b, c)) <==> Within(n, lower) || Within(n, upper)
    requires forall n: nat :: !(Within(n, lower) && Within(n, upper))
    ensures Points(b, P) == Points(With(b, c, lower), P) + Points(With(b, c, upper), P)
    ensures Points(With(b, c, lower), P) !! Points(With(b, c, upper), P)
  {
    var bl, bu := With(b, c, lower), With(b, c, upper);
    forall p
      ensures p in Points(b, P) <==> p in Points(bl, P) || p in Points(bu, P)
      ensures !(p in Points(bl, P) && p in Points(bu, P))
    {
      PointsMember(b, P, p);
      PointsMember(bl, P, p);
      PointsMember(bu, P, p);
      InBoxGet(p, b);
      InBoxGet(p, bl);
      InBoxGet(p, bu);
      assert Within(Rating(p, c), Get(b, c)) <==> Within(Rating(p, c), lower) || Within(Rating(p, c), upper);
    }
  }

  /** The sizes of the four ranges together, which every cut decreases. */
  function Extent(b: Box): nat {
    Size(b.x) + Size(b.m) + Size(b.a) + Size(b.s)
  }

  lemma ExtentAround(b: Box, c: Category, i: Interval)
    ensures Extent(With(b, c, i)) == Extent(b) - Size(Get(b, c)) + Size(i)
  {
  }

  /** A box with an empty range holds no points. */
  lemma PointsEmpty(b: Box, P: Part -> bool)
    requires Size(b.x) == 0 || Size(b.m) == 0 || Size(b.a) == 0 || Size(b.s) == 0
    ensures Points(b, P) == {} && Volume(b) == 0
  {
    forall p | p in Points(b, P)
      ensures false
    {
      PointsMember(b, P, p);
    }
  }

  /** A box of single ratings holds one point. */
  lemma PointsSingle(b: Box, P: Part -> bool)
    requires Size(b.x) == 1 && Size(b.m) == 1 && Size(b.a) == 1 && Size(b.s) == 1
    requires forall p :: InBox(p, b) ==> P(p)
    ensures |Points(b, P)| == 1 && Volume(b) == 1
  {
    var only := Part(b.x.lo, b.m.lo, b.a.lo, b.s.lo);
    forall p
      ensures p in Points(b, P) <==> p == only
    {
      PointsMember(b, P, p);
    }
    assert Points(b, P) == {only};
  }

  /** A category whose range holds at least two ratings. */
  function Wide(b: Box): (c: Category)
    requires Size(b.x) >= 2 || Size(b.m) >= 2 || Size(b.a) >= 2 || Size(b.s) >= 2
    ensures Size(Get(b, c)) >= 2
  {
    if Size(b.x) >= 2 then X else if Size(b.m) >= 2 then M else if Size(b.a) >= 2 then A else S
  }

  /** A box holds `Volume` points. */
  lemma {:induction false} PointsAll(b: Box, P: Part -> bool)
    requires forall p :: InBox(p, b) ==> P(p)
    ensures |Points(b, P)| == Volume(b)
    decreases Extent(b)
  {
    if Size(b.x) == 0 || Size(b.m) == 0 || Size(b.a) == 0 || Size(b.s) == 0 {
      PointsEmpty(b, P);
    } else if Size(b.x) == 1 && Size(b.m) == 1 && Size(b.a) == 1 && Size(b.s) == 1 {
      PointsSingle(b, P);
    } else {
      var c := Wide(b);
      var i := Get(b, c);
      var lower, upper := Below(i, i.lo), Above(i, i.lo);
      PointsCut(b, c, lower, upper, P);
      SizeCut(i, i.lo);
      VolumeSplit(b, c, lower, upper);
      ExtentAround(b, c, lower);
      ExtentAround(b, c, upper);
      InBoxCut(b, c, lower);
      InBoxCut(b, c, upper);
      PointsAll(With(b, c, lower), P);
      PointsAll(With(b, c, upper), P);
    }
  }

  /** A box whose range of `c` shrinks stays inside the original box. */
  lemma InBoxCut(b: Box, c: Category, i: Interval)
    requires forall n :: Within(n, i) ==> Within(n, Get(b, c))
    ensures forall p :: InBox(p, With(b, c, i)) ==> InBox(p, b)
  {
    forall p | InBox(p, With(b, c, i))
      ensures InBox(p, b)
    {
      InBoxGet(p, With(b, c, i));
      InBoxGet(p, b);
    }
  }

  // ------------------------------------------------------------ the count

  /** The parts that following `action` accepts. */
  function AcceptedBy(ws: Workflows, action: Action, fuel: nat): Part -> bool {
    p => Follow(ws, action, p, fuel) == Ok(true)
  }

  /** The parts that the rules, then the fallback, send to acceptance. */
  function AcceptedByRules(ws: Workflows, rules: seq<Rule>, fallback: Action, fuel: nat): Part -> bool {
    p => Follow(ws, ApplyRules(rules, fallback, p), p, fuel) == Ok(true)
  }

  /** The clipped count of a box is the number of its combinations that the
      action accepts. */
  lemma {:induction false} CountActionAccepted(ws: Workflows, action: Action, b: Box, fuel: nat)
    requires CountAction(ws, action, b, fuel).Ok?
    ensures CountAction(ws, action, b, fuel).value == |Points(b, AcceptedBy(ws, action, fuel))|
    decreases fuel, 0, 1
  {
    var P := AcceptedBy(ws, action, fuel);
    match action
    case Accept =>
      PointsAll(b, P);
    case Reject =>
      PointsNone(b, P);
    case Move(name) =>
      CountMoveAccepted(ws, name, b, fuel);
  }

  /** Moving to a workflow counts what its rules, then its fallback,
      accept with one step of fuel less. */
  lemma {:induction false} CountMoveAccepted(ws: Workflows, name: string, b: Box, fuel: nat)
    requires CountAction(ws, Move(name), b, fuel).Ok?
    ensures CountAction(ws, Move(name), b, fuel).value == |Points(b, AcceptedBy(ws, Move(name), fuel))|
    decreases fuel, 0, 0
  {
    var P := AcceptedBy(ws, Move(name), fuel);
    var w := ws[name];
    var Q := AcceptedByRules(ws, w.rules, w.fallback, fuel - 1);
    assert forall p :: P(p) == Q(p);
    PointsAgree(b, P, Q);
    CountRulesAccepted(ws, w.rules, w.fallback, b, fuel - 1);
  }

  lemma {:induction false} CountRulesAccepted(ws: Workflows, rules: seq<Rule>, fallback: Action, b: Box, fuel: nat)
    requires CountRules(ws, rules, fallback, b, fuel).Ok?
    ensures CountRules(ws, rules, fallback, b, fuel).value == |Points(b, AcceptedByRules(ws, rules, fallback, fuel))|
    decreases fuel, |rules| + 1, 0
  {
    var P := AcceptedByRules(ws, rules, fallback, fuel);
    if |rules| == 0 {
      var Q := AcceptedBy(ws, fallback, fuel);
      assert forall p :: P(p) == Q(p);
      PointsAgree(b, P, Q);
      CountActionAccepted(ws, fallback, b, fuel);
    } else {
      var r := rules[0];
      var (send, keep) := SplitBox(r, b);
      var c := r.category;
      PointsCut(b, c, Get(send, c), Get(keep, c), P);
      var Q := AcceptedBy(ws, r.action, fuel);
      var R := AcceptedByRules(ws, rules[1..], fallback, fuel);
      forall p | InBox(p, send)
        ensures P(p) == Q(p)
      {
        SplitBoxMembers(r, b, p);
      }
      forall p | InBox(p, keep)
        ensures P(p) == R(p)
      {
        SplitBoxMembers(r, b, p);
      }
      PointsAgree(send, P, Q);
      PointsAgree(keep, P, R);
      CountActionAccepted(ws, r.action, send, fuel);
      CountRulesAccepted(ws, rules[1..], fallback, keep, fuel);
    }
  }

  /** The clipped `eval_range` of a workflow counts exactly the combinations
      of the box that the workflow accepts. */
  lemma CountAccepted(ws: Workflows, w: Workflow, b: Box, fuel: nat)
    requires Count(ws, w, b, fuel).Ok?
    ensures Count(ws, w, b, fuel).value == |Points(b, p => Follow(ws, Apply(w, p), p, fuel) == Ok(true))|
  {
    CountRulesAccepted(ws, w.rules, w.fallback, b, fuel);
    PointsAgree(b, AcceptedByRules(ws, w.rules, w.fallback, fuel), p => Follow(ws, Apply(w, p), p, fuel) == Ok(true));
  }
}

=== FILE: day19_sample.dfy ===
/** Day 19 on the puzzle's worked example: its eleven workflows and five
    parts, with part one's 19114 and part two's 167409079868000 derived
    step by step.  The fuel parameters stand at the number of workflows,
    which is what `part_one` and `part_two` pass.

    Each lemma binds the fuel to a local `f` and passes `f` rather than a
    literal on to the steps, so that each one unfolds only the step it
    states. */
module Day19Sample {
  import opened Wrappers
  import opened Day19Part
  import opened Day19Workflow
  import opened Day19Ranges
  import opened Day19

  lemma CountRulesEnd(ws: Workflows, rules: seq<Rule>, fallback: Action, b: Box, fuel: nat)
    requires |rules| == 0
    ensures CountRules(ws, rules, fallback, b, fuel) == CountAction(ws, fallback, b, fuel)
  {
  }

  lemma CountRulesStep(ws: Workflows, rules: seq<Rule>, fallback: Action, b: Box, fuel: nat, sent: nat, kept: nat)
    requires |rules| > 0
    requires CountAction(ws, rules[0].action, SplitBox(rules[0], b).0, fuel) == Ok(sent)
    requires CountRules(ws, rules[1..], fallback, SplitBox(rules[0], b).1, fuel) == Ok(kept)
    ensures CountRules(ws, rules, fallback, b, fuel) == Ok(sent + kept)
  {
  }

  lemma CountMoveStep(ws: Workflows, name: string, b: Box, fuel: nat, n: nat)
    requires name in ws && fuel > 0
    requires CountRules(ws, ws[name].rules, ws[name].fallback, b, fuel - 1) == Ok(n)
    ensures CountAction(ws, Move(name), b, fuel) == Ok(n)
  {
  }

  lemma EvalRulesEnd(ws: Workflows, rules: seq<Rule>, fallback: Action, b: Box, fuel: nat)
    requires |rules| == 0
    ensures EvalRules(ws, rules, fallback, b, fuel) == EvalAction(ws, fallback, b, fuel)
  {
  }

  lemma EvalRulesStep(ws: Workflows, rules: seq<Rule>, fallback: Action, b: Box, send: Box, keep: Box, fuel: nat, sent: nat, kept: nat)
    requires |rules| > 0 && SplitRanges(rules[0], b) == Ok((send, keep))
    requires EvalAction(ws, rules[0].action, send, fuel) == Ok(sent)
    requires EvalRules(ws, rules[1..], fallback, keep, fuel) == Ok(kept)
    ensures EvalRules(ws, rules, fallback, b, fuel) == Ok(sent + kept)
  {
  }

  lemma EvalMoveStep(ws: Workflows, name: string, b: Box, fuel: nat, n: nat)
    requires name in ws && fuel > 0
    requires EvalRules(ws, ws[name].rules, ws[name].fallback, b, fuel - 1) == Ok(n)
    ensures EvalAction(ws, Move(name), b, fuel) == Ok(n)
  {
  }

  /** The sample's workflows by name. */
  function Sample(): Workflows {
    map[
      "px" := Workflow("px", [Rule(A, Less, 2006, Move("qkq")), Rule(M, Greater, 2090, Accept)], Move("rfg")),
      "pv" := Workflow("pv", [Rule(A, Greater, 1716, Reject)], Accept),
      "lnx" := Workflow("lnx", [Rule(M, Greater, 1548, Accept)], Accept),
      "rfg" := Workflow("rfg", [Rule(S, Less, 537, Move("gd")), Rule(X, Greater, 2440, Reject)], Accept),
      "qs" := Workflow("qs", [Rule(S, Greater, 3448, Accept)], Move("lnx")),
      "qkq" := Workflow("qkq", [Rule(X, Less, 1416, Accept)], Move("crn")),
      "crn" := Workflow("crn", [Rule(X, Greater, 2662, Accept)], Reject),
      "in" := Workflow("in", [Rule(S, Less, 1351, Move("px"))], Move("qqz")),
      "qqz" := Workflow("qqz", [Rule(S, Greater, 2770, Move("qs")), Rule(M, Less, 1801, Move("hdj"))], Reject),
      "gd" := Workflow("gd", [Rule(A, Greater, 3333, Reject)], Reject),
      "hdj" := Workflow("hdj", [Rule(M, Greater, 838, Accept)], Move("pv"))
    ]
  }

  lemma SampleCrn()
    ensures CountAction(Sample(), Move("crn"), Box(Interval(1416, 4000), Interval(1, 4000), Interval(1, 2005), Interval(1, 1350)), 9) == Ok(14486526000000)
  {
    var f := 9;
    var w := Workflow("crn", [Rule(X, Greater, 2662, Accept)], Reject);
    assert Sample()["crn"] == w;
    assert SplitBox(w.rules[0], Box(Interval(1416, 4000), Interval(1, 4000), Interval(1, 2005), Interval(1, 1350))) == (Box(Interval(2663, 4000), Interval(1, 4000), Interval(1, 2005), Interval(1, 1350)), Box(Interval(1416, 2662), Interval(1, 4000), Interval(1, 2005), Interval(1, 1350)));
    assert CountAction(Sample(), Accept, Box(Interval(2663, 4000), Interval(1, 4000), Interval(1, 2005), Interval(1, 1350)), f - 1) == Ok(14486526000000);
    CountRulesEnd(Sample(), w.rules[1..], w.fallback, Box(Interval(1416, 2662), Interval(1, 4000), Interval(1, 2005), Interval(1, 1350)), f - 1);
    CountRulesStep(Sample(), w.rules, w.fallback, Box(Interval(1416, 4000), Interval(1, 4000), Interval(1, 2005), Interval(1, 1350)), f - 1, 14486526000000, 0);
    CountMoveStep(Sample(), "crn", Box(Interval(1416, 4000), Interval(1, 4000), Interval(1, 2005), Interval(1, 1350)), f, 14486526000000);
  }

  lemma SampleQkq()
    ensures CountAction(Sample(), Move("qkq"), Box(Interval(1, 4000), Interval(1, 4000), Interval(1, 2005), Interval(1, 1350)), 10) == Ok(29806731000000)
  {
    var f := 10;
    var w := Workflow("qkq", [Rule(X, Less, 1416, Accept)], Move("crn"));
    assert Sample()["qkq"] == w;
    assert SplitBox(w.rules[0], Box(Interval(1, 4000), Interval(1, 4000), Interval(1, 2005), Interval(1, 1350))) == (Box(Interval(1, 1415), Interval(1, 4000), Interval(1, 2005), Interval(1, 1350)), Box(Interval(1416, 4000), Interval(1, 4000), Interval(1, 2005), Interval(1, 1350)));
    assert CountAction(Sample(), Accept, Box(Interval(1, 1415), Interval(1, 4000), Interval(1, 2005), Interval(1, 1350)), f - 1) == Ok(15320205000000);
    SampleCrn();
    CountRulesEnd(Sample(), w.rules[1..], w.fallback, Box(Interval(1416, 4000), Interval(1, 4000), Interval(1, 2005), Interval(1, 1350)), f - 1);
    CountRulesStep(Sample(), w.rules, w.fallback, Box(Interval(1, 4000), Interval(1, 4000), Interval(1, 2005), Interval(1, 1350)), f - 1, 15320205000000, 14486526000000);
    CountMoveStep(Sample(), "qkq", Box(Interval(1, 4000), Interval(1, 4000), Interval(1, 2005), Interval(1, 1350)), f, 29806731000000);
  }

  lemma SampleGd()
    ensures CountAction(Sample(), Move("gd"), Box(Interval(1, 4000), Interval(1, 2090), Interval(2006, 4000), Interval(1, 536)), 9) == Ok(0)
  {
    var f := 9;
    var w := Workflow("gd", [Rule(A, Greater, 3333, Reject)], Reject);
    assert Sample()["gd"] == w;
    assert SplitBox(w.rules[0], Box(Interval(1, 4000), Interval(1, 2090), Interval(2006, 4000), Interval(1, 536))) == (Box(Interval(1, 4000), Interval(1, 2090), Interval(3334, 4000), Interval(1, 536)), Box(Interval(1, 4000), Interval(1, 2090), Interval(2006, 3333), Interval(1, 536)));
    CountRulesEnd(Sample(), w.rules[1..], w.fallback, Box(Interval(1, 4000), Interval(1, 2090), Interval(2006, 3333), Interval(1, 536)), f - 1);
    CountRulesStep(Sample(), w.rules, w.fallback, Box(Interval(1, 4000), Interval(1, 2090), Interval(2006, 4000), Interval(1, 536)), f - 1, 0, 0);
    CountMoveStep(Sample(), "gd", Box(Interval(1, 4000), Interval(1, 2090), Interval(2006, 4000), Interval(1, 536)), f, 0);
  }

  lemma SampleRfgRest()
    ensures CountRules(Sample(), Sample()["rfg"].rules[1..], Sample()["rfg"].fallback, Box(Interval(1, 4000), Interval(1, 2090), Interval(2006, 4000), Interval(537, 1350)), 9) == Ok(8281393428000)
  {
    var f := 10;
    var w := Workflow("rfg", [Rule(S, Less, 537, Move("gd")), Rule(X, Greater, 2440, Reject)], Accept);
    assert Sample()["rfg"] == w;
    assert SplitBox(w.rules[1], Box(Interval(1, 4000), Interval(1, 2090), Interval(2006, 4000), Interval(537, 1350))) == (Box(Interval(2441, 4000), Interval(1, 2090), Interval(2006, 4000), Interval(537, 1350)), Box(Interval(1, 2440), Interval(1, 2090), Interval(2006, 4000), Interval(537, 1350)));
    assert CountAction(Sample(), Accept, Box(Interval(1, 2440), Interval(1, 2090), Interval(2006, 4000), Interval(537, 1350)), f - 1) == Ok(8281393428000);
    assert w.rules[1..][1..] == w.rules[2..];
    CountRulesEnd(Sample(), w.rules[2..], w.fallback, Box(Interval(1, 2440), Interval(1, 2090), Interval(2006, 4000), Interval(537, 1350)), f - 1);
    CountRulesStep(Sample(), w.rules[1..], w.fallback, Box(Interval(1, 4000), Interval(1, 2090), Interval(2006, 4000), Interval(537, 1350)), f - 1, 0, 8281393428000);
  }

  lemma SampleRfg()
    ensures CountAction(Sample(), Move("rfg"), Box(Interval(1, 4000), Interval(1, 2090), Interval(2006, 4000), Interval(1, 1350)), 10) == Ok(8281393428000)
  {
    var f := 10;
    var w := Workflow("rfg", [Rule(S, Less, 537, Move("gd")), Rule(X, Greater, 2440, Reject)], Accept);
    assert Sample()["rfg"] == w;
    assert SplitBox(w.rules[0], Box(Interval(1, 4000), Interval(1, 2090), Interval(2006, 4000), Interval(1, 1350))) == (Box(Interval(1, 4000), Interval(1, 2090), Interval(2006, 4000), Interval(1, 536)), Box(Interval(1, 4000), Interval(1, 2090), Interval(2006, 4000), Interval(537, 1350)));
    SampleGd();
    SampleRfgRest();
    CountRulesStep(Sample(), w.rules, w.fallback, Box(Interval(1, 4000), Interval(1, 2090), Interval(2006, 4000), Interval(1, 1350)), f - 1, 0, 8281393428000);
    CountMoveStep(Sample(), "rfg", Box(Interval(1, 4000), Interval(1, 2090), Interval(2006, 4000), Interval(1, 1350)), f, 8281393428000);
  }

  lemma SamplePxRest()
    ensures CountRules(Sample(), Sample()["px"].rules[1..], Sample()["px"].fallback, Box(Interval(1, 4000), Interval(1, 4000), Interval(2006, 4000), Interval(1, 1350)), 10) == Ok(28857823428000)
  {
    var f := 11;
    var w := Workflow("px", [Rule(A, Less, 2006, Move("qkq")), Rule(M, Greater, 2090, Accept)], Move("rfg"));
    assert Sample()["px"] == w;
    assert SplitBox(w.rules[1], Box(Interval(1, 4000), Interval(1, 4000), Interval(2006, 4000), Interval(1, 1350))) == (Box(Interval(1, 4000), Interval(2091, 4000), Interval(2006, 4000), Interval(1, 1350)), Box(Interval(1, 4000), Interval(1, 2090), Interval(2006, 4000), Interval(1, 1350)));
    assert CountAction(Sample(), Accept, Box(Interval(1, 4000), Interval(2091, 4000), Interval(2006, 4000), Interval(1, 1350)), f - 1) == Ok(20576430000000);
    SampleRfg();
    assert w.rules[1..][1..] == w.rules[2..];
    CountRulesEnd(Sample(), w.rules[2..], w.fallback, Box(Interval(1, 4000), Interval(1, 2090), Interval(2006, 4000), Interval(1, 1350)), f - 1);
    CountRulesStep(Sample(), w.rules[1..], w.fallback, Box(Interval(1, 4000), Interval(1, 4000), Interval(2006, 4000), Interval(1, 1350)), f - 1, 20576430000000, 8281393428000);
  }

  lemma SamplePx()
    ensures CountAction(Sample(), Move("px"), Box(Interval(1, 4000), Interval(1, 4000), Interval(1, 4000), Interval(1, 1350)), 11) == Ok(58664554428000)
  {
    var f := 11;
    var w := Workflow("px", [Rule(A, Less, 2006, Move("qkq")), Rule(M, Greater, 2090, Accept)], Move("rfg"));
    assert Sample()["px"] == w;
    assert SplitBox(w.rules[0], Box(Interval(1, 4000), Interval(1, 4000), Interval(1, 4000), Interval(1, 1350))) == (Box(Interval(1, 4000), Interval(1, 4000), Interval(1, 2005), Interval(1, 1350)), Box(Interval(1, 4000), Interval(1, 4000), Interval(2006, 4000), Interval(1, 1350)));
    SampleQkq();
    SamplePxRest();
    CountRulesStep(Sample(), w.rules, w.fallback, Box(Interval(1, 4000), Interval(1, 4000), Interval(1, 4000), Interval(1, 1350)), f - 1, 29806731000000, 28857823428000);
    CountMoveStep(Sample(), "px", Box(Interval(1, 4000), Interval(1, 4000), Interval(1, 4000), Interval(1, 1350)), f, 58664554428000);
  }

  lemma SampleLnx()
    ensures CountAction(Sample(), Move("lnx"), Box(Interval(1, 4000), Interval(1, 4000), Interval(1, 4000), Interval(2771, 3448)), 9) == Ok(43392000000000)
  {
    var f := 9;
    var w := Workflow("lnx", [Rule(M, Greater, 1548, Accept)], Accept);
    assert Sample()["lnx"] == w;
    assert SplitBox(w.rules[0], Box(Interval(1, 4000), Interval(1, 4000), Interval(1, 4000), Interval(2771, 3448))) == (Box(Interval(1, 4000), Interval(1549, 4000), Interval(1, 4000), Interval(2771, 3448)), Box(Interval(1, 4000), Interval(1, 1548), Interval(1, 4000), Interval(2771, 3448)));
    assert CountAction(Sample(), Accept, Box(Interval(1, 4000), Interval(1549, 4000), Interval(1, 4000), Interval(2771, 3448)), f - 1) == Ok(26599296000000);
    assert CountAction(Sample(), Accept, Box(Interval(1, 4000), Interval(1, 1548), Interval(1, 4000), Interval(2771, 3448)), f - 1) == Ok(16792704000000);
    CountRulesEnd(Sample(), w.rules[1..], w.fallback, Box(Interval(1, 4000), Interval(1, 1548), Interval(1, 4000), Interval(2771, 3448)), f - 1);
    CountRulesStep(Sample(), w.rules, w.fallback, Box(Interval(1, 4000), Interval(1, 4000), Interval(1, 4000), Interval(2771, 3448)), f - 1, 26599296000000, 16792704000000);
    CountMoveStep(Sample(), "lnx", Box(Interval(1, 4000), Interval(1, 4000), Interval(1, 4000), Interval(2771, 3448)), f, 43392000000000);
  }

  lemma SampleQs()
    ensures CountAction(Sample(), Move("qs"), Box(Interval(1, 4000), Interval(1, 4000), Interval(1, 4000), Interval(2771, 4000)), 10) == Ok(78720000000000)
  {
    var f := 10;
    var w := Workflow("qs", [Rule(S, Greater, 3448, Accept)], Move("lnx"));
    assert Sample()["qs"] == w;
    assert SplitBox(w.rules[0], Box(Interval(1, 4000), Interval(1, 4000), Interval(1, 4000), Interval(2771, 4000))) == (Box(Interval(1, 4000), Interval(1, 4000), Interval(1, 4000), Interval(3449, 4000)), Box(Interval(1, 4000), Interval(1, 4000), Interval(1, 4000), Interval(2771, 3448)));
    assert CountAction(Sample(), Accept, Box(Interval(1, 4000), Interval(1, 4000), Interval(1, 4000), Interval(3449, 4000)), f - 1) == Ok(35328000000000);
    SampleLnx();
    CountRulesEnd(Sample(), w.rules[1..], w.fallback, Box(Interval(1, 4000), Interval(1, 4000), Interval(1, 4000), Interval(2771, 3448)), f - 1);
    CountRulesStep(Sample(), w.rules, w.fallback, Box(Interval(1, 4000), Interval(1, 4000), Interval(1, 4000), Interval(2771, 4000)), f - 1, 35328000000000, 43392000000000);
    CountMoveStep(Sample(), "qs", Box(Interval(1, 4000), Interval(1, 4000), Interval(1, 4000), Interval(2771, 4000)), f, 78720000000000);
  }

  lemma SamplePv()
    ensures CountAction(Sample(), Move("pv"), Box(Interval(1, 4000), Interval(1, 838), Interval(1, 4000), Interval(1351, 2770)), 9) == Ok(8167885440000)
  {
    var f := 9;
    var w := Workflow("pv", [Rule(A, Greater, 1716, Reject)], Accept);
    assert Sample()["pv"] == w;
    assert SplitBox(w.rules[0], Box(Interval(1, 4000), Interval(1, 838), Interval(1, 4000), Interval(1351, 2770))) == (Box(Interval(1, 4000), Interval(1, 838), Interval(1717, 4000), Interval(1351, 2770)), Box(Interval(1, 4000), Interval(1, 838), Interval(1, 1716), Interval(1351, 2770)));
    assert CountAction(Sample(), Accept, Box(Interval(1, 4000), Interval(1, 838), Interval(1, 1716), Interval(1351, 2770)), f - 1) == Ok(8167885440000);
    CountRulesEnd(Sample(), w.rules[1..], w.fallback, Box(Interval(1, 4000), Interval(1, 838), Interval(1, 1716), Interval(1351, 2770)), f - 1);
    CountRulesStep(Sample(), w.rules, w.fallback, Box(Interval(1, 4000), Interval(1, 838), Interval(1, 4000), Interval(1351, 2770)), f - 1, 0, 8167885440000);
    CountMoveStep(Sample(), "pv", Box(Interval(1, 4000), Interval(1, 838), Interval(1, 4000), Interval(1351, 2770)), f, 8167885440000);
  }

  lemma SampleHdj()
    ensures CountAction(Sample(), Move("hdj"), Box(Interval(1, 4000), Interval(1, 1800), Interval(1, 4000), Interval(1351, 2770)), 10) == Ok(30024525440000)
  {
    var f := 10;
    var w := Workflow("hdj", [Rule(M, Greater, 838, Accept)], Move("pv"));
    assert Sample()["hdj"] == w;
    assert SplitBox(w.rules[0], Box(Interval(1, 4000), Interval(1, 1800), Interval(1, 4000), Interval(1351, 2770))) == (Box(Interval(1, 4000), Interval(839, 1800), Interval(1, 4000), Interval(1351, 2770)), Box(Interval(1, 4000), Interval(1, 838), Interval(1, 4000), Interval(1351, 2770)));
    assert CountAction(Sample(), Accept, Box(Interval(1, 4000), Interval(839, 1800), Interval(1, 4000), Interval(1351, 2770)), f - 1) == Ok(21856640000000);
    SamplePv();
    CountRulesEnd(Sample(), w.rules[1..], w.fallback, Box(Interval(1, 4000), Interval(1, 838), Interval(1, 4000), Interval(1351, 2770)), f - 1);
    CountRulesStep(Sample(), w.rules, w.fallback, Box(Interval(1, 4000), Interval(1, 1800), Interval(1, 4000), Interval(1351, 2770)), f - 1, 21856640000000, 8167885440000);
    CountMoveStep(Sample(), "hdj", Box(Interval(1, 4000), Interval(1, 1800), Interval(1, 4000), Interval(1351, 2770)), f, 30024525440000);
  }

  lemma SampleQqzRest()
    ensures CountRules(Sample(), Sample()["qqz"].rules[1..], Sample()["qqz"].fallback, Box(Interval(1, 4000), Interval(1, 4000), Interval(1, 4000), Interval(1351, 2770)), 10) == Ok(30024525440000)
  {
    var f := 11;
    var w := Workflow("qqz", [Rule(S, Greater, 2770, Move("qs")), Rule(M, Less, 1801, Move("hdj"))], Reject);
    assert Sample()["qqz"] == w;
    assert SplitBox(w.rules[1], Box(Interval(1, 4000), Interval(1, 4000), Interval(1, 4000), Interval(1351, 2770))) == (Box(Interval(1, 4000), Interval(1, 1800), Interval(1, 4000), Interval(1351, 2770)), Box(Interval(1, 4000), Interval(1801, 4000), Interval(1, 4000), Interval(1351, 2770)));
    SampleHdj();
    assert w.rules[1..][1..] == w.rules[2..];
    CountRulesEnd(Sample(), w.rules[2..], w.fallback, Box(Interval(1, 4000), Interval(1801, 4000), Interval(1, 4000), Interval(1351, 2770)), f - 1);
    CountRulesStep(Sample(), w.rules[1..], w.fallback, Box(Interval(1, 4000), Interval(1, 4000), Interval(1, 4000), Interval(1351, 2770)), f - 1, 30024525440000, 0);
  }

  lemma SampleQqz()
    ensures CountAction(Sample(), Move("qqz"), Box(Interval(1, 4000), Interval(1, 4000), Interval(1, 4000), Interval(1351, 4000)), 11) == Ok(108744525440000)
  {
    var f := 11;
    var w := Workflow("qqz", [Rule(S, Greater, 2770, Move("qs")), Rule(M, Less, 1801, Move("hdj"))], Reject);
    assert Sample()["qqz"] == w;
    assert SplitBox(w.rules[0], Box(Interval(1, 4000), Interval(1, 4000), Interval(1, 4000), Interval(1351, 4000))) == (Box(Interval(1, 4000), Interval(1, 4000), Interval(1, 4000), Interval(2771, 4000)), Box(Interval(1, 4000), Interval(1, 4000), Interval(1, 4000), Interval(1351, 2770)));
    SampleQs();
    SampleQqzRest();
    CountRulesStep(Sample(), w.rules, w.fallback, Box(Interval(1, 4000), Interval(1, 4000), Interval(1, 4000), Interval(1351, 4000)), f - 1, 78720000000000, 30024525440000);
    CountMoveStep(Sample(), "qqz", Box(Interval(1, 4000), Interval(1, 4000), Interval(1, 4000), Interval(1351, 4000)), f, 108744525440000);
  }

  /** The sample's part two answer. */
  lemma SampleCount()
    ensures Count(Sample(), Sample()[Start], Full, 11) == Ok(167409079868000)
  {
    var f := 11;
    var w := Workflow("in", [Rule(S, Less, 1351, Move("px"))], Move("qqz"));
    assert Sample()["in"] == w;
    assert SplitBox(w.rules[0], Box(Interval(1, 4000), Interval(1, 4000), Interval(1, 4000), Interval(1, 4000))) == (Box(Interval(1, 4000), Interval(1, 4000), Interval(1, 4000), Interval(1, 1350)), Box(Interval(1, 4000), Interval(1, 4000), Interval(1, 4000), Interval(1351, 4000)));
    SamplePx();
    SampleQqz();
    CountRulesEnd(Sample(), w.rules[1..], w.fallback, Box(Interval(1, 4000), Interval(1, 4000), Interval(1, 4000), Interval(1351, 4000)), f);
    CountRulesStep(Sample(), w.rules, w.fallback, Box(Interval(1, 4000), Interval(1, 4000), Interval(1, 4000), Interval(1, 4000)), f, 58664554428000, 108744525440000);
  }

  lemma WrittenCrn()
    ensures EvalAction(Sample(), Move("crn"), Box(Interval(1416, 4000), Interval(1, 4000), Interval(1, 2005), Interval(1, 1350)), 9) == Ok(14486526000000)
  {
    var f := 9;
    var w := Workflow("crn", [Rule(X, Greater, 2662, Accept)], Reject);
    assert Sample()["crn"] == w;
    assert SplitRanges(w.rules[0], Box(Interval(1416, 4000), Interval(1, 4000), Interval(1, 2005), Interval(1, 1350))) == Ok((Box(Interval(2663, 4000), Interval(1, 4000), Interval(1, 2005), Interval(1, 1350)), Box(Interval(1416, 2662), Interval(1, 4000), Interval(1, 2005), Interval(1, 1350))));
    assert EvalAction(Sample(), Accept, Box(Interval(2663, 4000), Interval(1, 4000), Interval(1, 2005), Interval(1, 1350)), f - 1) == Ok(14486526000000);
    EvalRulesEnd(Sample(), w.rules[1..], w.fallback, Box(Interval(1416, 2662), Interval(1, 4000), Interval(1, 2005), Interval(1, 1350)), f - 1);
    EvalRulesStep(Sample(), w.rules, w.fallback, Box(Interval(1416, 4000), Interval(1, 4000), Interval(1, 2005), Interval(1, 1350)), Box(Interval(2663, 4000), Interval(1, 4000), Interval(1, 2005), Interval(1, 1350)), Box(Interval(1416, 2662), Interval(1, 4000), Interval(1, 2005), Interval(1, 1350)), f - 1, 14486526000000, 0);
    EvalMoveStep(Sample(), "crn", Box(Interval(1416, 4000), Interval(1, 4000), Interval(1, 2005), Interval(1, 1350)), f, 14486526000000);
  }

  lemma WrittenQkq()
    ensures EvalAction(Sample(), Move("qkq"), Box(Interval(1, 4000), Interval(1, 4000), Interval(1, 2005), Interval(1, 1350)), 10) == Ok(29806731000000)
  {
    var f := 10;
    var w := Workflow("qkq", [Rule(X, Less, 1416, Accept)], Move("crn"));
    assert Sample()["qkq"] == w;
    assert SplitRanges(w.rules[0], Box(Interval(1, 4000), Interval(1, 4000), Interval(1, 2005), Interval(1, 1350))) == Ok((Box(Interval(1, 1415), Interval(1, 4000), Interval(1, 2005), Interval(1, 1350)), Box(Interval(1416, 4000), Interval(1, 4000), Interval(1, 2005), Interval(1, 1350))));
    assert EvalAction(Sample(), Accept, Box(Interval(1, 1415), Interval(1, 4000), Interval(1, 2005), Interval(1, 1350)), f - 1) == Ok(15320205000000);
    WrittenCrn();
    EvalRulesEnd(Sample(), w.rules[1..], w.fallback, Box(Interval(1416, 4000), Interval(1, 4000), Interval(1, 2005), Interval(1, 1350)), f - 1);
    EvalRulesStep(Sample(), w.rules, w.fallback, Box(Interval(1, 4000), Interval(1, 4000), Interval(1, 2005), Interval(1, 1350)), Box(Interval(1, 1415), Interval(1, 4000), Interval(1, 2005), Interval(1, 1350)), Box(Interval(1416, 4000), Interval(1, 4000), Interval(1, 2005), Interval(1, 1350)), f - 1, 15320205000000, 14486526000000);
    EvalMoveStep(Sample(), "qkq", Box(Interval(1, 4000), Interval(1, 4000), Interval(1, 2005), Interval(1, 1350)), f, 29806731000000);
  }

  lemma WrittenGd()
    ensures EvalAction(Sample(), Move("gd"), Box(Interval(1, 4000), Interval(1, 2090), Interval(2006, 4000), Interval(1, 536)), 9) == Ok(0)
  {
    var f := 9;
    var w := Workflow("gd", [Rule(A, Greater, 3333, Reject)], Reject);
    assert Sample()["gd"] == w;
    assert SplitRanges(w.rules[0], Box(Interval(1, 4000), Interval(1, 2090), Interval(2006, 4000), Interval(1, 536))) == Ok((Box(Interval(1, 4000), Interval(1, 2090), Interval(3334, 4000), Interval(1, 536)), Box(Interval(1, 4000), Interval(1, 2090), Interval(2006, 3333), Interval(1, 536))));
    EvalRulesEnd(Sample(), w.rules[1..], w.fallback, Box(Interval(1, 4000), Interval(1, 2090), Interval(2006, 3333), Interval(1, 536)), f - 1);
    EvalRulesStep(Sample(), w.rules, w.fallback, Box(Interval(1, 4000), Interval(1, 2090), Interval(2006, 4000), Interval(1, 536)), Box(Interval(1, 4000), Interval(1, 2090), Interval(3334, 4000), Interval(1, 536)), Box(Interval(1, 4000), Interval(1, 2090), Interval(2006, 3333), Interval(1, 536)), f - 1, 0, 0);
    EvalMoveStep(Sample(), "gd", Box(Interval(1, 4000), Interval(1, 2090), Interval(2006, 4000), Interval(1, 536)), f, 0);
  }

  lemma WrittenRfgRest()
    ensures EvalRules(Sample(), Sample()["rfg"].rules[1..], Sample()["rfg"].fallback, Box(Interval(1, 4000), Interval(1, 2090), Interval(2006, 4000), Interval(537, 1350)), 9) == Ok(8281393428000)
  {
    var f := 10;
    var w := Workflow("rfg", [Rule(S, Less, 537, Move("gd")), Rule(X, Greater, 2440, Reject)], Accept);
    assert Sample()["rfg"] == w;
    assert SplitRanges(w.rules[1], Box(Interval(1, 4000), Interval(1, 2090), Interval(2006, 4000), Interval(537, 1350))) == Ok((Box(Interval(2441, 4000), Interval(1, 2090), Interval(2006, 4000), Interval(537, 1350)), Box(Interval(1, 2440), Interval(1, 2090), Interval(2006, 4000), Interval(537, 1350))));
    assert EvalAction(Sample(), Accept, Box(Interval(1, 2440), Interval(1, 2090), Interval(2006, 4000), Interval(537, 1350)), f - 1) == Ok(8281393428000);
    assert w.rules[1..][1..] == w.rules[2..];
    EvalRulesEnd(Sample(), w.rules[2..], w.fallback, Box(Interval(1, 2440), Interval(1, 2090), Interval(2006, 4000), Interval(537, 1350)), f - 1);
    EvalRulesStep(Sample(), w.rules[1..], w.fallback, Box(Interval(1, 4000), Interval(1, 2090), Interval(2006, 4000), Interval(537, 1350)), Box(Interval(2441, 4000), Interval(1, 2090), Interval(2006, 4000), Interval(537, 1350)), Box(Interval(1, 2440), Interval(1, 2090), Interval(2006, 4000), Interval(537, 1350)), f - 1, 0, 8281393428000);
  }

  lemma WrittenRfg()
    ensures EvalAction(Sample(), Move("rfg"), Box(Interval(1, 4000), Interval(1, 2090), Interval(2006, 4000), Interval(1, 1350)), 10) == Ok(8281393428000)
  {
    var f := 10;
    var w := Workflow("rfg", [Rule(S, Less, 537, Move("gd")), Rule(X, Greater, 2440, Reject)], Accept);
    assert Sample()["rfg"] == w;
    assert SplitRanges(w.rules[0], Box(Interval(1, 4000), Interval(1, 2090), Interval(2006, 4000), Interval(1, 1350))) == Ok((Box(Interval(1, 4000), Interval(1, 2090), Interval(2006, 4000), Interval(1, 536)), Box(Interval(1, 4000), Interval(1, 2090), Interval(2006, 4000), Interval(537, 1350))));
    WrittenGd();
    WrittenRfgRest();
    EvalRulesStep(Sample(), w.rules, w.fallback, Box(Interval(1, 4000), Interval(1, 2090), Interval(2006, 4000), Interval(1, 1350)), Box(Interval(1, 4000), Interval(1, 2090), Interval(2006, 4000), Interval(1, 536)), Box(Interval(1, 4000), Interval(1, 2090), Interval(2006, 4000), Interval(537, 1350)), f - 1, 0, 8281393428000);
    EvalMoveStep(Sample(), "rfg", Box(Interval(1, 4000), Interval(1, 2090), Interval(2006, 4000), Interval(1, 1350)), f, 8281393428000);
  }

  lemma WrittenPxRest()
    ensures EvalRules(Sample(), Sample()["px"].rules[1..], Sample()["px"].fallback, Box(Interval(1, 4000), Interval(1, 4000), Interval(2006, 4000), Interval(1, 1350)), 10) == Ok(28857823428000)
  {
    var f := 11;
    var w := Workflow("px", [Rule(A, Less, 2006, Move("qkq")), Rule(M, Greater, 2090, Accept)], Move("rfg"));
    assert Sample()["px"] == w;
    assert SplitRanges(w.rules[1], Box(Interval(1, 4000), Interval(1, 4000), Interval(2006, 4000), Interval(1, 1350))) == Ok((Box(Interval(1, 4000), Interval(2091, 4000), Interval(2006, 4000), Interval(1, 1350)), Box(Interval(1, 4000), Interval(1, 2090), Interval(2006, 4000), Interval(1, 1350))));
    assert EvalAction(Sample(), Accept, Box(Interval(1, 4000), Interval(2091, 4000), Interval(2006, 4000), Interval(1, 1350)), f - 1) == Ok(20576430000000);
    WrittenRfg();
    assert w.rules[1..][1..] == w.rules[2..];
    EvalRulesEnd(Sample(), w.rules[2..], w.fallback, Box(Interval(1, 4000), Interval(1, 2090), Interval(2006, 4000), Interval(1, 1350)), f - 1);
    EvalRulesStep(Sample(), w.rules[1..], w.fallback, Box(Interval(1, 4000), Interval(1, 4000), Interval(2006, 4000), Interval(1, 1350)), Box(Interval(1, 4000), Interval(2091, 4000), Interval(2006, 4000), Interval(1, 1350)), Box(Interval(1, 4000), Interval(1, 2090), Interval(2006, 4000), Interval(1, 1350)), f - 1, 20576430000000, 8281393428000);
  }

  lemma WrittenPx()
    ensures EvalAction(Sample(), Move("px"), Box(Interval(1, 4000), Interval(1, 4000), Interval(1, 4000), Interval(1, 1350)), 11) == Ok(58664554428000)
  {
    var f := 11;
    var w := Workflow("px", [Rule(A, Less, 2006, Move("qkq")), Rule(M, Greater, 2090, Accept)], Move("rfg"));
    assert Sample()["px"] == w;
    assert SplitRanges(w.rules[0], Box(Interval(1, 4000), Interval(1, 4000), Interval(1, 4000), Interval(1, 1350))) == Ok((Box(Interval(1, 4000), Interval(1, 4000), Interval(1, 2005), Interval(1, 1350)), Box(Interval(1, 4000), Interval(1, 4000), Interval(2006, 4000), Interval(1, 1350))));
    WrittenQkq();
    WrittenPxRest();
    EvalRulesStep(Sample(), w.rules, w.fallback, Box(Interval(1, 4000), Interval(1, 4000), Interval(1, 4000), Interval(1, 1350)), Box(Interval(1, 4000), Interval(1, 4000), Interval(1, 2005), Interval(1, 1350)), Box(Interval(1, 4000), Interval(1, 4000), Interval(2006, 4000), Interval(1, 1350)), f - 1, 29806731000000, 28857823428000);
    EvalMoveStep(Sample(), "px", Box(Interval(1, 4000), Interval(1, 4000), Interval(1, 4000), Interval(1, 1350)), f, 58664554428000);
  }

  lemma WrittenLnx()
    ensures EvalAction(Sample(), Move("lnx"), Box(Interval(1, 4000), Interval(1, 4000), Interval(1, 4000), Interval(2771, 3448)), 9) == Ok(43392000000000)
  {
    var f := 9;
    var w := Workflow("lnx", [Rule(M, Greater, 1548, Accept)], Accept);
    assert Sample()["lnx"] == w;
    assert SplitRanges(w.rules[0], Box(Interval(1, 4000), Interval(1, 4000), Interval(1, 4000), Interval(2771, 3448))) == Ok((Box(Interval(1, 4000), Interval(1549, 4000), Interval(1, 4000), Interval(2771, 3448)), Box(Interval(1, 4000), Interval(1, 1548), Interval(1, 4000), Interval(2771, 3448))));
    assert EvalAction(Sample(), Accept, Box(Interval(1, 4000), Interval(1549, 4000), Interval(1, 4000), Interval(2771, 3448)), f - 1) == Ok(26599296000000);
    assert EvalAction(Sample(), Accept, Box(Interval(1, 4000), Interval(1, 1548), Interval(1, 4000), Interval(2771, 3448)), f - 1) == Ok(16792704000000);
    EvalRulesEnd(Sample(), w.rules[1..], w.fallback, Box(Interval(1, 4000), Interval(1, 1548), Interval(1, 4000), Interval(2771, 3448)), f - 1);
    EvalRulesStep(Sample(), w.rules, w.fallback, Box(Interval(1, 4000), Interval(1, 4000), Interval(1, 4000), Interval(2771, 3448)), Box(Interval(1, 4000), Interval(1549, 4000), Interval(1, 4000), Interval(2771, 3448)), Box(Interval(1, 4000), Interval(1, 1548), Interval(1, 4000), Interval(2771, 3448)), f - 1, 26599296000000, 16792704000000);
    EvalMoveStep(Sample(), "lnx", Box(Interval(1, 4000), Interval(1, 4000), Interval(1, 4000), Interval(2771, 3448)), f, 43392000000000);
  }

  lemma WrittenQs()
    ensures EvalAction(Sample(), Move("qs"), Box(Interval(1, 4000), Interval(1, 4000), Interval(1, 4000), Interval(2771, 4000)), 10) == Ok(78720000000000)
  {
    var f := 10;
    var w := Workflow("qs", [Rule(S, Greater, 3448, Accept)], Move("lnx"));
    assert Sample()["qs"] == w;
    assert SplitRanges(w.rules[0], Box(Interval(1, 4000), Interval(1, 4000), Interval(1, 4000), Interval(2771, 4000))) == Ok((Box(Interval(1, 4000), Interval(1, 4000), Interval(1, 4000), Interval(3449, 4000)), Box(Interval(1, 4000), Interval(1, 4000), Interval(1, 4000), Interval(2771, 3448))));
    assert EvalAction(Sample(), Accept, Box(Interval(1, 4000), Interval(1, 4000), Interval(1, 4000), Interval(3449, 4000)), f - 1) == Ok(35328000000000);
    WrittenLnx();
    EvalRulesEnd(Sample(), w.rules[1..], w.fallback, Box(Interval(1, 4000), Interval(1, 4000), Interval(1, 4000), Interval(2771, 3448)), f - 1);
    EvalRulesStep(Sample(), w.rules, w.fallback, Box(Interval(1, 4000), Interval(1, 4000), Interval(1, 4000), Interval(2771, 4000)), Box(Interval(1, 4000), Interval(1, 4000), Interval(1, 4000), Interval(3449, 4000)), Box(Interval(1, 4000), Interval(1, 4000), Interval(1, 4000), Interval(2771, 3448)), f - 1, 35328000000000, 43392000000000);
    EvalMoveStep(Sample(), "qs", Box(Interval(1, 4000), Interval(1, 4000), Interval(1, 4000), Interval(2771, 4000)), f, 78720000000000);
  }

  lemma WrittenPv()
    ensures EvalAction(Sample(), Move("pv"), Box(Interval(1, 4000), Interval(1, 838), Interval(1, 4000), Interval(1351, 2770)), 9) == Ok(8167885440000)
  {
    var f := 9;
    var w := Workflow("pv", [Rule(A, Greater, 1716, Reject)], Accept);
    assert Sample()["pv"] == w;
    assert SplitRanges(w.rules[0], Box(Interval(1, 4000), Interval(1, 838), Interval(1, 4000), Interval(1351, 2770))) == Ok((Box(Interval(1, 4000), Interval(1, 838), Interval(1717, 4000), Interval(1351, 2770)), Box(Interval(1, 4000), Interval(1, 838), Interval(1, 1716), Interval(1351, 2770))));
    assert EvalAction(Sample(), Accept, Box(Interval(1, 4000), Interval(1, 838), Interval(1, 1716), Interval(1351, 2770)), f - 1) == Ok(8167885440000);
    EvalRulesEnd(Sample(), w.rules[1..], w.fallback, Box(Interval(1, 4000), Interval(1, 838), Interval(1, 1716), Interval(1351, 2770)), f - 1);
    EvalRulesStep(Sample(), w.rules, w.fallback, Box(Interval(1, 4000), Interval(1, 838), Interval(1, 4000), Interval(1351, 2770)), Box(Interval(1, 4000), Interval(1, 838), Interval(1717, 4000), Interval(1351, 2770)), Box(Interval(1, 4000), Interval(1, 838), Interval(1, 1716), Interval(1351, 2770)), f - 1, 0, 8167885440000);
    EvalMoveStep(Sample(), "pv", Box(Interval(1, 4000), Interval(1, 838), Interval(1, 4000), Interval(1351, 2770)), f, 8167885440000);
  }

  lemma WrittenHdj()
    ensures EvalAction(Sample(), Move("hdj"), Box(Interval(1, 4000), Interval(1, 1800), Interval(1, 4000), Interval(1351, 2770)), 10) == Ok(30024525440000)
  {
    var f := 10;
    var w := Workflow("hdj", [Rule(M, Greater, 838, Accept)], Move("pv"));
    assert Sample()["hdj"] == w;
    assert SplitRanges(w.rules[0], Box(Interval(1, 4000), Interval(1, 1800), Interval(1, 4000), Interval(1351, 2770))) == Ok((Box(Interval(1, 4000), Interval(839, 1800), Interval(1, 4000), Interval(1351, 2770)), Box(Interval(1, 4000), Interval(1, 838), Interval(1, 4000), Interval(1351, 2770))));
    assert EvalAction(Sample(), Accept, Box(Interval(1, 4000), Interval(839, 1800), Interval(1, 4000), Interval(1351, 2770)), f - 1) == Ok(21856640000000);
    WrittenPv();
    EvalRulesEnd(Sample(), w.rules[1..], w.fallback, Box(Interval(1, 4000), Interval(1, 838), Interval(1, 4000), Interval(1351, 2770)), f - 1);
    EvalRulesStep(Sample(), w.rules, w.fallback, Box(Interval(1, 4000), Interval(1, 1800), Interval(1, 4000), Interval(1351, 2770)), Box(Interval(1, 4000), Interval(839, 1800), Interval(1, 4000), Interval(1351, 2770)), Box(Interval(1, 4000), Interval(1, 838), Interval(1, 4000), Interval(1351, 2770)), f - 1, 21856640000000, 8167885440000);
    EvalMoveStep(Sample(), "hdj", Box(Interval(1, 4000), Interval(1, 1800), Interval(1, 4000), Interval(1351, 2770)), f, 30024525440000);
  }

  lemma WrittenQqzRest()
    ensures EvalRules(Sample(), Sample()["qqz"].rules[1..], Sample()["qqz"].fallback, Box(Interval(1, 4000), Interval(1, 4000), Interval(1, 4000), Interval(1351, 2770)), 10) == Ok(30024525440000)
  {
    var f := 11;
    var w := Workflow("qqz", [Rule(S, Greater, 2770, Move("qs")), Rule(M, Less, 1801, Move("hdj"))], Reject);
    assert Sample()["qqz"] == w;
    assert SplitRanges(w.rules[1], Box(Interval(1, 4000), Interval(1, 4000), Interval(1, 4000), Interval(1351, 2770))) == Ok((Box(Interval(1, 4000), Interval(1, 1800), Interval(1, 4000), Interval(1351, 2770)), Box(Interval(1, 4000), Interval(1801, 4000), Interval(1, 4000), Interval(1351, 2770))));
    WrittenHdj();
    assert w.rules[1..][1..] == w.rules[2..];
    EvalRulesEnd(Sample(), w.rules[2..], w.fallback, Box(Interval(1, 4000), Interval(1801, 4000), Interval(1, 4000), Interval(1351, 2770)), f - 1);
    EvalRulesStep(Sample(), w.rules[1..], w.fallback, Box(Interval(1, 4000), Interval(1, 4000), Interval(1, 4000), Interval(1351, 2770)), Box(Interval(1, 4000), Interval(1, 1800), Interval(1, 4000), Interval(1351, 2770)), Box(Interval(1, 4000), Interval(1801, 4000), Interval(1, 4000), Interval(1351, 2770)), f - 1, 30024525440000, 0);
  }

  lemma WrittenQqz()
    ensures EvalAction(Sample(), Move("qqz"), Box(Interval(1, 4000), Interval(1, 4000), Interval(1, 4000), Interval(1351, 4000)), 11) == Ok(108744525440000)
  {
    var f := 11;
    var w := Workflow("qqz", [Rule(S, Greater, 2770, Move("qs")), Rule(M, Less, 1801, Move("hdj"))], Reject);
    assert Sample()["qqz"] == w;
    assert SplitRanges(w.rules[0], Box(Interval(1, 4000), Interval(1, 4000), Interval(1, 4000), Interval(1351, 4000))) == Ok((Box(Interval(1, 4000), Interval(1, 4000), Interval(1, 4000), Interval(2771, 4000)), Box(Interval(1, 4000), Interval(1, 4000), Interval(1, 4000), Interval(1351, 2770))));
    WrittenQs();
    WrittenQqzRest();
    EvalRulesStep(Sample(), w.rules, w.fallback, Box(Interval(1, 4000), Interval(1, 4000), Interval(1, 4000), Interval(1351, 4000)), Box(Interval(1, 4000), Interval(1, 4000), Interval(1, 4000), Interval(2771, 4000)), Box(Interval(1, 4000), Interval(1, 4000), Interval(1, 4000), Interval(1351, 2770)), f - 1, 78720000000000, 30024525440000);
    EvalMoveStep(Sample(), "qqz", Box(Interval(1, 4000), Interval(1, 4000), Interval(1, 4000), Interval(1351, 4000)), f, 108744525440000);
  }

  /** The sample's part two answer, as written. */
  lemma WrittenCount()
    ensures EvalRange(Sample(), Sample()[Start], Full, 11) == Ok(167409079868000)
  {
    var f := 11;
    var w := Workflow("in", [Rule(S, Less, 1351, Move("px"))], Move("qqz"));
    assert Sample()["in"] == w;
    assert SplitRanges(w.rules[0], Box(Interval(1, 4000), Interval(1, 4000), Interval(1, 4000), Interval(1, 4000))) == Ok((Box(Interval(1, 4000), Interval(1, 4000), Interval(1, 4000), Interval(1, 1350)), Box(Interval(1, 4000), Interval(1, 4000), Interval(1, 4000), Interval(1351, 4000))));
    WrittenPx();
    WrittenQqz();
    EvalRulesEnd(Sample(), w.rules[1..], w.fallback, Box(Interval(1, 4000), Interval(1, 4000), Interval(1, 4000), Interval(1351, 4000)), f);
    EvalRulesStep(Sample(), w.rules, w.fallback, Box(Interval(1, 4000), Interval(1, 4000), Interval(1, 4000), Interval(1, 4000)), Box(Interval(1, 4000), Interval(1, 4000), Interval(1, 4000), Interval(1, 1350)), Box(Interval(1, 4000), Interval(1, 4000), Interval(1, 4000), Interval(1351, 4000)), f, 58664554428000, 108744525440000);
  }

  /** The sample's parts. */
  const SampleParts: seq<Part> := [
    Part(787, 2655, 1222, 2876),
    Part(1679, 44, 2067, 496),
    Part(2036, 264, 79, 2244),
    Part(2461, 1339, 466, 291),
    Part(2127, 1623, 2188, 1013)
  ]

  lemma SamplePart0()
    ensures Follow(Sample(), Apply(Sample()[Start], Part(787, 2655, 1222, 2876)), Part(787, 2655, 1222, 2876), 11) == Ok(true)
  {
    assert Apply(Sample()["in"], Part(787, 2655, 1222, 2876)) == Move("qqz");
    assert Apply(Sample()["qqz"], Part(787, 2655, 1222, 2876)) == Move("qs");
    assert Apply(Sample()["qs"], Part(787, 2655, 1222, 2876)) == Move("lnx");
    assert Apply(Sample()["lnx"], Part(787, 2655, 1222, 2876)) == Accept;
  }

  lemma SamplePart1()
    ensures Follow(Sample(), Apply(Sample()[Start], Part(1679, 44, 2067, 496)), Part(1679, 44, 2067, 496), 11) == Ok(false)
  {
    assert Apply(Sample()["in"], Part(1679, 44, 2067, 496)) == Move("px");
    assert Apply(Sample()["px"], Part(1679, 44, 2067, 496)) == Move("rfg");
    assert Apply(Sample()["rfg"], Part(1679, 44, 2067, 496)) == Move("gd");
    assert Apply(Sample()["gd"], Part(1679, 44, 2067, 496)) == Reject;
  }

  lemma SamplePart2()
    ensures Follow(Sample(), Apply(Sample()[Start], Part(2036, 264, 79, 2244)), Part(2036, 264, 79, 2244), 11) == Ok(true)
  {
    assert Apply(Sample()["in"], Part(2036, 264, 79, 2244)) == Move("qqz");
    assert Apply(Sample()["qqz"], Part(2036, 264, 79, 2244)) == Move("hdj");
    assert Apply(Sample()["hdj"], Part(2036, 264, 79, 2244)) == Move("pv");
    assert Apply(Sample()["pv"], Part(2036, 264, 79, 2244)) == Accept;
  }

  lemma SamplePart3()
    ensures Follow(Sample(), Apply(Sample()[Start], Part(2461, 1339, 466, 291)), Part(2461, 1339, 466, 291), 11) == Ok(false)
  {
    assert Apply(Sample()["in"], Part(2461, 1339, 466, 291)) == Move("px");
    assert Apply(Sample()["px"], Part(2461, 1339, 466, 291)) == Move("qkq");
    assert Apply(Sample()["qkq"], Part(2461, 1339, 466, 291)) == Move("crn");
    assert Apply(Sample()["crn"], Part(2461, 1339, 466, 291)) == Reject;
  }

  lemma SamplePart4()
    ensures Follow(Sample(), Apply(Sample()[Start], Part(2127, 1623, 2188, 1013)), Part(2127, 1623, 2188, 1013), 11) == Ok(true)
  {
    assert Apply(Sample()["in"], Part(2127, 1623, 2188, 1013)) == Move("px");
    assert Apply(Sample()["px"], Part(2127, 1623, 2188, 1013)) == Move("rfg");
    assert Apply(Sample()["rfg"], Part(2127, 1623, 2188, 1013)) == Accept;
  }

  /** The sample's part one answer. */
  lemma SampleScore()
    ensures Score(Sample(), Sample()[Start], SampleParts, 11) == Ok(19114)
  {
    var f := 11;
    var run := Runner(Sample(), Sample()[Start], f);
    SampleRunsFirst();
    SampleRunsSecond();
    SampleRunsMiddle();
    SampleRunsLast();
    SampleScoreBy(run);
  }

  /** The first sample part is accepted. */
  lemma SampleRunsFirst()
    ensures Runner(Sample(), Sample()[Start], 11)(SampleParts[0]) == Ok(true)
  {
    var f := 11;
    SamplePart0();
    SampleRun(f, SampleParts[0], true);
  }

  /** The second sample part is rejected. */
  lemma SampleRunsSecond()
    ensures Runner(Sample(), Sample()[Start], 11)(SampleParts[1]) == Ok(false)
  {
    var f := 11;
    SamplePart1();
    SampleRun(f, SampleParts[1], false);
  }

  /** The third sample part is accepted. */
  lemma SampleRunsMiddle()
    ensures Runner(Sample(), Sample()[Start], 11)(SampleParts[2]) == Ok(true)
  {
    var f := 11;
    SamplePart2();
    SampleRun(f, SampleParts[2], true);
  }

  /** Which of the last two sample parts are accepted. */
  lemma SampleRunsLast()
    ensures Runner(Sample(), Sample()[Start], 11)(SampleParts[3]) == Ok(false)
    ensures Runner(Sample(), Sample()[Start], 11)(SampleParts[4]) == Ok(true)
  {
    var f := 11;
    SamplePart3();
    SampleRun(f, SampleParts[3], false);
    SamplePart4();
    SampleRun(f, SampleParts[4], true);
  }

  lemma SampleRun(f: nat, p: Part, accepted: bool)
    requires Follow(Sample(), Apply(Sample()[Start], p), p, f) == Ok(accepted)
    ensures Runner(Sample(), Sample()[Start], f)(p) == Ok(accepted)
  {
  }

  /** The sum over the sample parts once it is known which are accepted. */
  lemma SampleScoreBy(run: Part -> Result<bool>)
    requires run(SampleParts[0]) == Ok(true) && run(SampleParts[1]) == Ok(false)
    requires run(SampleParts[2]) == Ok(true) && run(SampleParts[3]) == Ok(false)
    requires run(SampleParts[4]) == Ok(true)
    ensures ScoreBy(run, SampleParts) == Ok(19114)
  {
    var ps := SampleParts;
    assert ps[..0] == [] && ps[..1][..0] == [];
    assert ps[..2][..1] == ps[..1] && ps[..3][..2] == ps[..2];
    assert ps[..4][..3] == ps[..3] && ps[..5][..4] == ps[..4] && ps[..5] == ps;
    assert ScoreBy(run, ps[..1]) == Ok(7540);
    assert ScoreBy(run, ps[..2]) == Ok(7540);
    assert ScoreBy(run, ps[..3]) == Ok(12163);
    assert ScoreBy(run, ps[..4]) == Ok(12163);
  }

  /** The sample's part two answer counts the accepted combinations. */
  lemma SampleAccepted()
    ensures |Points(Full, p => Accepts(Sample(), Sample()[Start], 11, p))| == 167409079868000
  {
    SampleCount();
    CountAccepted(Sample(), Sample()[Start], Full, 11);
    PointsAgree(Full, p => Follow(Sample(), Apply(Sample()[Start], p), p, 11) == Ok(true),
                p => Accepts(Sample(), Sample()[Start], 11, p));
  }

}

=== FILE: day19_workflow.dfy ===
/** Day 19, `workflow.rs`: a workflow is a list of rules `x<1416:A` followed
    by a fallback action.  A rule compares one category of a part with a
    value; the first rule that matches decides where the part goes next,
    and the fallback decides when none does.

    Part two counts the accepted rating combinations by pushing whole boxes
    of ratings through the workflows: each rule splits the box along its
    category into the part it sends to its action and the part it keeps for
    the next rule.  `split_helper` splits the range at the rule's value
    without first clipping it to the range, which is right only when the
    value lies inside the range; `SplitHelper` models it as written (a
    `usize` underflow is an error), `Sent` and `Kept` clip. */
module Day19Workflow {
  import opened Wrappers
  import opened Text
  import opened Day19Part

  datatype Comparison = Less | Greater

  /** `RuleAction`: where a part goes. */
  datatype Action = Accept | Reject | Move(target: string)

  datatype Rule = Rule(category: Category, comp: Comparison, value: nat, action: Action)

  datatype Workflow = Workflow(name: string, rules: seq<Rule>, fallback: Action)

  /** The workflows by name. */
  type Workflows = map<string, Workflow>

  // ------------------------------------------------------------ one part

  /** `Rule::matches`: a strict comparison of the rule's category only. */
  predicate Matches(r: Rule, p: Part) {
    match r.comp
    case Less => Rating(p, r.category) < r.value
    case Greater => Rating(p, r.category) > r.value
  }

  /** None of the first `k` rules matches `p`. */
  predicate NoneMatch(rules: seq<Rule>, p: Part, k: int) {
    forall j :: 0 <= j < k && j < |rules| ==> !Matches(rules[j], p)
  }

  /** The action of the first rule that matches `p`, or the fallback. */
  function ApplyRules(rules: seq<Rule>, fallback: Action, p: Part): (a: Action)
    ensures NoneMatch(rules, p, |rules|) ==> a == fallback
    ensures forall k :: 0 <= k < |rules| && Matches(rules[k], p) && NoneMatch(rules, p, k) ==> a == rules[k].action
  {
    if |rules| == 0 then fallback
    else if Matches(rules[0], p) then rules[0].action
    else
      NoneMatchShift(rules, p);
      ApplyRules(rules[1..], fallback, p)
  }

  /** Past a first rule that does not match, the rules after it match as
      the whole list does. */
  lemma NoneMatchShift(rules: seq<Rule>, p: Part)
    requires |rules| > 0 && !Matches(rules[0], p)
    ensures forall k :: 1 <= k <= |rules| ==> (NoneMatch(rules, p, k) <==> NoneMatch(rules[1..], p, k - 1))
    ensures forall k :: 1 <= k < |rules| ==> rules[k] == rules[1..][k - 1]
  {
    forall k | 1 <= k <= |rules|
      ensures NoneMatch(rules, p, k) <==> NoneMatch(rules[1..], p, k - 1)
    {
      assert forall j :: 1 <= j < k ==> rules[j] == rules[1..][j - 1];
    }
  }

  /** `Workflow::apply`. */
  function Apply(w: Workflow, p: Part): Action {
    ApplyRules(w.rules, w.fallback, p)
  }

  /** Where a part ends up from `action`: follow `Move`s until a part is
      accepted or rejected.  A missing workflow is an error (the `expect`
      of `execute`), and so is needing more than `fuel`
      moves, which stands for a cycle. */
  function Follow(ws: Workflows, action: Action, p: Part, fuel: nat): Result<bool>
    decreases fuel
  {
    match action
    case Accept => Ok(true)
    case Reject => Ok(false)
    case Move(name) =>
      if name !in ws || fuel == 0 then Err
      else Follow(ws, Apply(ws[name], p), p, fuel - 1)
  }

  // ------------------------------------------------------------ ranges

  /** An inclusive range `lo..=hi` of ratings, empty when `hi < lo`. */
  datatype Interval = Interval(lo: nat, hi: int)

  function Size(i: Interval): nat {
    if i.hi < i.lo then 0 else i.hi - i.lo + 1
  }

  predicate Within(n: int, i: Interval) {
    i.lo <= n <= i.hi
  }

  /** One range per category. */
  datatype Box = Box(x: Interval, m: Interval, a: Interval, s: Interval)

  function Get(b: Box, c: Category): Interval {
    match c
    case X => b.x
    case M => b.m
    case A => b.a
    case S => b.s
  }

  /** `b` with the range of `c` replaced. */
  function With(b: Box, c: Category, i: Interval): (r: Box)
    ensures Get(r, c) == i
    ensures forall d :: d != c ==> Get(r, d) == Get(b, d)
  {
    match c
    case X => b.(x := i)
    case M => b.(m := i)
    case A => b.(a := i)
    case S => b.(s := i)
  }

  predicate InBox(p: Part, b: Box) {
    Within(p.x, b.x) && Within(p.m, b.m) && Within(p.a, b.a) && Within(p.s, b.s)
  }

  lemma InBoxGet(p: Part, b: Box)
    ensures InBox(p, b) <==> forall c :: Within(Rating(p, c), Get(b, c))
  {
    assert Rating(p, X) == p.x && Get(b, X) == b.x;
    assert Rating(p, M) == p.m && Get(b, M) == b.m;
    assert Rating(p, A) == p.a && Get(b, A) == b.a;
    assert Rating(p, S) == p.s && Get(b, S) == b.s;
  }

  /** The number of rating combinations in a box. */
  function Volume(b: Box): nat {
    Size(b.x) * Size(b.m) * Size(b.a) * Size(b.s)
  }

  /** The product of the sizes of the three other categories. */
  function Others(b: Box, c: Category): nat {
    match c
    case X => Size(b.m) * Size(b.a) * Size(b.s)
    case M => Size(b.x) * Size(b.a) * Size(b.s)
    case A => Size(b.x) * Size(b.m) * Size(b.s)
    case S => Size(b.x) * Size(b.m) * Size(b.a)
  }

  lemma Rearrange(x: int, m: int, a: int, s: int)
    ensures x * m * a * s == x * (m * a * s)
    ensures x * m * a * s == m * (x * a * s)
    ensures x * m * a * s == a * (x * m * s)
    ensures x * m * a * s == s * (x * m * a)
  {
    assert x * m * a * s == x * (m * a * s);
    assert x * m == m * x;
    assert x * m * a * s == m * (x * a * s);
    assert x * m * a == a * (x * m);
    assert x * m * a * s == a * (x * m * s);
  }

  lemma Distribute(p: int, q: int, o: int)
    ensures p * o + q * o == (p + q) * o
  {
  }

  lemma VolumeAround(b: Box, c: Category)
    ensures Volume(b) == Size(Get(b, c)) * Others(b, c)
    ensures forall i :: Others(With(b, c, i), c) == Others(b, c)
  {
    Rearrange(Size(b.x), Size(b.m), Size(b.a), Size(b.s));
  }

  /** Cutting one range of a box in two cuts its volume in two. */
  lemma VolumeSplit(b: Box, c: Category, i: Interval, j: Interval)
    requires Size(i) + Size(j) == Size(Get(b, c))
    ensures Volume(With(b, c, i)) + Volume(With(b, c, j)) == Volume(b)
  {
    VolumeAround(b, c);
    VolumeAround(With(b, c, i), c);
    VolumeAround(With(b, c, j), c);
    Distribute(Size(i), Size(j), Others(b, c));
  }

  // ------------------------------------------------------------ splitting, as written

  /** `split_helper`: the range the rule sends to its action and the range
      it keeps.  `value - 1` on a `usize` value of 0 underflows. */
  function SplitHelper(r: Rule, i: Interval): (res: Result<(Interval, Interval)>)
    ensures res.Err? <==> r.comp == Less && r.value == 0
  {
    match r.comp
    case Less => if r.value == 0 then Err else Ok((Interval(i.lo, r.value - 1), Interval(r.value, i.hi)))
    case Greater => Ok((Interval(r.value + 1, i.hi), Interval(i.lo, r.value)))
  }

  /** `split_ranges`: only the rule's own category is split. */
  function SplitRanges(r: Rule, b: Box): (res: Result<(Box, Box)>)
    ensures res.Err? <==> r.comp == Less && r.value == 0
    ensures res.Ok? ==> forall d :: d != r.category ==> Get(res.value.0, d) == Get(b, d) && Get(res.value.1, d) == Get(b, d)
  {
    var c := r.category;
    var (send, keep) :- SplitHelper(r, Get(b, c));
    Ok((With(b, c, send), With(b, c, keep)))
  }

  /** `hi - lo + 1` on `usize`: an empty range written `hi < lo` underflows. */
  function SizeAsWritten(i: Interval): (r: Result<nat>)
    ensures r.Ok? <==> i.lo <= i.hi
    ensures r.Ok? ==> r.value == Size(i)
  {
    if i.hi < i.lo then Err else Ok(i.hi - i.lo + 1)
  }

  function VolumeAsWritten(b: Box): (r: Result<nat>)
    ensures r.Ok? <==> b.x.lo <= b.x.hi && b.m.lo <= b.m.hi && b.a.lo <= b.a.hi && b.s.lo <= b.s.hi
    ensures r.Ok? ==> r.value == Volume(b)
  {
    var x :- SizeAsWritten(b.x);
    var m :- SizeAsWritten(b.m);
    var a :- SizeAsWritten(b.a);
    var s :- SizeAsWritten(b.s);
    Ok(x * m * a * s)
  }

  /** When the rule's value lies inside the range, `split_helper` cuts the
      range in two: the sent part holds exactly the ratings that match and
      the kept part the others. */
  lemma SplitHelperPartition(r: Rule, i: Interval, n: int)
    requires i.lo < r.value < i.hi
    ensures SplitHelper(r, i).Ok?
    ensures var (send, keep) := SplitHelper(r, i).value;
            Size(send) + Size(keep) == Size(i) && Size(send) > 0 && Size(keep) > 0
            && (Within(n, i) ==> (Within(n, send) <==> (if r.comp == Less then n < r.value else n > r.value)))
            && (Within(n, send) || Within(n, keep) <==> Within(n, i))
            && !(Within(n, send) && Within(n, keep))
  {
  }

  // ------------------------------------------------------------ eval_range, as written

  /** `Workflow::eval_range`: each rule sends part of the box to its action
      and keeps the rest for the next rule; the fallback gets what is left.
      Accepted boxes add their volume, rejected ones nothing, and a `Move`
      adds what the named workflow counts.  A missing workflow, an
      underflow and more than `fuel` nested moves are errors. */
  function EvalRange(ws: Workflows, w: Workflow, b: Box, fuel: nat): Result<nat>
    decreases fuel, |w.rules| + 1, 1
  {
    EvalRules(ws, w.rules, w.fallback, b, fuel)
  }

  function EvalRules(ws: Workflows, rules: seq<Rule>, fallback: Action, b: Box, fuel: nat): Result<nat>
    decreases fuel, |rules| + 1, 0
  {
    if |rules| == 0 then EvalAction(ws, fallback, b, fuel)
    else
      var (send, keep) :- SplitRanges(rules[0], b);
      var n :- EvalAction(ws, rules[0].action, send, fuel);
      var rest :- EvalRules(ws, rules[1..], fallback, keep, fuel);
      Ok(n + rest)
  }

  function EvalAction(ws: Workflows, action: Action, b: Box, fuel: nat): Result<nat>
    decreases fuel, 0, 0
  {
    match action
    case Accept => VolumeAsWritten(b)
    case Reject => Ok(0)
    case Move(name) =>
      if name !in ws || fuel == 0 then Err
      else EvalRange(ws, ws[name], b, fuel - 1)
  }

  // ------------------------------------------------------------ splitting, clipped

  function Min(a: int, b: int): int {
    if a <= b then a else b
  }

  function Max(a: int, b: int): int {
    if a >= b then a else b
  }

  /** The ratings of `i` that are at most `k`. */
  function Below(i: Interval, k: int): (r: Interval)
    ensures forall n :: Within(n, r) <==> Within(n, i) && n <= k
  {
    Interval(i.lo, Min(i.hi, k))
  }

  /** The ratings of `i` that exceed `k`. */
  function Above(i: Interval, k: int): (r: Interval)
    ensures forall n :: Within(n, r) <==> Within(n, i) && n > k
  {
    Interval(Max(i.lo, k + 1), i.hi)
  }

  lemma SizeCut(i: Interval, k: int)
    ensures Size(Below(i, k)) + Size(Above(i, k)) == Size(i)
  {
  }

  /** The last rating a rule sends (`Less`) or keeps (`Greater`). */
  function CutPoint(r: Rule): int {
    match r.comp
    case Less => r.value - 1
    case Greater => r.value
  }

  /** The ratings of `i` the rule matches. */
  function Sent(r: Rule, i: Interval): (res: Interval)
    ensures forall n: nat :: Within(n, res) <==> Within(n, i) && (if r.comp == Less then n < r.value else n > r.value)
  {
    match r.comp
    case Less => Below(i, r.value - 1)
    case Greater => Above(i, r.value)
  }

  /** The ratings of `i` the rule does not match. */
  function Kept(r: Rule, i: Interval): (res: Interval)
    ensures forall n: nat :: Within(n, res) <==> Within(n, i) && !(if r.comp == Less then n < r.value else n > r.value)
  {
    match r.comp
    case Less => Above(i, r.value - 1)
    case Greater => Below(i, r.value)
  }

  lemma SentKeptSize(r: Rule, i: Interval)
    ensures Size(Sent(r, i)) + Size(Kept(r, i)) == Size(i)
  {
    SizeCut(i, CutPoint(r));
  }

  /** Inside the range, the clipped split is the one `split_helper`
      computes. */
  lemma SplitHelperClipped(r: Rule, i: Interval)
    requires if r.comp == Less then i.lo < r.value <= i.hi else i.lo <= r.value < i.hi
    ensures SplitHelper(r, i) == Ok((Sent(r, i), Kept(r, i)))
  {
  }

  /** The clipped `split_ranges`. */
  function SplitBox(r: Rule, b: Box): (Box, Box) {
    var c := r.category;
    (With(b, c, Sent(r, Get(b, c))), With(b, c, Kept(r, Get(b, c))))
  }

  /** A part of the box is in the sent box when the rule matches it, and in
      the kept box otherwise. */
  lemma SplitBoxMembers(r: Rule, b: Box, p: Part)
    ensures InBox(p, SplitBox(r, b).0) <==> InBox(p, b) && Matches(r, p)
    ensures InBox(p, SplitBox(r, b).1) <==> InBox(p, b) && !Matches(r, p)
  {
    var (send, keep) := SplitBox(r, b);
    InBoxGet(p, b);
    InBoxGet(p, send);
    InBoxGet(p, keep);
    var n := Rating(p, r.category);
    assert Within(n, Get(send, r.category)) <==> Within(n, Get(b, r.category)) && Matches(r, p);
    assert Within(n, Get(keep, r.category)) <==> Within(n, Get(b, r.category)) && !Matches(r, p);
  }

  lemma SplitBoxVolume(r: Rule, b: Box)
    ensures Volume(SplitBox(r, b).0) + Volume(SplitBox(r, b).1) == Volume(b)
  {
    SentKeptSize(r, Get(b, r.category));
    VolumeSplit(b, r.category, Sent(r, Get(b, r.category)), Kept(r, Get(b, r.category)));
  }

  // ------------------------------------------------------------ eval_range, clipped

  /** `eval_range` with the clipped split. */
  function Count(ws: Workflows, w: Workflow, b: Box, fuel: nat): Result<nat>
    decreases fuel, |w.rules| + 1, 1
  {
    CountRules(ws, w.rules, w.fallback, b, fuel)
  }

  function CountRules(ws: Workflows, rules: seq<Rule>, fallback: Action, b: Box, fuel: nat): Result<nat>
    decreases fuel, |rules| + 1, 0
  {
    if |rules| == 0 then CountAction(ws, fallback, b, fuel)
    else
      var (send, keep) := SplitBox(rules[0], b);
      var n :- CountAction(ws, rules[0].action, send, fuel);
      var rest :- CountRules(ws, rules[1..], fallback, keep, fuel);
      Ok(n + rest)
  }

  function CountAction(ws: Workflows, action: Action, b: Box, fuel: nat): Result<nat>
    decreases fuel, 0, 0
  {
    match action
    case Accept => Ok(Volume(b))
    case Reject => Ok(0)
    case Move(name) =>
      if name !in ws || fuel == 0 then Err
      else Count(ws, ws[name], b, fuel - 1)
  }

  /** The clipped count never exceeds the number of combinations in the
      box. */
  lemma {:induction false} CountWithinVolume(ws: Workflows, action: Action, b: Box, fuel: nat)
    requires CountAction(ws, action, b, fuel).Ok?
    ensures CountAction(ws, action, b, fuel).value <= Volume(b)
    decreases fuel, 0, 0
  {
    match action
    case Accept =>
    case Reject =>
    case Move(name) =>
      CountRulesWithinVolume(ws, ws[name].rules, ws[name].fallback, b, fuel - 1);
  }

  lemma {:induction false} CountRulesWithinVolume(ws: Workflows, rules: seq<Rule>, fallback: Action, b: Box, fuel: nat)
    requires CountRules(ws, rules, fallback, b, fuel).Ok?
    ensures CountRules(ws, rules, fallback, b, fuel).value <= Volume(b)
    decreases fuel, |rules| + 1, 0
  {
    if |rules| == 0 {
      CountWithinVolume(ws, fallback, b, fuel);
    } else {
      var (send, keep) := SplitBox(rules[0], b);
      CountWithinVolume(ws, rules[0].action, send, fuel);
      CountRulesWithinVolume(ws, rules[1..], fallback, keep, fuel);
      SplitBoxVolume(rules[0], b);
    }
  }

  // ------------------------------------------------------------ as written against clipped

  /** Every range of `outer` contains the matching range of `inner`. */
  predicate Covers(outer: Box, inner: Box) {
    forall c :: Get(outer, c).lo <= Get(inner, c).lo && Get(inner, c).hi <= Get(outer, c).hi
  }

  lemma MulMono(a: nat, b: nat, c: nat, d: nat)
    requires a <= c && b <= d
    ensures a * b <= c * d
  {
    assert a * b <= c * b;
    assert c * b <= c * d;
  }

  lemma VolumeMono(outer: Box, inner: Box)
    requires Covers(outer, inner)
    ensures Volume(inner) <= Volume(outer)
  {
    assert Size(inner.x) <= Size(outer.x) by { assert Get(inner, X) == inner.x && Get(outer, X) == outer.x; }
    assert Size(inner.m) <= Size(outer.m) by { assert Get(inner, M) == inner.m && Get(outer, M) == outer.m; }
    assert Size(inner.a) <= Size(outer.a) by { assert Get(inner, A) == inner.a && Get(outer, A) == outer.a; }
    assert Size(inner.s) <= Size(outer.s) by { assert Get(inner, S) == inner.s && Get(outer, S) == outer.s; }
    MulMono(Size(inner.x), Size(inner.m), Size(outer.x), Size(outer.m));
    MulMono(Size(inner.x) * Size(inner.m), Size(inner.a), Size(outer.x) * Size(outer.m), Size(outer.a));
    MulMono(Size(inner.x) * Size(inner.m) * Size(inner.a), Size(inner.s), Size(outer.x) * Size(outer.m) * Size(outer.a), Size(outer.s));
  }

  /** The unclipped split of a box covers the clipped split of any box it
      covers. */
  lemma SplitCovers(r: Rule, outer: Box, inner: Box)
    requires Covers(outer, inner) && SplitRanges(r, outer).Ok?
    ensures Covers(SplitRanges(r, outer).value.0, SplitBox(r, inner).0)
    ensures Covers(SplitRanges(r, outer).value.1, SplitBox(r, inner).1)
  {
    var c := r.category;
    assert Get(outer, c).lo <= Get(inner, c).lo && Get(inner, c).hi <= Get(outer, c).hi;
  }

  /** `eval_range` as written never counts less than the clipped count of a
      box it covers, and succeeds only where the clipped count does. */
  lemma {:induction false} EvalActionCovers(ws: Workflows, action: Action, outer: Box, inner: Box, fuel: nat)
    requires Covers(outer, inner) && EvalAction(ws, action, outer, fuel).Ok?
    ensures CountAction(ws, action, inner, fuel).Ok?
    ensures CountAction(ws, action, inner, fuel).value <= EvalAction(ws, action, outer, fuel).value
    decreases fuel, 0, 0
  {
    match action
    case Accept =>
      VolumeMono(outer, inner);
    case Reject =>
    case Move(name) =>
      EvalRulesCovers(ws, ws[name].rules, ws[name].fallback, outer, inner, fuel - 1);
  }

  lemma {:induction false} EvalRulesCovers(ws: Workflows, rules: seq<Rule>, fallback: Action, outer: Box, inner: Box, fuel: nat)
    requires Covers(outer, inner) && EvalRules(ws, rules, fallback, outer, fuel).Ok?
    ensures CountRules(ws, rules, fallback, inner, fuel).Ok?
    ensures CountRules(ws, rules, fallback, inner, fuel).value <= EvalRules(ws, rules, fallback, outer, fuel).value
    decreases fuel, |rules| + 1, 0
  {
    if |rules| == 0 {
      EvalActionCovers(ws, fallback, outer, inner, fuel);
    } else {
      var r := rules[0];
      SplitCovers(r, outer, inner);
      var (send, keep) := SplitRanges(r, outer).value;
      var (send', keep') := SplitBox(r, inner);
      EvalActionCovers(ws, r.action, send, send', fuel);
      EvalRulesCovers(ws, rules[1..], fallback, keep, keep', fuel);
    }
  }

  /** A workflow as written counts at least the clipped count. */
  lemma EvalRangeCovers(ws: Workflows, w: Workflow, b: Box, fuel: nat)
    requires EvalRange(ws, w, b, fuel).Ok?
    ensures Count(ws, w, b, fuel).Ok? && Count(ws, w, b, fuel).value <= EvalRange(ws, w, b, fuel).value
  {
    EvalRulesCovers(ws, w.rules, w.fallback, b, b, fuel);
  }

  /** The ratings part two starts from, `1..=4000` in every category. */
  const Full: Box := Box(Interval(1, 4000), Interval(1, 4000), Interval(1, 4000), Interval(1, 4000))

  /** `in{x<20:w,R}` and `w{x>30:R,A}`: a part is accepted exactly when its
      `x` is below 20.  Inside `w` the range of `x` is already `1..=19`, and
      the unclipped split of `x>30` keeps `1..=30` for the fallback. */
  function OverlapExample(): Workflows {
    map["in" := Workflow("in", [Rule(X, Less, 20, Move("w"))], Reject),
        "w" := Workflow("w", [Rule(X, Greater, 30, Reject)], Accept)]
  }

  /** The example counts `x` from 1 to 30 as written, but only the 19
      values below 20 with the clipped split. */
  lemma OverlapCounts()
    ensures EvalRange(OverlapExample(), OverlapExample()["in"], Full, 2) == Ok(30 * 4000 * 4000 * 4000)
    ensures Count(OverlapExample(), OverlapExample()["in"], Full, 2) == Ok(19 * 4000 * 4000 * 4000)
  {
    var ws := OverlapExample();
    var inner := Full.(x := Interval(1, 19));
    var rest := Full.(x := Interval(20, 4000));
    assert SplitRanges(ws["in"].rules[0], Full) == Ok((inner, rest));
    assert SplitRanges(ws["w"].rules[0], inner) == Ok((inner.(x := Interval(31, 19)), inner.(x := Interval(1, 30))));
    assert SplitBox(ws["in"].rules[0], Full) == (inner, rest);
    assert SplitBox(ws["w"].rules[0], inner) == (inner.(x := Interval(31, 19)), inner);
  }

  // ------------------------------------------------------------ parsing

  function ComparisonText(c: Comparison): string {
    match c
    case Less => "<"
    case Greater => ">"
  }

  /** `Comparison::from_str`. */
  function ParseComparison(s: string): (r: Option<Comparison>)
    ensures r.Some? ==> ComparisonText(r.value) == s
    ensures r.None? ==> forall c :: ComparisonText(c) != s
  {
    if s == "<" then Some(Less)
    else if s == ">" then Some(Greater)
    else
      assert forall c :: ComparisonText(c) != s;
      None
  }

  function ActionText(a: Action): string {
    match a
    case Accept => "A"
    case Reject => "R"
    case Move(target) => target
  }

  /** `RuleAction::from_str`: `A` and `R` are the verdicts, anything else
      names a workflow, so it never fails. */
  function ParseAction(s: string): (a: Action)
    ensures ActionText(a) == s
    ensures a.Move? <==> s != "A" && s != "R"
  {
    if s == "A" then Accept else if s == "R" then Reject else Move(s)
  }

  /** An action whose text reads back as itself: a workflow is not named
      `A` or `R`. */
  predicate Plain(a: Action) {
    a.Move? ==> a.target != "A" && a.target != "R"
  }

  lemma ActionRoundTrip(a: Action)
    requires Plain(a)
    ensures ParseAction(ActionText(a)) == a
  {
  }

  /** `Rule::from_str`: the text splits at its first `:` into a condition
      and an action; the condition is a category letter, a comparison sign
      and a number.  It fails without a `:`, with a condition shorter than
      three characters, or with an unknown sign, number or category. */
  function ParseRule(s: string): (r: Result<Rule>)
    ensures SplitOnce(s, ':').None? ==> r.Err?
    ensures SplitOnce(s, ':').Some? ==>
              var (cond, act) := SplitOnce(s, ':').value;
              (r.Ok? <==> |cond| >= 3 && ParseComparison(cond[1..2]).Some? && ParseNat(cond[2..]).Some?
                          && CategoryOf(cond[..1]).Some?)
              && (r.Ok? ==> CategoryName(r.value.category) == cond[..1] && ComparisonText(r.value.comp) == cond[1..2]
                            && ParseNat(cond[2..]) == Some(r.value.value) && ActionText(r.value.action) == act)
  {
    match SplitOnce(s, ':')
    case None => Err
    case Some((cond, act)) =>
      if |cond| < 3 then Err
      else
        var action := ParseAction(act);
        match ParseComparison(cond[1..2])
        case None => Err
        case Some(comp) =>
          match ParseNat(cond[2..])
          case None => Err
          case Some(value) =>
            match CategoryOf(cond[..1])
            case None => Err
            case Some(category) => Ok(Rule(category, comp, value, action))
  }

  function RuleText(r: Rule): string {
    CategoryName(r.category) + ComparisonText(r.comp) + NatToString(r.value) + [':'] + ActionText(r.action)
  }

  lemma ParseRuleOf(s: string, cond: string, act: string, r: Rule)
    requires SplitOnce(s, ':') == Some((cond, act)) && |cond| >= 3
    requires CategoryOf(cond[..1]) == Some(r.category) && ParseComparison(cond[1..2]) == Some(r.comp)
    requires ParseNat(cond[2..]) == Some(r.value) && ParseAction(act) == r.action
    ensures ParseRule(s) == Ok(r)
  {
  }

  lemma RuleRoundTrip(r: Rule)
    requires Plain(r.action)
    ensures ParseRule(RuleText(r)) == Ok(r)
  {
    var key, sign, digits := CategoryName(r.category), ComparisonText(r.comp), NatToString(r.value);
    var cond := key + sign + digits;
    assert forall i :: 0 <= i < |digits| ==> IsDigit(digits[i]);
    assert ':' !in cond;
    assert RuleText(r) == cond + [':'] + ActionText(r.action);
    SplitOnceAt(RuleText(r), ':', cond, ActionText(r.action));
    assert cond[..1] == key && cond[1..2] == sign && cond[2..] == digits;
    ParseNatRoundTrip(r.value);
    CategoryNameRoundTrip(r.category);
    ActionRoundTrip(r.action);
    ParseRuleOf(RuleText(r), cond, ActionText(r.action), r);
  }

  /** `take_while(|r| r.contains(':'))`: the leading items that hold a `:`. */
  function LeadingRules(items: seq<string>): (r: seq<string>)
    ensures |r| <= |items| && r == items[..|r|]
    ensures forall i :: 0 <= i < |r| ==> ':' in r[i]
    ensures |r| < |items| ==> ':' !in items[|r|]
  {
    if |items| == 0 || ':' !in items[0] then []
    else [items[0]] + LeadingRules(items[1..])
  }

  lemma {:induction false} LeadingRulesOf(rules: seq<string>, rest: seq<string>)
    requires forall i :: 0 <= i < |rules| ==> ':' in rules[i]
    requires |rest| > 0 && ':' !in rest[0]
    ensures LeadingRules(rules + rest) == rules
    decreases |rules|
  {
    if |rules| == 0 {
      assert rules + rest == rest;
    } else {
      assert (rules + rest)[1..] == rules[1..] + rest;
      LeadingRulesOf(rules[1..], rest);
    }
  }

  /** `Workflow::from_str`: trailing `}`s are trimmed and the name ends at
      the first `{`.  The comma-separated items that follow start with the
      rules, those leading items that hold a `:`; the last item, whatever it
      holds, is the fallback.  It fails without a `{` and when a rule fails
      to parse. */
  function ParseWorkflow(line: string): (r: Result<Workflow>)
    ensures SplitOnce(TrimEndMatches(line, '}'), '{').None? ==> r.Err?
    ensures SplitOnce(TrimEndMatches(line, '}'), '{').Some? ==>
              var (name, list) := SplitOnce(TrimEndMatches(line, '}'), '{').value;
              var items := Split(list, ',');
              (r.Ok? <==> MapAll(LeadingRules(items), ParseRule).Ok?)
              && (r.Ok? ==> r.value.name == name && ActionText(r.value.fallback) == items[|items| - 1]
                            && MapAll(LeadingRules(items), ParseRule) == Ok(r.value.rules))
  {
    match SplitOnce(TrimEndMatches(line, '}'), '{')
    case None => Err
    case Some((name, list)) => ParseBody(name, Split(list, ','))
  }

  /** The workflow named `name` with the comma-separated `items`. */
  function ParseBody(name: string, items: seq<string>): (r: Result<Workflow>)
    requires |items| > 0
    ensures r.Ok? <==> MapAll(LeadingRules(items), ParseRule).Ok?
    ensures r.Ok? ==> r.value.name == name && r.value.fallback == ParseAction(items[|items| - 1])
                      && MapAll(LeadingRules(items), ParseRule) == Ok(r.value.rules)
  {
    var fallback := ParseAction(items[|items| - 1]);
    var rules :- MapAll(LeadingRules(items), ParseRule);
    Ok(Workflow(name, rules, fallback))
  }

  function RuleTexts(rules: seq<Rule>): (r: seq<string>)
    ensures |r| == |rules| && forall i :: 0 <= i < |rules| ==> r[i] == RuleText(rules[i])
  {
    seq(|rules|, i requires 0 <= i < |rules| => RuleText(rules[i]))
  }

  /** A workflow whose text reads back as itself: its name has no `{`, no
      action text holds a `,`, and the fallback is a non-empty text
      without a `:` that does not end in `}`. */
  predicate Printable(w: Workflow) {
    var fb := ActionText(w.fallback);
    '{' !in w.name
    && (forall i :: 0 <= i < |w.rules| ==> Plain(w.rules[i].action) && ',' !in ActionText(w.rules[i].action))
    && Plain(w.fallback) && |fb| > 0 && ',' !in fb && ':' !in fb && fb[|fb| - 1] != '}'
  }

  function Items(w: Workflow): seq<string> {
    RuleTexts(w.rules) + [ActionText(w.fallback)]
  }

  /** The workflow as the puzzle input writes it. */
  function WorkflowText(w: Workflow): string {
    w.name + ['{'] + Join(Items(w), ',') + ['}']
  }

  lemma RuleTextShape(r: Rule)
    requires ',' !in ActionText(r.action)
    ensures ':' in RuleText(r) && ',' !in RuleText(r)
  {
    var digits := NatToString(r.value);
    assert forall i :: 0 <= i < |digits| ==> IsDigit(digits[i]);
    assert RuleText(r)[|CategoryName(r.category) + ComparisonText(r.comp) + digits|] == ':';
  }

  lemma SplitWorkflowText(w: Workflow)
    requires Printable(w)
    ensures SplitOnce(TrimEndMatches(WorkflowText(w), '}'), '{') == Some((w.name, Join(Items(w), ',')))
  {
    var items := Items(w);
    var inner := Join(items, ',');
    JoinLast(items, ',');
    TrimEndMatchesOne(w.name + ['{'] + inner, '}');
    SplitOnceAt(w.name + ['{'] + inner, '{', w.name, inner);
  }

  lemma ItemsOf(w: Workflow)
    requires Printable(w)
    ensures Split(Join(Items(w), ','), ',') == Items(w)
    ensures LeadingRules(Items(w)) == RuleTexts(w.rules)
  {
    forall i | 0 <= i < |w.rules|
      ensures ':' in RuleTexts(w.rules)[i] && ',' !in RuleTexts(w.rules)[i]
    {
      RuleTextShape(w.rules[i]);
    }
    SplitJoin(Items(w), ',');
    LeadingRulesOf(RuleTexts(w.rules), [ActionText(w.fallback)]);
  }

  lemma RulesRoundTrip(rules: seq<Rule>)
    requires forall i :: 0 <= i < |rules| ==> Plain(rules[i].action)
    ensures MapAll(RuleTexts(rules), ParseRule) == Ok(rules)
  {
    forall i | 0 <= i < |rules|
      ensures ParseRule(RuleTexts(rules)[i]) == Ok(rules[i])
    {
      RuleRoundTrip(rules[i]);
    }
    MapAllOk(RuleTexts(rules), ParseRule, rules);
  }

  lemma ParseWorkflowOf(line: string, name: string, list: string, w: Workflow)
    requires SplitOnce(TrimEndMatches(line, '}'), '{') == Some((name, list)) && name == w.name
    requires |Split(list, ',')| > 0 && ParseAction(Split(list, ',')[|Split(list, ',')| - 1]) == w.fallback
    requires MapAll(LeadingRules(Split(list, ',')), ParseRule) == Ok(w.rules)
    ensures ParseWorkflow(line) == Ok(w)
  {
    ParseWorkflowIs(line, name, list);
    ParseBodyOf(name, Split(list, ','), w);
  }

  lemma ParseWorkflowIs(line: string, name: string, list: string)
    requires SplitOnce(TrimEndMatches(line, '}'), '{') == Some((name, list))
    ensures ParseWorkflow(line) == ParseBody(name, Split(list, ','))
  {
  }

  lemma ParseBodyOf(name: string, items: seq<string>, w: Workflow)
    requires |items| > 0 && name == w.name && ParseAction(items[|items| - 1]) == w.fallback
    requires MapAll(LeadingRules(items), ParseRule) == Ok(w.rules)
    ensures ParseBody(name, items) == Ok(w)
  {
  }

  /** Rendering a workflow and parsing it back gives the same workflow. */
  lemma WorkflowRoundTrip(w: Workflow)
    requires Printable(w)
    ensures ParseWorkflow(WorkflowText(w)) == Ok(w)
  {
    SplitWorkflowText(w);
    ItemsOf(w);
    RulesRoundTrip(w.rules);
    ActionRoundTrip(w.fallback);
    ParseWorkflowOf(WorkflowText(w), w.name, Join(Items(w), ','), w);
  }
}

=== FILE: reachability.dfy ===
/** States reachable from a start state under a successor function, the
    fixed point that a breadth-first search with a history of seen states
    computes.  Day 16's beams are the one instance. */
module Reachability {
  /** The states that some state of `s` leads to in one step. */
  ghost function Next<T>(succ: T -> seq<T>, s: set<T>): set<T> {
    set a, b | a in s && b in succ(a) :: b
  }

  /** The states reachable from `start` in at most `k` steps. */
  ghost function Reach<T>(succ: T -> seq<T>, start: T, k: nat): set<T> {
    if k == 0 then {start} else Reach(succ, start, k - 1) + Next(succ, Reach(succ, start, k - 1))
  }

  /** Every successor of `a` is in `s`. */
  ghost predicate SuccessorsIn<T>(succ: T -> seq<T>, a: T, s: set<T>) {
    forall b :: b in succ(a) ==> b in s
  }

  /** No step leads out of `s`. */
  ghost predicate Closed<T>(succ: T -> seq<T>, s: set<T>) {
    forall a {:trigger SuccessorsIn(succ, a, s)} :: a in s ==> SuccessorsIn(succ, a, s)
  }

  /** Reaching takes more steps, never fewer states. */
  lemma ReachGrows<T>(succ: T -> seq<T>, start: T, k: nat)
    ensures Reach(succ, start, k) <= Reach(succ, start, k + 1)
  {
  }

  /** One step from a state reachable in `k` steps is reachable in
      `k + 1`. */
  lemma ReachStep<T>(succ: T -> seq<T>, start: T, k: nat, a: T, b: T)
    requires a in Reach(succ, start, k) && b in succ(a)
    ensures b in Reach(succ, start, k + 1)
  {
    assert b in Next(succ, Reach(succ, start, k));
  }

  /** A closed set holding the start holds every state reachable from it. */
  lemma {:induction false} ClosedHoldsReach<T>(succ: T -> seq<T>, start: T, s: set<T>, k: nat, b: T)
    requires Closed(succ, s) && start in s && b in Reach(succ, start, k)
    ensures b in s
  {
    if k > 0 {
      var prev := Reach(succ, start, k - 1);
      if b in prev {
        ClosedHoldsReach(succ, start, s, k - 1, b);
      } else {
        assert b in Next(succ, prev);
        var a :| a in prev && b in succ(a);
        ClosedHoldsReach(succ, start, s, k - 1, a);
        assert SuccessorsIn(succ, a, s);
      }
    }
  }

  /** When every step from anywhere lands in `u`, and `u` holds the start,
      everything reachable is in `u`. */
  lemma {:induction false} ReachWithin<T>(succ: T -> seq<T>, start: T, u: set<T>, k: nat)
    requires start in u && forall a {:trigger SuccessorsIn(succ, a, u)} :: SuccessorsIn(succ, a, u)
    ensures Reach(succ, start, k) <= u
  {
    if k > 0 {
      ReachWithin(succ, start, u, k - 1);
      forall b | b in Next(succ, Reach(succ, start, k - 1))
        ensures b in u
      {
        var a :| a in Reach(succ, start, k - 1) && b in succ(a);
        assert SuccessorsIn(succ, a, u);
      }
    }
  }
}

=== FILE: seqs.dfy ===
/** Sequence utilities shared by the puzzle modules: sums, maxima and the
    stable sort that stands in for `slice::sort_by_key` / `sort_by`. */
module Seqs {

  /** A non-empty sequence is its head before its tail. */
  lemma HeadTail<T>(s: seq<T>)
    requires |s| > 0
    ensures s == [s[0]] + s[1..]
  {
  }

  function Sum(s: seq<int>): int {
    if |s| == 0 then 0 else Sum(s[..|s| - 1]) + s[|s| - 1]
  }

  lemma {:induction false} SumAppend(a: seq<int>, b: seq<int>)
    ensures Sum(a + b) == Sum(a) + Sum(b)
    decreases |b|
  {
    if |b| == 0 {
      assert a + b == a;
    } else {
      assert (a + b)[..|a + b| - 1] == a + b[..|b| - 1];
      SumAppend(a, b[..|b| - 1]);
    }
  }

  /** The sum taken from the front. */
  lemma SumCons(x: int, s: seq<int>)
    ensures Sum([x] + s) == x + Sum(s)
  {
    SumAppend([x], s);
    assert [x][..0] == [];
  }

  lemma SumFront(s: seq<int>, j: nat)
    requires j < |s|
    ensures Sum(s[j..]) == s[j] + Sum(s[j + 1..])
  {
    assert s[j..] == [s[j]] + s[j + 1..];
    SumAppend([s[j]], s[j + 1..]);
    assert [s[j]][..0] == [];
  }

  lemma {:induction false} SumNonNegative(s: seq<int>)
    requires forall i :: 0 <= i < |s| ==> s[i] >= 0
    ensures Sum(s) >= 0
    decreases |s|
  {
    if |s| > 0 {
      SumNonNegative(s[..|s| - 1]);
    }
  }

  lemma {:induction false} SumAtLeastLength(s: seq<int>)
    requires forall i :: 0 <= i < |s| ==> s[i] >= 1
    ensures Sum(s) >= |s|
    decreases |s|
  {
    if |s| > 0 {
      SumAtLeastLength(s[..|s| - 1]);
    }
  }

  lemma {:induction false} SumBound(s: seq<int>, bound: int)
    requires forall i :: 0 <= i < |s| ==> s[i] <= bound
    ensures Sum(s) <= bound * |s|
    decreases |s|
  {
    if |s| > 0 {
      SumBound(s[..|s| - 1], bound);
    }
  }

  /** In a sum of non-negative terms, one, two or three distinct terms are
      each bounded by the whole. */
  lemma {:induction false} SumSingle(s: seq<int>, i: int)
    requires forall k :: 0 <= k < |s| ==> s[k] >= 0
    requires 0 <= i < |s|
    ensures s[i] <= Sum(s)
    decreases |s|
  {
    var init := s[..|s| - 1];
    SumNonNegative(init);
    if i < |s| - 1 {
      SumSingle(init, i);
    }
  }

  lemma {:induction false} SumPair(s: seq<int>, i: int, j: int)
    requires forall k :: 0 <= k < |s| ==> s[k] >= 0
    requires 0 <= i < |s| && 0 <= j < |s| && i != j
    ensures s[i] + s[j] <= Sum(s)
    decreases |s|
  {
    var init := s[..|s| - 1];
    var last := |s| - 1;
    if i == last {
      SumSingle(init, j);
    } else if j == last {
      SumSingle(init, i);
    } else {
      SumPair(init, i, j);
    }
  }

  lemma {:induction false} SumTriple(s: seq<int>, i: int, j: int, k: int)
    requires forall m :: 0 <= m < |s| ==> s[m] >= 0
    requires 0 <= i < |s| && 0 <= j < |s| && 0 <= k < |s| && i != j && j != k && i != k
    ensures s[i] + s[j] + s[k] <= Sum(s)
    decreases |s|
  {
    var init := s[..|s| - 1];
    var last := |s| - 1;
    if i == last {
      SumPair(init, j, k);
    } else if j == last {
      SumPair(init, i, k);
    } else if k == last {
      SumPair(init, i, j);
    } else {
      SumTriple(init, i, j, k);
    }
  }

  /** The largest element of a non-empty sequence. */
  function Max(s: seq<int>): (m: int)
    requires |s| > 0
    ensures m in s
    ensures forall i :: 0 <= i < |s| ==> s[i] <= m
  {
    if |s| == 1 then s[0]
    else
      var m := Max(s[1..]);
      assert m in s;
      if s[0] >= m then s[0] else m
  }

  /** The smallest element of a non-empty sequence. */
  function Min(s: seq<int>): (m: int)
    requires |s| > 0
    ensures m in s
    ensures forall i :: 0 <= i < |s| ==> m <= s[i]
  {
    if |s| == 1 then s[0]
    else
      var m := Min(s[1..]);
      assert m in s;
      if s[0] <= m then s[0] else m
  }

  function Reverse<T>(s: seq<T>): (r: seq<T>)
    ensures |r| == |s|
    ensures forall i :: 0 <= i < |s| ==> r[i] == s[|s| - 1 - i]
  {
    if |s| == 0 then [] else [s[|s| - 1]] + Reverse(s[..|s| - 1])
  }

  // ------------------------------------------------------------ stable sort

  predicate SortedBy<T>(s: seq<T>, key: T -> int) {
    forall i, j :: 0 <= i < j < |s| ==> key(s[i]) <= key(s[j])
  }

  /** The elements whose key is `k`, in their original order. */
  function WithKey<T>(s: seq<T>, key: T -> int, k: int): seq<T> {
    if |s| == 0 then []
    else if key(s[0]) == k then [s[0]] + WithKey(s[1..], key, k)
    else WithKey(s[1..], key, k)
  }

  /** Puts `x` in front of the first element whose key is not smaller. */
  function Insert<T>(x: T, s: seq<T>, key: T -> int): (r: seq<T>)
    requires SortedBy(s, key)
    ensures SortedBy(r, key)
    ensures multiset(r) == multiset(s) + multiset{x}
    ensures |r| == |s| + 1
    ensures r[0] == x || (|s| > 0 && r[0] == s[0])
  {
    if |s| == 0 then [x]
    else if key(x) <= key(s[0]) then
      [x] + s
    else
      var rest := Insert(x, s[1..], key);
      assert s == [s[0]] + s[1..];
      assert key(s[0]) <= key(rest[0]);
      SortedCons(s[0], rest, key);
      assert multiset([s[0]] + rest) == multiset{s[0]} + multiset(rest);
      [s[0]] + rest
  }

  lemma SortedCons<T>(h: T, t: seq<T>, key: T -> int)
    requires SortedBy(t, key) && (|t| == 0 || key(h) <= key(t[0]))
    ensures SortedBy([h] + t, key)
  {
    var r := [h] + t;
    forall i, j | 0 <= i < j < |r|
      ensures key(r[i]) <= key(r[j])
    {
      assert r[j] == t[j - 1];
      if i > 0 {
        assert r[i] == t[i - 1];
      }
    }
  }

  /** Insertion sort; ties keep their input order. */
  function SortBy<T>(s: seq<T>, key: T -> int): (r: seq<T>)
    ensures SortedBy(r, key)
    ensures multiset(r) == multiset(s)
    ensures |r| == |s|
  {
    if |s| == 0 then []
    else
      assert s == [s[0]] + s[1..];
      Insert(s[0], SortBy(s[1..], key), key)
  }

  lemma {:induction false} InsertWithKey<T>(x: T, s: seq<T>, key: T -> int, k: int)
    requires SortedBy(s, key)
    ensures WithKey(Insert(x, s, key), key, k)
            == (if key(x) == k then [x] else []) + WithKey(s, key, k)
    decreases |s|
  {
    if |s| == 0 {
    } else if key(x) <= key(s[0]) {
      assert ([x] + s)[1..] == s;
    } else {
      var rest := Insert(x, s[1..], key);
      assert ([s[0]] + rest)[1..] == rest;
      InsertWithKey(x, s[1..], key, k);
      if key(x) == k {
        // s[0] sorts before x, so it does not carry the key k
        assert key(s[0]) < k;
      }
    }
  }

  /** Stability: for every key, the elements carrying it appear in the sorted
      sequence in the order they had in the input. */
  lemma {:induction false} SortByStable<T>(s: seq<T>, key: T -> int, k: int)
    ensures WithKey(SortBy(s, key), key, k) == WithKey(s, key, k)
    decreases |s|
  {
    if |s| > 0 {
      SortByStable(s[1..], key, k);
      InsertWithKey(s[0], SortBy(s[1..], key), key, k);
    }
  }

  /** The number of occurrences of `x` in `s`. */
  function Count<T(==)>(s: seq<T>, x: T): (n: nat)
    ensures n <= |s|
  {
    if |s| == 0 then 0 else (if s[0] == x then 1 else 0) + Count(s[1..], x)
  }

  lemma {:induction false} CountAbsent<T>(s: seq<T>, x: T)
    ensures Count(s, x) == 0 <==> x !in s
    decreases |s|
  {
    if |s| > 0 {
      CountAbsent(s[1..], x);
      assert s == [s[0]] + s[1..];
    }
  }

  lemma {:induction false} CountAppend<T>(s: seq<T>, y: T, x: T)
    ensures Count(s + [y], x) == Count(s, x) + (if y == x then 1 else 0)
    decreases |s|
  {
    if |s| > 0 {
      assert (s + [y])[1..] == s[1..] + [y];
      CountAppend(s[1..], y, x);
    }
  }

  lemma {:induction false} CountConcat<T>(a: seq<T>, b: seq<T>, x: T)
    ensures Count(a + b, x) == Count(a, x) + Count(b, x)
    decreases |a|
  {
    if |a| == 0 {
      assert a + b == b;
    } else {
      assert (a + b)[1..] == a[1..] + b;
      CountConcat(a[1..], b, x);
    }
  }

  /** Two sequences that hold `x` and `y` at the same positions hold them
      equally often. */
  lemma {:induction false} CountSamePositions<T, U>(xs: seq<T>, ys: seq<U>, x: T, y: U)
    requires |xs| == |ys|
    requires forall i :: 0 <= i < |xs| ==> (xs[i] == x <==> ys[i] == y)
    ensures Count(xs, x) == Count(ys, y)
    decreases |xs|
  {
    if |xs| > 0 {
      CountSamePositions(xs[1..], ys[1..], x, y);
    }
  }

  lemma {:induction false} CountOnce<T>(s: seq<T>, x: T, i: nat)
    requires i < |s| && s[i] == x
    requires forall j :: 0 <= j < |s| && j != i ==> s[j] != x
    ensures Count(s, x) == 1
    decreases |s|
  {
    if i > 0 {
      CountOnce(s[1..], x, i - 1);
    } else {
      CountAbsent(s[1..], x);
    }
  }

  /** Overwriting one position moves at most one occurrence in or out. */
  lemma {:induction false} CountUpdate<T>(s: seq<T>, i: nat, v: T, x: T)
    requires i < |s|
    ensures Count(s[i := v], x) + (if s[i] == x then 1 else 0) == Count(s, x) + (if v == x then 1 else 0)
    decreases i
  {
    if i == 0 {
      assert s[i := v][1..] == s[1..];
    } else {
      assert s[i := v][1..] == s[1..][i - 1 := v];
      CountUpdate(s[1..], i - 1, v, x);
    }
  }

  function Pow(base: nat, e: nat): nat {
    if e == 0 then 1 else base * Pow(base, e - 1)
  }

  /** Derived lexicographic order (`Ord` on arrays and tuples): the first
      position where the sequences differ decides. */
  predicate LexLess(a: seq<int>, b: seq<int>) {
    |a| > 0 && |b| > 0 && (a[0] < b[0] || (a[0] == b[0] && LexLess(a[1..], b[1..])))
  }

  /** Dividing a multiple of `b` by `b` undoes the multiplication. */
  lemma DivExact(a: nat, b: nat)
    requires b > 0
    ensures a * b / b == a && a * b % b == 0
  {
    var q, r := a * b / b, a * b % b;
    assert (a - q) * b == r;
    if a - q >= 1 {
      MulAtLeast(a - q, b);
    } else if q - a >= 1 {
      MulAtLeast(q - a, b);
    }
  }

  /** Division by `b` leaves quotient `q` and nothing over exactly when the
      number is `q` copies of `b`. */
  lemma DivModExact(a: nat, b: nat, q: nat)
    requires b > 0
    ensures a / b == q && a % b == 0 <==> a == q * b
  {
    if a == q * b {
      DivExact(q, b);
    }
  }

  lemma MulAtLeast(d: int, b: int)
    requires d >= 1 && b > 0
    ensures d * b >= b
  {
  }

  /** One more copy of `b`, stated apart so that proofs about weighted
      counts stay linear. */
  lemma MulSucc(a: int, b: int)
    ensures (a + 1) * b == a * b + b
  {
  }

  predicate Digits(ds: seq<nat>, base: nat) {
    forall i :: 0 <= i < |ds| ==> ds[i] < base
  }

  /** The value of `ds` read as digits in `base`, most significant first. */
  function Positional(ds: seq<nat>, base: nat): nat {
    if |ds| == 0 then 0 else ds[0] * Pow(base, |ds| - 1) + Positional(ds[1..], base)
  }

  /** The step of positional notation: a smaller leading digit outweighs any
      lower-order remainder. */
  lemma LeadingDigit(d1: nat, d2: nat, p: nat, r1: nat, r2: nat)
    requires d1 < d2 && r1 < p
    ensures d1 * p + r1 < d2 * p + r2
  {
    var k: nat := d2 - d1 - 1;
    assert d2 * p == (d1 + 1 + k) * p;
    assert (d1 + 1 + k) * p == d1 * p + p + k * p;
    assert k * p >= 0;
  }

  lemma {:induction false} PositionalBound(ds: seq<nat>, base: nat)
    requires Digits(ds, base)
    ensures Positional(ds, base) < Pow(base, |ds|)
    decreases |ds|
  {
    if |ds| > 0 {
      PositionalBound(ds[1..], base);
      LeadingDigit(ds[0], base, Pow(base, |ds| - 1), Positional(ds[1..], base), 0);
    }
  }

  /** Reading equally long digit strings as numbers preserves their
      lexicographic order, and distinct strings give distinct numbers. */
  lemma {:induction false} PositionalOrder(a: seq<nat>, b: seq<nat>, base: nat)
    requires |a| == |b| && Digits(a, base) && Digits(b, base)
    ensures Positional(a, base) < Positional(b, base) <==> LexLess(a, b)
    ensures Positional(a, base) == Positional(b, base) <==> a == b
    decreases |a|
  {
    if |a| > 0 {
      var p := Pow(base, |a| - 1);
      var ra, rb := Positional(a[1..], base), Positional(b[1..], base);
      PositionalBound(a[1..], base);
      PositionalBound(b[1..], base);
      PositionalOrder(a[1..], b[1..], base);
      if a[0] < b[0] {
        LeadingDigit(a[0], b[0], p, ra, rb);
      } else if b[0] < a[0] {
        LeadingDigit(b[0], a[0], p, rb, ra);
      } else {
        assert a == [a[0]] + a[1..] && b == [b[0]] + b[1..];
      }
    }
  }

  /** A subset is no larger than its superset. */
  lemma {:induction false} SubsetCard<T>(a: set<T>, b: set<T>)
    requires a <= b
    ensures |a| <= |b|
    decreases |a|
  {
    if a != {} {
      var x :| x in a;
      SubsetCard(a - {x}, b - {x});
    }
  }

  /** The rows one after another. */
  function Flatten<T>(rows: seq<seq<T>>): (r: seq<T>)
    decreases |rows|
  {
    if |rows| == 0 then [] else Flatten(rows[..|rows| - 1]) + rows[|rows| - 1]
  }

  /** With rows of one width, element `x` of row `y` sits at `y * w + x`. */
  lemma {:induction false} FlattenAt<T>(rows: seq<seq<T>>, w: nat, y: nat, x: nat)
    requires forall i :: 0 <= i < |rows| ==> |rows[i]| == w
    requires y < |rows| && x < w
    ensures |Flatten(rows)| == |rows| * w
    ensures y * w + x < |Flatten(rows)| && Flatten(rows)[y * w + x] == rows[y][x]
    decreases |rows|
  {
    var n := |rows|;
    FlattenLength(rows[..n - 1], w);
    MulSucc(n - 1, w);
    if y < n - 1 {
      FlattenAt(rows[..n - 1], w, y, x);
    } else {
      assert y * w == (n - 1) * w;
    }
  }

  lemma {:induction false} FlattenLength<T>(rows: seq<seq<T>>, w: nat)
    requires forall i :: 0 <= i < |rows| ==> |rows[i]| == w
    ensures |Flatten(rows)| == |rows| * w
    decreases |rows|
  {
    if |rows| > 0 {
      FlattenLength(rows[..|rows| - 1], w);
      MulSucc(|rows| - 1, w);
    }
  }
}

=== FILE: shortest_path.dfy ===
/** Dijkstra's algorithm in the form Day 17 runs it: a set of unvisited
    states, a frontier map from state to best known cost, and repeatedly
    taking a cheapest frontier state.  A state the search stops at is never
    moved on from; a goal state ends the search with its cost.

    The graph is abstract here, so the proofs see only the properties they
    use; Day 17 supplies the crucible's moves and weights. */
module ShortestPath {
  import opened Wrappers
  import opened Seqs

  /** `succ` gives the moves from a state, `weight` the cost of entering
      one, `stop` the states not moved on from, `goal` the states the search
      returns on, `starts` the states at cost zero and `space` the states
      the search starts out with as unvisited. */
  datatype Graph<!S> = Graph(succ: S -> seq<S>, weight: S -> nat, stop: S -> bool, goal: S -> bool,
                            starts: seq<S>, space: set<S>)

  /** The start states and every move lie in the state space. */
  ghost predicate WellFormed<S(!new)>(g: Graph<S>) {
    (forall i :: 0 <= i < |g.starts| ==> g.starts[i] in g.space)
    && forall s, t :: t in g.succ(s) ==> t in g.space
  }

  function Last<S(!new)>(p: seq<S>): S
    requires |p| > 0
  {
    p[|p| - 1]
  }

  /** The cost of a route: the weight of every state entered after the
      first. */
  function Cost<S(!new)>(g: Graph<S>, p: seq<S>): nat
    decreases |p|
  {
    if |p| <= 1 then 0 else Cost(g, p[..|p| - 1]) + g.weight(Last(p))
  }

  /** A route the search can follow: it leaves a start state, each state is
      a move of the one before, and it meets a stopping state only at its
      end. */
  ghost predicate Route<S(!new)>(g: Graph<S>, p: seq<S>) {
    |p| > 0 && p[0] in g.starts
    && forall i :: 0 <= i < |p| - 1 ==> !g.stop(p[i]) && p[i + 1] in g.succ(p[i])
  }

  ghost predicate GoalRoute<S(!new)>(g: Graph<S>, p: seq<S>) {
    Route(g, p) && g.goal(Last(p))
  }

  /** A route less its last state is a route, and the last state is a move
      of the one before it. */
  lemma RoutePrefix<S(!new)>(g: Graph<S>, p: seq<S>)
    requires Route(g, p) && |p| > 1
    ensures var q := p[..|p| - 1];
            Route(g, q) && !g.stop(Last(q)) && Last(p) in g.succ(Last(q))
            && Cost(g, p) == Cost(g, q) + g.weight(Last(p))
  {
    var q := p[..|p| - 1];
    assert forall i :: 0 <= i < |q| ==> q[i] == p[i];
  }

  /** A move from the end of a route that does not stop there makes a
      longer route. */
  lemma RouteExtend<S(!new)>(g: Graph<S>, p: seq<S>, t: S)
    requires Route(g, p) && !g.stop(Last(p)) && t in g.succ(Last(p))
    ensures Route(g, p + [t]) && Last(p + [t]) == t
    ensures Cost(g, p + [t]) == Cost(g, p) + g.weight(t)
  {
    var q := p + [t];
    assert q[..|q| - 1] == p;
    forall i | 0 <= i < |q| - 1
      ensures !g.stop(q[i]) && q[i + 1] in g.succ(q[i])
    {
      if i < |p| - 1 {
        assert q[i] == p[i] && q[i + 1] == p[i + 1];
      }
    }
  }

  /** Every route ends in the state space. */
  lemma RouteInSpace<S(!new)>(g: Graph<S>, p: seq<S>)
    requires WellFormed(g) && Route(g, p)
    ensures Last(p) in g.space
  {
    if |p| > 1 {
      RoutePrefix(g, p);
    } else {
      assert Last(p) == g.starts[0] || Last(p) in g.starts[1..];
    }
  }

  // ---------------------------------------------------------- invariants

  /** The frontier holds unvisited states only; the visited states are the
      rest of the state space. */
  ghost predicate Frontier<S(!new)>(g: Graph<S>, unvis: set<S>, costs: map<S, nat>, done: map<S, nat>) {
    costs.Keys <= unvis && unvis <= g.space && done.Keys == g.space - unvis
  }

  /** Every unvisited start state is on the frontier at cost zero. */
  ghost predicate StartsKnown<S(!new)>(g: Graph<S>, unvis: set<S>, costs: map<S, nat>) {
    forall s :: s in g.starts && s in unvis ==> s in costs && costs[s] == 0
  }

  /** Every frontier cost is the cost of a route to its state. */
  ghost predicate Witnessed<S(!new)>(g: Graph<S>, costs: map<S, nat>, via: map<S, seq<S>>) {
    forall s {:trigger WitnessFor(g, via, s, costs[s])} :: s in costs ==> WitnessFor(g, via, s, costs[s])
  }

  /** `via` holds a route to `s` costing `d`. */
  ghost predicate WitnessFor<S(!new)>(g: Graph<S>, via: map<S, seq<S>>, s: S, d: nat) {
    s in via && Route(g, via[s]) && Last(via[s]) == s && Cost(g, via[s]) == d
  }

  /** The unvisited moves from `x` are on the frontier at no more than `d`
      plus the weight of entering them. */
  ghost predicate RelaxedFrom<S(!new)>(g: Graph<S>, x: S, d: nat, unvis: set<S>, costs: map<S, nat>) {
    forall t :: t in g.succ(x) && t in unvis ==> t in costs && costs[t] <= d + g.weight(t)
  }

  /** Every visited state that does not stop, other than `skip`, has had its
      moves relaxed. */
  ghost predicate RelaxedBut<S(!new)>(g: Graph<S>, unvis: set<S>, costs: map<S, nat>, done: map<S, nat>, skip: Option<S>) {
    forall x {:trigger RelaxedFrom(g, x, done[x], unvis, costs)} ::
      x in done && !g.stop(x) && Some(x) != skip ==> RelaxedFrom(g, x, done[x], unvis, costs)
  }

  /** The cost a visited state was taken at is the least of any route to
      it, and no visited state is a goal. */
  ghost predicate Settled<S(!new)>(g: Graph<S>, done: map<S, nat>) {
    (forall p :: Route(g, p) && Last(p) in done ==> done[Last(p)] <= Cost(g, p))
    && forall x :: x in done ==> !g.goal(x)
  }

  ghost predicate SearchInv<S(!new)>(g: Graph<S>, unvis: set<S>, costs: map<S, nat>, done: map<S, nat>, via: map<S, seq<S>>) {
    Frontier(g, unvis, costs, done) && StartsKnown(g, unvis, costs) && Witnessed(g, costs, via)
    && RelaxedBut(g, unvis, costs, done, None) && Settled(g, done)
  }

  /** Costs only go down, and no state leaves the frontier. */
  ghost predicate Improves<S(!new)>(costs': map<S, nat>, costs: map<S, nat>) {
    forall s :: s in costs ==> s in costs' && costs'[s] <= costs[s]
  }

  // ------------------------------------------------------------- lemmas

  /** Every route to an unvisited state crosses the frontier at a cost no
      higher than its own. */
  lemma {:induction false} FrontierBelow<S(!new)>(g: Graph<S>, unvis: set<S>, costs: map<S, nat>, done: map<S, nat>, via: map<S, seq<S>>, p: seq<S>)
    requires WellFormed(g) && SearchInv(g, unvis, costs, done, via)
    requires Route(g, p) && Last(p) in unvis
    ensures exists f :: f in costs && costs[f] <= Cost(g, p)
    decreases |p|
  {
    if |p| == 1 {
      assert Last(p) in g.starts;
    } else {
      var q := p[..|p| - 1];
      RoutePrefix(g, p);
      RouteInSpace(g, q);
      var x := Last(q);
      if x in done {
        assert RelaxedFrom(g, x, done[x], unvis, costs);
        assert Last(p) in costs;
      } else {
        FrontierBelow(g, unvis, costs, done, via, q);
      }
    }
  }

  /** A non-empty frontier has a cheapest state. */
  lemma CheapestExists<S(!new)>(costs: map<S, nat>)
    requires |costs| > 0
    ensures exists v :: v in costs && forall s :: s in costs ==> costs[v] <= costs[s]
  {
    var v := CheapestIn(costs, costs.Keys);
  }

  /** A cheapest state among the non-empty `keys`. */
  lemma {:induction false} CheapestIn<S(!new)>(costs: map<S, nat>, keys: set<S>) returns (v: S)
    requires keys <= costs.Keys && |keys| > 0
    ensures v in keys && forall s :: s in keys ==> costs[v] <= costs[s]
    decreases |keys|
  {
    var a :| a in keys;
    if keys == {a} {
      return a;
    }
    var b := CheapestIn(costs, keys - {a});
    v := if costs[a] <= costs[b] then a else b;
  }

  /** The frontier `dijkstra` starts with: every start state at cost zero,
      each its own route. */
  function StartCosts<S(!new)>(starts: seq<S>): (m: map<S, nat>)
    ensures m.Keys == set s | s in starts && forall s :: s in m ==> m[s] == 0
    decreases |starts|
  {
    if |starts| == 0 then map[]
    else
      var m := StartCosts(starts[..|starts| - 1]);
      assert forall s :: s in starts <==> s in starts[..|starts| - 1] || s == Last(starts);
      m[Last(starts) := 0]
  }

  ghost function StartRoutes<S(!new)>(starts: seq<S>): (m: map<S, seq<S>>)
    ensures m.Keys == set s | s in starts && forall s :: s in m ==> m[s] == [s]
    decreases |starts|
  {
    if |starts| == 0 then map[]
    else
      var m := StartRoutes(starts[..|starts| - 1]);
      assert forall s :: s in starts <==> s in starts[..|starts| - 1] || s == Last(starts);
      m[Last(starts) := [Last(starts)]]
  }

  lemma InitialInv<S(!new)>(g: Graph<S>)
    requires WellFormed(g)
    ensures SearchInv(g, g.space, StartCosts(g.starts), map[], StartRoutes(g.starts))
  {
    var costs, via := StartCosts(g.starts), StartRoutes(g.starts);
    forall s | s in costs
      ensures s in via && Route(g, via[s]) && Last(via[s]) == s && Cost(g, via[s]) == costs[s]
    {
      assert via[s] == [s];
    }
  }

  /** The cheapest frontier state costs no more than any route to a goal. */
  lemma CheapestIsBest<S(!new)>(g: Graph<S>, unvis: set<S>, costs: map<S, nat>, done: map<S, nat>, via: map<S, seq<S>>, v: S)
    requires WellFormed(g) && SearchInv(g, unvis, costs, done, via)
    requires v in costs && forall s :: s in costs ==> costs[v] <= costs[s]
    ensures forall p :: GoalRoute(g, p) ==> costs[v] <= Cost(g, p)
  {
    forall p | GoalRoute(g, p)
      ensures costs[v] <= Cost(g, p)
    {
      RouteInSpace(g, p);
      FrontierBelow(g, unvis, costs, done, via, p);
    }
  }

  /** With the frontier empty, no route reaches a goal. */
  lemma EmptyFrontier<S(!new)>(g: Graph<S>, unvis: set<S>, costs: map<S, nat>, done: map<S, nat>, via: map<S, seq<S>>)
    requires WellFormed(g) && SearchInv(g, unvis, costs, done, via) && |costs| == 0
    ensures forall p :: !GoalRoute(g, p)
  {
    forall p | GoalRoute(g, p)
      ensures false
    {
      RouteInSpace(g, p);
      FrontierBelow(g, unvis, costs, done, via, p);
    }
  }

  /** Taking the cheapest frontier state, when it is not a goal, keeps the
      invariant for every visited state but the new one, whose moves are
      still to be relaxed; a stopping state has none to relax. */
  lemma Take<S(!new)>(g: Graph<S>, unvis: set<S>, costs: map<S, nat>, done: map<S, nat>, via: map<S, seq<S>>, v: S)
    requires WellFormed(g) && SearchInv(g, unvis, costs, done, via)
    requires v in costs && (forall s :: s in costs ==> costs[v] <= costs[s]) && !g.goal(v)
    ensures var unvis', costs', done' := unvis - {v}, costs - {v}, done[v := costs[v]];
            Frontier(g, unvis', costs', done') && StartsKnown(g, unvis', costs') && Witnessed(g, costs', via)
            && RelaxedBut(g, unvis', costs', done', Some(v)) && Settled(g, done')
            && (g.stop(v) ==> RelaxedBut(g, unvis', costs', done', None))
    ensures v in unvis && |unvis - {v}| < |unvis|
  {
    var unvis', costs', done' := unvis - {v}, costs - {v}, done[v := costs[v]];
    forall p | Route(g, p) && Last(p) in done'
      ensures done'[Last(p)] <= Cost(g, p)
    {
      if Last(p) == v {
        FrontierBelow(g, unvis, costs, done, via, p);
      }
    }
    forall x | x in done' && !g.stop(x) && x != v
      ensures RelaxedFrom(g, x, done'[x], unvis', costs')
    {
      assert RelaxedFrom(g, x, done[x], unvis, costs);
    }
  }

  /** Lowering the cost of an unvisited move `t` of the state `v` just
      taken to the cost through `v` keeps the invariant, with the route
      through `v` as the witness. */
  lemma Lower<S(!new)>(g: Graph<S>, unvis: set<S>, costs: map<S, nat>, done: map<S, nat>, via: map<S, seq<S>>,
                 v: S, pv: seq<S>, t: S)
    requires Frontier(g, unvis, costs, done) && StartsKnown(g, unvis, costs) && Witnessed(g, costs, via)
    requires RelaxedBut(g, unvis, costs, done, Some(v))
    requires Route(g, pv) && Last(pv) == v && !g.stop(v)
    requires t in g.succ(v) && t in unvis
    requires t !in costs || Cost(g, pv) + g.weight(t) < costs[t]
    ensures var costs', via' := costs[t := Cost(g, pv) + g.weight(t)], via[t := pv + [t]];
            Frontier(g, unvis, costs', done) && StartsKnown(g, unvis, costs') && Witnessed(g, costs', via')
            && RelaxedBut(g, unvis, costs', done, Some(v)) && Improves(costs', costs)
  {
    var costs', via' := costs[t := Cost(g, pv) + g.weight(t)], via[t := pv + [t]];
    RouteExtend(g, pv, t);
    forall s | s in costs'
      ensures WitnessFor(g, via', s, costs'[s])
    {
      if s != t {
        assert WitnessFor(g, via, s, costs[s]);
      }
    }
    forall x | x in done && !g.stop(x) && Some(x) != Some(v)
      ensures RelaxedFrom(g, x, done[x], unvis, costs')
    {
      assert RelaxedFrom(g, x, done[x], unvis, costs);
    }
  }

  /** `*c = (*c).min(nc)` on the frontier entry of `t`, a missing entry
      standing for `usize::MAX`. */
  function Relax<S(!new)>(costs: map<S, nat>, t: S, nc: nat): (r: map<S, nat>)
    ensures t in r && r[t] <= nc && (t in costs ==> r[t] <= costs[t])
    ensures Improves(r, costs) && r.Keys == costs.Keys + {t}
  {
    if t !in costs || nc < costs[t] then costs[t := nc] else costs
  }

  /** The witness routes after `Relax`: the route through the state just
      taken wherever the cost went down. */
  ghost function RelaxVia<S(!new)>(via: map<S, seq<S>>, costs: map<S, nat>, t: S, nc: nat, route: seq<S>): map<S, seq<S>> {
    if t !in costs || nc < costs[t] then via[t := route] else via
  }

  /** The invariant part way through relaxing the moves of `v`: the first
      `i` of them are done. */
  ghost predicate Relaxing<S(!new)>(g: Graph<S>, unvis: set<S>, costs: map<S, nat>, done: map<S, nat>, via: map<S, seq<S>>,
                                    v: S, c: nat, i: nat) {
    i <= |g.succ(v)|
    && Frontier(g, unvis, costs, done) && StartsKnown(g, unvis, costs) && Witnessed(g, costs, via)
    && RelaxedBut(g, unvis, costs, done, Some(v))
    && forall j {:trigger RelaxedAt(g, g.succ(v)[j], c, unvis, costs)} :: 0 <= j < i ==> RelaxedAt(g, g.succ(v)[j], c, unvis, costs)
  }

  /** The move `t`, when unvisited, is on the frontier at no more than `c`
      plus the weight of entering it. */
  ghost predicate RelaxedAt<S(!new)>(g: Graph<S>, t: S, c: nat, unvis: set<S>, costs: map<S, nat>) {
    t in unvis ==> t in costs && costs[t] <= c + g.weight(t)
  }

  /** Relaxing move `i` of `v`, or passing over it when it is visited,
      leaves the first `i + 1` moves done. */
  lemma RelaxStep<S(!new)>(g: Graph<S>, unvis: set<S>, costs: map<S, nat>, done: map<S, nat>, via: map<S, seq<S>>,
                           v: S, c: nat, pv: seq<S>, i: nat)
    requires Relaxing(g, unvis, costs, done, via, v, c, i) && i < |g.succ(v)|
    requires Route(g, pv) && Last(pv) == v && Cost(g, pv) == c && !g.stop(v)
    ensures var t := g.succ(v)[i];
            var nc := c + g.weight(t);
            if t in unvis then Relaxing(g, unvis, Relax(costs, t, nc), done, RelaxVia(via, costs, t, nc, pv + [t]), v, c, i + 1)
            else Relaxing(g, unvis, costs, done, via, v, c, i + 1)
  {
    var t := g.succ(v)[i];
    var nc := c + g.weight(t);
    if t in unvis && (t !in costs || nc < costs[t]) {
      RelaxLower(g, unvis, costs, done, via, v, c, pv, i);
    } else {
      RelaxedPrefix(g, unvis, costs, costs, v, c, i);
    }
  }

  /** Lowering the cost of move `i` of `v` keeps the invariant and relaxes
      that move. */
  lemma RelaxLower<S(!new)>(g: Graph<S>, unvis: set<S>, costs: map<S, nat>, done: map<S, nat>, via: map<S, seq<S>>,
                            v: S, c: nat, pv: seq<S>, i: nat)
    requires Relaxing(g, unvis, costs, done, via, v, c, i) && i < |g.succ(v)|
    requires Route(g, pv) && Last(pv) == v && Cost(g, pv) == c && !g.stop(v)
    requires var t := g.succ(v)[i]; t in unvis && (t !in costs || c + g.weight(t) < costs[t])
    ensures var t := g.succ(v)[i];
            Relaxing(g, unvis, costs[t := c + g.weight(t)], done, via[t := pv + [t]], v, c, i + 1)
  {
    var t := g.succ(v)[i];
    var costs' := costs[t := c + g.weight(t)];
    Lower(g, unvis, costs, done, via, v, pv, t);
    RelaxedPrefix(g, unvis, costs, costs', v, c, i);
  }

  /** Lower costs keep the first `i` moves relaxed, and the move `i` is
      relaxed when its cost is at most `c` plus its weight. */
  lemma RelaxedPrefix<S(!new)>(g: Graph<S>, unvis: set<S>, costs: map<S, nat>, costs': map<S, nat>, v: S, c: nat, i: nat)
    requires i < |g.succ(v)| && Improves(costs', costs)
    requires forall j {:trigger RelaxedAt(g, g.succ(v)[j], c, unvis, costs)} :: 0 <= j < i ==> RelaxedAt(g, g.succ(v)[j], c, unvis, costs)
    requires RelaxedAt(g, g.succ(v)[i], c, unvis, costs')
    ensures forall j {:trigger RelaxedAt(g, g.succ(v)[j], c, unvis, costs')} :: 0 <= j < i + 1 ==> RelaxedAt(g, g.succ(v)[j], c, unvis, costs')
  {
    forall j | 0 <= j < i + 1
      ensures RelaxedAt(g, g.succ(v)[j], c, unvis, costs')
    {
      if j < i {
        assert RelaxedAt(g, g.succ(v)[j], c, unvis, costs);
      }
    }
  }

  /** Once every move of `v` is relaxed, the invariant holds again. */
  lemma AllRelaxed<S(!new)>(g: Graph<S>, unvis: set<S>, costs: map<S, nat>, done: map<S, nat>, via: map<S, seq<S>>, v: S)
    requires v in done && Relaxing(g, unvis, costs, done, via, v, done[v], |g.succ(v)|) && Settled(g, done)
    ensures SearchInv(g, unvis, costs, done, via)
  {
    forall t | t in g.succ(v) && t in unvis
      ensures t in costs && costs[t] <= done[v] + g.weight(t)
    {
      var j :| 0 <= j < |g.succ(v)| && g.succ(v)[j] == t;
      assert RelaxedAt(g, g.succ(v)[j], done[v], unvis, costs);
    }
    assert RelaxedFrom(g, v, done[v], unvis, costs);
  }

  // ------------------------------------------------------------- search

  /** The relaxation from the state `v` just taken, at cost `c`: each
      unvisited move's frontier cost becomes the lower of its old cost and
      `c` plus the weight of entering it. */
  method Expand<S(==,!new)>(g: Graph<S>, unvis: set<S>, costs0: map<S, nat>, ghost done: map<S, nat>,
                       ghost via0: map<S, seq<S>>, v: S, c: nat, ghost pv: seq<S>)
    returns (costs: map<S, nat>, ghost via: map<S, seq<S>>)
    requires v in done && done[v] == c && !g.stop(v)
    requires Frontier(g, unvis, costs0, done) && StartsKnown(g, unvis, costs0) && Witnessed(g, costs0, via0) && Settled(g, done)
    requires RelaxedBut(g, unvis, costs0, done, Some(v))
    requires Route(g, pv) && Last(pv) == v && Cost(g, pv) == c
    ensures SearchInv(g, unvis, costs, done, via)
  {
    costs, via := costs0, via0;
    var ms := g.succ(v);
    var i := 0;
    while i < |ms|
      invariant Relaxing(g, unvis, costs, done, via, v, c, i)
    {
      var t := ms[i];
      RelaxStep(g, unvis, costs, done, via, v, c, pv, i);
      if t in unvis {
        var nc := c + g.weight(t);
        via := RelaxVia(via, costs, t, nc, pv + [t]);
        costs := Relax(costs, t, nc);
      }
      i := i + 1;
    }
    AllRelaxed(g, unvis, costs, done, via, v);
  }

  /** The search: the cost of the first goal state taken off the frontier,
      `None` when the frontier runs dry.  The cost is that of a route to a
      goal and no route to a goal is cheaper; the frontier runs dry only
      when no route reaches a goal. */
  method Search<S(==,!new)>(g: Graph<S>) returns (r: Option<nat>)
    requires WellFormed(g)
    ensures r.Some? ==> exists p :: GoalRoute(g, p) && Cost(g, p) == r.value
    ensures r.Some? ==> forall p :: GoalRoute(g, p) ==> r.value <= Cost(g, p)
    ensures r.None? ==> forall p :: !GoalRoute(g, p)
  {
    var unvis := g.space;
    var costs := StartCosts(g.starts);
    ghost var via := StartRoutes(g.starts);
    ghost var done: map<S, nat> := map[];
    InitialInv(g);
    while true
      invariant SearchInv(g, unvis, costs, done, via)
      decreases |unvis|
    {
      if |costs| == 0 {
        EmptyFrontier(g, unvis, costs, done, via);
        return None;
      }
      CheapestExists(costs);
      var v :| v in costs && forall s :: s in costs ==> costs[v] <= costs[s];
      var c := costs[v];
      assert WitnessFor(g, via, v, costs[v]);
      ghost var pv := via[v];
      if g.goal(v) {
        CheapestIsBest(g, unvis, costs, done, via, v);
        assert GoalRoute(g, pv);
        return Some(c);
      }
      Take(g, unvis, costs, done, via, v);
      unvis, costs, done := unvis - {v}, costs - {v}, done[v := c];
      if g.stop(v) {
        continue;
      }
      costs, via := Expand(g, unvis, costs, done, via, v, c, pv);
    }
  }
}

=== FILE: text.dfy ===
/** The slice of Rust's `str` API that the puzzle parsers rely on, on `string`
    (`seq<char>`): `find`, `split_once`, `split`, `lines`, `split_whitespace`,
    `trim` and friends, and the decimal / hexadecimal integer parsers behind
    `str::parse` and `from_str_radix`.

    Whitespace is the ASCII subset of `char::is_whitespace`; integers are
    unbounded, so the overflow errors of the fixed-width parsers are not
    modelled. */
module Text {
  import opened Wrappers
  import opened Seqs

  predicate IsDigit(c: char) {
    '0' <= c <= '9'
  }

  function DigitValue(c: char): (d: nat)
    requires IsDigit(c)
    ensures d < 10
  {
    (c as int) - ('0' as int)
  }

  function DigitChar(d: nat): (c: char)
    requires d < 10
    ensures IsDigit(c) && DigitValue(c) == d
  {
    (('0' as int) + d) as char
  }

  predicate IsWhitespace(c: char) {
    c == ' ' || c == '\t' || c == '\n' || c == '\r' || c as int == 11 || c as int == 12
  }

  predicate AllDigits(s: string) {
    forall i :: 0 <= i < |s| ==> IsDigit(s[i])
  }

  // ---------------------------------------------------------------- searching

  /** `str::find(char)`: index of the first occurrence. */
  function Find(s: string, c: char): (r: Option<nat>)
    ensures r.None? <==> c !in s
    ensures r.Some? ==> r.value < |s| && s[r.value] == c && c !in s[..r.value]
  {
    if |s| == 0 then None
    else if s[0] == c then Some(0)
    else
      match Find(s[1..], c)
      case None => None
      case Some(i) =>
        assert s[..i + 1] == [s[0]] + s[1..][..i];
        Some(i + 1)
  }

  predicate StartsWith(s: string, prefix: string) {
    |prefix| <= |s| && s[..|prefix|] == prefix
  }

  predicate EndsWith(s: string, suffix: string) {
    |suffix| <= |s| && s[|s| - |suffix|..] == suffix
  }

  /** No occurrence of `sep` starts before index `k`. */
  predicate NoMatchBefore(s: string, sep: string, k: nat) {
    forall j :: 0 <= j < k && j <= |s| ==> !StartsWith(s[j..], sep)
  }

  /** `str::find(&str)`: index of the first occurrence of a non-empty pattern. */
  function FindStr(s: string, sep: string): (r: Option<nat>)
    requires |sep| > 0
    ensures r.None? ==> NoMatchBefore(s, sep, |s| + 1)
    ensures r.Some? ==> r.value + |sep| <= |s| && StartsWith(s[r.value..], sep)
                        && NoMatchBefore(s, sep, r.value)
    decreases |s|
  {
    if |s| < |sep| then
      assert forall j :: 0 <= j <= |s| ==> |s[j..]| < |sep|;
      None
    else if StartsWith(s, sep) then Some(0)
    else
      match FindStr(s[1..], sep)
      case None =>
        assert forall j :: 1 <= j <= |s| ==> s[j..] == s[1..][j - 1..];
        None
      case Some(i) =>
        assert forall j :: 1 <= j <= i + 1 ==> s[j..] == s[1..][j - 1..];
        assert s[i + 1..] == s[1..][i..];
        Some(i + 1)
  }

  // ---------------------------------------------------------------- splitting

  /** `str::split_once(char)`. */
  function SplitOnce(s: string, c: char): (r: Option<(string, string)>)
    ensures r.None? <==> c !in s
    ensures r.Some? ==> s == r.value.0 + [c] + r.value.1 && c !in r.value.0
  {
    match Find(s, c)
    case None => None
    case Some(i) =>
      assert s == s[..i] + [c] + s[i + 1..];
      Some((s[..i], s[i + 1..]))
  }

  /** The split point is the first occurrence, so it is determined by it. */
  lemma SplitOnceAt(s: string, c: char, a: string, b: string)
    requires s == a + [c] + b && c !in a
    ensures SplitOnce(s, c) == Some((a, b))
  {
    var i := Find(s, c).value;
    assert s[|a|] == c;
    assert s[..|a|] == a;
    assert i == |a|;
    assert s[|a| + 1..] == b;
  }

  /** `str::split_once(&str)` with a non-empty pattern. */
  function SplitOnceStr(s: string, sep: string): (r: Option<(string, string)>)
    requires |sep| > 0
    ensures r.None? ==> NoMatchBefore(s, sep, |s| + 1)
    ensures r.Some? ==> s == r.value.0 + sep + r.value.1
                        && NoMatchBefore(s, sep, |r.value.0|)
  {
    match FindStr(s, sep)
    case None => None
    case Some(i) =>
      assert s[i..][..|sep|] == s[i..i + |sep|];
      assert s == s[..i] + s[i..i + |sep|] + s[i + |sep|..];
      Some((s[..i], s[i + |sep|..]))
  }

  /** Joins pieces with a separator character; the inverse of `Split`. */
  function Join(parts: seq<string>, c: char): string
    requires |parts| > 0
  {
    if |parts| == 1 then parts[0] else parts[0] + [c] + Join(parts[1..], c)
  }

  /** `str::split(char)`: always at least one piece, none containing `c`. */
  function Split(s: string, c: char): (r: seq<string>)
    ensures |r| > 0
    ensures forall i :: 0 <= i < |r| ==> c !in r[i]
    ensures Join(r, c) == s
    decreases |s|
  {
    match SplitOnce(s, c)
    case None => [s]
    case Some((a, b)) =>
      var rest := Split(b, c);
      assert ([a] + rest)[1..] == rest;
      [a] + rest
  }

  /** Splitting undoes joining when no piece holds the separator. */
  lemma {:induction false} SplitJoin(parts: seq<string>, c: char)
    requires |parts| > 0 && forall i :: 0 <= i < |parts| ==> c !in parts[i]
    ensures Split(Join(parts, c), c) == parts
    decreases |parts|
  {
    if |parts| == 1 {
      SplitFree(parts[0], c);
      assert parts == [parts[0]];
    } else {
      var rest := parts[1..];
      assert forall i :: 0 <= i < |rest| ==> rest[i] == parts[i + 1];
      SplitJoin(rest, c);
      SplitJoinStep(parts, c);
    }
  }

  lemma SplitFree(s: string, c: char)
    requires c !in s
    ensures Split(s, c) == [s]
  {
    assert SplitOnce(s, c).None?;
  }

  lemma SplitJoinStep(parts: seq<string>, c: char)
    requires |parts| > 1 && c !in parts[0] && Split(Join(parts[1..], c), c) == parts[1..]
    ensures Split(Join(parts, c), c) == parts
  {
    SplitOnceAt(Join(parts, c), c, parts[0], Join(parts[1..], c));
    HeadTail(parts);
  }

  /** A join of non-empty pieces ends with the last character of the last
      piece. */
  lemma {:induction false} JoinLast(parts: seq<string>, c: char)
    requires |parts| > 0 && |parts[|parts| - 1]| > 0
    ensures |Join(parts, c)| >= |parts[|parts| - 1]|
    ensures Join(parts, c)[|Join(parts, c)| - 1] == parts[|parts| - 1][|parts[|parts| - 1]| - 1]
    decreases |parts|
  {
    if |parts| > 1 {
      JoinLast(parts[1..], c);
    }
  }

  /** A join of pieces starts with the first piece and ends with the last. */
  lemma JoinShape(parts: seq<string>, c: char, cs: set<char>)
    requires |parts| > 0 && |parts[0]| > 0 && |parts[|parts| - 1]| > 0
    requires parts[0][0] !in cs && parts[|parts| - 1][|parts[|parts| - 1]| - 1] !in cs
    ensures |Join(parts, c)| > 0 && Join(parts, c)[0] !in cs && Join(parts, c)[|Join(parts, c)| - 1] !in cs
  {
    JoinLast(parts, c);
    if |parts| > 1 {
      assert Join(parts, c) == parts[0] + ([c] + Join(parts[1..], c));
    }
  }

  /** `str::split(&str)` with a non-empty pattern. */
  function SplitStr(s: string, sep: string): (r: seq<string>)
    requires |sep| > 0
    ensures |r| > 0
    decreases |s|
  {
    match SplitOnceStr(s, sep)
    case None => [s]
    case Some((a, b)) => [a] + SplitStr(b, sep)
  }

  /** Drops one trailing carriage return, as `str::lines` does before `\n`. */
  function StripCarriageReturn(line: string): (r: string)
    ensures r == line || (line == r + ['\r'])
  {
    if |line| > 0 && line[|line| - 1] == '\r' then line[..|line| - 1] else line
  }

  /** `str::lines`: pieces between `\n`s, a `\r` before each `\n` removed, and
      no final empty piece when the text ends with `\n`. */
  function Lines(s: string): (r: seq<string>)
    ensures forall i :: 0 <= i < |r| ==> '\n' !in r[i]
    ensures |r| == 0 <==> |s| == 0
    decreases |s|
  {
    if |s| == 0 then []
    else
      match SplitOnce(s, '\n')
      case None => [s]
      case Some((line, rest)) =>
        [StripCarriageReturn(line)] + (if |rest| == 0 then [] else Lines(rest))
  }

  /** The longest whitespace-free prefix. */
  function TakeWord(s: string): (r: string)
    ensures |r| <= |s| && r == s[..|r|]
    ensures forall i :: 0 <= i < |r| ==> !IsWhitespace(r[i])
    ensures |r| < |s| ==> IsWhitespace(s[|r|])
  {
    if |s| == 0 || IsWhitespace(s[0]) then [] else [s[0]] + TakeWord(s[1..])
  }

  /** A non-empty run of non-whitespace characters. */
  predicate IsWord(w: string) {
    |w| > 0 && forall j :: 0 <= j < |w| ==> !IsWhitespace(w[j])
  }

  predicate AllWhitespace(s: string) {
    forall i :: 0 <= i < |s| ==> IsWhitespace(s[i])
  }

  /** `str::split_whitespace`: the maximal non-empty whitespace-free runs. */
  function SplitWhitespace(s: string): (r: seq<string>)
    ensures forall i :: 0 <= i < |r| ==> IsWord(r[i])
    ensures |r| == 0 <==> AllWhitespace(s)
    decreases |s|
  {
    var t := TrimStart(s);
    if |t| == 0 then []
    else
      var w := TakeWord(t);
      var rest := SplitWhitespace(t[|w|..]);
      NotAllWhitespace(s, |s| - |t|);
      WordsCons(w, rest);
      [w] + rest
  }

  lemma NotAllWhitespace(s: string, k: nat)
    requires k < |s| && !IsWhitespace(s[k])
    ensures !AllWhitespace(s)
  {
  }

  lemma WordsCons(w: string, rest: seq<string>)
    requires IsWord(w) && forall i :: 0 <= i < |rest| ==> IsWord(rest[i])
    ensures forall i :: 0 <= i < |[w] + rest| ==> IsWord(([w] + rest)[i])
  {
  }

  /** The words of space-separated words are those words. */
  lemma {:induction false} SplitWhitespaceJoin(ws: seq<string>)
    requires |ws| > 0 && forall i :: 0 <= i < |ws| ==> IsWord(ws[i])
    ensures SplitWhitespace(Join(ws, ' ')) == ws
    decreases |ws|
  {
    if |ws| == 1 {
      SplitWhitespaceWord(ws[0]);
      assert ws == [ws[0]];
    } else {
      var tail := ws[1..];
      forall i | 0 <= i < |tail|
        ensures IsWord(tail[i])
      {
        assert tail[i] == ws[i + 1];
      }
      SplitWhitespaceJoin(tail);
      SplitWhitespaceJoinStep(ws);
    }
  }

  lemma SplitWhitespaceWord(w: string)
    requires IsWord(w)
    ensures SplitWhitespace(w) == [w]
  {
    SplitWhitespaceCons(w, []);
    assert w + [] == w;
  }

  lemma SplitWhitespaceJoinStep(ws: seq<string>)
    requires |ws| > 1 && IsWord(ws[0]) && SplitWhitespace(Join(ws[1..], ' ')) == ws[1..]
    ensures SplitWhitespace(Join(ws, ' ')) == ws
  {
    assert Join(ws, ' ') == ws[0] + [' '] + Join(ws[1..], ' ');
    SplitWhitespaceWordThen(ws[0], Join(ws[1..], ' '), ws[1..]);
    HeadTail(ws);
  }

  /** A word, a space and more words. */
  lemma SplitWhitespaceWordThen(w: string, j: string, tail: seq<string>)
    requires IsWord(w) && SplitWhitespace(j) == tail
    ensures SplitWhitespace(w + [' '] + j) == [w] + tail
  {
    assert w + [' '] + j == w + ([' '] + j);
    SplitWhitespaceCons(w, [' '] + j);
    SplitWhitespaceSkip(' ', j);
  }

  /** A word followed by whitespace or nothing is the first word. */
  lemma SplitWhitespaceCons(w: string, rest: string)
    requires IsWord(w) && (|rest| == 0 || IsWhitespace(rest[0]))
    ensures SplitWhitespace(w + rest) == [w] + SplitWhitespace(rest)
  {
    var s := w + rest;
    assert s[0] == w[0];
    assert TrimStart(s) == s;
    TakeWordOf(w, rest);
    assert s[|w|..] == rest;
  }

  /** A word followed by whitespace or nothing is taken whole. */
  lemma {:induction false} TakeWordOf(w: string, rest: string)
    requires IsWord(w) && (|rest| == 0 || IsWhitespace(rest[0]))
    ensures TakeWord(w + rest) == w
    decreases |w|
  {
    if |w| > 1 {
      assert (w + rest)[1..] == w[1..] + rest;
      TakeWordOf(w[1..], rest);
    } else {
      assert (w + rest)[1..] == rest;
    }
  }

  /** Leading whitespace does not change the words. */
  lemma SplitWhitespaceSkip(c: char, s: string)
    requires IsWhitespace(c)
    ensures SplitWhitespace([c] + s) == SplitWhitespace(s)
  {
    assert ([c] + s)[1..] == s;
    assert TrimStart([c] + s) == TrimStart(s);
  }

  function TrimStart(s: string): (r: string)
    ensures |r| <= |s| && r == s[|s| - |r|..]
    ensures forall i :: 0 <= i < |s| - |r| ==> IsWhitespace(s[i])
    ensures |r| > 0 ==> !IsWhitespace(r[0])
    decreases |s|
  {
    if |s| > 0 && IsWhitespace(s[0]) then
      var r := TrimStart(s[1..]);
      assert s[1..][|s| - 1 - |r|..] == s[|s| - |r|..];
      assert forall i :: 1 <= i < |s| - |r| ==> s[i] == s[1..][i - 1];
      r
    else s
  }

  function TrimEnd(s: string): (r: string)
    ensures |r| <= |s| && r == s[..|r|]
    ensures forall i :: |r| <= i < |s| ==> IsWhitespace(s[i])
    ensures |r| > 0 ==> !IsWhitespace(r[|r| - 1])
    decreases |s|
  {
    if |s| > 0 && IsWhitespace(s[|s| - 1]) then
      var r := TrimEnd(s[..|s| - 1]);
      assert s[..|s| - 1][..|r|] == s[..|r|];
      assert forall i :: |r| <= i < |s| - 1 ==> s[i] == s[..|s| - 1][i];
      r
    else s
  }

  /** `str::trim`. */
  function Trim(s: string): (r: string)
    ensures |r| <= |s|
    ensures |r| == 0 || (!IsWhitespace(r[0]) && !IsWhitespace(r[|r| - 1]))
    ensures AllWhitespace(s) <==> |r| == 0
  {
    var t := TrimStart(s);
    var u := TrimEnd(t);
    assert |t| > 0 ==> s[|s| - |t|] == t[0];
    u
  }

  lemma {:induction false} TrimStartSkips(pre: string, x: string)
    requires AllWhitespace(pre) && (|x| == 0 || !IsWhitespace(x[0]))
    ensures TrimStart(pre + x) == x
    decreases |pre|
  {
    if |pre| == 0 {
      assert pre + x == x;
    } else {
      assert (pre + x)[1..] == pre[1..] + x;
      TrimStartSkips(pre[1..], x);
    }
  }

  lemma {:induction false} TrimEndSkips(x: string, post: string)
    requires AllWhitespace(post) && (|x| == 0 || !IsWhitespace(x[|x| - 1]))
    ensures TrimEnd(x + post) == x
    decreases |post|
  {
    if |post| == 0 {
      assert x + post == x;
    } else {
      assert (x + post)[..|x + post| - 1] == x + post[..|post| - 1];
      TrimEndSkips(x, post[..|post| - 1]);
    }
  }

  /** A string with no whitespace at either end trims to itself. */
  lemma TrimUnpadded(w: string)
    requires |w| > 0 && !IsWhitespace(w[0]) && !IsWhitespace(w[|w| - 1])
    ensures Trim(w) == w
  {
    assert TrimStart(w) == w;
  }

  /** Trimming removes exactly the whitespace padding around a word. */
  lemma TrimPadded(pre: string, w: string, post: string)
    requires AllWhitespace(pre) && AllWhitespace(post)
    requires |w| > 0 && !IsWhitespace(w[0]) && !IsWhitespace(w[|w| - 1])
    ensures Trim(pre + w + post) == w
  {
    assert pre + w + post == pre + (w + post);
    TrimStartSkips(pre, w + post);
    TrimEndSkips(w, post);
  }

  /** `str::trim_matches` with a set of characters, both ends. */
  function TrimMatches(s: string, cs: set<char>): (r: string)
    ensures |r| == 0 || (r[0] !in cs && r[|r| - 1] !in cs)
    ensures |r| <= |s|
    decreases |s|
  {
    if |s| > 0 && s[0] in cs then TrimMatches(s[1..], cs)
    else if |s| > 0 && s[|s| - 1] in cs then TrimMatches(s[..|s| - 1], cs)
    else s
  }

  /** Trimming removes one layer of trimmed characters around a word that
      neither starts nor ends with one. */
  lemma TrimMatchesWrapped(open: char, w: string, close: char, cs: set<char>)
    requires open in cs && close in cs
    requires |w| > 0 && w[0] !in cs && w[|w| - 1] !in cs
    ensures TrimMatches([open] + w + [close], cs) == w
  {
    var s := [open] + w + [close];
    var t := w + [close];
    assert s[0] in cs && s[1..] == t;
    assert TrimMatches(s, cs) == TrimMatches(t, cs);
    assert t[0] !in cs && t[|t| - 1] in cs && t[..|t| - 1] == w;
    assert TrimMatches(t, cs) == TrimMatches(w, cs);
  }

  /** `str::trim_end_matches(char)`: removes every trailing copy of `c`. */
  function TrimEndMatches(s: string, c: char): (r: string)
    ensures |r| <= |s| && r == s[..|r|]
    ensures forall i :: |r| <= i < |s| ==> s[i] == c
    ensures |r| == 0 || r[|r| - 1] != c
    decreases |s|
  {
    if |s| > 0 && s[|s| - 1] == c then TrimEndMatches(s[..|s| - 1], c) else s
  }

  /** Trimming a trailing character stops at the first other one. */
  lemma TrimEndMatchesOne(s: string, c: char)
    requires |s| > 0 && s[|s| - 1] != c
    ensures TrimEndMatches(s + [c], c) == s
  {
    assert (s + [c])[..|s|] == s;
  }

  /** `str::strip_prefix`. */
  function StripPrefix(s: string, prefix: string): (r: Option<string>)
    ensures r.Some? <==> StartsWith(s, prefix)
    ensures r.Some? ==> s == prefix + r.value
  {
    if StartsWith(s, prefix) then
      assert s == s[..|prefix|] + s[|prefix|..];
      Some(s[|prefix|..])
    else None
  }

  /** `Iterator<Item = &str>::collect::<String>()`. */
  function Concat(parts: seq<string>): (r: string)
    ensures |parts| == 0 ==> r == []
  {
    if |parts| == 0 then [] else parts[0] + Concat(parts[1..])
  }

  // ---------------------------------------------------------- integer parsing

  /** Value of a string of decimal digits, most significant first. */
  function DecimalValue(s: string): nat
    requires AllDigits(s)
  {
    if |s| == 0 then 0 else 10 * DecimalValue(s[..|s| - 1]) + DigitValue(s[|s| - 1])
  }

  /** The digits after an optional `+`, as Rust's unsigned parsers accept. */
  function UnsignedDigits(s: string): string {
    if |s| > 0 && s[0] == '+' then s[1..] else s
  }

  predicate IsNatLiteral(s: string) {
    var d := UnsignedDigits(s);
    |d| > 0 && AllDigits(d)
  }

  /** `str::parse::<u32 | u64 | usize>()`, without the overflow error. */
  function ParseNat(s: string): (r: Option<nat>)
    ensures r.Some? <==> IsNatLiteral(s)
    ensures r.Some? ==> r.value == DecimalValue(UnsignedDigits(s))
  {
    var d := UnsignedDigits(s);
    if |d| > 0 && AllDigits(d) then Some(DecimalValue(d)) else None
  }

  /** `str::parse::<i32 | i64>()`: an optional sign, then decimal digits. */
  function ParseInt(s: string): (r: Option<int>)
    ensures r.Some? <==> (if |s| > 0 && s[0] == '-' then |s| > 1 && AllDigits(s[1..])
                          else IsNatLiteral(s))
    ensures r.Some? && |s| > 0 && s[0] == '-' ==> AllDigits(s[1..]) && r.value == -(DecimalValue(s[1..]) as int)
    ensures r.Some? && !(|s| > 0 && s[0] == '-') ==> r.value == DecimalValue(UnsignedDigits(s))
  {
    if |s| > 0 && s[0] == '-' then
      (if |s| > 1 && AllDigits(s[1..]) then Some(-(DecimalValue(s[1..]) as int)) else None)
    else
      match ParseNat(s)
      case Some(n) => Some(n)
      case None => None
  }

  /** Decimal rendering without leading zeros; the inverse of `ParseNat`. */
  function NatToString(n: nat): (s: string)
    ensures |s| > 0 && AllDigits(s)
    ensures |s| > 1 ==> s[0] != '0'
  {
    if n < 10 then [DigitChar(n)] else NatToString(n / 10) + [DigitChar(n % 10)]
  }

  lemma {:induction false} NatToStringValue(n: nat)
    ensures DecimalValue(NatToString(n)) == n
  {
    if n >= 10 {
      var s := NatToString(n);
      assert s[..|s| - 1] == NatToString(n / 10);
      NatToStringValue(n / 10);
    }
  }

  /** Parsing the rendering of a number gives the number back. */
  lemma ParseNatRoundTrip(n: nat)
    ensures ParseNat(NatToString(n)) == Some(n)
  {
    NatToStringValue(n);
    assert UnsignedDigits(NatToString(n)) == NatToString(n);
  }

  predicate IsHexDigit(c: char) {
    IsDigit(c) || 'a' <= c <= 'f' || 'A' <= c <= 'F'
  }

  function HexDigitValue(c: char): (d: nat)
    requires IsHexDigit(c)
    ensures d < 16
  {
    if IsDigit(c) then DigitValue(c)
    else if 'a' <= c <= 'f' then (c as int) - ('a' as int) + 10
    else (c as int) - ('A' as int) + 10
  }

  predicate AllHexDigits(s: string) {
    forall i :: 0 <= i < |s| ==> IsHexDigit(s[i])
  }

  function HexValue(s: string): nat
    requires AllHexDigits(s)
  {
    if |s| == 0 then 0 else 16 * HexValue(s[..|s| - 1]) + HexDigitValue(s[|s| - 1])
  }

  /** The lower-case hex digit of `d`. */
  function HexChar(d: nat): (c: char)
    requires d < 16
    ensures IsHexDigit(c) && HexDigitValue(c) == d
  {
    if d < 10 then DigitChar(d) else ((d - 10) + ('a' as int)) as char
  }

  /** `format!("{:0k$x}", n)` for `n` below `16^k`: exactly `k` hex digits. */
  function HexFixed(n: nat, k: nat): (s: string)
    ensures |s| == k && AllHexDigits(s)
  {
    if k == 0 then [] else HexFixed(n / 16, k - 1) + [HexChar(n % 16)]
  }

  lemma {:induction false} HexFixedValue(n: nat, k: nat)
    requires n < Pow(16, k)
    ensures HexValue(HexFixed(n, k)) == n
  {
    if k > 0 {
      var s := HexFixed(n, k);
      assert s[..|s| - 1] == HexFixed(n / 16, k - 1);
      assert n / 16 < Pow(16, k - 1);
      HexFixedValue(n / 16, k - 1);
    }
  }

  /** `u8::from_str_radix(s, 16)` (an optional `+`, then hex digits). */
  function ParseHexNat(s: string): (r: Option<nat>)
    ensures r.Some? <==> (var d := UnsignedDigits(s); |d| > 0 && AllHexDigits(d))
    ensures r.Some? ==> r.value == HexValue(UnsignedDigits(s))
  {
    var d := UnsignedDigits(s);
    if |d| > 0 && AllHexDigits(d) then Some(HexValue(d)) else None
  }

  /** `i64::from_str_radix(s, 16)` (an optional sign, then hex digits). */
  function ParseHexInt(s: string): (r: Option<int>)
    ensures r.Some? && |s| > 0 && s[0] == '-' ==> AllHexDigits(s[1..]) && r.value == -(HexValue(s[1..]) as int)
    ensures r.Some? && !(|s| > 0 && s[0] == '-') ==> r == ParseHexNat(s)
    ensures r.None? ==> (if |s| > 0 && s[0] == '-' then !(|s| > 1 && AllHexDigits(s[1..]))
                         else ParseHexNat(s).None?)
  {
    if |s| > 0 && s[0] == '-' then
      (if |s| > 1 && AllHexDigits(s[1..]) then Some(-(HexValue(s[1..]) as int)) else None)
    else
      match ParseHexNat(s)
      case Some(n) => Some(n)
      case None => None
  }

  // ------------------------------------------------------------- collecting

  /** `map(str::parse).collect::<Result<Vec<_>, _>>()`: all or nothing. */
  function ParseNats(words: seq<string>): (r: Option<seq<nat>>)
    ensures r.Some? <==> forall i :: 0 <= i < |words| ==> ParseNat(words[i]).Some?
    ensures r.Some? ==> |r.value| == |words|
                        && forall i :: 0 <= i < |words| ==> ParseNat(words[i]) == Some(r.value[i])
  {
    if |words| == 0 then Some([])
    else
      match ParseNat(words[0])
      case None => None
      case Some(n) =>
        match ParseNats(words[1..])
        case None => None
        case Some(ns) => Some([n] + ns)
  }

  function ParseInts(words: seq<string>): (r: Option<seq<int>>)
    ensures r.Some? <==> forall i :: 0 <= i < |words| ==> ParseInt(words[i]).Some?
    ensures r.Some? ==> |r.value| == |words|
                        && forall i :: 0 <= i < |words| ==> ParseInt(words[i]) == Some(r.value[i])
  {
    if |words| == 0 then Some([])
    else
      match ParseInt(words[0])
      case None => None
      case Some(n) =>
        match ParseInts(words[1..])
        case None => None
        case Some(ns) => Some([n] + ns)
  }
}

=== FILE: wrappers.dfy ===
/** Failure-carrying results shared by every puzzle module.

    The Rust code reports malformed input either through `anyhow::Result` or by
    panicking (`unwrap`, `expect`, `assert!`, `unreachable!`, an index out of
    bounds, a `usize` subtraction that underflows).  The model collapses every
    one of those outcomes into a failure value: `None` for an `Option`, `Err`
    for a `Result`.  Error message text is not modelled. */
module Wrappers {

  datatype Option<+T> = None | Some(value: T) {
    predicate IsFailure() {
      None?
    }

    function PropagateFailure<U>(): Option<U>
      requires None?
    {
      None
    }

    function Extract(): T
      requires Some?
    {
      value
    }
  }

  datatype Result<+T> = Ok(value: T) | Err {
    predicate IsFailure() {
      Err?
    }

    function PropagateFailure<U>(): Result<U>
      requires Err?
    {
      Err
    }

    function Extract(): T
      requires Ok?
    {
      value
    }

    function ToOption(): Option<T> {
      match this
      case Ok(v) => Some(v)
      case Err => None
    }
  }

  /** `Option::ok_or`: turns a missing value into an error. */
  function OkOr<T>(o: Option<T>): (r: Result<T>)
    ensures r.Ok? <==> o.Some?
    ensures r.Ok? ==> r.value == o.value
  {
    match o
    case Some(v) => Ok(v)
    case None => Err
  }

  /** `Need(c)`: fails exactly when the condition is false. */
  function Need(condition: bool): (r: Result<()>)
    ensures r.Ok? <==> condition
  {
    if condition then Ok(()) else Err
  }

  /** `map(f).collect::<Result<Vec<_>, _>>()`: all or nothing. */
  function MapAll<A, B>(xs: seq<A>, f: A -> Result<B>): (r: Result<seq<B>>)
    ensures r.Ok? <==> forall i :: 0 <= i < |xs| ==> f(xs[i]).Ok?
    ensures r.Ok? ==> |r.value| == |xs| && forall i :: 0 <= i < |xs| ==> f(xs[i]) == Ok(r.value[i])
  {
    if |xs| == 0 then Ok([])
    else
      match f(xs[0])
      case Err => Err
      case Ok(y) =>
        match MapAll(xs[1..], f)
        case Err =>
          assert exists i :: 1 <= i < |xs| && f(xs[i]).Err? by {
            var i :| 0 <= i < |xs[1..]| && f(xs[1..][i]).Err?;
            assert xs[1..][i] == xs[i + 1];
          }
          Err
        case Ok(ys) =>
          assert forall i :: 1 <= i < |xs| ==> xs[i] == xs[1..][i - 1];
          Ok([y] + ys)
  }

  /** When every element maps to a value, `MapAll` collects exactly those. */
  lemma MapAllOk<A, B>(xs: seq<A>, f: A -> Result<B>, ys: seq<B>)
    requires |xs| == |ys| && forall i :: 0 <= i < |xs| ==> f(xs[i]) == Ok(ys[i])
    ensures MapAll(xs, f) == Ok(ys)
  {
    var r := MapAll(xs, f);
    assert r.Ok?;
    assert forall i :: 0 <= i < |xs| ==> r.value[i] == ys[i];
    assert r.value == ys;
  }
}
